=== FILE: README.md ===
# Advent of Code solutions, modelled in Dafny

This project models the deterministic cores of a collection of Advent of Code
solutions, written in C and Rust. Each module follows one source file, with
immutable datatypes and pure functions. The lemmas state what the solution
relies on: round trips, inverses, invariants and worked examples.

- `Dance` (2017/day16.c) is the central model. It covers the permutation
  dance: packing a 16-letter line into a 64-bit key, parsing the moves, fusing
  adjacent positional moves into one index table, running a round, and the
  memoised loop over a billion rounds.
- Small interpreters:
  - `Intcode` is the Intcode VM of 2019.
  - `Assembunny` is the assembunny VM of 2016, with its loop shortcut.
  - `ThreeBit` is the three-bit computer of 2024/17.
  - `RegOps` covers the register operations of 2018/day16.
- Parsers, printers and encoders:
  - `Packets` covers distress-signal packets (2022/13).
  - `PacketDecoder` is the BITS transmission decoder (2021/16).
  - `Snailfish` covers snailfish numbers (2021/18).
  - `Escape` gives string escape lengths (2015/08).
  - `Lenses` is the HASH and lens-box procedure (2023/15).
  - `Syntax` is the bracket checker (2021/10).
  - `Util2024` holds the 2024 helper library: the integer scanner, `BitSet`,
    `TupleSet` and `Dir`.
- Data structures:
  - `DenseGrid` is the 2023 dense grid.
  - `RangeMap` is the 2023/05 range map.
  - `Workflows` covers the part-rating workflows and range partitions
    (2023/19).
  - `Shuffle` is the affine card shuffle (2019/22).
  - `Scramble` covers the password scrambler (2016/21).
- Validators and scorers:
  - `Reports` covers reactor reports (2024/02).
  - `Equations` covers bridge equations (2024/07).
  - `Rps` is rock-paper-scissors (2022/02).
  - `Bingo` is squid bingo (2021/04).
  - `PageOrder` covers print-queue page order (2024/05).
  - `Rope` is the rope bridge (2022/09).
  - `Nice` covers nice strings (2015/05).
  - `Password` is the corporate password policy (2015/11).
  - `Trebuchet` covers calibration digits (2023/01).
- Shared helpers: `Wrappers` (`Option`, `Result`), `Text` (splitting,
  decimal numbers), `Bits` (bitwise operations on naturals) and `Arith`.

Integers are unbounded. Where the source's word width matters, the model
writes it out: the 64-bit key in `Dance`, `u8` hashes in `Lenses`, `u64`
bit words in `Util2024` and `PageOrder`. A source panic or
`assert!` becomes an error value of a `Result` or `Option`. The exceptions
are `assert!`s that guard a caller's obligation; these become preconditions,
and each is listed under "Left out".

## Model

| member | source | states |
|---|---|---|
| Dance.Initial | 2017/day16.c:137-140 | the dance starts with the sixteen programs `a` to `p` |
| Dance.SpinRemap | 2017/day16.c:54-66 | the spin remap sends every position to a position of the line |
| Dance.SpinMovesTail | 2017/day16.c:54-66 | the spin remap moves the last `k` programs to the front in order |
| Dance.SpinIsPermutation | 2017/day16.c:54-66 | a spin of `0..16` programs is a bijection on positions |
| Dance.ExchangeRemap | 2017/day16.c:68-88 | the exchange remap sends every position to a position of the line |
| Dance.ExchangeSwapsSlots | 2017/day16.c:68-88 | an exchange trades the programs at two positions and leaves the rest |
| Dance.ExchangeIsPermutation | 2017/day16.c:68-88 | an exchange remap is a bijection on positions |
| Dance.PartnerScanSwaps | 2017/day16.c:174-187 | the scan that stops after two hits replaces each named letter by the other, provided each occurs at most once |
| Dance.Step | 2017/day16.c:171-198 | one command of a round, a partner search or a blind remap; what each does is stated by `Dance.PartnerStepSwaps`, `Dance.ExchangeSwapsSlots` and `Dance.SpinMovesTail` |
| Dance.PartnerStepSwaps | 2017/day16.c:172-188 | the partner scan swaps exactly the two named letters when each occurs at most once |
| Dance.Round | 2017/day16.c:169-199 | one round over the whole tape; `Dance.RoundAppend` and `Dance.RoundKeepsArrangement` state what it does |
| Dance.RoundAppend | 2017/day16.c:169-200 | running two tapes one after the other is running their concatenation |
| Dance.RoundKeepsArrangement | 2017/day16.c:169-200 | a round keeps the line an arrangement of the 16 letters |
| Dance.RoundKeepsRange | 2017/day16.c:169-200 | a round of a well-formed tape keeps every program among `a` to `p` |
| Dance.Compose | 2017/day16.c:112-119 | the fused remap of two remaps is again a remap |
| Dance.ComposeApplies | 2017/day16.c:112-119 | executing the fused remap equals executing the two remaps in order |
| Dance.ComposeKeepsPermutation | 2017/day16.c:112-119 | fusing two bijections gives a bijection |
| Dance.FuseShape | 2017/day16.c:107-129 | the fused tape has no two adjacent remaps and is no longer than the original |
| Dance.Fuse | 2017/day16.c:107-129 | the fusing pass over the tape; its meaning is stated by `Dance.FusePreservesRound` and `Dance.FuseShape` |
| Dance.FusePreservesRound | 2017/day16.c:107-129 | fusing the tape does not change what a round does to any line |
| Dance.FuseWellFormed | 2017/day16.c:107-129 | fusing a well-formed tape gives a well-formed tape |
| Dance.Nibble | 2017/day16.c:20 | `(c - 'a') & 15` is a 4-bit value |
| Dance.ToInt | 2017/day16.c:15-23 | the packed key of a line of `n` programs is below `16^n` |
| Dance.FromInt | 2017/day16.c:26-32 | unpacking a key gives a line of programs `a` to `p` |
| Dance.FromToInt | 2017/day16.c:15-32 | unpacking a packed line over `a`..`p` gives the line back |
| Dance.ToFromInt | 2017/day16.c:15-32 | packing an unpacked key below `16^16` gives the key back |
| Dance.ToIntInjective | 2017/day16.c:15-23 | two lines over `a`..`p` with the same key are the same line |
| Dance.Lookup | 2017/day16.c:157-165 | the memo search finds nothing exactly when no entry has the key, and otherwise returns the successor stored with it |
| Dance.DriveStep | 2017/day16.c:154-210 | a memo hit replaces the line by the stored successor; a miss dances one round and appends the key and the new key |
| Dance.DriveStepIsRound | 2017/day16.c:154-210 | with a memo of true successors, one memoised step is one round, and the memo stays true |
| Dance.DriveIsIterate | 2017/day16.c:148-211 | the memoised loop ends on the same line as dancing every round |
| Dance.ParseNumber | 2017/day16.c:57 | a number read consumes at least one character |
| Dance.ParseToken | 2017/day16.c:54-100 | a move consumes text; one not starting with `s`, `x` or `p` is the unknown-tag error |
| Dance.Compile | 2017/day16.c:54-96 | spins and exchanges become the remaps of their fields, partners become letter swaps; only a spin past the line, or an exchange with exactly one position off the line, is refused |
| Dance.ExchangeOffLineKeeps | 2017/day16.c:68-86 | an exchange whose two positions are both off the line matches no position, so it leaves every program where it is |
| Dance.CompileAll | 2017/day16.c:46-103 | the tape has one entry per move, each the move's compiled entry |
| Dance.ParseTokenOfRender | 2017/day16.c:54-96 | every move written as `s<k>`, `x<a>/<b>` or `p<a>/<b>` reads back, whatever follows it |
| Dance.ParseRender | 2017/day16.c:45-103 | parsing the comma-separated text of a dance gives back its moves |
| Dance.UnknownTagRejected | 2017/day16.c:97-100 | a text that starts with any letter but `s`, `x`, `p` is refused |
| Dance.UnknownTagAfterMoves | 2017/day16.c:97-100 | an unknown move letter after any number of good moves refuses the whole text |
| Dance.Solve | 2017/day16.c:42-43 | a failed open is an error, and every answer comes from a text that parses and compiles |
| Dance.SolveIsIterate | 2017/day16.c:34-218 | the program's answer is the line after a billion plain rounds of the compiled moves |
| Dance.FusedIterate | 2017/day16.c:107-129 | any number of rounds of the fused tape equals as many of the original tape |
| Dance.ExampleParses | 2017/day16.c:45-103 | `s1,x3/4,pe/b` reads as a spin, an exchange and a partner move |
| Dance.ExampleFirstRound | 2017/day16.c:169-200 | one round of the example on `abcde` gives `baedc` |
| Dance.ExampleTwoRounds | 2017/day16.c:148-211 | five programs end on `ceadb` after two rounds of `s1,x3/4,pe/b` |
| Util2024.SkipNonDigits | 2024/util/src/lib.rs:30-36 | `skip_non_ascii` stops at the first digit at or after the index, or at the end |
| Util2024.Next | 2024/util/src/lib.rs:12-26 | `next` yields nothing exactly at the end of the bytes, and otherwise always moves forward |
| Util2024.NoDigitsNoIntegers | 2024/util/src/lib.rs:43-57 | a string without digits yields no integers |
| Util2024.NextRendered | 2024/util/src/lib.rs:12-26 | at a written number followed by a non-digit, `next` yields that number and resumes at the next digit |
| Util2024.DrainRendered | 2024/util/src/lib.rs:12-57 | scanning numbers written with a digit-free separator yields exactly those numbers |
| Util2024.GetIntegers | 2024/util/src/lib.rs:43-57 | `get_integers`; that it reads back written numbers is stated by `Util2024.GetIntegersOfRendered` and `Util2024.GetIntegersAfterLabel` |
| Util2024.GetIntegersOfRendered | 2024/util/src/lib.rs:43-57 | `get_integers` of a list of numbers written with any non-empty, digit-free separator is that list |
| Util2024.NewBitSet | 2024/util/src/lib.rs:131-136 | a new set of `size` bits has `size.div_ceil(64)` words and no bit set |
| Util2024.Set | 2024/util/src/lib.rs:143-146 | after `set(i)`, bit `i` is set and no other bit changes |
| Util2024.Insert | 2024/util/src/lib.rs:151-155 | `insert` sets the bit and reports true exactly when it was not set before |
| Util2024.Clear | 2024/util/src/lib.rs:165-167 | after `clear` no bit is set |
| Util2024.CountOnes | 2024/util/src/lib.rs:158 | a word's `count_ones` is at most its width, and zero exactly when no bit is set |
| Util2024.EmptyIffNoOnes | 2024/util/src/lib.rs:157-163 | `is_empty` holds exactly when `len` is zero |
| Util2024.EmptyIffNoneSet | 2024/util/src/lib.rs:161-163 | when no bit past `size` is set, `is_empty` holds exactly when no bit below `size` is set |
| Util2024.IterFrom | 2024/util/src/lib.rs:183-196 | the iterator from an index yields, in increasing order, exactly the set bits from there on |
| Util2024.Iter | 2024/util/src/lib.rs:170-196 | `iter` yields exactly the set bits, in increasing order |
| Util2024.IncreasingUnique | 2024/util/src/lib.rs:183-196 | two increasing sequences with the same elements are equal, so the iterator's output is determined by the set |
| Util2024.BitSetIterExample | 2024/util/src/lib.rs:503-511 | a ten-bit set with 3 and 7 inserted iterates as 3 then 7 |
| Util2024.NewTupleSet | 2024/util/src/lib.rs:241-250 | a new tuple set has one bit per cell of the product of the sizes |
| Util2024.GetIndex | 2024/util/src/lib.rs:253-260 | the row-major index of an in-bounds tuple is below the product of the sizes |
| Util2024.DecodeGetIndex | 2024/util/src/lib.rs:253-260 | decoding the index of an in-bounds tuple gives the tuple back |
| Util2024.GetIndexDecode | 2024/util/src/lib.rs:307-314 | every index below the product decodes to an in-bounds tuple whose index it is |
| Util2024.InsertTuple | 2024/util/src/lib.rs:266-268 | after inserting a tuple the set contains it, and the answer is true exactly when it was new |
| Util2024.IterTuples | 2024/util/src/lib.rs:291-316 | the tuple iterator yields one tuple per set bit |
| Util2024.IterTuplesContains | 2024/util/src/lib.rs:291-316 | the tuple iterator yields exactly the tuples the set contains |
| Util2024.DirFromChar | 2024/util/src/lib.rs:424-435 | exactly `v`, `^`, `>` and `<` convert, and any other character is returned as the error |
| Util2024.Index | 2024/util/src/lib.rs:471-478 | every direction has an index below 4 |
| Util2024.Left | 2024/util/src/lib.rs:441-448 | `left`; its meaning is stated by `Util2024.TurnsInverse` |
| Util2024.Right | 2024/util/src/lib.rs:449-456 | `right`, the inverse of `left`, as `Util2024.TurnsInverse` states |
| Util2024.TurnsInverse | 2024/util/src/lib.rs:441-470 | `left` and `right` undo each other, four lefts are the identity, and `left` rotates the unit vector a quarter turn |
| Util2024.IndexIsOrder | 2024/util/src/lib.rs:438-478 | `index` is the position of the direction in `iter`'s order N, E, S, W |
| Util2024.DisplayAsWrittenCollides | 2024/util/src/lib.rs:481-494 | as written, `Display` prints W with the same letter as N |
| Util2024.Display | 2024/util/src/lib.rs:481-494 | the corrected `Display` prints one of N, E, S, W |
| Util2024.DisplayInjective | 2024/util/src/lib.rs:481-494 | the corrected `Display` prints different letters for different directions |
| Intcode.New | 2019/vm/src/lib.rs:42-46 | a fresh machine starts at address 0 with base 0 and an empty input queue, over the tape followed by zeros up to 1024*1024 words |
| Intcode.Push | 2019/vm/src/lib.rs:68-70 | `input` puts the new value at the front of the queue and leaves the older values, memory and `ip` alone |
| Intcode.Addr | 2019/vm/src/lib.rs:56-66 | a parameter refers to the cell named by its argument (position mode), the argument cell itself (immediate) or the argument plus the relative base; any other mode digit is a fault |
| Intcode.Load | 2019/vm/src/lib.rs:56-66 | reading a parameter succeeds exactly when its address does and yields that cell |
| Intcode.Step | 2019/vm/src/lib.rs:72-132 | a step keeps the memory size, outputs only on OUTPUT, and takes at most the oldest value off the queue |
| Intcode.Run | 2019/vm/src/lib.rs:134-143 | a finished run stops on a machine whose current word is 99 |
| Intcode.AddMulStore | 2019/vm/src/lib.rs:75-86 | ADD and MUL store the sum or product of the first two parameters at the third, change no other cell and advance by 4 |
| Intcode.CompareStoresBit | 2019/vm/src/lib.rs:112-123 | LT and EQ store exactly 0 or 1, and 1 exactly when the comparison holds |
| Intcode.BlockedStepIsNoop | 2019/vm/src/lib.rs:87-92 | INPUT with an empty queue leaves the machine exactly as it was |
| Intcode.InputTakesOldest | 2019/vm/src/lib.rs:87-92 | INPUT stores the back of the queue, removes it and advances by 2 |
| Intcode.PushAllQueue | 2019/vm/src/lib.rs:68-70 | pushing values one by one puts them in reverse order in front of the queue |
| Intcode.InputFifo | 2019/vm/src/lib.rs:68-92 | after pushing a list onto an empty queue, the k-th value pushed is the k-th one taken from the back |
| Intcode.JumpTaken | 2019/vm/src/lib.rs:98-111 | JIT jumps exactly when its first parameter is nonzero and JIF exactly when it is zero; otherwise `ip` advances by 3 |
| Intcode.BreakHalts | 2019/vm/src/lib.rs:128-142 | opcode 99 is a fixed point of a step, and a run stops on it with no output |
| Intcode.PositionModes | 2019/vm/src/lib.rs:56-61 | an instruction word below 100 puts every parameter in position mode |
| Intcode.EchoProgram | 2019/vm/src/lib.rs:174-179 | the program `3,0,4,0,99` outputs exactly the value it was given |
| Intcode.AddProgram | 2019/vm/src/lib.rs:160-172 | the program `1,0,0,0,99` ends with memory starting `2,0,0,0,99` |
| Assembunny.ParseValue | 2016/assembunny/src/lib.rs:18-34 | an operand is an `i32` literal when one parses, a single letter `a`..`d` names register 0..3, and anything else of another length that does not end in a digit is refused |
| Assembunny.ParseValueOfRender | 2016/assembunny/src/lib.rs:18-34 | every literal in `i32` range and every register reads back from its text |
| Assembunny.ParseOperands | 2016/assembunny/src/lib.rs:59-60 | operands that do not parse are dropped, so there are never more operands than pieces |
| Assembunny.ParseInstr | 2016/assembunny/src/lib.rs:49-70 | a line parses only when its first word is one of the five mnemonics, and any other first word is refused |
| Assembunny.ParseLines | 2016/assembunny/src/lib.rs:81-89 | lines that are not instructions are skipped, and the only failure is the index panic of a missing operand |
| Assembunny.Delta | 2016/assembunny/src/lib.rs:99-109 | an empty region changes no register |
| Assembunny.Jit | 2016/assembunny/src/lib.rs:115-129 | a region that is not only `inc`/`dec` becomes a plain jump to its start; otherwise `ip` stays on the `jnz` and the tape is unchanged |
| Assembunny.Apply | 2016/assembunny/src/lib.rs:131-181 | only `tgl` rewrites the tape, and no instruction changes its length |
| Assembunny.Run | 2016/assembunny/src/lib.rs:182-187 | a run ends exactly when `ip` leaves the tape, and a machine already off the tape is returned unchanged |
| Assembunny.CpyToLiteral | 2016/assembunny/src/lib.rs:133-138 | `cpy` into a literal only advances `ip` |
| Assembunny.ToggleTwice | 2016/assembunny/src/lib.rs:169-175 | `tgl` swaps `inc`/`dec` and `cpy`/`jnz` and turns `tgl` into `inc`, so toggling twice restores every instruction but `tgl` |
| Assembunny.TglTarget | 2016/assembunny/src/lib.rs:166-179 | `tgl` rewrites exactly the targeted instruction when it lies on the tape, nothing otherwise, and always advances by one |
| Assembunny.JnzOnZero | 2016/assembunny/src/lib.rs:151-165 | `jnz` on a zero condition advances by one, in both versions of `apply` |
| Assembunny.JitFallsBack | 2016/assembunny/src/lib.rs:115-129 | a taken backward `jnz` over a region that is not only `inc`/`dec` is a plain jump |
| Assembunny.RegisterOffsetJumps | 2016/assembunny/src/lib.rs:151-161 | a taken `jnz` whose offset is a register jumps by that register's value |
| Assembunny.JitZeroesCounter | 2016/assembunny/src/lib.rs:115-125 | when the loop counter's change per pass divides its value, the optimised loop leaves the counter at zero |
| Assembunny.AddLoop | 2016/assembunny/src/lib.rs:111-125 | the loop `inc x; dec y; jnz y -2` adds `y` to `x` and clears `y` in one step |
| Assembunny.ForwardJumpAsWritten | 2016/assembunny/src/lib.rs:151-161 | as written, a taken `jnz` with a non-negative literal offset divides by zero inside the optimiser |
| Assembunny.ForwardJumpCorrected | 2016/assembunny/src/lib.rs:151-161 | the corrected `apply` makes the same instruction a plain forward jump |
| Assembunny.ApplyAgrees | 2016/assembunny/src/lib.rs:131-181 | away from taken forward literal jumps the corrected and the as-written `apply` agree |
| ThreeBit.NewCombo | 2024/17/src/lib.rs:58-67 | operands 0..3 are literals, 4, 5 and 6 name registers A, B and C, and 7 or more panics |
| ThreeBit.NewOpcode | 2024/17/src/lib.rs:34-48 | an opcode of 8 or more panics, and a combo operand is decoded, and may panic, for exactly `adv`, `bst`, `out`, `bdv` and `cdv` |
| ThreeBit.Shr | 2024/17/src/lib.rs:112 | a `u64` shift by 64 or more is an overflow panic, and a shift never increases the value |
| ThreeBit.Apply | 2024/17/src/lib.rs:110-123 | an instruction never finishes the run or changes the tape, and only `out` emits a value, below 8, with the machine unchanged; each instruction writes only its own register (`adv` A; `bxl`, `bst`, `bxc`, `bdv` B; `cdv` C), and only `jnz` moves `ip`, to its target exactly when A is nonzero |
| ThreeBit.Step | 2024/17/src/lib.rs:101-108 | a step is `Done`, changing nothing, exactly when `ip` is at or past the end of the tape |
| ThreeBit.Run | 2024/17/src/lib.rs:91-100 | every output value is below 8 |
| ThreeBit.Parse | 2024/17/src/lib.rs:71-89 | a parsed machine starts at instruction 0, and the text had at least five lines with a blank fourth line |
| ThreeBit.ParseRender | 2024/17/src/lib.rs:71-89 | reading the text `Register A: a`, `Register B: b`, `Register C: c`, a blank line and `Program: t0,t1,...` gives back the machine with those registers and that tape, at instruction 0 |
| Text.LinesUnlines | 2024/17/src/lib.rs:72 | `lines` splits text written one line per `\n` back into those lines |
| Text.LinesUnlinesCrlf | 2024/17/src/lib.rs:72 | `lines` splits text written one line per `\r\n` back into the same lines, each without its `\r` |
| ThreeBit.ParseOfLines | 2024/17/src/lib.rs:71-89 | any text whose first three lines each carry one register value, whose fourth line is blank and whose fifth line carries the program parses to that machine |
| Util2024.GetIntegersAfterLabel | 2024/util/src/lib.rs:43-57 | a digit-free label in front of numbers written with a digit-free separator does not change the integers read |
| ThreeBit.StepKeepsWidth | 2024/17/src/lib.rs:110-123 | every step of a tape of 3-bit words keeps the registers within 64 bits |
| ThreeBit.StepAdvances | 2024/17/src/lib.rs:105-116 | a step moves `ip` two places on, except a taken `jnz`, which moves it to the operand |
| ThreeBit.OutAndJnz | 2024/17/src/lib.rs:115-118 | `out` emits the low three bits of its combo operand, and `jnz` jumps exactly when A is not zero |
| ThreeBit.ExampleLoop | 2024/17/src/lib.rs:324-338 | the example program `0,1,5,4,3,0` prints the low three bits of each halving of A, down to zero |
| ThreeBit.Example | 2024/17/src/lib.rs:324-338 | from A = 729 the example program prints `4,6,3,5,6,3,5,2,1,0` |
| RegOps.Eval | 2018/day16/src/main.rs:31-52 | an operation succeeds exactly when its target and every operand it reads as a register are below 4, and it changes no register but the target |
| RegOps.ComparisonsWriteFlags | 2018/day16/src/main.rs:44-49 | the `gt*` and `eq*` operations write exactly 0 or 1, and 1 exactly when the comparison holds |
| RegOps.SetAndAddImmediate | 2018/day16/src/main.rs:35-43 | `seti` writes the literal `a`, `setr` copies register `a`, and `addi` adds the literal `b` to register `a` |
| RegOps.BitwiseDigits | 2018/day16/src/main.rs:38-41 | `banr` and `borr` combine their registers binary digit by binary digit |
| RegOps.Exec | 2018/day16/src/main.rs:58-64 | an instruction whose opcode number is not in the table is the `expect` panic; otherwise it runs the operation the table names |
| RegOps.Candidates | 2018/day16/src/main.rs:94-107 | an operation is a candidate for a sample exactly when running the sample's instruction with that operation turns the before-registers into the after-registers |
| RegOps.SampleCandidates | 2018/day16/src/main.rs:94-107 | the puzzle's sample `3,2,1,1` / `9 2 1 2` / `3,2,2,1` fits `mulr`, `addi` and `seti` and no other operation |
| Snailfish.FirstBigIsFirst | 2021/18/src/main.rs:61-76 | the position the split searches for is the first regular number of 10 or more: all before it are below 10 |
| Snailfish.ShapeAndLeaves | 2021/18/src/main.rs:31-35 | a number is determined by its tree shape together with its regular numbers from left to right |
| Snailfish.AddLeftmost | 2021/18/src/main.rs:125-130 | `add_left` adds to the leftmost regular number only and keeps the shape |
| Snailfish.AddRightmost | 2021/18/src/main.rs:131-136 | `add_right` adds to the rightmost regular number only and keeps the shape |
| Snailfish.SplitFirst | 2021/18/src/main.rs:61-76 | a split happens exactly when some regular number is 10 or more, changes nothing otherwise, and deepens the tree by at most one |
| Snailfish.SplitFirstLeaves | 2021/18/src/main.rs:61-76 | a split replaces only the leftmost regular number of 10 or more by its halves rounded down and up |
| Snailfish.HalveSlices | 2021/18/src/main.rs:64-68 | the split's effect on the regular numbers keeps everything before and after the split one |
| Snailfish.ExplodeAt | 2021/18/src/main.rs:84-123 | a pair nested inside four pairs whose halves are regular becomes 0 and passes its halves outward; nothing changes when no pair is that deep; the `unwrap` panic needs a pair nested inside five |
| Snailfish.ExplodeAtLeaves | 2021/18/src/main.rs:84-123 | an explosion removes one regular number, and what remains plus what is still to be passed outward adds up to the total before |
| Snailfish.AfterLeft | 2021/18/src/main.rs:94-106 | after an explosion in the left half, the amount owed to the right lands on the right half's leftmost number |
| Snailfish.AfterRight | 2021/18/src/main.rs:107-119 | after an explosion in the right half, the amount owed to the left lands on the left half's rightmost number |
| Snailfish.Reduce | 2021/18/src/main.rs:53-60 | a finished reduction has no pair nested inside four pairs and no regular number of 10 or more, and a number at most five deep never reaches the `unwrap` panic |
| Snailfish.Add | 2021/18/src/main.rs:144-152 | adding two reduced numbers pairs and reduces them without the panic, and the sum is reduced |
| Snailfish.ReduceReduced | 2021/18/src/main.rs:53-60 | a number that is already reduced is left alone |
| Snailfish.Magnitude | 2021/18/src/main.rs:137-142 | `magnitude`; its meaning as a weighted sum of the leaves is stated by `Snailfish.MagnitudeIsWeightedSum` |
| Snailfish.MagnitudeIsWeightedSum | 2021/18/src/main.rs:137-142 | the magnitude weighs each regular number by 3 for every step into a left half and 2 for every step into a right half |
| Snailfish.ParseValue | 2021/18/src/main.rs:12-29 | a successful parse consumes a nonempty prefix and returns the rest of the input |
| Snailfish.ParseShow | 2021/18/src/main.rs:12-43 | parsing the printed form of a number whose regular numbers fit in a byte gives the number back and stops where the printed form ends |
| Snailfish.MagnitudeExample | 2021/18/src/main.rs:137-142 | the puzzle's `[[1,2],[[3,4],5]]` has magnitude 143 |
| Snailfish.ExplodeExample | 2021/18/src/main.rs:84-123 | `[[[[[9,8],1],2],3],4]` explodes to `[[[[0,9],2],3],4]`, and the 9 falls off the left end |
| Snailfish.SplitExample | 2021/18/src/main.rs:61-76 | `[3,11]` splits to `[3,[5,6]]` |
| Packets.Compare | 2022/13/src/main.rs:44-79 | two integers compare as `Some(true)` when the left is smaller, `Some(false)` when it is larger and `None` when they are equal |
| Packets.CompareLists | 2022/13/src/main.rs:57-77 | two empty lists are undecided, a left list that runs out first comes first, and a right list that runs out first comes second |
| Packets.CompareAntisymmetric | 2022/13/src/main.rs:44-79 | swapping the two packets swaps the verdict and keeps "undecided" undecided |
| Packets.PromoteInteger | 2022/13/src/main.rs:51-56 | an integer compared with a list is compared as the one-element list holding it, on either side |
| Packets.CompareSelf | 2022/13/src/main.rs:44-79 | every packet compared with itself is undecided |
| Packets.PrefixComesFirst | 2022/13/src/main.rs:57-77 | a proper prefix of a list comes before the list |
| Packets.ParseWith | 2022/13/src/main.rs:11-42 | a parse never grows the text and stops at the end of the text or before a `]`; a token whose first character takes more than one UTF-8 byte is the `split_at(1)` panic |
| Packets.NonAsciiTokenPanics | 2022/13/src/main.rs:13-14 | `split_at(1)` at a token starting with a multi-byte character panics, in both parsers and wherever the token stands |
| Packets.AccentPanics | 2022/13/src/main.rs:13-14 | `é`, alone or inside a list, makes the parser panic rather than report a parse error |
| Packets.ParseAsWritten | 2022/13/src/main.rs:11-42 | the parser as written also stops only at the end of the text or before a `]`, and panics both on an unclosed `[` and on a non-ASCII token start |
| Packets.Parse | 2022/13/src/main.rs:11-42 | the corrected parser stops at the end or before a `]` and never reaches the unclosed-list panic |
| Packets.ParseAgrees | 2022/13/src/main.rs:17-25 | the as-written and the corrected parser agree except on text that runs out inside a `[` before anything else goes wrong, where one panics and the other reports an error; on a non-ASCII token start both panic alike |
| Packets.UnclosedPanics | 2022/13/src/main.rs:17-22 | on `[1` the parser as written panics, where the corrected parser reports a missing `]` |
| Packets.FromStr | 2022/13/src/main.rs:101-113 | a string reads as a packet exactly when it parses to one packet with no text left over, and more or fewer packets are refused as "multiple" |
| Packets.FromStrShow | 2022/13/src/main.rs:82-113 | reading the printed form of a packet of non-negative `i64` integers gives the packet back |
| Packets.CompareExamples | 2022/13/src/main.rs:44-79 | `[1,1,3,1,1]` comes before `[1,1,5,1,1]`, and `[9]` comes after `[[8,7,6]]`, as in the puzzle |
| PacketDecoder.StreamValueSplit | 2021/16/src/main.rs:6-20 | reading `m + n` bits is reading `m` bits, shifting them past `n`, and adding the next `n` |
| PacketDecoder.Read | 2021/16/src/main.rs:6-20 | for up to 64 bits, `read` returns the next bits most significant first and advances the position by the number read; it panics exactly when the bits run past the data |
| PacketDecoder.ChunkIsStream | 2021/16/src/main.rs:9-15 | the masked chunk one pass takes from the current word is exactly the next stream bits |
| PacketDecoder.ReadFromPanics | 2021/16/src/main.rs:15 | a read that runs past the last word is the index panic |
| PacketDecoder.ReadGroups | 2021/16/src/main.rs:38-46 | the literal loop consumes at least one five-bit group and yields a value below 2^64 |
| PacketDecoder.ParsePacket | 2021/16/src/main.rs:35-75 | a parsed packet consumes at least its six header bits and has a three-bit version and type id, a literal body exactly for type 4, and literals below 2^64 |
| PacketDecoder.ParseOperator | 2021/16/src/main.rs:52-74 | an operator's sub-packets follow its length type bit and are well formed |
| PacketDecoder.ParseUntil | 2021/16/src/main.rs:55-61 | length type 0 reads sub-packets until the position is exactly the end, keeping those read before |
| PacketDecoder.ParseCount | 2021/16/src/main.rs:62-66 | length type 1 reads exactly the given number of sub-packets |
| PacketDecoder.VersionSum | 2021/16/src/main.rs:76-82 | `version_sum`; that it counts every version once is stated by `PacketDecoder.VersionSumFlatten` |
| PacketDecoder.VersionSumFlatten | 2021/16/src/main.rs:76-82 | the version sum adds the version of every packet in the tree exactly once |
| PacketDecoder.Min | 2021/16/src/main.rs:92 | the minimum is one of the values and no larger than any |
| PacketDecoder.Max | 2021/16/src/main.rs:93 | the maximum is one of the values and no smaller than any |
| PacketDecoder.Value | 2021/16/src/main.rs:83-100 | a literal's value is its number, and only under type id 4; the comparison types 5, 6 and 7 give 0 or 1 |
| PacketDecoder.Values | 2021/16/src/main.rs:89-96 | the sub-packets' values exist exactly when every one does, in order |
| PacketDecoder.ExampleSum | 2021/16/src/main.rs:90 | a sum of the literals 1 and 2 has value 3 |
| PacketDecoder.ExampleEquality | 2021/16/src/main.rs:90-96 | the packet for `1 + 3 == 2 * 2` has value 1 |
| PacketDecoder.ExampleVersions | 2021/16/src/main.rs:76-82 | operators of versions 4, 1 and 5 above a literal of version 6 have version sum 16 |
| PacketDecoder.ReadGroupsAt | 2021/16/src/main.rs:38-46 | the literal loop over a literal's groups reads back its hexadecimal digits as one number |
| PacketDecoder.ParseEncoded | 2021/16/src/main.rs:35-75 | parsing the bits of an encodable packet gives the packet back and stops right after its bits |
| PacketDecoder.RoundTrip | 2021/16/src/main.rs:35-75 | the bits of any encodable packet, with either length type, packed into 32-bit words, parse back to the packet |
| PacketDecoder.Pack | 2021/16/src/main.rs:106-114 | packing bits into 32-bit words pads the last word by fewer than 32 bits |
| PacketDecoder.PackHolds | 2021/16/src/main.rs:106-114 | the packed words hold the bits from the start of the stream, most significant bit of each word first |
| Workflows.AxisOf | 2023/19/src/lib.rs:40-51 | exactly the letters `x`, `m`, `a` and `s` name a rating; any other letter is the index panic |
| Workflows.InBoxAxes | 2023/19/src/lib.rs:25-26 | a part lies in a box exactly when each of its four ratings lies in the box's range for that rating |
| Workflows.Check | 2023/19/src/lib.rs:73-79 | `<` and `>` compare the named rating with the bound, `Always` holds, and a bad rating name panics |
| Workflows.CheckRange | 2023/19/src/lib.rs:81-101 | as written, `Always` gives the box and the empty box, and the other conditions change only the named rating's range in both halves |
| Workflows.CheckRangeClamped | 2023/19/src/lib.rs:81-101 | the corrected split succeeds exactly when the as-written one does |
| Workflows.ClampAgrees | 2023/19/src/lib.rs:81-101 | on a threshold inside the box the corrected and the as-written split agree |
| Workflows.CutPartitions | 2023/19/src/lib.rs:83-98 | cutting one rating's range at a threshold splits the box into the parts below and the parts at or above it, and their counts add up |
| Workflows.ClampedPartitions | 2023/19/src/lib.rs:81-101 | the corrected split partitions the box: the accepted half holds exactly the parts that pass the condition, the rejected half exactly those that fail, and the counts add up |
| Workflows.UnclampedWidens | 2023/19/src/lib.rs:83-90 | as written, `x<20` on a box whose `x` runs over `1..10` accepts the box `1..20`, which holds parts outside the input box |
| Workflows.ParseCondition | 2023/19/src/lib.rs:104-127 | a condition with neither `<` nor `>` is the returned error; otherwise `<` is tried first, the rating is one byte long (one ASCII character), and the bound is a `u64` |
| Workflows.SplitCmp | 2023/19/src/lib.rs:107-122 | one branch of the condition parser reads the rating before the operator and the bound after it; the rating must be one byte by `str::len`, and any failure is a panic |
| Workflows.OneByte | 2023/19/src/lib.rs:110 | a text is one byte long exactly when it is a single ASCII character |
| Workflows.AccentRatingPanics | 2023/19/src/lib.rs:107-111 | `é<5` fails the one-byte rating check although its rating is one character |
| Workflows.ParseRule | 2023/19/src/lib.rs:145-160 | a rule without `:` always sends the part to the whole text; with one, its condition is a real comparison and the destination has no `:` |
| Workflows.CondRoundTrip | 2023/19/src/lib.rs:104-127 | a condition on a rating letter with a `u64` bound reads back from its text |
| Workflows.RuleRoundTrip | 2023/19/src/lib.rs:145-160 | a rule whose destination has no `:` reads back from its text |
| Workflows.RuleCheck | 2023/19/src/lib.rs:136-142 | a rule yields its destination exactly when its condition holds, and nothing when it fails |
| Workflows.Next | 2023/19/src/lib.rs:166-173 | a workflow sends a part to the destination of the first rule that fires, and panics exactly when no rule fires |
| Workflows.Route | 2023/19/src/lib.rs:196-209 | a part is accepted only when its workflow exists and either sends it to `A` or sends it on to a workflow that accepts it |
| Workflows.Spread | 2023/19/src/lib.rs:218-234 | the boxes one workflow hands out lie inside the box it was given and their counts add up to its count |
| Workflows.ClampedInside | 2023/19/src/lib.rs:81-101 | both halves of the corrected split lie inside the box |
| Workflows.AcceptedForwarded | 2023/19/src/lib.rs:219-228 | what one workflow accepts plus what it forwards never exceeds what it was given; the rejected boxes are the difference |
| Workflows.Drain | 2023/19/src/lib.rs:216-243 | the accepted count never exceeds the total count of the boxes still on the work list |
| Workflows.Part2Bound | 2023/19/src/lib.rs:216-243 | the part-two answer for ratings `1..4001` is at most 4000^4 |
| DenseGrid.Concat | 2023/util/src/lib.rs:15-18 | the concatenated lines are empty exactly when every line is |
| DenseGrid.New | 2023/util/src/lib.rs:12-20 | `new` succeeds exactly when there is a first line and every line has its byte length |
| DenseGrid.NewReads | 2023/util/src/lib.rs:12-20 | the grid built from ASCII lines reads back column `x` of line `y`, with `.` as nothing and nothing outside the lines |
| DenseGrid.Empty | 2023/util/src/lib.rs:33-36 | an empty grid has `width * height` cells and holds nothing anywhere |
| DenseGrid.Height | 2023/util/src/lib.rs:46-48 | the height is the number of whole rows, and dividing by a zero width panics |
| DenseGrid.Index | 2023/util/src/lib.rs:54-67 | an index exists only for non-negative positions inside the width and the data |
| DenseGrid.DeindexIndex | 2023/util/src/lib.rs:54-74 | `deindex` recovers the position `index` came from |
| DenseGrid.IndexDeindex | 2023/util/src/lib.rs:54-74 | `index` recovers every entry from its `deindex` position |
| DenseGrid.IndexInjective | 2023/util/src/lib.rs:54-67 | two positions with the same index are the same position |
| DenseGrid.Get | 2023/util/src/lib.rs:90-93 | `get` finds a value only inside the grid and never a `.` |
| DenseGrid.Insert | 2023/util/src/lib.rs:82-86 | `insert` panics exactly on `.` or a position outside the grid; otherwise that position reads `c` and every other position is unchanged |
| DenseGrid.Retain | 2023/util/src/lib.rs:107-116 | `retain` keeps exactly the values that pass the predicate at their position, and the shape is unchanged |
| Rps.ParseMove | 2022/02/src/main.rs:11-21 | exactly `A`..`C` and `X`..`Z` parse, each letter to its move |
| Rps.ParseGoal | 2022/02/src/main.rs:56-66 | exactly `X`, `Y` and `Z` parse, to lose, draw and win |
| Rps.ParseLetters | 2022/02/src/main.rs:11-66 | every move's and every goal's letter reads back as that move or goal |
| Rps.Score | 2022/02/src/main.rs:24-30 | each shape is worth 1 to 3 points |
| Rps.ScoreInjective | 2022/02/src/main.rs:24-30 | different shapes are worth different points |
| Rps.Play | 2022/02/src/main.rs:31-46 | a round is worth 6 exactly when you beat the opponent, 0 exactly when the opponent beats you, and 3 exactly on the same shape |
| Rps.GoalPlay | 2022/02/src/main.rs:69-83 | the shape chosen for a goal gets exactly the outcome the goal asks for |
| Rps.GoalPlayUnique | 2022/02/src/main.rs:69-83 | that shape is the only one with that outcome |
| Rps.RoundScore | 2022/02/src/main.rs:89 | a round scores 1 to 9, and modulo 3 it is your shape's score |
| Rps.Total | 2022/02/src/main.rs:86-91 | the total is between 1 and 9 points per round |
| Rps.TotalAppend | 2022/02/src/main.rs:86-91 | the total of two guides is the sum of their totals |
| Rps.ParseMoves | 2022/02/src/main.rs:103-106 | collecting the parsed words fails exactly when some word fails to parse |
| Rps.ParseRound | 2022/02/src/main.rs:102-111 | a part-one line parses exactly when it is two move letters separated by one space |
| Rps.ParseStrategy | 2022/02/src/main.rs:117-131 | a part-two line parses exactly when it is a move letter and a goal letter, and nothing more |
| Rps.StrategyMeetsGoal | 2022/02/src/main.rs:117-131 | the shape part two plays gets the outcome the line's goal asks for |
| Rps.ParseAll | 2022/02/src/main.rs:100-112 | the guide parses exactly when every line does, each line to its round |
| Rps.ParseLines | 2022/02/src/main.rs:100-131 | a round's line and a strategy's line read back as written |
| Rps.Part1OfGuide | 2022/02/src/main.rs:100-113 | part one of a written guide is the total of its rounds |
| Rps.Part2OfGuide | 2022/02/src/main.rs:115-133 | part two of a written strategy guide is the total of the rounds that meet each goal |
| Scramble.Find | 2016/21/src/main.rs:58-63 | `find` gives the first position of the letter, and panics exactly when the letter is absent |
| Scramble.Swap | 2016/21/src/main.rs:66-71 | swapping two positions exchanges exactly those two letters and keeps the letters as a multiset |
| Scramble.RotLeft | 2016/21/src/main.rs:78-80 | rotating left by `n` moves the letter at `(j + n) mod len` to `j` |
| Scramble.RotRight | 2016/21/src/main.rs:81-83 | rotating right by `n` moves the letter at `j` to `(j + n) mod len` |
| Scramble.RotateInverse | 2016/21/src/main.rs:78-83 | rotating right undoes rotating left by the same amount |
| Scramble.RevSlice | 2016/21/src/main.rs:89-96 | reversing `ia..=ib` mirrors exactly that slice and keeps every other letter |
| Scramble.ReverseLoop | 2016/21/src/main.rs:89-96 | the loop of pairwise swaps up to half the slice's length reverses the slice |
| Scramble.MoveLetter | 2016/21/src/main.rs:97-100 | moving takes the letter at `ia` to `ib`; with that letter removed from both words, the rest of the word is unchanged in order |
| Scramble.MoveLetterBack | 2016/21/src/main.rs:97-100 | moving the letter from `ib` back to `ia` restores the word, so a move is undone by the move with its positions swapped |
| Scramble.LetterRotation | 2016/21/src/main.rs:84-88 | the letter-based rotation is one more than the position, one more again from position 4 on, modulo the length |
| Scramble.Apply | 2016/21/src/main.rs:64-102 | every action that does not panic keeps the length and the multiset of letters |
| Scramble.SwapLetterSwaps | 2016/21/src/main.rs:72-77 | swapping two letters exchanges their first positions |
| Scramble.SwapInvolution | 2016/21/src/main.rs:66-71 | swapping the same two positions twice gives the word back |
| Scramble.ReverseInvolution | 2016/21/src/main.rs:89-96 | reversing the same slice twice gives the word back |
| Scramble.RotateLetterLands | 2016/21/src/main.rs:84-88 | the letter-based rotation moves the letter's first occurrence right by the rotation amount, wrapping around at most once |
| Scramble.ApplyAll | 2016/21/src/main.rs:111-114 | applying every action in turn keeps the length and the multiset of letters |
| Scramble.Number | 2016/21/src/main.rs:25-26 | a number word reads as a `usize` |
| Scramble.Letter | 2016/21/src/main.rs:28-29 | a letter word yields its first character and panics when it is empty |
| Scramble.ParseWords | 2016/21/src/main.rs:18-50 | a line whose first word is not `swap`, `rotate`, `reverse` or `move` is the returned error |
| Scramble.ParseSwap | 2016/21/src/main.rs:23-31 | the `swap` branch only ever yields a position swap or a letter swap |
| Scramble.ParseRotate | 2016/21/src/main.rs:32-40 | the `rotate` branch only ever yields a left, right or letter-based rotation |
| Scramble.ParseShow | 2016/21/src/main.rs:18-50 | every action with `usize` numbers and non-space letters reads back from its text |
| Shuffle.Numbers | 2019/22/src/main.rs:15-17 | the numbers of a line are its space-separated pieces that read as `i64` |
| Shuffle.Parse | 2019/22/src/main.rs:14-31 | a line that starts with neither `cut` nor `deal with increment` and is not `deal into new stack` panics; a cut is split by the sign of its number into two non-negative kinds |
| Shuffle.Math | 2019/22/src/main.rs:34-49 | `math`; that each pair moves cards as its technique does is stated by `Shuffle.MathMoves` |
| Shuffle.MathMoves | 2019/22/src/main.rs:34-49 | the affine pair of each technique sends every position where the technique, as the puzzle describes it, moves the card |
| Shuffle.Lift | 2019/22/src/main.rs:55-60 | the `while x < 0 { x += n }` loops give a non-negative value with the same remainder, below `n` when they run at all |
| Shuffle.Fuse | 2019/22/src/main.rs:52-62 | the fused pair is `(c*a, c*b + d)` reduced into `0..n` |
| Shuffle.FuseComposes | 2019/22/src/main.rs:52-62 | applying the fused pair is applying the first pair and then the second |
| Shuffle.FuseIdentity | 2019/22/src/main.rs:52-62 | `(1, 0)` is neutral on either side, up to reduction into `0..n` |
| Shuffle.MovedAll | 2019/22/src/main.rs:70-74 | a whole shuffle keeps every card inside the deck |
| Shuffle.BuildMoves | 2019/22/src/main.rs:70-74 | the pair folded from `(1, 0)` over every technique sends each position where the whole shuffle does |
| Shuffle.ParseShow | 2019/22/src/main.rs:14-31 | every technique whose number fits an `i64`, with a positive number for a cut from the bottom, reads back from its text |
| PageOrder.New | 2024/05/src/lib.rs:4-6 | the new set is 256 rows of four 64-bit words |
| PageOrder.NewEmpty | 2024/05/src/lib.rs:4-9 | the new set holds no pair |
| PageOrder.Set | 2024/05/src/lib.rs:10-12 | setting a bit keeps every word below `2^64` |
| PageOrder.SetGet | 2024/05/src/lib.rs:7-12 | after `set(a, b)` the set holds exactly the pairs it held before and `(a, b)` |
| PageOrder.Illegal | 2024/05/src/lib.rs:7-9 | the bit lookup is read as the relation "may not come before" |
| PageOrder.AnyIllegalMeans | 2024/05/src/lib.rs:18 | the `any` scan finds a later page that the first one may not precede exactly when one exists |
| PageOrder.Check | 2024/05/src/lib.rs:15-23 | `check`; its meaning, no page before one it may not precede, is stated by `PageOrder.CheckMeans` |
| PageOrder.CheckMeans | 2024/05/src/lib.rs:15-23 | `check` holds exactly when no page comes before a page it may not precede |
| PageOrder.PositionFinds | 2024/05/src/lib.rs:29-32 | the `position` search returns the first page that may be placed last among the first `len - n` |
| PageOrder.PositionMisses | 2024/05/src/lib.rs:29-33 | the search finds nothing, and `unwrap` panics, exactly when no such page exists |
| PageOrder.Swap | 2024/05/src/lib.rs:34 | `swap` exchanges two pages, keeps the others, and keeps the pages as a multiset |
| PageOrder.ArrangeKeeps | 2024/05/src/lib.rs:27-35 | the loop keeps the run's pages and places each chosen page after every page before it |
| PageOrder.Sort | 2024/05/src/lib.rs:25-37 | `sort`; an empty run panics, and the middle page it reads is characterised by `PageOrder.SortMiddle` and `PageOrder.SortSucceeds` |
| PageOrder.SortMiddle | 2024/05/src/lib.rs:25-37 | `sort` reads the middle of a rearrangement in which the middle page may follow every page before it and precede every page after it; an empty run panics |
| PageOrder.CandidateExists | 2024/05/src/lib.rs:29-32 | when the rules form a strict order on the pages, some page can always be placed last |
| PageOrder.SortSucceeds | 2024/05/src/lib.rs:25-37 | under a strict order `sort` never panics on a non-empty run |
| PageOrder.ParseRun | 2024/05/src/lib.rs:49-51 | a run parses exactly when every comma-separated field is a `u8` |
| PageOrder.Collect | 2024/05/src/lib.rs:42-53 | the rules fill a valid set and every collected run has at least two pages |
| PageOrder.CollectRules | 2024/05/src/lib.rs:43-47 | a rule that page `a` comes before page `b` sets exactly the pair `(b, a)`, and no other pair is set |
| PageOrder.TotalsMean | 2024/05/src/lib.rs:55-64 | the first sum adds the middles of exactly the in-order runs, and under a strict order of non-empty runs nothing panics |
| RangeMap.New | 2023/05/src/lib.rs:7-11 | a fresh map has the split point 0 |
| RangeMap.NewIsIdentity | 2023/05/src/lib.rs:7-22 | a fresh map sends every value to itself |
| RangeMap.Insert | 2023/05/src/lib.rs:12-18 | `insert` adds the split points `src` and `src + n`, maps `src` to `dest`, gives `src + n` the identity only when it was not already a split point, and keeps every other split point |
| RangeMap.Floor | 2023/05/src/lib.rs:20 | the key found is the greatest split point at or below `i`, and none is found only when no split point lies at or below `i` |
| RangeMap.Get | 2023/05/src/lib.rs:19-22 | `get(i)` panics exactly when no split point lies at or below `i`; otherwise it shifts `i` by the offset of a split point at or below it |
| RangeMap.GetOfFloor | 2023/05/src/lib.rs:19-22 | `get(i)` is `v + i - k` for the greatest split point `k` at or below `i`, with `v` its value |
| RangeMap.InsertMapsSegment | 2023/05/src/lib.rs:12-22 | after `insert(dest, src, n)`, `src + t` maps to `dest + t` for every `t < n`, as long as no older split point lies strictly inside the segment |
| RangeMap.InsertKeepsBelow | 2023/05/src/lib.rs:12-22 | `insert` changes nothing below `src` |
| RangeMap.InsertIdentityAfter | 2023/05/src/lib.rs:12-22 | past a newly inserted segment, values map to themselves up to the next old split point |
| RangeMap.GetShift | 2023/05/src/lib.rs:19-22 | between two split points `get` is a shift by a constant |
| RangeMap.Pieces | 2023/05/src/lib.rs:28-34 | the loop cuts `start..end` at every split point inside it into contiguous pieces, with no split point strictly inside any piece |
| RangeMap.Image | 2023/05/src/lib.rs:35-42 | empty pieces are dropped and every other piece maps to a nonempty piece of the same length, so the total length is kept |
| RangeMap.GetRange | 2023/05/src/lib.rs:24-43 | the output pieces are nonempty and their lengths add up to the input range's length |
| RangeMap.GetRangeCovers | 2023/05/src/lib.rs:24-43 | the image of every point of the input range lies in one of the output pieces |
| RangeMap.GetRangeTotal | 2023/05/src/lib.rs:24-43 | on any map with the split point 0, as every map built by `new` and `insert` has, `get_range` never panics |
| Reports.Sub | 2024/02/src/lib.rs:64 | an `i8` subtraction panics exactly when the difference leaves the `i8` range, and is the true difference otherwise |
| Reports.Signum | 2024/02/src/lib.rs:64-71 | `signum` is -1, 0 or 1, zero only at zero, with the sign of its argument |
| Reports.Remove | 2024/02/src/lib.rs:2-22 | skipping one level leaves one level fewer |
| Reports.SkipBufIsRemove | 2024/02/src/lib.rs:7-57 | indexing and iterating a `SkipBuf` see exactly the row with the skipped level taken out |
| Reports.IsSafe | 2024/02/src/lib.rs:59-73 | `is_safe` panics on a row shorter than two levels (`row[1]`) |
| Reports.StepsTrue | 2024/02/src/lib.rs:69-72 | the zipped pair loop succeeds exactly when every step rises, or every step falls, by 1 to 3 |
| Reports.IsSafeIff | 2024/02/src/lib.rs:59-73 | `is_safe` returns true exactly when the levels all rise or all fall, by 1 to 3 each step |
| Reports.StepsTotal | 2024/02/src/lib.rs:69-72 | on non-negative levels no difference overflows, so the loop never panics |
| Reports.IsSafeDecides | 2024/02/src/lib.rs:59-73 | on rows of at least two non-negative levels `is_safe` decides safety |
| Reports.AnyFromTrue | 2024/02/src/lib.rs:75-77 | a true answer from the skip search names a level whose removal leaves a safe row |
| Reports.AnyFromDecides | 2024/02/src/lib.rs:75-77 | on rows of at least three non-negative levels the skip search decides whether removing one level from the given skip on makes the row safe |
| Reports.AnySafeIff | 2024/02/src/lib.rs:75-77 | `any_safe` is true exactly when removing a single level makes the row safe |
| Reports.SafeDampened | 2024/02/src/lib.rs:75-77 | a safe row of three or more levels stays safe with its first level removed |
| Reports.ParseRow | 2024/02/src/lib.rs:83-85 | each whitespace-separated word becomes one `i8` level |
| Reports.ParseRender | 2024/02/src/lib.rs:80-87 | rows of `i8` levels written one per line read back as the same rows |
| Reports.CountIf | 2024/02/src/lib.rs:89-90 | counting the rows that pass a check counts at most every row |
| Reports.CountSafe | 2024/02/src/lib.rs:89 | part one counts exactly the safe rows |
| Reports.CountFixable | 2024/02/src/lib.rs:90 | part two counts exactly the rows that one removed level makes safe |
| Reports.SafeCountBelowFixable | 2024/02/src/lib.rs:89-90 | part one's count never exceeds part two's |
| Reports.ExampleSolves | 2024/02/src/lib.rs:99-112 | the example input gives 2 safe and 4 fixable reports |
| Reports.RowsSafe | 2024/02/src/lib.rs:101-108 | of the example rows exactly the first and the last are safe |
| Reports.RowsUndampened | 2024/02/src/lib.rs:101-108 | the second and third example rows stay unsafe whichever level is removed |
| Equations.ILog10 | 2024/07/src/lib.rs:35 | `ilog10` is the largest `k` with `10^k` at most the argument |
| Equations.DigitCount | 2024/07/src/lib.rs:35 | a positive number has `ilog10 + 1` decimal digits |
| Equations.CatIsConcat | 2024/07/src/lib.rs:35 | `accum * 10^(ilog10(v) + 1) + v` is the number whose digits are those of `accum` followed by those of `v` |
| Equations.Recurse | 2024/07/src/lib.rs:17-24 | `recurse`; that it decides reachability by `*` and `+` is stated by `Equations.RecurseSolvable` |
| Equations.RecurseSolvable | 2024/07/src/lib.rs:17-24 | `recurse` is true exactly when some choice of `*` and `+`, applied left to right, reaches the total |
| Equations.EvalGrows | 2024/07/src/lib.rs:28-29 | with positive operands no operator sequence makes the accumulator smaller, which is what justifies the `accum > total` cut |
| Equations.RecurseAny | 2024/07/src/lib.rs:25-39 | `recurse_any`; soundness and decision with concatenation are stated by `Equations.RecurseAnySound` and `Equations.RecurseAnyDecides` |
| Equations.RecurseAnySound | 2024/07/src/lib.rs:25-39 | whenever `recurse_any` is true, some choice of `*`, `+` and concatenation reaches the total |
| Equations.RecurseAnyDecides | 2024/07/src/lib.rs:25-39 | on positive operands `recurse_any` never panics and decides whether some choice of the three operators reaches the total |
| Equations.Widen | 2024/07/src/lib.rs:17-39 | every equation part one accepts, part two accepts too |
| Equations.IsValidMeans | 2024/07/src/lib.rs:11-13 | `is_valid` decides part one for an equation with at least one value |
| Equations.IsValidAnyMeans | 2024/07/src/lib.rs:14-16 | `is_valid_any` decides part two for an equation of positive values, and is sound for any |
| Equations.ParseEquation | 2024/07/src/lib.rs:45-48 | the total and the values are the integers of the line, in order |
| Equations.SumsMean | 2024/07/src/lib.rs:50-59 | the two sums add the totals of exactly the equations each part accepts |
| Equations.PartTwoCoversPartOne | 2024/07/src/lib.rs:50-59 | part one's sum never exceeds part two's |
| Equations.ParseRender | 2024/07/src/lib.rs:43-49 | equations written as `total: v1 v2 ...`, one per line, read back as the same equations |
| Equations.Verdict3 | 2024/07/src/lib.rs:73 | `156: 15 6` fails part one and passes part two |
| Equations.Verdict7 | 2024/07/src/lib.rs:77 | `21037: 9 7 18 13` fails both parts |
| Equations.ExampleSums | 2024/07/src/lib.rs:68-81 | the example's parsed equations sum to 3749 and 11387 |
| Equations.ExampleSolves | 2024/07/src/lib.rs:68-81 | `solve` on the example text gives `(3749, 11387)` |
| Bingo.WinMaskBit | 2021/04/src/main.rs:26-31 | each of the ten shifted masks has its bits set at exactly the five cells of one row or one column |
| Bingo.MaskShapes | 2021/04/src/main.rs:27-28 | the two literal masks are five consecutive bits and every fifth bit of the first 25 |
| Bingo.MaskFull | 2021/04/src/main.rs:32 | `bits & mask == mask` holds exactly when the mask's row or column is fully marked |
| Bingo.Winning | 2021/04/src/main.rs:25-33 | `winning`; that it means a full row or column is stated by `Bingo.WinningIsBingo` |
| Bingo.WinningIsBingo | 2021/04/src/main.rs:25-33 | `winning` is true exactly when some row or some column is fully marked |
| Bingo.Score | 2021/04/src/main.rs:34-39 | the score sums at most 25 byte-sized unmarked numbers |
| Bingo.Position | 2021/04/src/main.rs:15 | `position` finds the first cell holding the number, and nothing exactly when no cell does |
| Bingo.SetBitBound | 2021/04/src/main.rs:16 | setting a cell's bit keeps the marks within the 25 cell bits |
| Bingo.Mark | 2021/04/src/main.rs:13-24 | marking sets the bit of the number's first cell, leaves the grid alone, and reports the score times the number exactly when the board becomes winning |
| Bingo.MarkSetsOneCell | 2021/04/src/main.rs:15-17 | after marking, exactly the earlier marks and the number's first cell are marked |
| Bingo.MarkWinsOnBingo | 2021/04/src/main.rs:18-23 | a marked board is done exactly when a row or column is full |
| Bingo.ReportFits | 2021/04/src/main.rs:20 | the reported `score * i` always fits the `u32` |
| Bingo.MarkScore | 2021/04/src/main.rs:13-39 | marking a fresh cell lowers the score by its number; marking a marked cell or an absent number leaves it |
| Bingo.Hear | 2021/04/src/main.rs:69-70 | a done board ignores the number; another one wins at most once and is done after exactly when it wins |
| Bingo.Call | 2021/04/src/main.rs:66-71 | calling a number leaves done boards alone and adds one win per board that becomes done |
| Bingo.Game | 2021/04/src/main.rs:65-72 | over the whole draw, the number of wins is the number of boards that became done |
| Bingo.AtMostOneWinEach | 2021/04/src/main.rs:65-74 | from fresh boards no board wins twice, so there are at most as many wins as boards |
| Rope.Adjust | 2022/09/src/main.rs:10-19 | `adjust`, the move of one knot towards the knot ahead; its meaning is stated by `Rope.AdjustMeans` and `Rope.AdjustCatchesUp` |
| Rope.AdjustMeans | 2022/09/src/main.rs:10-19 | a knot touching the knot ahead stays put; one further away moves one king step and ends exactly one step closer |
| Rope.AdjustCatchesUp | 2022/09/src/main.rs:10-19 | a knot at most two steps behind ends touching the knot ahead |
| Rope.Follow | 2022/09/src/main.rs:29-31 | the follow loop from knot `i` on leaves the knots before `i` where they are |
| Rope.FollowKeepsTaut | 2022/09/src/main.rs:29-31 | when the knots before `i` touch and have moved at most one step, following makes every knot touch the one ahead and moves none more than one step |
| Rope.StepKeepsTaut | 2022/09/src/main.rs:27-31 | one unit step of the head keeps every knot touching the one ahead and moves no knot more than one king step |
| Rope.Walk | 2022/09/src/main.rs:22-34 | the tail's square is always among the squares recorded as seen |
| Rope.WalkTaut | 2022/09/src/main.rs:22-34 | the rope stays taut through the whole walk, and the tail sees at most one new square per unit step |
| Rope.Run | 2022/09/src/main.rs:21-36 | `run` panics exactly on an empty rope, and otherwise counts the distinct squares the last knot visits over the unit steps of all commands |
| Rope.ParseCommand | 2022/09/src/main.rs:42-61 | a line parses exactly when it is a direction code `U`, `D`, `L` or `R`, a `usize` count, and nothing more; "no direction" is never raised |
| Rope.ParseRender | 2022/09/src/main.rs:42-61 | every command written as `<code> <count>` reads back |
| Nice.Vowels | 2015/05/src/main.rs:6 | the vowel count from position `k` is at most the number of characters left |
| Nice.VowelsCount | 2015/05/src/main.rs:6 | the filtered count is the number of positions holding one of `aeiou` |
| Nice.HasDoubleMeans | 2015/05/src/main.rs:7 | the zipped scan finds two equal neighbouring letters exactly when some exist |
| Nice.HasForbiddenMeans | 2015/05/src/main.rs:8-11 | the window scan finds `ab`, `cd`, `pq` or `xy` exactly when one occurs |
| Nice.Nice1 | 2015/05/src/main.rs:5-12 | `nice1`; its meaning as the three rules is stated by `Nice.Nice1Means` |
| Nice.Nice1Means | 2015/05/src/main.rs:5-12 | `nice1` holds exactly when there are three vowels, a doubled letter and none of the four forbidden pairs |
| Nice.Nice1Nice | 2015/05/src/main.rs:50 | `ugknbfddgicrmopn` is nice by the first rules |
| Nice.Nice1Triple | 2015/05/src/main.rs:51 | `aaa` is nice by the first rules |
| Nice.Nice1NoDouble | 2015/05/src/main.rs:52 | `jchzalrnumimnmhp` has no doubled letter |
| Nice.Nice1Forbidden | 2015/05/src/main.rs:53 | `haegwjzuvuyypxyu` holds a forbidden pair |
| Nice.Nice1OneVowel | 2015/05/src/main.rs:54 | `dvszwmarrgswjxmb` has too few vowels |
| Nice.HasSandwichMeans | 2015/05/src/main.rs:28-30 | the three-letter window scan finds a letter repeated with one between exactly when one exists |
| Nice.Nice2 | 2015/05/src/main.rs:14-31 | the loop that remembers each pair's first index finds a pair repeated without overlap exactly when one exists, and `nice2` adds the sandwich rule |
| Nice.Nice2Nice | 2015/05/src/main.rs:59-60 | `qjhvhtzxzqqjkmpb` and `xxyxx` meet both new rules |
| Nice.Nice2NoSandwich | 2015/05/src/main.rs:61 | `uurcxstgmygtbstg` has no letter repeated with one between |
| Nice.Nice2NoRepeat | 2015/05/src/main.rs:62 | `ieodomkazucvgmuy` has no pair that repeats without overlapping |
| Escape.Scan | 2015/08/src/main.rs:4-21 | the character loop never counts more in-memory characters than the literal has |
| Escape.Decode | 2015/08/src/main.rs:3-23 | `decode` is the code length in UTF-8 bytes (`str::len`) minus the in-memory length read off the literal's escape grammar, so the `usize` subtraction cannot underflow; for ASCII text the code length is the character count |
| Escape.ScanMemLen | 2015/08/src/main.rs:4-21 | the state machine with its `escaping` flag and `hex` countdown counts exactly what the escape grammar says is left |
| Escape.Count | 2015/08/src/main.rs:26-27 | `matches(c).count()` is at most the length |
| Escape.EncodeIsGrowth | 2015/08/src/main.rs:25-28 | `encode` is exactly how much longer the line becomes when quoted again with every `"` and `\` escaped |
| Escape.BodyLength | 2015/08/src/main.rs:26-27 | escaping adds one character per `"` and per `\` |
| Escape.DecodeEscaped | 2015/08/src/main.rs:3-28 | the quoted form of a line holds the line's characters in memory, so decoding it recovers `encode` of the line, plus the extra UTF-8 bytes of any non-ASCII character |
| Escape.EscapedBytes | 2015/08/src/main.rs:25-28 | quoting a line adds as many UTF-8 bytes as it adds characters, since every added character is ASCII |
| Escape.DecodeEmpty | 2015/08/src/main.rs:54 | `""` decodes to 2 |
| Escape.DecodePlain | 2015/08/src/main.rs:55 | `"abc"` decodes to 2 |
| Escape.DecodeQuote | 2015/08/src/main.rs:56 | `"aaa\"aaa"` decodes to 3 |
| Escape.DecodeHex | 2015/08/src/main.rs:57 | `"\x27"` decodes to 5 |
| Escape.EncodeEmpty | 2015/08/src/main.rs:62 | `""` encodes to 4 |
| Escape.EncodePlain | 2015/08/src/main.rs:63 | `"abc"` encodes to 4 |
| Escape.EncodeQuote | 2015/08/src/main.rs:64 | `"aaa\"aaa"` encodes to 6 |
| Escape.EncodeHex | 2015/08/src/main.rs:65 | `"\x27"` encodes to 5 |
| Syntax.Partner | 2021/10/src/main.rs:12 | each opening bracket has its own closing bracket |
| Syntax.PartnerInjective | 2021/10/src/main.rs:12 | no two opening brackets share a closing bracket |
| Syntax.ErrorScore | 2021/10/src/main.rs:16-19 | an unexpected closer scores 3, 57, 1197 or 25137 |
| Syntax.OpenPoints | 2021/10/src/main.rs:25-31 | each opener still on the stack is worth 1 to 4 points |
| Syntax.Step | 2021/10/src/main.rs:6-21 | an opener is pushed; the matching closer pops; any other closer is the error score; any other character panics |
| Syntax.Scan | 2021/10/src/main.rs:5-22 | the loop keeps a stack of openers |
| Syntax.CorruptAt | 2021/10/src/main.rs:5-22 | a corrupted line has a first closer that does not match the top of the stack, and the error is that closer's score |
| Syntax.CorruptFrom | 2021/10/src/main.rs:12-19 | the first mismatched closer decides the error, whatever follows it |
| Syntax.Completion | 2021/10/src/main.rs:23-32 | the completion string has one closer per opener left on the stack |
| Syntax.CompletionCloses | 2021/10/src/main.rs:23-32 | appending the completion closes every open bracket |
| Syntax.AutoScoreIsCompletionScore | 2021/10/src/main.rs:23-32 | folding the reversed stack in base 5 scores the completion string character by character |
| Syntax.Parse | 2021/10/src/main.rs:3-33 | `parse`; its error scores and completion scores are characterised by `Syntax.CorruptAt`, `Syntax.Completes` and `Syntax.BalancedIsZero` |
| Syntax.Completes | 2021/10/src/main.rs:3-33 | an incomplete line's score is the score of a completion that makes it balanced |
| Syntax.AutoScoreZero | 2021/10/src/main.rs:23-32 | the completion score is zero exactly when nothing is left open |
| Syntax.UnscoreAutoScore | 2021/10/src/main.rs:23-32 | the base-5 score can be decoded back to the stack it came from |
| Syntax.AutoScoreInjective | 2021/10/src/main.rs:23-32 | different open stacks have different completion scores |
| Syntax.BalancedIsZero | 2021/10/src/main.rs:3-33 | an incomplete-or-complete line scores zero exactly when it is balanced |
| Syntax.ExampleErrors | 2021/10/src/main.rs:16-19 | `[)`, `(]`, `(}` and `>` are corrupted with scores 3, 57, 1197 and 25137 |
| Syntax.ExampleScores | 2021/10/src/main.rs:3-33 | `<>` scores 0, `(((` scores 31, and a non-bracket character panics |
| Trebuchet.FirstFinds | 2023/01/src/lib.rs:8-9 | `get_or_insert` keeps the earliest recorded digit: it exists exactly when some digit was recorded |
| Trebuchet.LastFinds | 2023/01/src/lib.rs:8-10 | `replace` keeps the latest recorded digit: it exists exactly when some digit was recorded |
| Trebuchet.CalibrationDefined | 2023/01/src/lib.rs:12-14 | `value` panics exactly when no digit was recorded |
| Trebuchet.Value | 2023/01/src/lib.rs:12-14 | `value`; when it panics and what it computes are stated by `Trebuchet.CalibrationDefined` and `Trebuchet.CalibrationMeans` |
| Trebuchet.CalibrationMeans | 2023/01/src/lib.rs:12-14 | the value is the earliest digit times ten plus the latest one |
| Trebuchet.Record | 2023/01/src/lib.rs:8-11 | `record`; that first and last track the earliest and latest digit is stated by `Trebuchet.RecordStep` |
| Trebuchet.RecordStep | 2023/01/src/lib.rs:8-11 | recording a digit updates first and last exactly as the earliest and latest of the digits seen so far |
| Trebuchet.Digits1At | 2023/01/src/lib.rs:19 | part one reads, at each position, the character's decimal digit if it is one |
| Trebuchet.Score1 | 2023/01/src/lib.rs:17-23 | `score1` is the calibration value of the line's numeric digits, and panics on a line without one |
| Trebuchet.WordFromFinds | 2023/01/src/lib.rs:32-37 | the `position` search finds the first digit word the rest of the line starts with, and nothing when none does |
| Trebuchet.Digits2At | 2023/01/src/lib.rs:31-47 | part two reads, at each position, a spelled digit starting there or else a numeric digit there |
| Trebuchet.WordNotDigit | 2023/01/src/lib.rs:26-43 | a spelled digit never starts on a numeric digit, so a position records at most one digit |
| Trebuchet.RecordAtToken | 2023/01/src/lib.rs:32-43 | one round of the loop records exactly the digit read at that position |
| Trebuchet.Score2 | 2023/01/src/lib.rs:25-48 | `score2` is the calibration value of the spelled and numeric digits, overlapping words included |
| Trebuchet.PartTwoReadsMore | 2023/01/src/lib.rs:17-48 | every line with a part-one value has a part-two value |
| Trebuchet.Overlapping | 2023/01/src/lib.rs:25-48 | `twone` reads both `two` and `one`, so its value is 21 |
| Trebuchet.Solve | 2023/01/src/lib.rs:50-57 | `solve` panics exactly when some line has no numeric digit, and otherwise sums the two values of every line |
| Password.Inc | 2015/11/src/main.rs:6-17 | the carry loop from the right keeps the length, and on lowercase letters never panics and stays lowercase |
| Password.Next | 2015/11/src/main.rs:5-19 | `next` maps a lowercase password to a lowercase password |
| Password.NextValue | 2015/11/src/main.rs:5-19 | read as an 8-digit base-26 number, `next` adds one, wrapping from `zzzzzzzz` to `aaaaaaaa` |
| Password.IncValue | 2015/11/src/main.rs:8-17 | the last `k` letters with a carry added come out as their base-26 value plus the carry, modulo `26^k` |
| Password.IncZero | 2015/11/src/main.rs:13-16 | once the carry is zero the rest of the password is copied unchanged |
| Password.StraightFrom | 2015/11/src/main.rs:22-23 | the window test finds three consecutive increasing letters exactly when some window holds them, and panics only on a `255` byte |
| Password.PairStarts | 2015/11/src/main.rs:28-32 | the collected indices are, in increasing order, exactly the starts of the doubled-letter windows |
| Password.GappedMeansSplit | 2015/11/src/main.rs:28-34 | two consecutive pair starts more than one apart exist exactly when there are two non-overlapping doubled letters |
| Password.Check | 2015/11/src/main.rs:21-35 | `check` panics only on a `255` byte |
| Password.CheckMeans | 2015/11/src/main.rs:21-35 | on lowercase letters `check` holds exactly when there is a straight of three, none of `i`, `o`, `l`, and two non-overlapping pairs |
| Password.FindValidChecks | 2015/11/src/main.rs:45-46 | every password the filtered successor iterator yields passes `check` |
| Password.FindValidReaches | 2015/11/src/main.rs:45-46 | the password found is the start advanced by some number of `next` steps below the bound |
| Password.ReadPassword | 2015/11/src/main.rs:40-43 | the first eight characters become bytes, truncated `as u8`, and missing ones stay zero |
| Password.Solve | 2015/11/src/main.rs:45-55 | both answers pass `check` |
| Lenses.Hash | 2023/15/src/lib.rs:1-8 | HASH; its closed form is stated by `Lenses.HashClosedForm` |
| Lenses.HashClosedForm | 2023/15/src/lib.rs:1-8 | the byte-wise `wrapping_add` then `wrapping_mul(17)` loop equals the start value and the bytes weighted by descending powers of 17, all reduced modulo 256 once |
| Lenses.SumHashes | 2023/15/src/lib.rs:13 | part one sums one byte-sized hash per step, so it is at most 255 per step |
| Lenses.Slot | 2023/15/src/lib.rs:25 | `find` gives the first slot whose lens carries the label, and nothing exactly when no lens does |
| Lenses.Remove | 2023/15/src/lib.rs:17-19 | `retain` keeps exactly the lenses with other labels and keeps labels unique |
| Lenses.RemoveAt | 2023/15/src/lib.rs:17-19 | in a box with unique labels, removing a present label closes the gap at its slot and keeps the order of the rest |
| Lenses.RemoveAbsent | 2023/15/src/lib.rs:17-19 | removing a label no lens carries leaves the box unchanged |
| Lenses.Upsert | 2023/15/src/lib.rs:20-30 | after `label=f` the label has focal length `f`, every other label keeps its length, the box grows only when the label was new, and labels stay unique |
| Lenses.UpdateSlots | 2023/15/src/lib.rs:25-26 | overwriting the first lens with the label changes that label's length and no other |
| Lenses.AppendSlots | 2023/15/src/lib.rs:27-28 | pushing a new label gives it its length and changes no other label's |
| Lenses.ParseCommand | 2023/15/src/lib.rs:17-24 | a step ending in `-` removes, otherwise it splits on `=` and its focal length must fit a `u8` |
| Lenses.ParseShowCommand | 2023/15/src/lib.rs:17-24 | every step whose label has no `=` and whose length fits a `u8` reads back from its text |
| Lenses.RemoveInBox | 2023/15/src/lib.rs:18-19 | removing keeps every lens of box `i` hashing to `i` |
| Lenses.UpsertInBox | 2023/15/src/lib.rs:23-29 | inserting a label that hashes to `i` into box `i` keeps every lens there hashing to `i` |
| Lenses.Empty | 2023/15/src/lib.rs:15 | the 256 empty boxes meet the box invariant |
| Lenses.Perform | 2023/15/src/lib.rs:16-31 | a step touches only the box its label hashes to and keeps the invariant: 256 boxes, unique labels, every label in its hash's box |
| Lenses.Run | 2023/15/src/lib.rs:16-31 | the whole sequence of steps keeps the box invariant |
| Lenses.Score | 2023/15/src/lib.rs:32-38 | the two scoring loops sum `(i + 1) * (j + 1) * focal` over every box `i` and slot `j` |
| Lenses.Solve | 2023/15/src/lib.rs:10-41 | part one is at most 255 per comma-separated step, and an answer exists exactly when every step parses |
| Lenses.RunSucceeds | 2023/15/src/lib.rs:16-31 | the steps run to the end exactly when every step parses as `name-` or `name=focal`, whatever the boxes hold |

## Left out

- The stdin, file and printing parts of every `main`, and every benchmark, are not modelled. The models start from the text they would read, or from already parsed values. `Dance.Solve` takes the file's contents, or no contents for a failed `fopen`.
- Integer widths. The Rust models use unbounded integers for the source's `i64`, `i32`, `u64` and `usize` values, so add, multiply and subtract overflow is not modelled. Neither are the overflow panics of a debug build, nor the wrap-around of a release build. This covers:
  - the Intcode tape and registers (2019/vm/src/lib.rs:27-30, 75-86);
  - the assembunny registers and the jit's multiply-add;
  - the range bounds of `RangeMap` and `Workflows`;
  - the sums and products of `PacketDecoder` values;
  - the `u64` totals of `Equations`;
  - the `u8` leaves of `Snailfish` under `add_left`/`add_right`;
  - the `u32` sums of `Trebuchet`;
  - the scores of `Rps`, `Bingo` and `Lenses`.

  Widths are written out where the source relies on them or bounds a value: the dance key, the HASH byte, the `u64` bit words, the `ThreeBit` registers, the `Password` bytes, the `i8` levels of `Reports`, and parse limits such as `I64Max`.
- Dance.ParseNumber: reads only a plain run of decimal digits. The source's `fscanf("%i")` also accepts a leading sign, leading white space, octal with a leading `0` (`x010/1` is an exchange with 8) and hexadecimal with `0x` (`s0x3`). The model answers `Malformed` to all of these.
- Dance.Compile: answers `Malformed` for two inputs that have undefined behaviour in C under day16.c:54-87:
  - a spin of more than 16, which writes past the end of the remap table;
  - an exchange with exactly one position of 16 or more, such as `x3/20`, whose table sends the other position off the line, so a later round reads past the end of the line.

  An exchange with both positions off the line, such as `x20/30`, is well defined: no index matches, the table is the identity, and the model compiles it to the identity as well.
- Dance.ParseToken: answers `Malformed` to an exchange or partner field without `/`. The C code (day16.c:68-96) then leaves the second field unread and uninitialised, which is undefined behaviour.
- Dance.SolveIsIterate: requires `WellFormed`, so every partner letter lies in `a`..`p`. The 4-bit key of day16.c:15-32 keeps only the low four bits of a letter's offset, so any other letter would alias one of the sixteen. The source's answer for such a dance is not modelled.
- Intcode.Run: the `assert!(!self.blocked())` of `run` becomes the error `Blocked`, not a panic. `Vm::from_str`, `peek` and `poke` (2019/vm/src/lib.rs:34-40, 145-151) are not modelled.
- Fuel. The loops that may not end take a `fuel` bound, and running out of fuel is an error value, not divergence. Such a loop is modelled only up to its bound; the bounded members are:
  - `Intcode.Run`;
  - `Assembunny.Run`;
  - `ThreeBit.Run`;
  - `Snailfish.Reduce` and `Snailfish.Add`;
  - `Workflows.Route` and `Workflows.Drain`;
  - `Password.FindValid` and `Password.Solve`.
- Assembunny.Run: steps with the corrected `Assembunny.Apply`, whose forward literal jump is a plain jump. The source divides by zero there (see Findings).
- Packets.FromStr: parses with the corrected `Packets.Parse`, which answers `Malformed` to an unclosed list. The source panics there (see Findings).
- Workflows.Spread: splits boxes with `Workflows.CheckRangeClamped`, which clamps the threshold to the box. 2023/19/src/lib.rs:220 calls the unclamped `check_range` (see Findings).
- Util2024.Display: prints `W` for west. 2024/util/src/lib.rs:490 prints `N` (see Findings).
- RegOps.Candidates: requires all three operands below 4. In the source an operand of 4 or more panics in whichever operation reads it. Narrowing the table of opcode numbers to operations and running the final program (2018/day16/src/main.rs:109-134) are not modelled.
- The 2024/17 `Writer` and the z3 query in `solve` (2024/17/src/lib.rs:135-322) are not modelled: they build an SMT problem and run an external solver.
- The callers of `RangeMap` in the 2023/05 `solve` are not modelled.
- The worked answers of 2023/19 (19114 and 167409079868000, 2023/19/src/lib.rs:272-274) and of 2024/05 (143 and 123, 2024/05/src/lib.rs:103) are not proved. Their inputs are too large to evaluate in a proof. The operations they exercise are modelled, with the properties above.
- The 2024 utilities `Grid` (2024/util/src/lib.rs:61-120) and `GridSet` (198-232) are not part of the core and are not modelled.
- DenseGrid: `bounds` and `iter` are not modelled. They only enumerate what `get` already answers.
- Util2024.Get, Util2024.Set, Util2024.Insert: require `i < size`. The source's `assert!(i < self.size)` (2024/util/src/lib.rs:139, 144) panics instead; the panic is not modelled.
- Util2024.GetIndex, Util2024.InsertTuple, Util2024.Contains: require the tuple to be in bounds. The source's `assert!` in `get_index` (2024/util/src/lib.rs:256) panics on a coordinate past its size; the panic is not modelled.
- Bingo.Mark, Bingo.MarkSetsOneCell, Bingo.MarkWinsOnBingo, Bingo.ReportFits, Bingo.MarkScore: require a board that is not yet done. The source's `assert!(!self.done)` (2021/04/src/main.rs:14) panics when a finished board is marked; the panic is not modelled, and `main` never marks a finished board.
- Text.Lines: follows Rust's `str::lines`. A line ended by `\n` loses one trailing `\r`, and a last line without `\n` keeps it. Unicode line separators are not line breaks, as in Rust.
- Bingo: reading the drawn numbers and the boards in `main` is not modelled. The model starts from parsed boards.
- 2022/09's `main` prints "Part 1" for both answers. Only the printing is affected; both runs are modelled by `Rope.Run`.

## Findings

| source | as written | input that shows it | evidently intended | confidence | as-written member | corrected member |
|---|---|---|---|---|---|---|
| 2016/assembunny/src/lib.rs:115-129 | A taken `jnz` with a literal offset always calls `jit(target, ip)`. For a forward jump the region `target..ip` is empty, so the counted change of the loop register is 0, and line 122 divides by it. | `jnz a 2` with register `a` nonzero | a forward jump is an ordinary jump, as when the region is not a counting loop | not executed | Assembunny.ForwardJumpAsWritten | Assembunny.ForwardJumpCorrected |
| 2022/13/src/main.rs:17-22 | After a nested list, the parser calls `split_at(1)` on the text that follows it without checking that any is left, so a list that is never closed panics | `[1` | the `Missing closing` error of line 21 | not executed | Packets.UnclosedPanics | Packets.Parse |
| 2023/19/src/lib.rs:81-101 | `check_range` builds the accepted half from the threshold without clamping it to the box, so the accepted half can reach outside the box and the part count grows | `x<20` on a box with `x` in `1..10` | the two halves split the box: the parts that pass and the parts that fail | not executed | Workflows.UnclampedWidens | Workflows.ClampedPartitions |
| 2024/util/src/lib.rs:481-494 | `Display` prints `N` for `Dir::W` | `Dir::W` | `W` for west | not executed | Util2024.DisplayAsWrittenCollides | Util2024.DisplayInjective |

=== FILE: arith.dfy ===
/** Facts about integer multiplication, division and remainder that the
    solver does not find on its own. */
module Arith {

  lemma {:induction false} MulAtLeast(d: nat, s: nat)
    requires d >= 1
    ensures d * s >= s
    decreases d
  {
    if d > 1 {
      MulAtLeast(d - 1, s);
      assert d * s == (d - 1) * s + s;
    }
  }

  /** The only multiple of `s` strictly between `-s` and `s` is zero. */
  lemma MulBand(d: int, s: int)
    requires s > 0 && -s < d * s < s
    ensures d == 0
  {
    if d > 0 {
      MulAtLeast(d, s);
    } else if d < 0 {
      assert (-d) * s == -(d * s);
      MulAtLeast(-d, s);
    }
  }

  /** Division and remainder undo `x * s + r` for a remainder below `s`. */
  lemma {:induction false} DivMod(x: nat, s: nat, r: nat)
    requires r < s
    ensures (x * s + r) / s == x && (x * s + r) % s == r
  {
    var y := x * s + r;
    var q := y / s;
    var m := y % s;
    assert y == q * s + m;
    assert (x - q) * s == m - r;
    MulBand(x - q, s);
  }

  lemma DivSmall(v: nat, p: nat)
    requires v < p
    ensures v / p == 0
  {
  }

  lemma DivBound(v: nat, p: nat, s: nat)
    requires s > 0 && v < p * s
    ensures v / s < p
  {
  }

  /** `x * s + r` stays below `p * s` when `x < p` and `r < s`. */
  lemma {:induction false} MulAddBound(x: nat, p: nat, s: nat, r: nat)
    requires x < p && r < s
    ensures x * s + r < p * s
  {
    MulAtLeast(p - x, s);
    assert p * s == x * s + (p - x) * s;
  }

  /** Quotient rounded toward zero, as Rust and C divide. */
  function TDiv(a: int, b: nat): (q: int)
    requires b > 0
    ensures a >= 0 ==> q == a / b
    ensures a < 0 ==> q == -((-a) / b)
  {
    if a >= 0 then a / b else -((-a) / b)
  }

  /** Remainder that takes the sign of the dividend, as Rust's `%`. */
  function TRem(a: int, b: nat): (r: int)
    requires b > 0
    ensures a == TDiv(a, b) * b + r
    ensures a >= 0 ==> r == a % b
    ensures a < 0 ==> -(b as int) < r <= 0
  {
    a - TDiv(a, b) * b
  }

  /** Truncating quotient for a divisor of either sign. */
  function TDivSigned(a: int, b: int): (q: int)
    requires b != 0
    ensures b > 0 ==> q == TDiv(a, b)
    ensures b < 0 ==> q == -TDiv(a, -b)
  {
    if b > 0 then TDiv(a, b) else -TDiv(a, -b)
  }

  /** Rounding a multiple of `m` up to a multiple of `m` changes nothing. */
  lemma CeilOfMultiple(v: nat, m: nat)
    requires m > 0 && v % m == 0
    ensures TDiv(v + m - 1, m) * m == v
  {
    var q := v / m;
    assert v == q * m;
    DivMod(q, m, m - 1);
    assert v + m - 1 == q * m + (m - 1);
  }

  /** Adding a multiple of `n` does not change the remainder. */
  lemma ModShift(y: int, k: int, n: int)
    requires n > 0
    ensures (k * n + y) % n == y % n
  {
    var r1, r2 := (k * n + y) % n, y % n;
    var q1, q2 := (k * n + y) / n, y / n;
    assert (k + q2 - q1) * n == r1 - r2;
    MulBand(k + q2 - q1, n);
  }

  /** An addend may be reduced modulo `n` before adding. */
  lemma ModAdd(x: int, y: int, n: int)
    requires n > 0
    ensures (x % n + y) % n == (x + y) % n
  {
    var q := x / n;
    assert q * n + (x % n + y) == x + y;
    ModShift(x % n + y, q, n);
  }

  /** A factor may be reduced modulo `n` before multiplying. */
  lemma ModMul(u: int, x: int, n: int)
    requires n > 0
    ensures (u % n) * x % n == u * x % n
  {
    var q := u / n;
    assert u * x == (q * x) * n + (u % n) * x;
    ModShift((u % n) * x, q * x, n);
  }

  /** `usize` wrap-around of an `as usize` cast from a 64-bit value. */
  function AsUsize(v: int): (u: nat)
    ensures 0 <= v < 0x1_0000_0000_0000_0000 ==> u == v
  {
    v % 0x1_0000_0000_0000_0000
  }
}

=== FILE: assembunny.dfy ===
/** The assembunny interpreter of 2016 (2016/assembunny/src/lib.rs): four
    registers `a`..`d`, five instructions, self-modification through `tgl`,
    and a loop optimiser (`jit`) that replaces a backward `jnz` over a run of
    `inc`/`dec` instructions by one multiplication per register. */
module Assembunny {
  import opened Wrappers
  import opened Text
  import opened Arith

  type RegIndex = r: nat | r < 4

  /** Four signed registers. */
  type Regs = rs: seq<int> | |rs| == 4 witness [0, 0, 0, 0]

  datatype Value = Lit(n: int) | Reg(r: RegIndex)

  datatype Instr =
    | Cpy(a: Value, b: Value)
    | Inc(a: Value)
    | Dec(a: Value)
    | Jnz(a: Value, b: Value)
    | Tgl(a: Value)

  datatype Vm = Vm(instrs: seq<Instr>, ip: int, regs: Regs)

  /** A panic of the source, or the fuel bound of `Run`. */
  datatype Fault = IndexPanic | UnwrapPanic | DivideByZero | OutOfFuel

  /** Why a line is not an instruction: an unknown mnemonic is skipped by the
      program parser, a missing operand panics (`args[i]` out of bounds). */
  datatype ParseFault = NotAnInstruction | MissingOperand

  // ----------------------------------------------------------------- parsing

  /** `Value::from_str`: an `i32` literal, else one letter `a`..`d`. */
  function ParseValue(s: string): (r: Option<Value>)
    ensures r.Some? && r.value.Lit? ==> I32Min <= r.value.n <= I32Max
    ensures |s| == 1 && 'a' <= s[0] <= 'd' ==> r == Some(Reg(s[0] as int - 'a' as int))
    ensures |s| != 1 && (|s| == 0 || !IsDigit(s[|s| - 1])) ==> r.None?
  {
    match ParseInt(s, I32Min, I32Max)
    case Some(i) => Some(Lit(i))
    case None =>
      if |s| == 1 && 'a' <= s[0] <= 'd' then Some(Reg(s[0] as int - 'a' as int)) else None
  }

  function RenderValue(v: Value): string {
    match v
    case Lit(n) => IntToString(n)
    case Reg(r) => [('a' as int + r) as char]
  }

  /** Every operand the parser can produce reads back from its rendering. */
  lemma ParseValueOfRender(v: Value)
    requires v.Lit? ==> I32Min <= v.n <= I32Max
    ensures ParseValue(RenderValue(v)) == Some(v)
  {
    if v.Lit? {
      ParseIntOfString(v.n, I32Min, I32Max);
    } else {
      var s := RenderValue(v);
      assert ParseNat(s, I32Max).None?;
    }
  }

  /** The `filter_map`: operands that do not parse are dropped silently. */
  function ParseOperands(pieces: seq<string>): (vs: seq<Value>)
    ensures |vs| <= |pieces|
  {
    if |pieces| == 0 then []
    else
      match ParseValue(pieces[0])
      case Some(v) => [v] + ParseOperands(pieces[1..])
      case None => ParseOperands(pieces[1..])
  }

  /** `Instruction::from_str` on one line split at spaces. */
  function ParseInstr(line: string): (r: Result<Instr, ParseFault>)
    ensures r.Ok? ==> Split(line, ' ')[0] in {"cpy", "inc", "dec", "jnz", "tgl"}
    ensures Split(line, ' ')[0] !in {"cpy", "inc", "dec", "jnz", "tgl"} ==> r == Err(NotAnInstruction)
  {
    var pieces := Split(line, ' ');
    var op := pieces[0];
    var args := ParseOperands(pieces[1..]);
    if op == "cpy" then (if |args| < 2 then Err(MissingOperand) else Ok(Cpy(args[0], args[1])))
    else if op == "inc" then (if |args| < 1 then Err(MissingOperand) else Ok(Inc(args[0])))
    else if op == "dec" then (if |args| < 1 then Err(MissingOperand) else Ok(Dec(args[0])))
    else if op == "jnz" then (if |args| < 2 then Err(MissingOperand) else Ok(Jnz(args[0], args[1])))
    else if op == "tgl" then (if |args| < 1 then Err(MissingOperand) else Ok(Tgl(args[0])))
    else Err(NotAnInstruction)
  }

  /** `Vm::from_str` on the lines of a program: lines that are not
      instructions are skipped, a missing operand is a panic. */
  function ParseLines(lines: seq<string>): (r: Result<seq<Instr>, ParseFault>)
    ensures r.Ok? ==> |r.value| <= |lines|
    ensures r.Err? ==> r.error == MissingOperand
  {
    if |lines| == 0 then Ok([])
    else
      var rest :- ParseLines(lines[1..]);
      match ParseInstr(lines[0])
      case Ok(i) => Ok([i] + rest)
      case Err(NotAnInstruction) => Ok(rest)
      case Err(MissingOperand) => Err(MissingOperand)
  }

  function Load(s: string): Result<Vm, ParseFault> {
    var instrs :- ParseLines(Lines(s));
    Ok(Vm(instrs, 0, [0, 0, 0, 0]))
  }

  // ---------------------------------------------------------------- executing

  function Get(vm: Vm, v: Value): int {
    match v
    case Lit(n) => n
    case Reg(r) => vm.regs[r]
  }

  /** `tgl`'s rewrite of one instruction. */
  function Toggle(i: Instr): Instr {
    match i
    case Cpy(a, b) => Jnz(a, b)
    case Inc(a) => Dec(a)
    case Dec(a) => Inc(a)
    case Jnz(a, b) => Cpy(a, b)
    case Tgl(a) => Inc(a)
  }

  /** Result of `delta`: per-register counts, `None` when the region holds
      anything but `inc`/`dec`, or the panic of an index outside the tape. */
  datatype DeltaResult = Counts(d: Regs) | NotLinear | DeltaPanic

  function Bump(res: DeltaResult, a: Value, k: int): DeltaResult {
    match res
    case Counts(d) => if a.Reg? then Counts(d[a.r := d[a.r] + k]) else res
    case _ => res
  }

  /** `delta`: the net change of each register over instructions
      `start..end`, scanned from the top down as the source does, so that
      the first non-`inc`/`dec` from the top decides `NotLinear` before a
      lower out-of-range index can panic. */
  function Delta(instrs: seq<Instr>, start: int, end: int): (r: DeltaResult)
    ensures end <= start ==> r == Counts([0, 0, 0, 0])
    decreases end - start
  {
    if end <= start then Counts([0, 0, 0, 0])
    else
      var i := end - 1;
      if !(0 <= i < |instrs|) then DeltaPanic
      else
        match instrs[i]
        case Inc(a) => Bump(Delta(instrs, start, i), a, 1)
        case Dec(a) => Bump(Delta(instrs, start, i), a, -1)
        case _ => NotLinear
  }

  /** `jit(start, end)`: `end` is the `jnz` being run. A region of
      `inc`/`dec` is applied `iterations` times at once and `ip` stays
      on the `jnz`; any other region is an ordinary jump to `start`. */
  function Jit(vm: Vm, start: int, end: int): (r: Result<Vm, Fault>)
    requires 0 <= end < |vm.instrs|
    ensures Delta(vm.instrs, start, end) == NotLinear ==> r == Ok(vm.(ip := start))
    ensures r.Ok? && Delta(vm.instrs, start, end).Counts? ==> r.value.ip == vm.ip && r.value.instrs == vm.instrs
  {
    match Delta(vm.instrs, start, end)
    case DeltaPanic => Err(IndexPanic)
    case NotLinear => Ok(vm.(ip := start))
    case Counts(d) =>
      match vm.instrs[end]
      case Jnz(a, _) =>
        if a.Lit? then Err(UnwrapPanic)
        else
          var r := a.r;
          if d[r] == 0 then Err(DivideByZero)
          else
            var iterations := TDivSigned(vm.regs[r] + -d[r] - 1, -d[r]);
            Ok(vm.(regs := seq(4, i requires 0 <= i < 4 => vm.regs[i] + iterations * d[i])))
      case _ => Err(UnwrapPanic)
  }

  /** One instruction, with the loop optimiser applied only to backward
      jumps (see the findings of this model); `ApplyAsWritten` is the
      source's version. */
  function Apply(vm: Vm, i: Instr): (r: Result<Vm, Fault>)
    requires 0 <= vm.ip < |vm.instrs|
    ensures r.Ok? && !i.Tgl? ==> r.value.instrs == vm.instrs
    ensures r.Ok? ==> |r.value.instrs| == |vm.instrs|
  {
    match i
    case Cpy(a, b) =>
      var regs := if b.Reg? then vm.regs[b.r := Get(vm, a)] else vm.regs;
      Ok(vm.(regs := regs, ip := vm.ip + 1))
    case Inc(a) =>
      var regs := if a.Reg? then vm.regs[a.r := vm.regs[a.r] + 1] else vm.regs;
      Ok(vm.(regs := regs, ip := vm.ip + 1))
    case Dec(a) =>
      var regs := if a.Reg? then vm.regs[a.r := vm.regs[a.r] - 1] else vm.regs;
      Ok(vm.(regs := regs, ip := vm.ip + 1))
    case Jnz(a, b) =>
      if Get(vm, a) != 0 then
        var target := vm.ip + Get(vm, b);
        if b.Lit? && target < vm.ip then Jit(vm, target, vm.ip)
        else Ok(vm.(ip := target))
      else Ok(vm.(ip := vm.ip + 1))
    case Tgl(a) =>
      var target := vm.ip + Get(vm, a);
      var instrs := if 0 <= target < |vm.instrs| then vm.instrs[target := Toggle(vm.instrs[target])]
                    else vm.instrs;
      Ok(vm.(instrs := instrs, ip := vm.ip + 1))
  }

  /** `apply` exactly as written: every taken `jnz` with a literal offset
      goes through `jit`, forward offsets included. */
  function ApplyAsWritten(vm: Vm, i: Instr): (r: Result<Vm, Fault>)
    requires 0 <= vm.ip < |vm.instrs|
  {
    if i.Jnz? && Get(vm, i.a) != 0 && i.b.Lit? then Jit(vm, vm.ip + i.b.n, vm.ip)
    else Apply(vm, i)
  }

  predicate Running(vm: Vm) {
    0 <= vm.ip < |vm.instrs|
  }

  /** `run`: apply the instruction under `ip` until `ip`
      leaves the tape, for at most `fuel` instructions. */
  function Run(vm: Vm, fuel: nat): (r: Result<Vm, Fault>)
    ensures r.Ok? ==> !Running(r.value)
    ensures !Running(vm) ==> r == Ok(vm)
    decreases fuel
  {
    if !Running(vm) then Ok(vm)
    else if fuel == 0 then Err(OutOfFuel)
    else
      var next :- Apply(vm, vm.instrs[vm.ip]);
      Run(next, fuel - 1)
  }

  // --------------------------------------------------------------- properties

  /** `cpy` into a literal only moves `ip`. */
  lemma CpyToLiteral(vm: Vm, a: Value, n: int)
    requires Running(vm)
    ensures Apply(vm, Cpy(a, Lit(n))) == Ok(vm.(ip := vm.ip + 1))
  {
  }

  /** `tgl` swaps `inc`/`dec` and `cpy`/`jnz`, so toggling twice restores any
      instruction but `tgl`, which becomes `inc` and then `dec`. */
  lemma ToggleTwice(i: Instr)
    ensures !i.Tgl? ==> Toggle(Toggle(i)) == i
    ensures i.Tgl? ==> Toggle(Toggle(i)) == Dec(i.a)
    ensures Toggle(i).Cpy? || Toggle(i).Jnz? <==> i.Cpy? || i.Jnz?
  {
  }

  /** `tgl` rewrites exactly the targeted instruction when it is on the
      tape, nothing when it is not, and always moves on by one. */
  lemma TglTarget(vm: Vm, a: Value)
    requires Running(vm)
    ensures Apply(vm, Tgl(a)).Ok?
    ensures var t := vm.ip + Get(vm, a);
      var next := Apply(vm, Tgl(a)).value;
      && next.ip == vm.ip + 1 && next.regs == vm.regs
      && (forall k :: 0 <= k < |vm.instrs| && k != t ==> next.instrs[k] == vm.instrs[k])
      && (0 <= t < |vm.instrs| ==> next.instrs[t] == Toggle(vm.instrs[t]))
      && (!(0 <= t < |vm.instrs|) ==> next.instrs == vm.instrs)
  {
  }

  /** `jnz` on zero moves on by one. */
  lemma JnzOnZero(vm: Vm, a: Value, b: Value)
    requires Running(vm) && Get(vm, a) == 0
    ensures Apply(vm, Jnz(a, b)) == Ok(vm.(ip := vm.ip + 1))
    ensures ApplyAsWritten(vm, Jnz(a, b)) == Ok(vm.(ip := vm.ip + 1))
  {
  }

  /** A taken backward `jnz` over a region that is not only `inc`/`dec`
      falls back to an ordinary jump. */
  lemma JitFallsBack(vm: Vm, a: Value, k: int)
    requires Running(vm) && Get(vm, a) != 0 && k < 0
    requires Delta(vm.instrs, vm.ip + k, vm.ip) == NotLinear
    ensures Apply(vm, Jnz(a, Lit(k))) == Ok(vm.(ip := vm.ip + k))
    ensures ApplyAsWritten(vm, Jnz(a, Lit(k))) == Ok(vm.(ip := vm.ip + k))
  {
  }

  /** A taken `jnz` whose offset is a register is an ordinary jump. */
  lemma RegisterOffsetJumps(vm: Vm, a: Value, b: RegIndex)
    requires Running(vm) && Get(vm, a) != 0
    ensures Apply(vm, Jnz(a, Reg(b))) == Ok(vm.(ip := vm.ip + vm.regs[b]))
  {
  }

  /** When the counter's per-pass change divides its value, the optimised
      loop leaves the counter at exactly zero, so the `jnz` then falls
      through, as the unoptimised loop would. */
  lemma JitZeroesCounter(vm: Vm, start: int, r: RegIndex, off: int)
    requires Running(vm) && vm.instrs[vm.ip] == Jnz(Reg(r), Lit(off))
    requires Delta(vm.instrs, start, vm.ip).Counts?
    requires var d := Delta(vm.instrs, start, vm.ip).d;
      d[r] < 0 && vm.regs[r] > 0 && vm.regs[r] % (-d[r]) == 0
    ensures Jit(vm, start, vm.ip).Ok?
    ensures Jit(vm, start, vm.ip).value.regs[r] == 0
  {
    var d := Delta(vm.instrs, start, vm.ip).d;
    var m := -d[r];
    var v := vm.regs[r];
    CeilOfMultiple(v, m);
    var it := TDivSigned(v + -d[r] - 1, -d[r]);
    assert it * m == v;
    assert v + it * d[r] == v - it * m;
  }

  /** The three-instruction loop `inc x; dec y; jnz y -2` with `y > 0` adds
      `y` to `x` and clears `y` in one step, leaving `ip` on the
      `jnz`. */
  lemma AddLoop(vm: Vm, x: RegIndex, y: RegIndex)
    requires x != y && 2 <= vm.ip < |vm.instrs| && vm.regs[y] > 0
    requires vm.instrs[vm.ip - 2] == Inc(Reg(x)) && vm.instrs[vm.ip - 1] == Dec(Reg(y))
    requires vm.instrs[vm.ip] == Jnz(Reg(y), Lit(-2))
    ensures Apply(vm, Jnz(Reg(y), Lit(-2))).Ok?
    ensures var next := Apply(vm, Jnz(Reg(y), Lit(-2))).value;
      && next.regs[x] == vm.regs[x] + vm.regs[y] && next.regs[y] == 0
      && next.ip == vm.ip && next.instrs == vm.instrs
  {
    var p := vm.ip;
    assert Delta(vm.instrs, p - 2, p - 2) == Counts([0, 0, 0, 0]);
    var d1 := [0, 0, 0, 0][x := 1];
    assert Delta(vm.instrs, p - 2, p - 1) == Counts(d1);
    var d2 := d1[y := d1[y] - 1];
    assert Delta(vm.instrs, p - 2, p) == Counts(d2);
    assert d2[x] == 1 && d2[y] == -1;
    var v := vm.regs[y];
    assert TDivSigned(v + 1 - 1, 1) == v;
  }

  // ----------------------------------------------------------------- finding

  /** As written, a taken `jnz` with a forward literal offset (`jnz a 2`
      with `a` nonzero) reaches `jit` with an empty region, whose counts are
      all zero, and divides by zero. */
  lemma ForwardJumpAsWritten(vm: Vm, r: RegIndex, k: int)
    requires Running(vm) && vm.instrs[vm.ip] == Jnz(Reg(r), Lit(k))
    requires vm.regs[r] != 0 && k >= 0
    ensures ApplyAsWritten(vm, Jnz(Reg(r), Lit(k))) == Err(DivideByZero)
  {
  }

  /** The intended behaviour, which `Apply` has: the same instruction is an
      ordinary forward jump. */
  lemma ForwardJumpCorrected(vm: Vm, r: RegIndex, k: int)
    requires Running(vm) && vm.regs[r] != 0 && k >= 0
    ensures Apply(vm, Jnz(Reg(r), Lit(k))) == Ok(vm.(ip := vm.ip + k))
  {
  }

  /** Away from forward literal jumps the two versions agree. */
  lemma ApplyAgrees(vm: Vm, i: Instr)
    requires Running(vm)
    requires !(i.Jnz? && i.b.Lit? && i.b.n >= 0 && Get(vm, i.a) != 0)
    ensures ApplyAsWritten(vm, i) == Apply(vm, i)
  {
  }
}

=== FILE: bingo.dfy ===
/** Giant squid bingo (2021/04/src/main.rs): a board is 25 numbers in row
    order with one bit per cell in a `u32` for the cells marked so far, and
    wins once a whole row or column is marked. */
module Bingo {
  import opened Wrappers
  import opened Bits

  const Cells: nat := 25

  type U8 = x: nat | x < 256

  /** `bits` is the `u32` of marked cells as a natural number: only its low
      25 digits are ever set, so it never wraps. */
  datatype Board = Board(grid: seq<U8>, bits: nat, done: bool)

  predicate Valid(b: Board) {
    |b.grid| == Cells && b.bits < Pow2(Cells)
  }

  /** Cell `k` is marked: `bits & (1 << k)` is not zero. */
  predicate Marked(bits: nat, k: nat) {
    And(bits, Pow2(k)) != 0
  }

  /** The mask test reads binary digit `k`. */
  lemma MarkedIsBit(bits: nat, k: nat)
    ensures Marked(bits, k) <==> Bit(bits, k)
  {
    AndPow2(bits, k);
  }

  /** The cell in row `r`, column `c`. */
  function Cell(r: nat, c: nat): (k: nat)
    requires r < 5 && c < 5
    ensures k < Cells
  {
    5 * r + c
  }

  /** The reference rule: every cell of row `r`, or of column `c`, is
      marked. */
  predicate RowFull(bits: nat, r: nat)
    requires r < 5
  {
    forall c :: 0 <= c < 5 ==> Marked(bits, Cell(r, c))
  }

  predicate ColumnFull(bits: nat, c: nat)
    requires c < 5
  {
    forall r :: 0 <= r < 5 ==> Marked(bits, Cell(r, c))
  }

  predicate Bingo(bits: nat) {
    (exists r :: 0 <= r < 5 && RowFull(bits, r)) || (exists c :: 0 <= c < 5 && ColumnFull(bits, c))
  }

  /** The two masks `winning` starts from: the five lowest bits (row 0) and
      every fifth bit from bit 0 (column 0). */
  const RowMask: nat := 0x1F
  const ColumnMask: nat := 0x10_8421

  /** The ten masks `winning` tries: the row mask shifted by five per row,
      then the column mask shifted by one per column. */
  function WinMask(m: nat): nat
    requires m < 10
  {
    if m < 5 then Shl(RowMask, 5 * m) else Shl(ColumnMask, m - 5)
  }

  /** `winning`: some mask is wholly set. */
  predicate Winning(bits: nat) {
    exists m :: 0 <= m < 10 && And(bits, WinMask(m)) == WinMask(m)
  }

  /** Cell `j` of the row (`m < 5`) or column (`m - 5`) that mask `m` is
      meant to cover. */
  function LineCell(m: nat, j: nat): (k: nat)
    requires m < 10 && j < 5
    ensures k < Cells
  {
    if m < 5 then Cell(m, j) else Cell(j, m - 5)
  }

  /** `n` ones, and `n` ones five digits apart. */
  function Ones(n: nat): nat {
    if n == 0 then 0 else 1 + 2 * Ones(n - 1)
  }

  function EveryFifth(n: nat): nat {
    if n == 0 then 0 else 1 + Shl(EveryFifth(n - 1), 5)
  }

  lemma {:induction false} OnesBit(n: nat, k: nat)
    ensures Bit(Ones(n), k) <==> k < n
    decreases n
  {
    if n == 0 {
      ZeroBits(k);
    } else if k > 0 {
      assert (1 + 2 * Ones(n - 1)) / 2 == Ones(n - 1);
      OnesBit(n - 1, k - 1);
    }
  }

  lemma {:induction false} EveryFifthBit(n: nat, k: nat)
    ensures Bit(EveryFifth(n), k) <==> k % 5 == 0 && k < 5 * n
    decreases n
  {
    if n == 0 {
      ZeroBits(k);
    } else {
      FifthStep(EveryFifth(n - 1), k);
      if k >= 5 {
        EveryFifthBit(n - 1, k - 5);
      }
    }
  }

  /** One more one below a number shifted by five. */
  lemma FifthStep(e: nat, k: nat)
    ensures Bit(1 + Shl(e, 5), k) <==> k == 0 || (k >= 5 && Bit(e, k - 5))
  {
    var h := Shl(e, 4);
    ShlHalf(e, 5);
    OddBit(h, k);
    if k > 0 {
      ShlBit(e, 4, k - 1);
    }
  }

  /** The digits of `2 * h + 1`: a one, then the digits of `h`. */
  lemma OddBit(h: nat, k: nat)
    ensures Bit(2 * h + 1, k) <==> k == 0 || (k > 0 && Bit(h, k - 1))
  {
    if k > 0 {
      assert (2 * h + 1) / 2 == h;
    }
  }

  /** The two literal masks are five ones, and five ones five apart. */
  lemma MaskShapes()
    ensures RowMask == Ones(5) && ColumnMask == EveryFifth(5)
  {
    assert EveryFifth(1) == 1;
    assert EveryFifth(2) == 33;
    assert EveryFifth(3) == 1057;
    assert EveryFifth(4) == 33825;
  }

  /** Mask `m` has exactly the digits of its row or column set. */
  lemma WinMaskBit(m: nat, k: nat)
    requires m < 10
    ensures Bit(WinMask(m), k) <==> exists j :: 0 <= j < 5 && LineCell(m, j) == k
  {
    MaskShapes();
    if m < 5 {
      ShlBit(RowMask, 5 * m, k);
      if k >= 5 * m {
        OnesBit(5, k - 5 * m);
        if k - 5 * m < 5 {
          assert LineCell(m, k - 5 * m) == k;
        }
      }
    } else {
      ShlBit(ColumnMask, m - 5, k);
      if k >= m - 5 {
        EveryFifthBit(5, k - (m - 5));
        if (k - (m - 5)) % 5 == 0 && k - (m - 5) < 25 {
          assert LineCell(m, (k - (m - 5)) / 5) == k;
        }
      }
    }
  }

  /** Mask `m` is wholly set exactly when row `m`, or column `m - 5`, is
      full. */
  lemma MaskFull(bits: nat, m: nat)
    requires m < 10
    ensures And(bits, WinMask(m)) == WinMask(m) <==> if m < 5 then RowFull(bits, m) else ColumnFull(bits, m - 5)
  {
    MaskCovers(bits, m);
    forall j | 0 <= j < 5
      ensures LineCell(m, j) == if m < 5 then Cell(m, j) else Cell(j, m - 5)
    {
    }
    if m < 5 {
      assert (forall j :: 0 <= j < 5 ==> Marked(bits, LineCell(m, j))) <==> RowFull(bits, m);
    } else if forall j :: 0 <= j < 5 ==> Marked(bits, LineCell(m, j)) {
      var c := m - 5;
      forall r | 0 <= r < 5
        ensures Marked(bits, Cell(r, c))
      {
        assert LineCell(m, r) == Cell(r, c);
      }
    } else {
      var j :| 0 <= j < 5 && !Marked(bits, LineCell(m, j));
      assert !Marked(bits, Cell(j, m - 5));
    }
  }

  lemma MaskCovers(bits: nat, m: nat)
    requires m < 10
    ensures And(bits, WinMask(m)) == WinMask(m) <==> forall j :: 0 <= j < 5 ==> Marked(bits, LineCell(m, j))
  {
    var mask := WinMask(m);
    AndCovers(bits, mask);
    forall k: nat
      ensures Bit(mask, k) <==> exists j :: 0 <= j < 5 && LineCell(m, j) == k
    {
      WinMaskBit(m, k);
    }
    forall j | 0 <= j < 5
      ensures Marked(bits, LineCell(m, j)) <==> Bit(bits, LineCell(m, j))
    {
      MarkedIsBit(bits, LineCell(m, j));
    }
    if forall j :: 0 <= j < 5 ==> Marked(bits, LineCell(m, j)) {
      forall k: nat | Bit(mask, k)
        ensures Bit(bits, k)
      {
        var j :| 0 <= j < 5 && LineCell(m, j) == k;
      }
    } else {
      var j :| 0 <= j < 5 && !Marked(bits, LineCell(m, j));
      WinMaskBit(m, LineCell(m, j));
      assert Bit(mask, LineCell(m, j)) && !Bit(bits, LineCell(m, j));
    }
  }

  /** `winning` holds exactly when a row or a column is fully marked. */
  lemma WinningIsBingo(bits: nat)
    ensures Winning(bits) <==> Bingo(bits)
  {
    forall m | 0 <= m < 10
      ensures And(bits, WinMask(m)) == WinMask(m) <==> if m < 5 then RowFull(bits, m) else ColumnFull(bits, m - 5)
    {
      MaskFull(bits, m);
    }
    if Winning(bits) {
      var m :| 0 <= m < 10 && And(bits, WinMask(m)) == WinMask(m);
      if m >= 5 {
        assert ColumnFull(bits, m - 5);
      }
    }
    if Bingo(bits) {
      if r :| 0 <= r < 5 && RowFull(bits, r) {
        assert And(bits, WinMask(r)) == WinMask(r);
      } else {
        var c :| 0 <= c < 5 && ColumnFull(bits, c);
        assert And(bits, WinMask(c + 5)) == WinMask(c + 5);
      }
    }
  }

  /** `score`: the sum of the unmarked numbers. */
  function Score(b: Board): (s: nat)
    requires |b.grid| == Cells
    ensures s <= 255 * Cells
  {
    Unmarked(b.grid, b.bits, 0)
  }

  /** The unmarked numbers among cells `k..25`. */
  function Unmarked(grid: seq<U8>, bits: nat, k: nat): (s: nat)
    requires |grid| == Cells && k <= Cells
    ensures s <= 255 * (Cells - k)
    decreases Cells - k
  {
    if k == Cells then 0
    else (if Marked(bits, k) then 0 else grid[k]) + Unmarked(grid, bits, k + 1)
  }

  /** The first cell holding `i`, as `iter().position` finds it. */
  function Position(grid: seq<U8>, i: U8): (p: Option<nat>)
    ensures p.Some? ==> p.value < |grid| && grid[p.value] == i
    ensures p.Some? ==> forall j :: 0 <= j < p.value ==> grid[j] != i
    ensures p.None? ==> i !in grid
  {
    if |grid| == 0 then None
    else if grid[0] == i then Some(0)
    else
      match Position(grid[1..], i)
      case None => None
      case Some(j) => Some(j + 1)
  }

  /** The board after `mark`, and the score it reports. */
  datatype Marking = Marking(board: Board, win: Option<nat>)

  /** The bits after marking the cell `p` names, if any: `bits |= 1 << bit`. */
  function SetBit(bits: nat, p: Option<nat>): nat
    requires p.Some? ==> p.value < Cells
  {
    match p
    case None => bits
    case Some(bit) => Or(bits, Pow2(bit))
  }

  /** Marking keeps the bits inside the 25 low digits. */
  lemma SetBitBound(bits: nat, p: Option<nat>)
    requires bits < Pow2(Cells) && (p.Some? ==> p.value < Cells)
    ensures SetBit(bits, p) < Pow2(Cells)
  {
    if p.Some? {
      PowMonotone(p.value + 1, Cells);
      OrBound(bits, Pow2(p.value), Cells);
    }
  }

  /** The score a winning board reports: its unmarked sum times the number
      called. */
  function Report(score: nat, i: U8): nat {
    score * i
  }

  /** `mark`: set the bit of the first cell holding `i`; a board that now
      wins is done and reports its score times `i`. The source asserts the
      board is not done yet. */
  function Mark(b: Board, i: U8): (r: Marking)
    requires Valid(b) && !b.done
    ensures Valid(r.board) && r.board.grid == b.grid
    ensures r.board.bits == SetBit(b.bits, Position(b.grid, i))
    ensures r.win.Some? <==> r.board.done
    ensures r.board.done <==> Winning(r.board.bits)
    ensures r.win.Some? ==> r.win.value == Score(r.board) * i
  {
    SetBitBound(b.bits, Position(b.grid, i));
    var bits := SetBit(b.bits, Position(b.grid, i));
    var c := Board(b.grid, bits, false);
    if Winning(bits) then
      var score := Report(Score(c), i);
      Marking(c.(done := true), Some(score))
    else Marking(c, None)
  }

  /** `mark` marks the first cell holding `i` and no other. */
  lemma MarkSetsOneCell(b: Board, i: U8, k: nat)
    requires Valid(b) && !b.done
    ensures Marked(Mark(b, i).board.bits, k) <==> Marked(b.bits, k) || Position(b.grid, i) == Some(k)
  {
    SetBitMarks(b.bits, Position(b.grid, i), k);
  }

  lemma SetBitMarks(bits: nat, p: Option<nat>, k: nat)
    requires p.Some? ==> p.value < Cells
    ensures Marked(SetBit(bits, p), k) <==> Marked(bits, k) || p == Some(k)
  {
    MarkedIsBit(bits, k);
    MarkedIsBit(SetBit(bits, p), k);
    if p.Some? {
      OrBit(bits, Pow2(p.value), k);
      Pow2Bit(p.value, k);
    }
  }

  /** A board is done after `mark` exactly when a row or a column of it is
      full. */
  lemma MarkWinsOnBingo(b: Board, i: U8)
    requires Valid(b) && !b.done
    ensures Mark(b, i).board.done <==> Bingo(Mark(b, i).board.bits)
  {
    WinningIsBingo(Mark(b, i).board.bits);
  }

  /** The score a report carries fits the `u32` it is computed in. */
  lemma ReportFits(b: Board, i: U8)
    requires Valid(b) && !b.done
    ensures Mark(b, i).win.Some? ==> Mark(b, i).win.value < 0x1_0000_0000
  {
    var r := Mark(b, i);
    if r.win.Some? {
      var s := Score(r.board);
      assert s * i <= 6375 * 255 by {
        MulBound(s, 6375, i, 255);
      }
    }
  }

  lemma MulBound(a: nat, am: nat, b: nat, bm: nat)
    requires a <= am && b <= bm
    ensures a * b <= am * bm
  {
  }

  /** Marking a fresh cell lowers the score by its number; marking a
      marked one, or a number not on the board, leaves it. */
  lemma MarkScore(b: Board, i: U8)
    requires Valid(b) && !b.done
    ensures var c := Mark(b, i).board;
      Score(c) == Score(b) - match Position(b.grid, i)
        case Some(k) => if Marked(b.bits, k) then 0 else i
        case None => 0
  {
    var c := Mark(b, i).board;
    forall k | 0 <= k < Cells
      ensures Marked(c.bits, k) <==> Marked(b.bits, k) || Position(b.grid, i) == Some(k)
    {
      MarkSetsOneCell(b, i, k);
    }
    UnmarkedDiff(b, c, Position(b.grid, i), 0);
  }

  lemma {:induction false} UnmarkedDiff(b: Board, c: Board, p: Option<nat>, k: nat)
    requires Valid(b) && Valid(c) && c.grid == b.grid && k <= Cells
    requires forall j :: 0 <= j < Cells ==> (Marked(c.bits, j) <==> Marked(b.bits, j) || p == Some(j))
    ensures Unmarked(c.grid, c.bits, k) == Unmarked(b.grid, b.bits, k) - match p
      case Some(j) => if k <= j < Cells && !Marked(b.bits, j) then b.grid[j] else 0
      case None => 0
    decreases Cells - k
  {
    if k < Cells {
      UnmarkedDiff(b, c, p, k + 1);
    }
  }

  // ------------------------------------------------------------------ game

  /** One board hearing a number: skipped once done, otherwise marked, with
      the report it makes if it now wins. */
  function Hear(b: Board, i: U8): (r: (Board, seq<nat>))
    requires Valid(b)
    ensures Valid(r.0) && r.0.grid == b.grid
    ensures b.done ==> r == (b, [])
    ensures r.0.done <==> b.done || |r.1| == 1
    ensures |r.1| <= 1
  {
    if b.done then (b, [])
    else
      var m := Mark(b, i);
      (m.board, if m.win.Some? then [m.win.value] else [])
  }

  /** One number called: every board not yet done is marked in order, and
      the scores of the boards that win are reported in that order. */
  function Call(boards: seq<Board>, i: U8): (r: (seq<Board>, seq<nat>))
    requires forall k :: 0 <= k < |boards| ==> Valid(boards[k])
    ensures |r.0| == |boards|
    ensures forall k :: 0 <= k < |boards| ==> Valid(r.0[k]) && r.0[k].grid == boards[k].grid
    ensures forall k :: 0 <= k < |boards| && boards[k].done ==> r.0[k] == boards[k]
    ensures Done(r.0) == Done(boards) + |r.1|
  {
    if |boards| == 0 then ([], [])
    else
      var (rest, wins) := Call(boards[1..], i);
      var (b, report) := Hear(boards[0], i);
      ([b] + rest, report + wins)
  }

  /** How many boards are done. */
  function Done(boards: seq<Board>): (n: nat)
    ensures n <= |boards|
  {
    if |boards| == 0 then 0 else (if boards[0].done then 1 else 0) + Done(boards[1..])
  }

  /** `main`'s loop: call every number and collect the reports. */
  function Game(boards: seq<Board>, nums: seq<U8>): (r: (seq<Board>, seq<nat>))
    requires forall k :: 0 <= k < |boards| ==> Valid(boards[k])
    ensures |r.0| == |boards|
    ensures forall k :: 0 <= k < |boards| ==> Valid(r.0[k])
    ensures Done(r.0) == Done(boards) + |r.1|
    decreases |nums|
  {
    if |nums| == 0 then (boards, [])
    else
      var (next, wins) := Call(boards, nums[0]);
      var (last, later) := Game(next, nums[1..]);
      (last, wins + later)
  }

  /** Each board wins at most once, so there are never more reports than
      boards: part one's answer is the first, part two's the last. */
  lemma AtMostOneWinEach(boards: seq<Board>, nums: seq<U8>)
    requires forall k :: 0 <= k < |boards| ==> Valid(boards[k]) && !boards[k].done
    ensures |Game(boards, nums).1| <= |boards|
  {
    NoneDone(boards);
  }

  lemma {:induction false} NoneDone(boards: seq<Board>)
    requires forall k :: 0 <= k < |boards| ==> !boards[k].done
    ensures Done(boards) == 0
  {
    if |boards| > 0 {
      NoneDone(boards[1..]);
    }
  }
}

=== FILE: bits.dfy ===
/** Bitwise operations on naturals, defined one binary digit at a time, and
    their agreement with the digit-wise definitions. */
module Bits {
  import opened Arith

  /** Binary digit `k` of `x`. */
  predicate Bit(x: nat, k: nat)
    decreases k
  {
    if k == 0 then x % 2 == 1 else Bit(x / 2, k - 1)
  }

  function Pow2(k: nat): (p: nat)
    ensures p >= 1
  {
    if k == 0 then 1 else 2 * Pow2(k - 1)
  }

  function Xor(x: nat, y: nat): nat
    decreases x + y
  {
    if x == 0 then y
    else if y == 0 then x
    else 2 * Xor(x / 2, y / 2) + (x % 2 + y % 2) % 2
  }

  function And(x: nat, y: nat): nat
    decreases x + y
  {
    if x == 0 || y == 0 then 0
    else 2 * And(x / 2, y / 2) + (if x % 2 == 1 && y % 2 == 1 then 1 else 0)
  }

  function Or(x: nat, y: nat): nat
    decreases x + y
  {
    if x == 0 then y
    else if y == 0 then x
    else 2 * Or(x / 2, y / 2) + (if x % 2 == 1 || y % 2 == 1 then 1 else 0)
  }

  lemma {:induction false} ZeroBits(k: nat)
    ensures !Bit(0, k)
    decreases k
  {
    if k > 0 {
      ZeroBits(k - 1);
    }
  }

  /** Digit `k` of an exclusive or is the exclusive or of the digits. */
  lemma {:induction false} XorBit(x: nat, y: nat, k: nat)
    ensures Bit(Xor(x, y), k) == (Bit(x, k) != Bit(y, k))
    decreases k
  {
    if x == 0 {
      ZeroBits(k);
    } else if y == 0 {
      ZeroBits(k);
    } else if k > 0 {
      XorBit(x / 2, y / 2, k - 1);
    }
  }

  /** Digit `k` of an and is the conjunction of the digits. */
  lemma {:induction false} AndBit(x: nat, y: nat, k: nat)
    ensures Bit(And(x, y), k) == (Bit(x, k) && Bit(y, k))
    decreases k
  {
    if x == 0 || y == 0 {
      ZeroBits(k);
    } else if k > 0 {
      AndBit(x / 2, y / 2, k - 1);
    }
  }

  /** Digit `k` of an or is the disjunction of the digits. */
  lemma {:induction false} OrBit(x: nat, y: nat, k: nat)
    ensures Bit(Or(x, y), k) == (Bit(x, k) || Bit(y, k))
    decreases k
  {
    if x == 0 {
      ZeroBits(k);
    } else if y == 0 {
      ZeroBits(k);
    } else if k > 0 {
      OrBit(x / 2, y / 2, k - 1);
    }
  }

  /** Exclusive or of two `k`-bit numbers is a `k`-bit number. */
  lemma {:induction false} XorBound(x: nat, y: nat, k: nat)
    requires x < Pow2(k) && y < Pow2(k)
    ensures Xor(x, y) < Pow2(k)
    decreases x + y
  {
    if x != 0 && y != 0 {
      XorBound(x / 2, y / 2, k - 1);
    }
  }

  lemma {:induction false} XorSelf(x: nat)
    ensures Xor(x, x) == 0
    decreases x
  {
    if x != 0 {
      XorSelf(x / 2);
    }
  }

  lemma {:induction false} AndBelow(x: nat, y: nat)
    ensures And(x, y) <= x && And(x, y) <= y
    decreases x + y
  {
    if x != 0 && y != 0 {
      AndBelow(x / 2, y / 2);
    }
  }

  lemma {:induction false} OrAbove(x: nat, y: nat)
    ensures Or(x, y) >= x && Or(x, y) >= y
    decreases x + y
  {
    if x != 0 && y != 0 {
      OrAbove(x / 2, y / 2);
    }
  }

  lemma {:induction false} PowAdd(m: nat, n: nat)
    ensures Pow2(m + n) == Pow2(m) * Pow2(n)
    decreases m
  {
    if m > 0 {
      PowAdd(m - 1, n);
    }
  }

  lemma {:induction false} PowMonotone(m: nat, n: nat)
    requires m <= n
    ensures Pow2(m) <= Pow2(n)
    decreases n
  {
    if m < n {
      PowMonotone(m, n - 1);
    }
  }

  /** Halving then dividing by `p` is dividing by `2 * p`. */
  lemma DivTwice(x: nat, a: nat, b: nat)
    requires a > 0 && b > 0
    ensures x / a / b == x / (a * b)
  {
    var q, r := x / a, x % a;
    var t, s := q / b, q % b;
    assert x == q * a + r;
    assert q == t * b + s;
    assert x == t * (a * b) + (s * a + r) by {
      assert q * a == t * b * a + s * a;
    }
    MulAddBound(s, b, a, r);
    assert b * a == a * b;
    DivMod(t, a * b, s * a + r);
  }

  /** The low `k + 1` binary digits: the lowest digit, then the next `k`. */
  lemma ModDouble(y: nat, p: nat)
    requires p > 0
    ensures y % (2 * p) == 2 * ((y / 2) % p) + y % 2
  {
    var h, r0 := y / 2, y % 2;
    var t, s := h / p, h % p;
    assert y == t * (2 * p) + (2 * s + r0) by {
      assert y == 2 * h + r0;
      assert h == t * p + s;
    }
    DivMod(t, 2 * p, 2 * s + r0);
  }

  /** And-ing with `2^k - 1` keeps the low `k` digits. */
  lemma {:induction false} AndLowMask(y: nat, k: nat)
    ensures And(y, Pow2(k) - 1) == Low(y, k)
    decreases k
  {
    if k > 0 {
      var mask := Pow2(k) - 1;
      assert mask / 2 == Pow2(k - 1) - 1 && mask % 2 == 1;
      AndLowMask(y / 2, k - 1);
    }
  }

  /** Digit `k` is the parity of the quotient by `2^k`. */
  lemma {:induction false} BitIsDiv(x: nat, k: nat)
    ensures Bit(x, k) == (x / Pow2(k) % 2 == 1)
    decreases k
  {
    if k > 0 {
      BitIsDiv(x / 2, k - 1);
      DivTwice(x, 2, Pow2(k - 1));
    }
  }

  /** `x` shifted right by `k` digits. */
  function Shr(x: nat, k: nat): nat
    decreases k
  {
    if k == 0 then x else Shr(x / 2, k - 1)
  }

  /** The low `k` digits of `x`. */
  function Low(x: nat, k: nat): nat
    decreases k
  {
    if k == 0 then 0 else 2 * Low(x / 2, k - 1) + x % 2
  }

  lemma {:induction false} ShrIsDiv(x: nat, k: nat)
    ensures Shr(x, k) == x / Pow2(k)
    decreases k
  {
    if k > 0 {
      ShrIsDiv(x / 2, k - 1);
      DivTwice(x, 2, Pow2(k - 1));
    }
  }

  lemma {:induction false} LowIsMod(x: nat, k: nat)
    ensures Low(x, k) == x % Pow2(k)
    decreases k
  {
    if k > 0 {
      LowIsMod(x / 2, k - 1);
      ModDouble(x, Pow2(k - 1));
    }
  }

  /** One more shift halves, and digit `k` is the parity of the shift. */
  /** The low `n` digits are digit `n - 1` above the low `n - 1`. */
  lemma {:induction false} LowTop(x: nat, n: nat)
    requires n > 0
    ensures Low(x, n) == Shl(if Bit(x, n - 1) then 1 else 0, n - 1) + Low(x, n - 1)
    decreases n
  {
    if n > 1 {
      var f := if Bit(x, n - 1) then 1 else 0;
      LowTop(x / 2, n - 1);
      ShlShl(f, n - 2, 1);
    }
  }

  /** A number below `2^k` is its own low `k` digits. */
  lemma {:induction false} LowOfSmall(x: nat, k: nat)
    requires x < Pow2(k)
    ensures Low(x, k) == x
    decreases k
  {
    if k > 0 {
      LowOfSmall(x / 2, k - 1);
    }
  }

  lemma {:induction false} ShrStep(x: nat, k: nat)
    ensures Shr(x, k + 1) == Shr(x, k) / 2
    ensures Bit(x, k) == (Shr(x, k) % 2 == 1)
    decreases k
  {
    if k > 0 {
      ShrStep(x / 2, k - 1);
    }
  }

  /** `x` shifted left by `k` digits. */
  function Shl(x: nat, k: nat): nat
    decreases k
  {
    if k == 0 then x else Shl(2 * x, k - 1)
  }

  lemma {:induction false} ShlIsMul(x: nat, k: nat)
    ensures Shl(x, k) == x * Pow2(k)
    decreases k
  {
    if k > 0 {
      ShlIsMul(2 * x, k - 1);
    }
  }

  lemma {:induction false} ShlAdd(x: nat, y: nat, k: nat)
    ensures Shl(x + y, k) == Shl(x, k) + Shl(y, k)
    decreases k
  {
    if k > 0 {
      ShlAdd(2 * x, 2 * y, k - 1);
    }
  }

  lemma {:induction false} ShlShl(x: nat, m: nat, n: nat)
    ensures Shl(Shl(x, m), n) == Shl(x, m + n)
    decreases m
  {
    if m > 0 {
      ShlShl(2 * x, m - 1, n);
    }
  }

  lemma {:induction false} ShlGrows(x: nat, k: nat)
    ensures Shl(x, k) >= x
    decreases k
  {
    if k > 0 {
      ShlGrows(2 * x, k - 1);
    }
  }

  /** Or-ing a `k`-digit number into a shift by `k` adds. */
  lemma {:induction false} OrShl(x: nat, a: nat, k: nat)
    requires a < Pow2(k)
    ensures Or(Shl(x, k), a) == Shl(x, k) + a
    decreases k
  {
    if k > 0 {
      var h := Shl(x, k - 1);
      ShlHalf(x, k);
      if h != 0 && a != 0 {
        assert (2 * h) / 2 == h && (2 * h) % 2 == 0;
        OrShl(x, a / 2, k - 1);
      }
    }
  }

  lemma {:induction false} ShlHalf(x: nat, k: nat)
    requires k > 0
    ensures Shl(x, k) == 2 * Shl(x, k - 1)
    decreases k
  {
    if k > 1 {
      ShlHalf(2 * x, k - 1);
    }
  }

  /** And with a single power of two picks that digit. */
  lemma {:induction false} AndPow2(x: nat, k: nat)
    ensures And(x, Pow2(k)) == if Bit(x, k) then Pow2(k) else 0
    decreases k
  {
    var p := Pow2(k);
    if x == 0 {
      ZeroBits(k);
    } else if k == 0 {
      assert And(x, 1) == 2 * And(x / 2, 0) + (if x % 2 == 1 then 1 else 0);
    } else {
      assert p / 2 == Pow2(k - 1) && p % 2 == 0;
      AndPow2(x / 2, k - 1);
      assert And(x, p) == 2 * And(x / 2, p / 2);
    }
  }

  lemma Pow2Of64()
    ensures Pow2(64) == 0x1_0000_0000_0000_0000
  {
    assert Pow2(16) == 0x1_0000 by {
      assert Pow2(8) == 0x100;
    }
    assert Pow2(32) == Pow2(16) * Pow2(16) by {
      PowAdd(16, 16);
    }
    assert Pow2(64) == Pow2(32) * Pow2(32) by {
      PowAdd(32, 32);
    }
  }

  /** Or of two `k`-bit numbers is a `k`-bit number. */
  lemma {:induction false} OrBound(x: nat, y: nat, k: nat)
    requires x < Pow2(k) && y < Pow2(k)
    ensures Or(x, y) < Pow2(k)
    decreases x + y
  {
    if x != 0 && y != 0 {
      OrBound(x / 2, y / 2, k - 1);
    }
  }

  /** A power of two has exactly one digit set. */
  lemma {:induction false} Pow2Bit(c: nat, k: nat)
    ensures Bit(Pow2(c), k) <==> c == k
    decreases c
  {
    if k > 0 {
      if c == 0 {
        ZeroBits(k - 1);
      } else {
        Pow2Bit(c - 1, k - 1);
      }
    }
  }

  /** Digit `k` of `x` shifted left by `s` is digit `k - s` of `x`. */
  lemma {:induction false} ShlBit(x: nat, s: nat, k: nat)
    ensures Bit(Shl(x, s), k) <==> k >= s && Bit(x, k - s)
    decreases s
  {
    if s > 0 {
      ShlBit(2 * x, s - 1, k);
      if k >= s - 1 && k - (s - 1) > 0 {
        assert (2 * x) / 2 == x;
      }
    }
  }

  /** A number with no digit set is zero. */
  lemma {:induction false} NoBitsIsZero(x: nat)
    requires forall k: nat :: !Bit(x, k)
    ensures x == 0
    decreases x
  {
    if x > 0 {
      assert !Bit(x, 0);
      forall k: nat
        ensures !Bit(x / 2, k)
      {
        assert !Bit(x, k + 1);
      }
      NoBitsIsZero(x / 2);
    }
  }

  /** And-ing with `m` gives `m` back exactly when every digit of `m` is set
      in `x`. */
  lemma AndCovers(x: nat, m: nat)
    ensures And(x, m) == m <==> forall k: nat :: Bit(m, k) ==> Bit(x, k)
  {
    if forall k: nat :: Bit(m, k) ==> Bit(x, k) {
      AndOfCovered(x, m);
    } else {
      var k: nat :| Bit(m, k) && !Bit(x, k);
      AndBit(x, m, k);
    }
  }

  lemma {:induction false} AndOfCovered(x: nat, m: nat)
    requires forall k: nat :: Bit(m, k) ==> Bit(x, k)
    ensures And(x, m) == m
    decreases m
  {
    if m > 0 {
      if x == 0 {
        forall k: nat
          ensures !Bit(m, k)
        {
          ZeroBits(k);
        }
        NoBitsIsZero(m);
      } else {
        forall k: nat | Bit(m / 2, k)
          ensures Bit(x / 2, k)
        {
          assert Bit(m, k + 1);
        }
        AndOfCovered(x / 2, m / 2);
        assert m % 2 == 1 ==> Bit(m, 0) && Bit(x, 0);
      }
    }
  }
}

=== FILE: dance.dfy ===
/** The permutation dance of 2017/day16.c: a line of sixteen programs named
    'a'..'p', a dance made of spins, exchanges and partner swaps, a pass that
    fuses runs of positional moves into one index permutation, one round of
    the dance, and the driver that memoises the successor of every line it
    has danced, keyed by a 4-bit-per-letter packing of the line. */
module Dance {
  import opened Wrappers
  import opened Text

  /** DANCE_SIZE: the letters 'a' to 'p'. */
  const Size: nat := 16
  /** The number of rounds the program dances. */
  const Reps: nat := 1_000_000_000

  type Line = seq<char>

  /** The line every dance starts from: "abcdefghijklmnop". */
  function Initial(): (l: Line)
    ensures |l| == Size && InRange(l)
  {
    seq(Size, i requires 0 <= i < Size => ('a' as int + i) as char)
  }

  /** A positional move as an index table: slot `j` of the new line takes
      the occupant of slot `remap[j]` of the old one. */
  predicate IsRemap(remap: seq<nat>, n: nat) {
    |remap| == n && forall j :: 0 <= j < n ==> remap[j] < n
  }

  /** A remap that is a bijection on `0..n`. */
  predicate IsPermutation(remap: seq<nat>, n: nat) {
    IsRemap(remap, n) && forall i, j :: 0 <= i < j < n ==> remap[i] != remap[j]
  }

  /** One dance move as written in the input. */
  datatype Token = Spin(count: nat) | Exchange(a: nat, b: nat) | Partner(p: char, q: char)

  /** One entry of the tape (`struct cmd`): a positional remap, or a partner
      swap that names two letters (`partner == true`). */
  datatype Cmd = Relabel(remap: seq<nat>) | PartnerSwap(a: char, b: char)

  /** `UnknownTag` is the `return -1` of an unrecognised move letter and
      `NoInput` the one of a failed `fopen`; `Malformed` stands for fields
      the C code reads into undefined behaviour (see README). */
  datatype DanceError = NoInput | UnknownTag(tag: char) | Malformed

  predicate ValidCmds(cmds: seq<Cmd>, n: nat) {
    forall k :: 0 <= k < |cmds| ==> (cmds[k].Relabel? ==> IsRemap(cmds[k].remap, n))
  }

  /** Every remap is a permutation and every partner letter names a program. */
  predicate WellFormed(cmds: seq<Cmd>, n: nat) {
    forall k :: 0 <= k < |cmds| ==>
      match cmds[k]
      case Relabel(r) => IsPermutation(r, n)
      case PartnerSwap(a, b) => IsLetter(a, n) && IsLetter(b, n)
  }

  predicate IsLetter(c: char, n: nat) {
    'a' as int <= c as int < 'a' as int + n
  }

  /** Every program in the line is one of 'a'..'p'. */
  predicate InRange(l: Line) {
    forall i :: 0 <= i < |l| ==> IsLetter(l[i], Size)
  }

  predicate Distinct(l: Line) {
    forall i, j :: 0 <= i < j < |l| ==> l[i] != l[j]
  }

  /** The dance-line invariant: `n` distinct programs drawn from the first
      `n` letters, i.e. an arrangement of them. */
  predicate IsArrangement(l: Line, n: nat) {
    |l| == n && Distinct(l) && forall i :: 0 <= i < n ==> IsLetter(l[i], n)
  }

  // ---------------------------------------------------------------- moves

  /** Executes a remap: `dance_[j] = dance[remap[j]]`. */
  function Apply(remap: seq<nat>, l: Line): (r: Line)
    requires IsRemap(remap, |l|)
    ensures |r| == |l|
  {
    seq(|remap|, j requires 0 <= j < |remap| => l[remap[j]])
  }

  /** The remap built for `s<k>`. */
  function SpinRemap(k: nat, n: nat): (r: seq<nat>)
    requires k <= n
    ensures IsRemap(r, n)
  {
    seq(n, i requires 0 <= i < n => if i < k then n - k + i else i - k)
  }

  /** The remap built for `x<a>/<b>`. When both positions are off the line
      no `i` matches either, and the table is the identity. */
  function ExchangeRemap(a: nat, b: nat, n: nat): (r: seq<nat>)
    requires (a < n) == (b < n)
    ensures IsRemap(r, n)
  {
    seq(n, i requires 0 <= i < n => if i == a then b else if i == b then a else i)
  }

  /** Spin: the last `k` programs move to the front, keeping their order. */
  lemma SpinMovesTail(k: nat, l: Line)
    requires k <= |l|
    ensures Apply(SpinRemap(k, |l|), l) == l[|l| - k..] + l[..|l| - k]
  {
  }

  lemma SpinIsPermutation(k: nat, n: nat)
    requires k <= n
    ensures IsPermutation(SpinRemap(k, n), n)
  {
  }

  /** Exchange: the programs at positions `a` and `b` trade places. */
  lemma ExchangeSwapsSlots(a: nat, b: nat, l: Line)
    requires a < |l| && b < |l|
    ensures Apply(ExchangeRemap(a, b, |l|), l) == l[a := l[b]][b := l[a]]
  {
  }

  lemma ExchangeIsPermutation(a: nat, b: nat, n: nat)
    requires (a < n) == (b < n)
    ensures IsPermutation(ExchangeRemap(a, b, n), n)
  {
  }

  /** An exchange of two positions both off the line leaves every program
      where it is. */
  lemma ExchangeOffLineKeeps(a: nat, b: nat, l: Line)
    requires a >= |l| && b >= |l|
    ensures Apply(ExchangeRemap(a, b, |l|), l) == l
  {
  }

  /** The partner scan of the C loop: walk the line once, turning `a` into
      `b` and `b` into `a`, and stop after two hits. */
  function PartnerScan(l: Line, a: char, b: char, j: nat, found: nat): (r: Line)
    requires j <= |l|
    ensures |r| == |l|
    decreases |l| - j
  {
    if j == |l| || found >= 2 then l
    else if l[j] == a then PartnerScan(l[j := b], a, b, j + 1, found + 1)
    else if l[j] == b then PartnerScan(l[j := a], a, b, j + 1, found + 1)
    else PartnerScan(l, a, b, j + 1, found)
  }

  function PartnerStep(l: Line, a: char, b: char): (r: Line)
    ensures |r| == |l|
  {
    PartnerScan(l, a, b, 0, 0)
  }

  /** Reference meaning of a partner move: the two letters trade places. */
  function SwapLetters(l: Line, a: char, b: char): (r: Line)
    ensures |r| == |l|
  {
    seq(|l|, j requires 0 <= j < |l| => if l[j] == a then b else if l[j] == b then a else l[j])
  }

  predicate AtMostOnce(l: Line, c: char) {
    forall i, j :: 0 <= i < j < |l| && l[i] == c ==> l[j] != c
  }

  /** Loop invariant of the partner scan: the prefix is already swapped, the
      suffix untouched, and `found` counts the named letters met so far. */
  lemma {:induction false} PartnerScanSwaps(orig: Line, cur: Line, a: char, b: char, j: nat, found: nat)
    requires j <= |orig| == |cur|
    requires AtMostOnce(orig, a) && AtMostOnce(orig, b)
    requires forall k :: 0 <= k < j ==> cur[k] == SwapLetters(orig, a, b)[k]
    requires forall k :: j <= k < |orig| ==> cur[k] == orig[k]
    requires found == (if a in orig[..j] then 1 else 0) + (if b != a && b in orig[..j] then 1 else 0)
    ensures PartnerScan(cur, a, b, j, found) == SwapLetters(orig, a, b)
    decreases |orig| - j
  {
    var sw := SwapLetters(orig, a, b);
    if j == |orig| {
      assert cur == sw;
    } else if found >= 2 {
      BothFound(orig, cur, a, b, j);
    } else {
      assert orig[..j + 1] == orig[..j] + [orig[j]];
      if cur[j] == a {
        FirstHit(orig, a, j);
        PartnerScanSwaps(orig, cur[j := b], a, b, j + 1, found + 1);
      } else if cur[j] == b {
        FirstHit(orig, b, j);
        PartnerScanSwaps(orig, cur[j := a], a, b, j + 1, found + 1);
      } else {
        PartnerScanSwaps(orig, cur, a, b, j + 1, found);
      }
    }
  }

  /** Once both letters have been met, the untouched suffix holds neither,
      so it is already swapped. */
  lemma BothFound(orig: Line, cur: Line, a: char, b: char, j: nat)
    requires j <= |orig| == |cur|
    requires AtMostOnce(orig, a) && AtMostOnce(orig, b)
    requires forall k :: 0 <= k < j ==> cur[k] == SwapLetters(orig, a, b)[k]
    requires forall k :: j <= k < |orig| ==> cur[k] == orig[k]
    requires a in orig[..j] && b in orig[..j]
    ensures cur == SwapLetters(orig, a, b)
  {
    var sw := SwapLetters(orig, a, b);
    var ia :| 0 <= ia < j && orig[..j][ia] == a;
    var ib :| 0 <= ib < j && orig[..j][ib] == b;
    assert orig[ia] == a && orig[ib] == b;
    forall k | j <= k < |orig|
      ensures cur[k] == sw[k]
    {
    }
  }

  /** A letter that occurs at most once is absent before its occurrence. */
  lemma FirstHit(l: Line, c: char, j: nat)
    requires AtMostOnce(l, c) && j < |l| && l[j] == c
    ensures c !in l[..j]
  {
    forall i | 0 <= i < j
      ensures l[..j][i] != c
    {
    }
  }

  /** A partner step swaps exactly the two named letters and nothing else
      changes, whenever each of them occurs at most once. */
  lemma PartnerStepSwaps(l: Line, a: char, b: char)
    requires AtMostOnce(l, a) && AtMostOnce(l, b)
    ensures PartnerStep(l, a, b) == SwapLetters(l, a, b)
  {
    assert l[..0] == [];
    PartnerScanSwaps(l, l, a, b, 0, 0);
  }

  function Step(c: Cmd, l: Line): (r: Line)
    requires c.Relabel? ==> IsRemap(c.remap, |l|)
    ensures |r| == |l|
  {
    match c
    case Relabel(remap) => Apply(remap, l)
    case PartnerSwap(a, b) => PartnerStep(l, a, b)
  }

  /** One round: every command of the tape, in order. */
  function Round(cmds: seq<Cmd>, l: Line): (r: Line)
    requires ValidCmds(cmds, |l|)
    ensures |r| == |l|
  {
    if |cmds| == 0 then l else Round(cmds[1..], Step(cmds[0], l))
  }

  /** `k` rounds danced one after another, without any memo table. */
  function Iterate(cmds: seq<Cmd>, l: Line, k: nat): (r: Line)
    requires ValidCmds(cmds, |l|)
    ensures |r| == |l|
    decreases k
  {
    if k == 0 then l else Iterate(cmds, Round(cmds, l), k - 1)
  }

  lemma {:induction false} RoundAppend(xs: seq<Cmd>, ys: seq<Cmd>, l: Line)
    requires ValidCmds(xs + ys, |l|)
    ensures ValidCmds(xs, |l|) && ValidCmds(ys, |l|)
    ensures Round(xs + ys, l) == Round(ys, Round(xs, l))
    decreases |xs|
  {
    assert forall k :: 0 <= k < |xs| ==> (xs + ys)[k] == xs[k];
    assert forall k :: 0 <= k < |ys| ==> (xs + ys)[|xs| + k] == ys[k];
    if |xs| == 0 {
      assert xs + ys == ys;
    } else {
      assert (xs + ys)[1..] == xs[1..] + ys;
      RoundAppend(xs[1..], ys, Step(xs[0], l));
    }
  }

  // ------------------------------------------------------------ arrangement

  lemma ApplyKeepsArrangement(remap: seq<nat>, l: Line, n: nat)
    requires IsPermutation(remap, n) && IsArrangement(l, n)
    ensures IsArrangement(Apply(remap, l), n)
  {
  }

  lemma SwapKeepsArrangement(l: Line, a: char, b: char, n: nat)
    requires IsArrangement(l, n) && IsLetter(a, n) && IsLetter(b, n)
    ensures IsArrangement(PartnerStep(l, a, b), n)
  {
    PartnerStepSwaps(l, a, b);
  }

  /** A round keeps the line an arrangement of the first `n` letters. */
  lemma {:induction false} RoundKeepsArrangement(cmds: seq<Cmd>, l: Line, n: nat)
    requires IsArrangement(l, n) && ValidCmds(cmds, n) && WellFormed(cmds, n)
    ensures IsArrangement(Round(cmds, l), n)
    decreases |cmds|
  {
    if |cmds| > 0 {
      if cmds[0].Relabel? {
        ApplyKeepsArrangement(cmds[0].remap, l, n);
      } else {
        SwapKeepsArrangement(l, cmds[0].a, cmds[0].b, n);
      }
      assert ValidCmds(cmds[1..], n) && WellFormed(cmds[1..], n);
      RoundKeepsArrangement(cmds[1..], Step(cmds[0], l), n);
    }
  }

  /** A round keeps every program within 'a'..'p' when every partner
      letter is one of them. */
  lemma {:induction false} RoundKeepsRange(cmds: seq<Cmd>, l: Line)
    requires InRange(l) && ValidCmds(cmds, |l|) && WellFormed(cmds, Size)
    ensures InRange(Round(cmds, l))
    decreases |cmds|
  {
    if |cmds| > 0 {
      var next := Step(cmds[0], l);
      if cmds[0].PartnerSwap? {
        PartnerScanInRange(l, cmds[0].a, cmds[0].b, 0, 0);
      }
      assert InRange(next);
      assert ValidCmds(cmds[1..], |l|) && WellFormed(cmds[1..], Size);
      RoundKeepsRange(cmds[1..], next);
    }
  }

  lemma {:induction false} PartnerScanInRange(l: Line, a: char, b: char, j: nat, found: nat)
    requires j <= |l| && InRange(l) && IsLetter(a, Size) && IsLetter(b, Size)
    ensures InRange(PartnerScan(l, a, b, j, found))
    decreases |l| - j
  {
    if j < |l| && found < 2 {
      if l[j] == a {
        PartnerScanInRange(l[j := b], a, b, j + 1, found + 1);
      } else if l[j] == b {
        PartnerScanInRange(l[j := a], a, b, j + 1, found + 1);
      } else {
        PartnerScanInRange(l, a, b, j + 1, found);
      }
    }
  }

  // ----------------------------------------------------------------- fusion

  /** Fusion of `acc` followed by `next`: `fused[j] = acc[next[j]]`. */
  function Compose(acc: seq<nat>, next: seq<nat>, n: nat): (r: seq<nat>)
    requires IsRemap(acc, n) && IsRemap(next, n)
    ensures IsRemap(r, n)
  {
    seq(n, j requires 0 <= j < n => acc[next[j]])
  }

  /** Running the fused remap is running `acc` and then `next`. */
  lemma ComposeApplies(acc: seq<nat>, next: seq<nat>, l: Line)
    requires IsRemap(acc, |l|) && IsRemap(next, |l|)
    ensures Apply(Compose(acc, next, |l|), l) == Apply(next, Apply(acc, l))
  {
  }

  lemma ComposeKeepsPermutation(acc: seq<nat>, next: seq<nat>, n: nat)
    requires IsPermutation(acc, n) && IsPermutation(next, n)
    ensures IsPermutation(Compose(acc, next, n), n)
  {
  }

  /** The collapse loop: `out` is the tape up to `index`, `rest` the
      commands still to scan. A remap that follows a remap is folded into
      it; anything else is copied to the next slot. */
  function FuseFrom(out: seq<Cmd>, rest: seq<Cmd>, n: nat): (r: seq<Cmd>)
    requires ValidCmds(out, n) && ValidCmds(rest, n)
    ensures ValidCmds(r, n)
    decreases |rest|
  {
    if |rest| == 0 then out
    else if |out| > 0 && out[|out| - 1].Relabel? && rest[0].Relabel? then
      var fused := Compose(out[|out| - 1].remap, rest[0].remap, n);
      FuseFrom(out[..|out| - 1] + [Relabel(fused)], rest[1..], n)
    else
      FuseFrom(out + [rest[0]], rest[1..], n)
  }

  function Fuse(cmds: seq<Cmd>, n: nat): (r: seq<Cmd>)
    requires ValidCmds(cmds, n)
    ensures ValidCmds(r, n)
  {
    FuseFrom([], cmds, n)
  }

  predicate NoAdjacentRemaps(cmds: seq<Cmd>) {
    forall k :: 0 <= k < |cmds| - 1 ==> !(cmds[k].Relabel? && cmds[k + 1].Relabel?)
  }

  lemma {:induction false} FuseFromShape(out: seq<Cmd>, rest: seq<Cmd>, n: nat)
    requires ValidCmds(out, n) && ValidCmds(rest, n) && NoAdjacentRemaps(out)
    ensures NoAdjacentRemaps(FuseFrom(out, rest, n))
    ensures |FuseFrom(out, rest, n)| <= |out| + |rest|
    ensures |out| + |rest| > 0 ==> |FuseFrom(out, rest, n)| > 0
    decreases |rest|
  {
    if |rest| > 0 {
      if |out| > 0 && out[|out| - 1].Relabel? && rest[0].Relabel? {
        var fused := Compose(out[|out| - 1].remap, rest[0].remap, n);
        FuseFromShape(out[..|out| - 1] + [Relabel(fused)], rest[1..], n);
      } else {
        FuseFromShape(out + [rest[0]], rest[1..], n);
      }
    }
  }

  /** The fused tape never holds two remaps in a row and is no longer than
      the original. */
  lemma FuseShape(cmds: seq<Cmd>, n: nat)
    requires ValidCmds(cmds, n)
    ensures NoAdjacentRemaps(Fuse(cmds, n))
    ensures |Fuse(cmds, n)| <= |cmds|
    ensures |cmds| > 0 ==> |Fuse(cmds, n)| > 0
  {
    FuseFromShape([], cmds, n);
  }

  lemma {:induction false} FuseFromRound(out: seq<Cmd>, rest: seq<Cmd>, l: Line)
    requires ValidCmds(out, |l|) && ValidCmds(rest, |l|)
    ensures Round(FuseFrom(out, rest, |l|), l) == Round(out + rest, l)
    decreases |rest|
  {
    var n := |l|;
    assert ValidCmds(out + rest, n);
    if |rest| == 0 {
      assert out + rest == out;
    } else if |out| > 0 && out[|out| - 1].Relabel? && rest[0].Relabel? {
      var fused := Compose(out[|out| - 1].remap, rest[0].remap, n);
      var out' := out[..|out| - 1] + [Relabel(fused)];
      FuseFromRound(out', rest[1..], l);
      FuseMergeRound(out, rest, l, out');
    } else {
      FuseFromRound(out + [rest[0]], rest[1..], l);
      assert out + [rest[0]] + rest[1..] == out + rest;
    }
  }

  /** Merging the last remap of `out` with the first of `rest` leaves the
      round unchanged. */
  lemma FuseMergeRound(out: seq<Cmd>, rest: seq<Cmd>, l: Line, out': seq<Cmd>)
    requires ValidCmds(out, |l|) && ValidCmds(rest, |l|)
    requires |out| > 0 && out[|out| - 1].Relabel? && |rest| > 0 && rest[0].Relabel?
    requires out' == out[..|out| - 1] + [Relabel(Compose(out[|out| - 1].remap, rest[0].remap, |l|))]
    ensures ValidCmds(out' + rest[1..], |l|) && ValidCmds(out + rest, |l|)
    ensures Round(out' + rest[1..], l) == Round(out + rest, l)
  {
    var n := |l|;
    var prefix := out[..|out| - 1];
    var acc, nx := out[|out| - 1].remap, rest[0].remap;
    var tail := rest[1..];
    var fusedTail := [Relabel(Compose(acc, nx, n))] + tail;
    var pairTail := [Relabel(acc)] + ([Relabel(nx)] + tail);
    MergeSplits(out, rest, Relabel(Compose(acc, nx, n)));
    RoundAppend(prefix, fusedTail, l);
    RoundAppend(prefix, pairTail, l);
    FusedPairRound(acc, nx, tail, Round(prefix, l));
  }

  lemma MergeSplits(out: seq<Cmd>, rest: seq<Cmd>, fused: Cmd)
    requires |out| > 0 && |rest| > 0
    ensures out[..|out| - 1] + [fused] + rest[1..] == out[..|out| - 1] + ([fused] + rest[1..])
    ensures out + rest == out[..|out| - 1] + ([out[|out| - 1]] + ([rest[0]] + rest[1..]))
  {
    assert out == out[..|out| - 1] + [out[|out| - 1]];
    assert rest == [rest[0]] + rest[1..];
  }

  /** A fused remap followed by `tail` does what the two remaps followed by
      `tail` do. */
  lemma FusedPairRound(acc: seq<nat>, nx: seq<nat>, tail: seq<Cmd>, m: Line)
    requires IsRemap(acc, |m|) && IsRemap(nx, |m|) && ValidCmds(tail, |m|)
    ensures ValidCmds([Relabel(Compose(acc, nx, |m|))] + tail, |m|)
    ensures ValidCmds([Relabel(acc)] + ([Relabel(nx)] + tail), |m|)
    ensures Round([Relabel(Compose(acc, nx, |m|))] + tail, m) == Round([Relabel(acc)] + ([Relabel(nx)] + tail), m)
  {
    var fusedTail := [Relabel(Compose(acc, nx, |m|))] + tail;
    var pairTail := [Relabel(acc)] + ([Relabel(nx)] + tail);
    assert fusedTail[1..] == tail && pairTail[1..] == [Relabel(nx)] + tail;
    assert ([Relabel(nx)] + tail)[1..] == tail;
    ComposeApplies(acc, nx, m);
  }

  /** Fusion does not change what a round does, for every line. */
  lemma FusePreservesRound(cmds: seq<Cmd>, l: Line)
    requires ValidCmds(cmds, |l|)
    ensures Round(Fuse(cmds, |l|), l) == Round(cmds, l)
  {
    FuseFromRound([], cmds, l);
    assert [] + cmds == cmds;
  }

  lemma {:induction false} FuseFromWellFormed(out: seq<Cmd>, rest: seq<Cmd>, n: nat)
    requires ValidCmds(out, n) && ValidCmds(rest, n)
    requires WellFormed(out, n) && WellFormed(rest, n)
    ensures WellFormed(FuseFrom(out, rest, n), n)
    decreases |rest|
  {
    if |rest| > 0 {
      if |out| > 0 && out[|out| - 1].Relabel? && rest[0].Relabel? {
        var fused := Compose(out[|out| - 1].remap, rest[0].remap, n);
        ComposeKeepsPermutation(out[|out| - 1].remap, rest[0].remap, n);
        FuseFromWellFormed(out[..|out| - 1] + [Relabel(fused)], rest[1..], n);
      } else {
        FuseFromWellFormed(out + [rest[0]], rest[1..], n);
      }
    }
  }

  lemma FuseWellFormed(cmds: seq<Cmd>, n: nat)
    requires ValidCmds(cmds, n) && WellFormed(cmds, n)
    ensures WellFormed(Fuse(cmds, n), n)
  {
    FuseFromWellFormed([], cmds, n);
  }

  // --------------------------------------------------------- state packing

  /** `(c - 'a') & 15`, which for two's complement is `c - 'a'` modulo 16. */
  function Nibble(c: char): (v: nat)
    ensures v < 16
  {
    (c as int - 'a' as int) % 16
  }

  /** `to_int`: nibble `i` of the key holds letter `i` of the line. The
      source ORs each nibble in at bit `4 * i`; the nibbles do not overlap,
      so this is the base-16 number whose digit `i` is `Nibble(l[i])`. */
  function ToInt(l: Line): (id: nat)
    ensures id < Pow(16, |l|)
  {
    if |l| == 0 then 0 else Nibble(l[0]) + 16 * ToInt(l[1..])
  }

  /** `from_int`: letter `i` is `((id >> 4 * i) & 15) + 'a'`. */
  function FromInt(id: nat, n: nat): (l: Line)
    ensures |l| == n && InRange(l)
  {
    if n == 0 then [] else [(id % 16 + 'a' as int) as char] + FromInt(id / 16, n - 1)
  }

  /** Unpacking a packed line gives the line back. */
  lemma {:induction false} FromToInt(l: Line)
    requires InRange(l)
    ensures FromInt(ToInt(l), |l|) == l
    decreases |l|
  {
    if |l| > 0 {
      var t := ToInt(l[1..]);
      NibbleDigit(l[0], t, ToInt(l));
      FromToInt(l[1..]);
      assert l == [l[0]] + l[1..];
    }
  }

  /** The lowest base-16 digit of a packed line is its first letter's
      nibble, and the rest is the packed tail. */
  lemma NibbleDigit(c: char, t: nat, id: nat)
    requires IsLetter(c, Size) && id == Nibble(c) + 16 * t
    ensures (id % 16 + 'a' as int) as char == c && id / 16 == t
  {
  }

  /** Packing an unpacked key gives the key back. */
  lemma {:induction false} ToFromInt(id: nat, n: nat)
    requires id < Pow(16, n)
    ensures ToInt(FromInt(id, n)) == id
    decreases n
  {
    if n > 0 {
      ToFromInt(id / 16, n - 1);
      assert FromInt(id, n)[1..] == FromInt(id / 16, n - 1);
    }
  }

  /** Two lines over 'a'..'p' share a key only if they are equal. */
  lemma ToIntInjective(l1: Line, l2: Line)
    requires InRange(l1) && InRange(l2) && |l1| == |l2|
    requires ToInt(l1) == ToInt(l2)
    ensures l1 == l2
  {
    FromToInt(l1);
    FromToInt(l2);
  }

  // ------------------------------------------------------ memoised driver

  /** `struct seen`: the key of a line and the key of its successor. */
  datatype Seen = Seen(a: nat, b: nat)

  /** The linear search of the seen list, stopping at the first hit. */
  function Lookup(memo: seq<Seen>, id: nat): (r: Option<nat>)
    ensures r.None? <==> forall k :: 0 <= k < |memo| ==> memo[k].a != id
    ensures r.Some? ==> exists k :: 0 <= k < |memo| && memo[k] == Seen(id, r.value)
  {
    if |memo| == 0 then None
    else if memo[0].a == id then Some(memo[0].b)
    else
      var r := Lookup(memo[1..], id);
      assert r.Some? ==> memo[1..][0] in memo;
      r
  }

  /** Every entry of the seen list records the true successor of its key. */
  predicate MemoSound(cmds: seq<Cmd>, memo: seq<Seen>)
    requires ValidCmds(cmds, Size)
  {
    forall k :: 0 <= k < |memo| ==> FromInt(memo[k].b, Size) == Round(cmds, FromInt(memo[k].a, Size))
  }

  /** One iteration of the `q` loop. */
  function DriveStep(cmds: seq<Cmd>, l: Line, memo: seq<Seen>): (r: (Line, seq<Seen>))
    requires |l| == Size && ValidCmds(cmds, Size)
    ensures |r.0| == Size
    ensures Lookup(memo, ToInt(l)).Some? ==> r == (FromInt(Lookup(memo, ToInt(l)).value, Size), memo)
    ensures Lookup(memo, ToInt(l)).None? ==> r.1 == memo + [Seen(ToInt(l), ToInt(r.0))] && r.0 == Round(cmds, l)
  {
    var id := ToInt(l);
    match Lookup(memo, id)
    case Some(b) => (FromInt(b, Size), memo)
    case None =>
      var next := Round(cmds, l);
      (next, memo + [Seen(id, ToInt(next))])
  }

  /** The remaining `rounds` iterations of the memoised loop. */
  function Drive(cmds: seq<Cmd>, l: Line, memo: seq<Seen>, rounds: nat): (r: (Line, seq<Seen>))
    requires |l| == Size && ValidCmds(cmds, Size)
    ensures |r.0| == Size
    decreases rounds
  {
    if rounds == 0 then (l, memo)
    else
      var (l', memo') := DriveStep(cmds, l, memo);
      Drive(cmds, l', memo', rounds - 1)
  }

  /** A memoised iteration moves the line exactly one round forward and
      keeps the seen list sound. */
  lemma DriveStepIsRound(cmds: seq<Cmd>, l: Line, memo: seq<Seen>)
    requires |l| == Size && InRange(l)
    requires ValidCmds(cmds, Size) && WellFormed(cmds, Size) && MemoSound(cmds, memo)
    ensures DriveStep(cmds, l, memo).0 == Round(cmds, l)
    ensures MemoSound(cmds, DriveStep(cmds, l, memo).1)
  {
    var id := ToInt(l);
    FromToInt(l);
    match Lookup(memo, id)
    case Some(b) =>
      var k :| 0 <= k < |memo| && memo[k] == Seen(id, b);
    case None =>
      var next := Round(cmds, l);
      RoundKeepsRange(cmds, l);
      FromToInt(next);
      var memo' := memo + [Seen(id, ToInt(next))];
      assert forall k :: 0 <= k < |memo| ==> memo'[k] == memo[k];
  }

  /** Memoisation is transparent: the memoised loop ends on the line that
      dancing every round would reach. */
  lemma {:induction false} DriveIsIterate(cmds: seq<Cmd>, l: Line, memo: seq<Seen>, rounds: nat)
    requires |l| == Size && InRange(l)
    requires ValidCmds(cmds, Size) && WellFormed(cmds, Size) && MemoSound(cmds, memo)
    ensures Drive(cmds, l, memo, rounds).0 == Iterate(cmds, l, rounds)
    ensures MemoSound(cmds, Drive(cmds, l, memo, rounds).1)
    decreases rounds
  {
    if rounds > 0 {
      DriveStepIsRound(cmds, l, memo);
      var (l', memo') := DriveStep(cmds, l, memo);
      RoundKeepsRange(cmds, l);
      DriveIsIterate(cmds, l', memo', rounds - 1);
    }
  }

  // ----------------------------------------------------------------- parser

  /** `%i` restricted to plain decimal: the digits and what follows them.
      A number with a leading zero is refused, since `%i` would read it as
      octal. */
  function ParseNumber(s: string): (r: Option<(nat, string)>)
    ensures r.Some? ==> |r.value.1| < |s|
  {
    var k := DigitRun(s);
    if k == 0 || (k > 1 && s[0] == '0') then None else Some((DigitsValue(s[..k]), s[k..]))
  }

  /** One move token and the text after it. */
  function ParseToken(s: string): (r: Result<(Token, string), DanceError>)
    requires |s| > 0
    ensures r.Ok? ==> |r.value.1| < |s|
    ensures r.Err? && s[0] !in "sxp" ==> r.error == UnknownTag(s[0])
    ensures s[0] !in "sxp" ==> r.Err?
  {
    var rest := s[1..];
    if s[0] == 's' then
      match ParseNumber(rest)
      case None => Err(Malformed)
      case Some((k, tail)) => Ok((Spin(k), tail))
    else if s[0] == 'x' then
      match ParseNumber(rest)
      case None => Err(Malformed)
      case Some((a, tail)) =>
        if |tail| == 0 || tail[0] != '/' then Err(Malformed)
        else
          match ParseNumber(tail[1..])
          case None => Err(Malformed)
          case Some((b, tail')) => Ok((Exchange(a, b), tail'))
    else if s[0] == 'p' then
      if |rest| < 3 || rest[1] != '/' then Err(Malformed)
      else Ok((Partner(rest[0], rest[2]), rest[3..]))
    else Err(UnknownTag(s[0]))
  }

  /** The read loop: a token, then `fgetc` swallows one separator. */
  function ParseTokens(s: string): (r: Result<seq<Token>, DanceError>)
    decreases |s|
  {
    if |s| == 0 then Ok([])
    else
      match ParseToken(s)
      case Err(e) => Err(e)
      case Ok((t, rest)) =>
        var rest' := if |rest| > 0 then rest[1..] else rest;
        match ParseTokens(rest')
        case Err(e) => Err(e)
        case Ok(ts) => Ok([t] + ts)
  }

  /** The tape entry for one token on a line of `n` programs. */
  function Compile(t: Token, n: nat): (r: Result<Cmd, DanceError>)
    ensures r.Ok? && r.value.Relabel? ==> IsPermutation(r.value.remap, n)
    ensures r.Ok? && t.Spin? ==> t.count <= n && r.value == Relabel(SpinRemap(t.count, n))
    ensures r.Ok? && t.Exchange? ==> (t.a < n) == (t.b < n) && r.value == Relabel(ExchangeRemap(t.a, t.b, n))
    ensures t.Partner? ==> r == Ok(PartnerSwap(t.p, t.q))
    ensures r.Err? <==> (t.Spin? && t.count > n) || (t.Exchange? && (t.a < n) != (t.b < n))
  {
    match t
    case Spin(k) =>
      if k > n then Err(Malformed)
      else
        SpinIsPermutation(k, n);
        Ok(Relabel(SpinRemap(k, n)))
    case Exchange(a, b) =>
      if (a < n) != (b < n) then Err(Malformed)
      else
        ExchangeIsPermutation(a, b, n);
        Ok(Relabel(ExchangeRemap(a, b, n)))
    case Partner(a, b) => Ok(PartnerSwap(a, b))
  }

  function CompileAll(ts: seq<Token>, n: nat): (r: Result<seq<Cmd>, DanceError>)
    ensures r.Ok? ==> |r.value| == |ts| && ValidCmds(r.value, n)
    ensures r.Ok? ==> forall k :: 0 <= k < |ts| ==> Compile(ts[k], n) == Ok(r.value[k])
  {
    if |ts| == 0 then Ok([])
    else
      match Compile(ts[0], n)
      case Err(e) => Err(e)
      case Ok(c) =>
        match CompileAll(ts[1..], n)
        case Err(e) => Err(e)
        case Ok(cs) => Ok([c] + cs)
  }

  function RenderToken(t: Token): string {
    match t
    case Spin(k) => "s" + NatToString(k)
    case Exchange(a, b) => "x" + NatToString(a) + "/" + NatToString(b)
    case Partner(a, b) => ['p', a, '/', b]
  }

  /** The input format: tokens separated by commas. */
  function Render(ts: seq<Token>): string {
    if |ts| == 0 then ""
    else if |ts| == 1 then RenderToken(ts[0])
    else RenderToken(ts[0]) + "," + Render(ts[1..])
  }

  lemma ParseNumberOfString(k: nat, tail: string)
    requires |tail| == 0 || !IsDigit(tail[0])
    ensures ParseNumber(NatToString(k) + tail) == Some((k, tail))
  {
    DigitRunOfDigits(NatToString(k), tail);
  }

  lemma ParseSpinOfRender(k: nat, tail: string)
    requires |tail| == 0 || tail[0] == ','
    ensures ParseToken(RenderToken(Spin(k)) + tail) == Ok((Spin(k), tail))
  {
    var s := RenderToken(Spin(k)) + tail;
    assert s[1..] == NatToString(k) + tail;
    ParseNumberOfString(k, tail);
  }

  lemma ParseExchangeOfRender(a: nat, b: nat, tail: string)
    requires |tail| == 0 || tail[0] == ','
    ensures ParseToken(RenderToken(Exchange(a, b)) + tail) == Ok((Exchange(a, b), tail))
  {
    var da := NatToString(a);
    var db := NatToString(b);
    var tb := "/" + db + tail;
    ExchangeText(da, db, tail);
    ParseNumberOfString(a, tb);
    ParseNumberOfString(b, tail);
    ParseExchange(RenderToken(Exchange(a, b)) + tail, a, tb, b, tail);
  }

  lemma ExchangeText(da: string, db: string, tail: string)
    ensures ("x" + da + "/" + db + tail)[0] == 'x'
    ensures ("x" + da + "/" + db + tail)[1..] == da + ("/" + db + tail)
    ensures ("/" + db + tail)[1..] == db + tail
  {
  }

  lemma ParseExchange(s: string, a: nat, t1: string, b: nat, t2: string)
    requires |s| > 0 && s[0] == 'x' && ParseNumber(s[1..]) == Some((a, t1))
    requires |t1| > 0 && t1[0] == '/' && ParseNumber(t1[1..]) == Some((b, t2))
    ensures ParseToken(s) == Ok((Exchange(a, b), t2))
  {
  }

  lemma ParseTokenOfRender(t: Token, tail: string)
    requires |tail| == 0 || tail[0] == ','
    ensures ParseToken(RenderToken(t) + tail) == Ok((t, tail))
  {
    match t
    case Spin(k) => ParseSpinOfRender(k, tail);
    case Exchange(a, b) => ParseExchangeOfRender(a, b, tail);
    case Partner(a, b) =>
      assert (RenderToken(t) + tail)[1..][3..] == tail;
  }

  /** Parsing the rendered dance gives back its moves. */
  lemma {:induction false} ParseRender(ts: seq<Token>)
    ensures ParseTokens(Render(ts)) == Ok(ts)
    decreases |ts|
  {
    if |ts| == 1 {
      ParseTokenOfRender(ts[0], "");
      assert RenderToken(ts[0]) + "" == Render(ts);
      assert ParseTokens("") == Ok([]);
      assert [ts[0]] + [] == ts;
    } else if |ts| > 1 {
      var tail := "," + Render(ts[1..]);
      ParseTokenOfRender(ts[0], tail);
      assert Render(ts) == RenderToken(ts[0]) + tail;
      assert tail[1..] == Render(ts[1..]);
      ParseRender(ts[1..]);
      assert [ts[0]] + ts[1..] == ts;
    }
  }

  /** A text that starts with anything but `s`, `x` or `p` is refused. */
  lemma UnknownTagRejected(s: string)
    requires |s| > 0 && s[0] !in "sxp"
    ensures ParseTokens(s) == Err(UnknownTag(s[0]))
  {
  }

  /** An unknown move letter anywhere in the dance refuses the whole text:
      the well-formed moves read before it are dropped with the error. */
  lemma {:induction false} UnknownTagAfterMoves(ts: seq<Token>, s: string)
    requires |ts| > 0 && |s| > 0 && s[0] !in "sxp"
    ensures ParseTokens(Render(ts) + "," + s) == Err(UnknownTag(s[0]))
    decreases |ts|
  {
    var rest := if |ts| == 1 then s else Render(ts[1..]) + "," + s;
    assert Render(ts) + "," + s == RenderToken(ts[0]) + ("," + rest);
    ParseTokenOfRender(ts[0], "," + rest);
    if |ts| == 1 {
      UnknownTagRejected(s);
    } else {
      UnknownTagAfterMoves(ts[1..], s);
    }
    ErrorAfterToken(RenderToken(ts[0]) + ("," + rest), ts[0], rest);
  }

  /** A token followed by a comma and a text the parser refuses makes the
      whole text refused with the same error. */
  lemma ErrorAfterToken(x: string, t: Token, rest: string)
    requires |x| > 0 && ParseToken(x) == Ok((t, "," + rest)) && ParseTokens(rest).Err?
    ensures ParseTokens(x) == ParseTokens(rest)
  {
    assert ("," + rest)[1..] == rest;
  }

  // --------------------------------------------------------------- program

  /** `main`: the file contents (`None` when `fopen` fails), parsed,
      compiled for sixteen programs, fused, and danced `Reps` rounds with
      the memo table, starting from "abcdefghijklmnop". */
  function Solve(file: Option<string>): (r: Result<Line, DanceError>)
    ensures file.None? ==> r == Err(NoInput)
    ensures r.Ok? ==>
      file.Some? && ParseTokens(file.value).Ok? && CompileAll(ParseTokens(file.value).value, Size).Ok?
  {
    match file
    case None => Err(NoInput)
    case Some(text) =>
      match ParseTokens(text)
      case Err(e) => Err(e)
      case Ok(ts) =>
        match CompileAll(ts, Size)
        case Err(e) => Err(e)
        case Ok(cmds) => Ok(Drive(Fuse(cmds, Size), Initial(), [], Reps).0)
  }

  /** Fusing and memoising do not change the answer: the program ends on
      the line that dancing the compiled moves `Reps` times would reach. */
  lemma SolveIsIterate(file: Option<string>)
    requires Solve(file).Ok?
    requires WellFormed(CompileAll(ParseTokens(file.value).value, Size).value, Size)
    ensures Solve(file).value == Iterate(CompileAll(ParseTokens(file.value).value, Size).value, Initial(), Reps)
  {
    var cmds := CompileAll(ParseTokens(file.value).value, Size).value;
    var fused := Fuse(cmds, Size);
    assert Solve(file).value == Drive(fused, Initial(), [], Reps).0;
    FuseWellFormed(cmds, Size);
    DriveIsIterate(fused, Initial(), [], Reps);
    FusedIterate(cmds, Initial(), Reps);
  }

  lemma {:induction false} FusedIterate(cmds: seq<Cmd>, l: Line, k: nat)
    requires ValidCmds(cmds, |l|)
    ensures Iterate(Fuse(cmds, |l|), l, k) == Iterate(cmds, l, k)
    decreases k
  {
    if k > 0 {
      FusePreservesRound(cmds, l);
      FusedIterate(cmds, Round(cmds, l), k - 1);
    }
  }

  // --------------------------------------------------------------- example

  /** The example moves `s1,x3/4,pe/b` compiled for five programs. */
  function ExampleCmds(): seq<Cmd> {
    [Relabel(SpinRemap(1, 5)), Relabel(ExchangeRemap(3, 4, 5)), PartnerSwap('e', 'b')]
  }

  lemma ExampleParses()
    ensures ParseTokens("s1,x3/4,pe/b") == Ok([Spin(1), Exchange(3, 4), Partner('e', 'b')])
  {
    var ts := [Spin(1), Exchange(3, 4), Partner('e', 'b')];
    ParseRender(ts);
    ExampleRenders();
  }

  lemma ExampleRenders()
    ensures Render([Spin(1), Exchange(3, 4), Partner('e', 'b')]) == "s1,x3/4,pe/b"
  {
    var ts := [Spin(1), Exchange(3, 4), Partner('e', 'b')];
    var x := RenderToken(ts[1]);
    assert x == "x" + "3" + "/" + "4" by {
      assert NatToString(3) == "3" && NatToString(4) == "4";
    }
    assert ts[1..][1..] == ts[2..];
    assert Render(ts) == RenderToken(ts[0]) + "," + (x + "," + RenderToken(ts[2]));
  }

  lemma ExampleCompiles()
    ensures CompileAll([Spin(1), Exchange(3, 4), Partner('e', 'b')], 5) == Ok(ExampleCmds())
  {
    var t3 := [Partner('e', 'b')];
    var t2 := [Exchange(3, 4)] + t3;
    var t1 := [Spin(1)] + t2;
    assert t3[1..] == [] && t2[1..] == t3 && t1[1..] == t2;
    assert CompileAll([], 5) == Ok([]);
    var c3 := [PartnerSwap('e', 'b')];
    assert CompileAll(t3, 5) == Ok(c3) by {
      assert c3 + [] == c3;
    }
    var c2 := [Relabel(ExchangeRemap(3, 4, 5))] + c3;
    assert CompileAll(t2, 5) == Ok(c2);
    assert CompileAll(t1, 5) == Ok([Relabel(SpinRemap(1, 5))] + c2);
    assert t1 == [Spin(1), Exchange(3, 4), Partner('e', 'b')];
    assert ExampleCmds() == [Relabel(SpinRemap(1, 5))] + c2;
  }

  /** A round of the example on five programs: the spin and the exchange
      move the programs, then `e` and `b` trade places. */
  lemma ExampleRound(l: Line)
    requires |l| == 5
    ensures var m := [l[4], l[0], l[1], l[3], l[2]];
      Round(ExampleCmds(), l) == PartnerStep(m, 'e', 'b')
  {
    var cmds := ExampleCmds();
    ExampleValid();
    var l1 := ExampleSpin(l);
    var l2 := ExampleExchange(l1);
    assert Round(cmds, l) == Round(cmds[1..], l1);
    assert Round(cmds[1..], l1) == Round(cmds[2..], l2);
    var m := [l[4], l[0], l[1], l[3], l[2]];
    assert l2 == m;
    var last := cmds[2..];
    assert last == [PartnerSwap('e', 'b')] && last[1..] == [];
    assert Round(last, l2) == Round(last[1..], PartnerStep(l2, 'e', 'b'));
  }

  lemma ExampleValid()
    ensures ValidCmds(ExampleCmds(), 5) && ValidCmds(ExampleCmds()[1..], 5) && ValidCmds(ExampleCmds()[2..], 5)
  {
    var cmds := ExampleCmds();
    assert IsRemap(SpinRemap(1, 5), 5) && IsRemap(ExchangeRemap(3, 4, 5), 5);
    assert cmds[1..] == [cmds[1], cmds[2]] && cmds[2..] == [cmds[2]];
  }

  lemma ExampleSpin(l: Line) returns (l1: Line)
    requires |l| == 5
    ensures l1 == Apply(SpinRemap(1, 5), l) == [l[4], l[0], l[1], l[2], l[3]]
  {
    assert SpinRemap(1, 5) == [4, 0, 1, 2, 3];
    l1 := Apply(SpinRemap(1, 5), l);
  }

  lemma ExampleExchange(l: Line) returns (l2: Line)
    requires |l| == 5
    ensures l2 == Apply(ExchangeRemap(3, 4, 5), l) == [l[0], l[1], l[2], l[4], l[3]]
  {
    assert ExchangeRemap(3, 4, 5) == [0, 1, 2, 4, 3];
    l2 := Apply(ExchangeRemap(3, 4, 5), l);
  }

  lemma ExampleFirstRound()
    ensures Round(ExampleCmds(), "abcde") == "baedc"
  {
    ExampleRound("abcde");
    PartnerStepSwaps("eabdc", 'e', 'b');
  }

  lemma ExampleSecondRound()
    ensures Round(ExampleCmds(), "baedc") == "ceadb"
  {
    ExampleRound("baedc");
    PartnerStepSwaps("cbade", 'e', 'b');
  }

  /** The puzzle's example: five programs "abcde" end on "ceadb" after two
      rounds of `s1,x3/4,pe/b`. */
  lemma ExampleTwoRounds()
    ensures Iterate(ExampleCmds(), "abcde", 2) == "ceadb"
  {
    ExampleFirstRound();
    ExampleSecondRound();
  }
}

=== FILE: decoder.dfy ===
/** The BITS packet decoder of 2021 day 16 (2021/16/src/main.rs): a bit
    reader over 32-bit words, the recursive packet format (literals in
    five-bit groups, operators with a bit length or a packet count), the
    version sum and the expression value. */
module PacketDecoder {
  import opened Wrappers
  import opened Arith
  import opened Bits

  type Word32 = w: nat | w < 0x1_0000_0000

  const U64: nat := 0x1_0000_0000_0000_0000

  datatype Reading = Reading(value: nat, pos: nat)

  function Capacity(data: seq<Word32>): nat {
    32 * |data|
  }

  // -------------------------------------------------------------- the stream

  /** Bit `i` of the stream: words in order, each most significant bit
      first. */
  predicate StreamBit(data: seq<Word32>, i: nat)
    requires i < Capacity(data)
  {
    Bit(data[i / 32], 31 - i % 32)
  }

  /** The `amt` stream bits from `pos` read as a binary number, most
      significant first. */
  function StreamValue(data: seq<Word32>, pos: nat, amt: nat): nat
    requires pos + amt <= Capacity(data)
  {
    if amt == 0 then 0
    else 2 * StreamValue(data, pos, amt - 1) + (if StreamBit(data, pos + amt - 1) then 1 else 0)
  }

  lemma {:induction false} StreamValueBound(data: seq<Word32>, pos: nat, amt: nat)
    requires pos + amt <= Capacity(data)
    ensures StreamValue(data, pos, amt) < Pow2(amt)
    decreases amt
  {
    if amt > 0 {
      StreamValueBound(data, pos, amt - 1);
    }
  }

  /** `m + n` bits are the first `m` shifted past the next `n`. */
  lemma {:induction false} StreamValueSplit(data: seq<Word32>, pos: nat, m: nat, n: nat)
    requires pos + m + n <= Capacity(data)
    ensures StreamValue(data, pos, m + n) == Shl(StreamValue(data, pos, m), n) + StreamValue(data, pos + m, n)
    decreases n
  {
    if n > 0 {
      StreamValueSplit(data, pos, m, n - 1);
      ShlShl(StreamValue(data, pos, m), n - 1, 1);
    }
  }

  /** Bits `pos .. pos + size` inside one word are the low `size` digits
      of that word shifted right past the bits after them. */
  lemma {:induction false} ChunkValue(data: seq<Word32>, pos: nat, size: nat)
    requires pos < Capacity(data) && size <= 32 - pos % 32
    ensures Low(Shr(data[pos / 32], 32 - pos % 32 - size), size) == StreamValue(data, pos, size)
    decreases size
  {
    if size > 0 {
      var w := data[pos / 32];
      var sh := 32 - pos % 32 - size;
      assert 32 - pos % 32 - (size - 1) == sh + 1;
      ChunkValue(data, pos, size - 1);
      LastBitOfChunk(data, pos, size);
      ShrStep(w, sh);
    }
  }

  /** The last bit of a chunk inside one word. */
  lemma LastBitOfChunk(data: seq<Word32>, pos: nat, size: nat)
    requires pos < Capacity(data) && 0 < size <= 32 - pos % 32
    ensures StreamBit(data, pos + size - 1) == Bit(data[pos / 32], 32 - pos % 32 - size)
  {
    var i := pos + size - 1;
    DivMod(pos / 32, 32, pos % 32 + size - 1);
    assert i / 32 == pos / 32 && i % 32 == pos % 32 + size - 1;
  }

  // ------------------------------------------------------------------ reader

  /** `BitReader::read` from `pos`, continuing a result `out`: each pass
      takes as many bits as remain wanted in the current word, shifting
      `out` left (wrapping at 64 bits) and or-ing the masked chunk in. An
      index past the last word is the out-of-bounds panic. */
  function ReadFrom(data: seq<Word32>, pos: nat, amt: nat, out: nat): Option<Reading>
    decreases amt
  {
    if amt == 0 then Some(Reading(out, pos))
    else if pos / 32 >= |data| then None
    else
      var bit := 31 - pos % 32;
      var size := if amt < bit + 1 then amt else bit + 1;
      var shift := bit + 1 - size;
      var mask := Pow2(size) - 1;
      var chunk := And(Shr(data[pos / 32], shift), mask);
      ReadFrom(data, pos + size, amt - size, Or(Shl(out, size) % U64, chunk))
  }

  /** `BitReader::read(amt)`. Up to 64 bits it returns the next `amt`
      bits, most significant first, and advances the position by `amt`; it
      panics exactly when the bits run past the data. */
  function Read(data: seq<Word32>, pos: nat, amt: nat): (r: Option<Reading>)
    ensures amt <= 64 && pos + amt <= Capacity(data) ==>
      r == Some(Reading(StreamValue(data, pos, amt), pos + amt)) && r.value.value < Pow2(amt)
    ensures amt > 0 && pos + amt > Capacity(data) ==> r.None?
  {
    ReadFromZero(data, pos, amt);
    ReadFrom(data, pos, amt, 0)
  }

  /** Without wrap-around, the loop appends the next `amt` stream bits to
      `out`. */
  lemma {:induction false} ReadFromExact(data: seq<Word32>, pos: nat, amt: nat, out: nat, total: nat)
    requires pos + amt <= Capacity(data)
    requires total == Shl(out, amt) + StreamValue(data, pos, amt) && total < U64
    ensures ReadFrom(data, pos, amt, out) == Some(Reading(total, pos + amt))
    decreases amt
  {
    if amt > 0 {
      var size, next := ReadStep(data, pos, amt, out, total);
      ReadFromExact(data, pos + size, amt - size, next, total);
    }
  }

  /** One pass of the loop appends the next `size` stream bits. */
  lemma ReadStep(data: seq<Word32>, pos: nat, amt: nat, out: nat, total: nat) returns (size: nat, next: nat)
    requires 0 < amt && pos + amt <= Capacity(data)
    requires total == Shl(out, amt) + StreamValue(data, pos, amt) && total < U64
    ensures 0 < size <= amt
    ensures ReadFrom(data, pos, amt, out) == ReadFrom(data, pos + size, amt - size, next)
    ensures total == Shl(next, amt - size) + StreamValue(data, pos + size, amt - size)
  {
    size := if amt < 32 - pos % 32 then amt else 32 - pos % 32;
    next := Shl(out, size) + StreamValue(data, pos, size);
    ChunkIsStream(data, pos, size);
    ReadArith(data, pos, amt, size, out);
    ReadUnfold(data, pos, amt, out, size, next);
  }

  /** One pass of the loop in `ReadFrom`. */
  lemma ReadUnfold(data: seq<Word32>, pos: nat, amt: nat, out: nat, size: nat, next: nat)
    requires amt > 0 && pos < Capacity(data)
    requires size == if amt < 32 - pos % 32 then amt else 32 - pos % 32
    requires next == Or(Shl(out, size) % U64, And(Shr(data[pos / 32], 32 - pos % 32 - size), Pow2(size) - 1))
    ensures ReadFrom(data, pos, amt, out) == ReadFrom(data, pos + size, amt - size, next)
  {
  }

  /** The masked chunk `read` takes from the current word is the next
      `size` stream bits. */
  lemma ChunkIsStream(data: seq<Word32>, pos: nat, size: nat)
    requires pos < Capacity(data) && size <= 32 - pos % 32
    ensures And(Shr(data[pos / 32], 32 - pos % 32 - size), Pow2(size) - 1) == StreamValue(data, pos, size)
  {
    var y := Shr(data[pos / 32], 32 - pos % 32 - size);
    AndLowMask(y, size);
    ChunkValue(data, pos, size);
  }

  /** The arithmetic of one pass of `ReadFromExact`: no wrap-around, the
      or is an addition, and the rest of the bits follow. */
  lemma ReadArith(data: seq<Word32>, pos: nat, amt: nat, size: nat, out: nat)
    requires 0 < size <= amt && pos + amt <= Capacity(data)
    requires Shl(out, amt) + StreamValue(data, pos, amt) < U64
    ensures Shl(out, size) % U64 == Shl(out, size)
    ensures Or(Shl(out, size) % U64, StreamValue(data, pos, size)) == Shl(out, size) + StreamValue(data, pos, size)
    ensures Shl(Shl(out, size) + StreamValue(data, pos, size), amt - size) + StreamValue(data, pos + size, amt - size)
      == Shl(out, amt) + StreamValue(data, pos, amt)
  {
    StreamValueAppend(data, pos, amt, size, out);
    NoWrap(out, size, amt, U64);
    StreamValueBound(data, pos, size);
    OrShl(out, StreamValue(data, pos, size), size);
  }

  /** Appending the next `size` bits, then the rest, appends all of them. */
  lemma StreamValueAppend(data: seq<Word32>, pos: nat, amt: nat, size: nat, out: nat)
    requires size <= amt && pos + amt <= Capacity(data)
    ensures Shl(Shl(out, size) + StreamValue(data, pos, size), amt - size) + StreamValue(data, pos + size, amt - size)
      == Shl(out, amt) + StreamValue(data, pos, amt)
  {
    StreamValueSplit(data, pos, size, amt - size);
    ShlAdd(Shl(out, size), StreamValue(data, pos, size), amt - size);
    ShlShl(out, size, amt - size);
  }

  /** A shift below a bound stays below it when shifted less. */
  lemma NoWrap(out: nat, size: nat, amt: nat, bound: nat)
    requires size <= amt && Shl(out, amt) < bound
    ensures Shl(out, size) < bound
  {
    ShlShl(out, size, amt - size);
    ShlGrows(Shl(out, size), amt - size);
  }

  /** A read that runs past the last word panics. */
  lemma {:induction false} ReadFromPanics(data: seq<Word32>, pos: nat, amt: nat, out: nat)
    requires amt > 0 && pos + amt > Capacity(data)
    ensures ReadFrom(data, pos, amt, out).None?
    decreases amt
  {
    if pos < Capacity(data) {
      var size := if amt < 32 - pos % 32 then amt else 32 - pos % 32;
      var next := Or(Shl(out, size) % U64, And(Shr(data[pos / 32], 32 - pos % 32 - size), Pow2(size) - 1));
      ReadUnfold(data, pos, amt, out, size, next);
      assert size < amt by {
        assert pos + (32 - pos % 32) == 32 * (pos / 32 + 1);
      }
      ReadFromPanics(data, pos + size, amt - size, next);
    }
  }

  /** The two outcomes of a read from an empty result. */
  lemma ReadFromZero(data: seq<Word32>, pos: nat, amt: nat)
    ensures amt <= 64 && pos + amt <= Capacity(data) ==>
      ReadFrom(data, pos, amt, 0) == Some(Reading(StreamValue(data, pos, amt), pos + amt))
      && StreamValue(data, pos, amt) < Pow2(amt)
    ensures amt > 0 && pos + amt > Capacity(data) ==> ReadFrom(data, pos, amt, 0).None?
  {
    if amt <= 64 && pos + amt <= Capacity(data) {
      StreamValueBound(data, pos, amt);
      PowMonotone(amt, 64);
      Pow2Of64();
      ShlIsMul(0, amt);
      ReadFromExact(data, pos, amt, 0, StreamValue(data, pos, amt));
    } else if amt > 0 && pos + amt > Capacity(data) {
      ReadFromPanics(data, pos, amt, 0);
    }
  }

  // ------------------------------------------------------------------ packets

  datatype Body = Literal(v: nat) | Operator(ops: seq<Packet>)

  datatype Packet = Packet(version: nat, typeid: nat, body: Body)

  datatype Parsed = Parsed(packet: Packet, pos: nat)

  datatype Subpackets = Subpackets(ops: seq<Packet>, pos: nat)

  /** What `Packet::from` can produce: three-bit version and type id, a
      literal body exactly for type 4, literals below `2^64`. */
  predicate WellFormed(p: Packet)
    decreases p
  {
    && p.version < 8 && p.typeid < 8
    && (p.typeid == 4 <==> p.body.Literal?)
    && (p.body.Literal? ==> p.body.v < U64)
    && (p.body.Operator? ==> AllWellFormed(p.body.ops))
  }

  predicate AllWellFormed(ops: seq<Packet>)
    decreases ops
  {
    forall i :: 0 <= i < |ops| ==> WellFormed(ops[i])
  }

  /** Unread bits from `pos`; every successful step of the parser reduces
      it. */
  function Remaining(data: seq<Word32>, pos: nat): nat {
    if pos <= Capacity(data) then Capacity(data) - pos else 0
  }

  /** The literal loop of `Packet::from` from `pos`, continuing `value`:
      each five-bit group's low four bits are shifted in (wrapping at 64
      bits), and its high bit says whether another group follows. */
  function ReadGroups(data: seq<Word32>, pos: nat, value: nat): (r: Option<Reading>)
    requires value < U64
    ensures r.Some? ==> pos + 5 <= r.value.pos <= Capacity(data) && r.value.value < U64
    decreases Remaining(data, pos)
  {
    match Read(data, pos, 5)
    case None => None
    case Some(g) =>
      var next := ShiftIn(value, g.value);
      if And(g.value, 16) == 0 then Some(Reading(next, g.pos))
      else ReadGroups(data, g.pos, next)
  }

  /** `(value << 4) | (v & 0b1111)` on `u64`. */
  function ShiftIn(value: nat, v: nat): (r: nat)
    requires value < U64
    ensures r < U64
  {
    AndBelow(v, 15);
    OrBelow64(Shl(value, 4) % U64, And(v, 15));
    Or(Shl(value, 4) % U64, And(v, 15))
  }

  lemma OrBelow64(x: nat, y: nat)
    requires x < U64 && y < U64
    ensures Or(x, y) < U64
  {
    Pow2Of64();
    OrBound(x, y, 64);
  }

  /** `Packet::from` at `pos`: `None` is a read past the data. The
      invalid-length-type panic cannot happen, since a one-bit read is 0 or
      1. */
  function ParsePacket(data: seq<Word32>, pos: nat): (r: Option<Parsed>)
    ensures r.Some? ==> pos + 6 <= r.value.pos <= Capacity(data) && WellFormed(r.value.packet)
    decreases Remaining(data, pos), 0
  {
    match Read(data, pos, 3)
    case None => None
    case Some(ver) =>
      match Read(data, ver.pos, 3)
      case None => None
      case Some(tid) =>
        if tid.value == 4 then
          match ReadGroups(data, tid.pos, 0)
          case None => None
          case Some(lit) => Some(Parsed(Packet(ver.value, 4, Literal(lit.value)), lit.pos))
        else
          match ParseOperator(data, tid.pos)
          case None => None
          case Some(sub) => Some(Parsed(Packet(ver.value, tid.value, Operator(sub.ops)), sub.pos))
  }

  /** The sub-packets of an operator packet whose header ends at `pos`: a
      length type bit, then either a 15-bit length in bits or an 11-bit
      count of packets. */
  function ParseOperator(data: seq<Word32>, pos: nat): (r: Option<Subpackets>)
    ensures r.Some? ==> pos + 1 <= r.value.pos <= Capacity(data) && AllWellFormed(r.value.ops)
    decreases Remaining(data, pos), 0
  {
    match Read(data, pos, 1)
    case None => None
    case Some(lt) =>
      if lt.value == 0 then
        match Read(data, lt.pos, 15)
        case None => None
        case Some(len) => ParseUntil(data, len.pos, len.value + len.pos, [])
      else if lt.value == 1 then
        match Read(data, lt.pos, 11)
        case None => None
        case Some(count) => ParseCount(data, count.pos, count.value, [])
      else None
  }

  /** Length type 0: sub-packets until the position is exactly `end`. A
      sub-packet that overshoots `end` does not stop the loop, which then
      runs on until a read fails. */
  function ParseUntil(data: seq<Word32>, pos: nat, end: nat, acc: seq<Packet>): (r: Option<Subpackets>)
    ensures r.Some? ==> r.value.pos == end && pos <= end && (pos <= Capacity(data) ==> end <= Capacity(data))
    ensures r.Some? ==> |r.value.ops| >= |acc| && r.value.ops[..|acc|] == acc
    ensures r.Some? && AllWellFormed(acc) ==> AllWellFormed(r.value.ops)
    decreases Remaining(data, pos), 1
  {
    if pos == end then Some(Subpackets(acc, pos))
    else
      match ParsePacket(data, pos)
      case None => None
      case Some(p) => ParseUntil(data, p.pos, end, acc + [p.packet])
  }

  /** Length type 1: exactly `n` more sub-packets. */
  function ParseCount(data: seq<Word32>, pos: nat, n: nat, acc: seq<Packet>): (r: Option<Subpackets>)
    ensures r.Some? ==> pos <= r.value.pos && (pos <= Capacity(data) ==> r.value.pos <= Capacity(data))
    ensures r.Some? ==> |r.value.ops| == |acc| + n && r.value.ops[..|acc|] == acc
    ensures r.Some? && AllWellFormed(acc) ==> AllWellFormed(r.value.ops)
    decreases Remaining(data, pos), 1
  {
    if n == 0 then Some(Subpackets(acc, pos))
    else
      match ParsePacket(data, pos)
      case None => None
      case Some(p) => ParseCount(data, p.pos, n - 1, acc + [p.packet])
  }

  // -------------------------------------------------------------- evaluation

  /** `version_sum`: the packet's version plus its sub-packets' sums. */
  function VersionSum(p: Packet): nat
    decreases p
  {
    p.version + match p.body
      case Literal(_) => 0
      case Operator(ops) => VersionSums(ops)
  }

  function VersionSums(ops: seq<Packet>): nat
    decreases ops
  {
    if |ops| == 0 then 0 else VersionSum(ops[0]) + VersionSums(ops[1..])
  }

  /** Every packet of the tree, each before its sub-packets. */
  function Flatten(p: Packet): (ps: seq<Packet>)
    ensures |ps| >= 1 && ps[0] == p
    decreases p
  {
    [p] + match p.body
      case Literal(_) => []
      case Operator(ops) => FlattenAll(ops)
  }

  function FlattenAll(ops: seq<Packet>): seq<Packet>
    decreases ops
  {
    if |ops| == 0 then [] else Flatten(ops[0]) + FlattenAll(ops[1..])
  }

  function SumVersions(ps: seq<Packet>): nat {
    if |ps| == 0 then 0 else ps[0].version + SumVersions(ps[1..])
  }

  lemma {:induction false} SumVersionsConcat(a: seq<Packet>, b: seq<Packet>)
    ensures SumVersions(a + b) == SumVersions(a) + SumVersions(b)
    decreases |a|
  {
    if |a| == 0 {
      assert a + b == b;
    } else {
      assert (a + b)[1..] == a[1..] + b;
      SumVersionsConcat(a[1..], b);
    }
  }

  /** The version sum adds the version of every packet in the tree once. */
  lemma {:induction false} VersionSumFlatten(p: Packet)
    ensures VersionSum(p) == SumVersions(Flatten(p))
    decreases p
  {
    var rest := match p.body case Literal(_) => [] case Operator(ops) => FlattenAll(ops);
    assert Flatten(p)[1..] == rest;
    match p.body
    case Literal(_) =>
    case Operator(ops) => VersionSumsFlatten(ops);
  }

  lemma {:induction false} VersionSumsFlatten(ops: seq<Packet>)
    ensures VersionSums(ops) == SumVersions(FlattenAll(ops))
    decreases ops
  {
    if |ops| > 0 {
      VersionSumFlatten(ops[0]);
      VersionSumsFlatten(ops[1..]);
      SumVersionsConcat(Flatten(ops[0]), FlattenAll(ops[1..]));
    }
  }

  function Flag(b: bool): nat {
    if b then 1 else 0
  }

  function Sum(vs: seq<nat>): nat {
    if |vs| == 0 then 0 else vs[0] + Sum(vs[1..])
  }

  function Product(vs: seq<nat>): nat {
    if |vs| == 0 then 1 else vs[0] * Product(vs[1..])
  }

  /** The least value: one of the values, and no larger than any. */
  function Min(vs: seq<nat>): (m: nat)
    requires |vs| > 0
    ensures m in vs && forall i :: 0 <= i < |vs| ==> m <= vs[i]
  {
    if |vs| == 1 then vs[0]
    else
      var m := Min(vs[1..]);
      assert forall i :: 1 <= i < |vs| ==> vs[i] == vs[1..][i - 1];
      if vs[0] <= m then vs[0] else m
  }

  /** The greatest value: one of the values, and no smaller than any. */
  function Max(vs: seq<nat>): (m: nat)
    requires |vs| > 0
    ensures m in vs && forall i :: 0 <= i < |vs| ==> vs[i] <= m
  {
    if |vs| == 1 then vs[0]
    else
      var m := Max(vs[1..]);
      assert forall i :: 1 <= i < |vs| ==> vs[i] == vs[1..][i - 1];
      if vs[0] >= m then vs[0] else m
  }

  /** `value`: `None` is a panic, namely the assertion on a literal's type
      id, `unwrap` of the minimum or maximum of no values, indexing a
      missing first or second operand, or an unknown type id. Sums and
      products are unbounded. */
  function Value(p: Packet): (r: Option<nat>)
    ensures p.body.Literal? ==> (r.Some? <==> p.typeid == 4) && (r.Some? ==> r.value == p.body.v)
    ensures p.body.Operator? && p.typeid in {5, 6, 7} && r.Some? ==> r.value <= 1
    decreases p
  {
    match p.body
    case Literal(v) => if p.typeid == 4 then Some(v) else None
    case Operator(ops) =>
      if p.typeid in {5, 6, 7} then
        if |ops| < 2 then None
        else
          match (Value(ops[0]), Value(ops[1]))
          case (Some(a), Some(b)) =>
            Some(if p.typeid == 5 then Flag(a > b) else if p.typeid == 6 then Flag(a < b) else Flag(a == b))
          case _ => None
      else if p.typeid in {0, 1, 2, 3} then
        match Values(ops)
        case None => None
        case Some(vs) =>
          if p.typeid == 0 then Some(Sum(vs))
          else if p.typeid == 1 then Some(Product(vs))
          else if |vs| == 0 then None
          else if p.typeid == 2 then Some(Min(vs))
          else Some(Max(vs))
      else None
  }

  /** The values of all sub-packets, in order; `None` when any of them
      panics. */
  function Values(ops: seq<Packet>): (r: Option<seq<nat>>)
    ensures r.Some? <==> forall i :: 0 <= i < |ops| ==> Value(ops[i]).Some?
    ensures r.Some? ==> |r.value| == |ops| && forall i :: 0 <= i < |ops| ==> Value(ops[i]) == Some(r.value[i])
    decreases ops
  {
    if |ops| == 0 then Some([])
    else
      assert forall i :: 1 <= i < |ops| ==> ops[i] == ops[1..][i - 1];
      match (Value(ops[0]), Values(ops[1..]))
      case (Some(v), Some(vs)) => Some([v] + vs)
      case _ => None
  }

  /** The values of a pair of packets with values. */
  lemma ValuesOfPair(x: Packet, y: Packet, vx: nat, vy: nat)
    requires Value(x) == Some(vx) && Value(y) == Some(vy)
    ensures Values([x, y]) == Some([vx, vy])
  {
    assert [x, y][1..] == [y] && [y][1..] == [];
    assert Values([y]) == Some([vy]) by {
      assert [vy] + [] == [vy];
    }
    assert [vx] + [vy] == [vx, vy];
  }

  /** A sum of the literals 1 and 2 has value 3. */
  lemma ExampleSum()
    ensures Value(Packet(6, 0, Operator([Packet(6, 4, Literal(1)), Packet(2, 4, Literal(2))]))) == Some(3)
  {
    ValuesOfPair(Packet(6, 4, Literal(1)), Packet(2, 4, Literal(2)), 1, 2);
    assert [1, 2][1..] == [2] && [2][1..] == [];
  }

  /** The test `1 + 3 == 2 * 2` has value 1. */
  lemma ExampleEquality()
    ensures Value(Packet(0, 7, Operator([
              Packet(0, 0, Operator([Packet(0, 4, Literal(1)), Packet(0, 4, Literal(3))])),
              Packet(0, 1, Operator([Packet(0, 4, Literal(2)), Packet(0, 4, Literal(2))]))]))) == Some(1)
  {
    var one := Packet(0, 4, Literal(1));
    var two := Packet(0, 4, Literal(2));
    var three := Packet(0, 4, Literal(3));
    ValuesOfPair(one, three, 1, 3);
    ValuesOfPair(two, two, 2, 2);
    assert [1, 3][1..] == [3] && [3][1..] == [];
    assert [2, 2][1..] == [2] && [2][1..] == [];
    var sum := Packet(0, 0, Operator([one, three]));
    var product := Packet(0, 1, Operator([two, two]));
    assert Value(sum) == Some(4);
    assert Value(product) == Some(4);
  }

  /** A chain of operators with versions 4, 1 and 5 above a literal of
      version 6 has version sum 16. */
  lemma ExampleVersions()
    ensures VersionSum(Packet(4, 2, Operator([Packet(1, 2, Operator([Packet(5, 2, Operator([Packet(6, 4, Literal(15))]))]))]))) == 16
  {
    var inner := Packet(5, 2, Operator([Packet(6, 4, Literal(15))]));
    assert VersionSum(inner) == 11 by {
      assert [Packet(6, 4, Literal(15))][1..] == [];
    }
    var middle := Packet(1, 2, Operator([inner]));
    assert VersionSum(middle) == 12 by {
      assert [inner][1..] == [];
    }
    assert [middle][1..] == [];
  }

  // --------------------------------------------------------------- encoding

  /** The low `n` bits of `x`, most significant first. */
  function NatBits(x: nat, n: nat): (bs: seq<bool>)
    ensures |bs| == n
  {
    if n == 0 then [] else [Bit(x, n - 1)] + NatBits(x, n - 1)
  }

  /** The stream holds the bits `bs` from `pos`. */
  predicate Holds(data: seq<Word32>, pos: nat, bs: seq<bool>)
    decreases |bs|
  {
    && pos + |bs| <= Capacity(data)
    && (|bs| == 0 || (StreamBit(data, pos) == bs[0] && Holds(data, pos + 1, bs[1..])))
  }

  /** Held bits of `x` read as the low `n` bits of `x`. */
  lemma {:induction false} HoldsValue(data: seq<Word32>, pos: nat, x: nat, n: nat)
    requires Holds(data, pos, NatBits(x, n))
    ensures StreamValue(data, pos, n) == Low(x, n)
    decreases n
  {
    if n > 0 {
      assert NatBits(x, n)[1..] == NatBits(x, n - 1);
      HoldsValue(data, pos + 1, x, n - 1);
      StreamValueSplit(data, pos, 1, n - 1);
      LowTop(x, n);
    }
  }

  lemma {:induction false} HoldsSplit(data: seq<Word32>, pos: nat, a: seq<bool>, b: seq<bool>)
    requires Holds(data, pos, a + b)
    ensures Holds(data, pos, a) && Holds(data, pos + |a|, b)
    decreases |a|
  {
    if |a| == 0 {
      assert a + b == b;
    } else {
      assert (a + b)[1..] == a[1..] + b;
      HoldsSplit(data, pos + 1, a[1..], b);
    }
  }

  /** Reading `n` bits that the stream holds as `x`. */
  lemma ReadHeld(data: seq<Word32>, pos: nat, x: nat, n: nat, rest: seq<bool>)
    requires n <= 64 && x < Pow2(n) && Holds(data, pos, NatBits(x, n) + rest)
    ensures Read(data, pos, n) == Some(Reading(x, pos + n)) && Holds(data, pos + n, rest)
  {
    HoldsSplit(data, pos, NatBits(x, n), rest);
    HoldsValue(data, pos, x, n);
    LowOfSmall(x, n);
  }

  /** The hexadecimal digits of `v`, most significant first, without
      leading zeros (one digit for 0). */
  function Nibbles(v: nat): (ns: seq<nat>)
    ensures |ns| >= 1 && forall i :: 0 <= i < |ns| ==> ns[i] < 16
    decreases v
  {
    if v < 16 then [v] else Nibbles(v / 16) + [v % 16]
  }

  /** The literal loop's arithmetic without wrap-around: shift in each
      digit. */
  function Fold(value: nat, ns: seq<nat>): nat
    decreases |ns|
  {
    if |ns| == 0 then value else Fold(16 * value + ns[0], ns[1..])
  }

  lemma {:induction false} FoldSnoc(value: nat, ns: seq<nat>, d: nat)
    ensures Fold(value, ns + [d]) == 16 * Fold(value, ns) + d
    decreases |ns|
  {
    if |ns| == 0 {
      assert (ns + [d])[1..] == [];
    } else {
      assert (ns + [d])[1..] == ns[1..] + [d];
      FoldSnoc(16 * value + ns[0], ns[1..], d);
    }
  }

  lemma {:induction false} FoldNibbles(v: nat)
    ensures Fold(0, Nibbles(v)) == v
    decreases v
  {
    if v >= 16 {
      FoldNibbles(v / 16);
      FoldSnoc(0, Nibbles(v / 16), v % 16);
    }
  }

  lemma {:induction false} FoldGrows(value: nat, ns: seq<nat>)
    ensures Fold(value, ns) >= value
    decreases |ns|
  {
    if |ns| > 0 {
      FoldGrows(16 * value + ns[0], ns[1..]);
    }
  }

  /** A literal's five-bit groups: the continuation flag, set on all but
      the last, above each digit. */
  function Groups(ns: seq<nat>): (bs: seq<bool>)
    ensures |bs| == 5 * |ns|
  {
    if |ns| == 0 then []
    else NatBits(16 * Flag(|ns| > 1) + ns[0], 5) + Groups(ns[1..])
  }

  /** One group read by the literal loop shifts its digit in. */
  lemma GroupDigit(value: nat, g: nat, c: nat, d: nat)
    requires d < 16 && g == 16 * c + d && 16 * value + d < U64
    ensures ShiftIn(value, g) == 16 * value + d
  {
    assert g % 16 == d;
    LowDigit(g, d);
    HighDigits(value, d);
  }

  lemma LowDigit(g: nat, d: nat)
    requires g % 16 == d
    ensures And(g, 15) == d
  {
    Pow2Of4();
    AndLowMask(g, 4);
    LowIsMod(g, 4);
  }

  lemma HighDigits(value: nat, d: nat)
    requires d < 16 && 16 * value + d < U64
    ensures Shl(value, 4) % U64 == 16 * value
    ensures Or(Shl(value, 4) % U64, d) == 16 * value + d
  {
    var s := Shl(value, 4);
    Pow2Of4();
    ShlIsMul(value, 4);
    assert s == 16 * value;
    SmallMod(s);
    OrShl(value, d, 4);
  }

  lemma SmallMod(s: nat)
    requires s < U64
    ensures s % U64 == s
  {
  }

  /** The flag bit of a group decides whether the loop goes on. */
  lemma GroupFlag(g: nat, c: nat, d: nat)
    requires c <= 1 && d < 16 && g == 16 * c + d
    ensures (And(g, 16) == 0) == (c == 0)
  {
    assert g / 16 == c;
    Pow2Of4();
    AndPow2(g, 4);
    BitIsDiv(g, 4);
  }

  lemma Pow2Of4()
    ensures Pow2(4) == 16 && Pow2(5) == 32
  {
  }

  /** The five-bit groups of `ns` read one after the other from `pos`. */
  predicate GroupsAt(data: seq<Word32>, pos: nat, ns: seq<nat>)
    decreases |ns|
  {
    |ns| == 0 ||
      (&& Read(data, pos, 5) == Some(Reading(16 * Flag(|ns| > 1) + ns[0], pos + 5))
       && GroupsAt(data, pos + 5, ns[1..]))
  }

  lemma {:induction false} HeldGroupsAt(data: seq<Word32>, pos: nat, ns: seq<nat>)
    requires (forall i :: 0 <= i < |ns| ==> ns[i] < 16) && Holds(data, pos, Groups(ns))
    ensures GroupsAt(data, pos, ns)
    decreases |ns|
  {
    if |ns| > 0 {
      GroupHeld(data, pos, ns);
      var tail := ns[1..];
      assert forall i :: 0 <= i < |tail| ==> tail[i] < 16 by {
        assert forall i :: 0 <= i < |tail| ==> tail[i] == ns[i + 1];
      }
      HeldGroupsAt(data, pos + 5, tail);
    }
  }

  /** The literal loop over the groups of `ns` reads their digits. */
  lemma {:induction false} ReadGroupsAt(data: seq<Word32>, pos: nat, end: nat, value: nat, ns: seq<nat>, total: nat)
    requires |ns| >= 1 && (forall i :: 0 <= i < |ns| ==> ns[i] < 16)
    requires total == Fold(value, ns) && total < U64 && GroupsAt(data, pos, ns)
    requires end == pos + 5 * |ns|
    ensures value < U64
    ensures ReadGroups(data, pos, value) == Some(Reading(total, end))
    decreases |ns|
  {
    FoldStep(value, ns);
    if |ns| == 1 {
      assert Fold(16 * value + ns[0], ns[1..]) == 16 * value + ns[0];
      LastGroup(data, pos, value, ns, total, end);
    } else {
      var tail := ns[1..];
      assert forall i :: 0 <= i < |tail| ==> tail[i] < 16 by {
        assert forall i :: 0 <= i < |tail| ==> tail[i] == ns[i + 1];
      }
      ReadGroupsAt(data, pos + 5, end, 16 * value + ns[0], tail, total);
      NextGroup(data, pos, value, ns, total, end);
    }
  }

  /** The last group ends the loop with its digit shifted in. */
  lemma LastGroup(data: seq<Word32>, pos: nat, value: nat, ns: seq<nat>, total: nat, end: nat)
    requires |ns| == 1 && ns[0] < 16 && total == 16 * value + ns[0] && total < U64 && end == pos + 5
    requires Read(data, pos, 5) == Some(Reading(16 * Flag(|ns| > 1) + ns[0], pos + 5))
    ensures ReadGroups(data, pos, value) == Some(Reading(total, end))
  {
    var g := 16 * Flag(|ns| > 1) + ns[0];
    GroupDigit(value, g, 0, ns[0]);
    GroupFlag(g, 0, ns[0]);
    ReadGroupsStops(data, pos, value, g, total);
  }

  /** Any other group shifts its digit in and continues the loop. */
  lemma NextGroup(data: seq<Word32>, pos: nat, value: nat, ns: seq<nat>, total: nat, end: nat)
    requires |ns| > 1 && ns[0] < 16 && 16 * value + ns[0] < U64
    requires Read(data, pos, 5) == Some(Reading(16 * Flag(|ns| > 1) + ns[0], pos + 5))
    requires ReadGroups(data, pos + 5, 16 * value + ns[0]) == Some(Reading(total, end))
    ensures ReadGroups(data, pos, value) == Some(Reading(total, end))
  {
    var g := 16 * Flag(|ns| > 1) + ns[0];
    GroupDigit(value, g, 1, ns[0]);
    GroupFlag(g, 1, ns[0]);
    ReadGroupsGoes(data, pos, value, g, 16 * value + ns[0]);
  }

  /** The first digit taken, the rest of the digits give the same number. */
  lemma FoldStep(value: nat, ns: seq<nat>)
    requires |ns| >= 1
    ensures Fold(16 * value + ns[0], ns[1..]) == Fold(value, ns)
    ensures value <= 16 * value + ns[0] <= Fold(value, ns)
  {
    FoldGrows(16 * value + ns[0], ns[1..]);
  }

  /** The first group of held groups is the flag above the digit. */
  lemma GroupHeld(data: seq<Word32>, pos: nat, ns: seq<nat>)
    requires |ns| >= 1 && ns[0] < 16 && Holds(data, pos, Groups(ns))
    ensures Read(data, pos, 5) == Some(Reading(16 * Flag(|ns| > 1) + ns[0], pos + 5))
    ensures Holds(data, pos + 5, Groups(ns[1..]))
  {
    var g := 16 * Flag(|ns| > 1) + ns[0];
    assert Groups(ns) == NatBits(g, 5) + Groups(ns[1..]);
    Pow2Of4();
    ReadHeld(data, pos, g, 5, Groups(ns[1..]));
  }

  /** A group without the flag bit ends the literal loop. */
  lemma ReadGroupsStops(data: seq<Word32>, pos: nat, value: nat, g: nat, next: nat)
    requires value < U64 && Read(data, pos, 5) == Some(Reading(g, pos + 5))
    requires And(g, 16) == 0 && next == ShiftIn(value, g)
    ensures ReadGroups(data, pos, value) == Some(Reading(next, pos + 5))
  {
  }

  /** A group with the flag bit continues the literal loop. */
  lemma ReadGroupsGoes(data: seq<Word32>, pos: nat, value: nat, g: nat, next: nat)
    requires value < U64 && Read(data, pos, 5) == Some(Reading(g, pos + 5))
    requires And(g, 16) != 0 && next == ShiftIn(value, g)
    ensures next < U64 && ReadGroups(data, pos, value) == ReadGroups(data, pos + 5, next)
  {
  }


  // --------------------------------------------------------------- round trip

  /** The bits of a packet: version, type id, then the literal's groups or
      an operator's length type, length field and sub-packets. `byLength`
      picks length type 0 (a bit length) for every operator, otherwise
      length type 1 (a packet count). */
  function Encode(p: Packet, byLength: bool): (bs: seq<bool>)
    ensures |bs| >= 6
    decreases p
  {
    NatBits(p.version, 3) + (NatBits(p.typeid, 3) +
      match p.body
      case Literal(v) => Groups(Nibbles(v))
      case Operator(ops) =>
        var inner := EncodeAll(ops, byLength);
        if byLength then NatBits(0, 1) + (NatBits(|inner|, 15) + inner)
        else NatBits(1, 1) + (NatBits(|ops|, 11) + inner))
  }

  function EncodeAll(ops: seq<Packet>, byLength: bool): seq<bool>
    decreases ops
  {
    if |ops| == 0 then [] else Encode(ops[0], byLength) + EncodeAll(ops[1..], byLength)
  }

  /** A packet whose fields fit their widths: three-bit version and type
      id, a literal exactly for type 4 and below `2^64`, and sub-packets
      whose bit length fits 15 bits or whose count fits 11 bits. */
  predicate Encodable(p: Packet, byLength: bool)
    decreases p
  {
    && p.version < 8 && p.typeid < 8
    && (p.typeid == 4 <==> p.body.Literal?)
    && match p.body
       case Literal(v) => v < U64
       case Operator(ops) =>
         && (if byLength then |EncodeAll(ops, byLength)| < 32768 else |ops| < 2048)
         && AllEncodable(ops, byLength)
  }

  predicate AllEncodable(ops: seq<Packet>, byLength: bool)
    decreases ops
  {
    |ops| == 0 || (Encodable(ops[0], byLength) && AllEncodable(ops[1..], byLength))
  }

  lemma Pow2OfFields()
    ensures Pow2(1) == 2 && Pow2(3) == 8 && Pow2(11) == 2048 && Pow2(15) == 32768
  {
    Pow2Of4();
    assert Pow2(11) == Pow2(5) * 64;
  }

  /** Parsing the bits of an encodable packet gives the packet back and
      stops right after its bits. */
  lemma {:induction false} ParseEncoded(data: seq<Word32>, pos: nat, end: nat, p: Packet, byLength: bool)
    requires Encodable(p, byLength) && Holds(data, pos, Encode(p, byLength))
    requires end == pos + |Encode(p, byLength)|
    ensures ParsePacket(data, pos) == Some(Parsed(p, end))
    decreases p
  {
    match p.body
    case Literal(v) =>
      LiteralHeld(data, pos, end, p, byLength);
      assert p == Packet(p.version, 4, Literal(v));
      ParseLiteral(data, pos, p.version, v, end);
    case Operator(ops) =>
      if byLength {
        LengthHeld(data, pos, end, p);
        ParseUntilEncoded(data, pos + 22, end, ops, [], byLength);
        ParseByLength(data, pos + 6, ops, |EncodeAll(ops, byLength)|, end);
        ParseOperatorPacket(data, pos, p, ops, end);
      } else {
        CountHeld(data, pos, end, p);
        ParseCountEncoded(data, pos + 18, end, ops, [], byLength);
        ParseByCount(data, pos + 6, ops, end);
        ParseOperatorPacket(data, pos, p, ops, end);
      }
  }

  /** Sub-packets held back to back from `pos`, parsed up to their total
      length. */
  lemma {:induction false} ParseUntilEncoded(data: seq<Word32>, pos: nat, end: nat, ops: seq<Packet>, acc: seq<Packet>, byLength: bool)
    requires AllEncodable(ops, byLength) && Holds(data, pos, EncodeAll(ops, byLength))
    requires end == pos + |EncodeAll(ops, byLength)|
    ensures ParseUntil(data, pos, end, acc) == Some(Subpackets(acc + ops, end))
    decreases ops
  {
    if |ops| == 0 {
      assert acc + ops == acc;
    } else {
      var mid := EncodeFirst(data, pos, end, ops, byLength);
      ParseEncoded(data, pos, mid, ops[0], byLength);
      ParseUntilEncoded(data, mid, end, ops[1..], acc + [ops[0]], byLength);
      ParseUntilJoin(data, pos, mid, end, acc, ops);
    }
  }

  /** Sub-packets held back to back from `pos`, parsed by their count. */
  lemma {:induction false} ParseCountEncoded(data: seq<Word32>, pos: nat, end: nat, ops: seq<Packet>, acc: seq<Packet>, byLength: bool)
    requires AllEncodable(ops, byLength) && Holds(data, pos, EncodeAll(ops, byLength))
    requires end == pos + |EncodeAll(ops, byLength)|
    ensures ParseCount(data, pos, |ops|, acc) == Some(Subpackets(acc + ops, end))
    decreases ops
  {
    if |ops| == 0 {
      assert acc + ops == acc;
    } else {
      var mid := EncodeFirst(data, pos, end, ops, byLength);
      ParseEncoded(data, pos, mid, ops[0], byLength);
      ParseCountEncoded(data, mid, end, ops[1..], acc + [ops[0]], byLength);
      ParseCountJoin(data, pos, mid, end, acc, ops);
    }
  }

  /** The first of several encoded packets, and where the rest start. */
  lemma EncodeFirst(data: seq<Word32>, pos: nat, end: nat, ops: seq<Packet>, byLength: bool) returns (mid: nat)
    requires |ops| > 0 && AllEncodable(ops, byLength) && Holds(data, pos, EncodeAll(ops, byLength))
    requires end == pos + |EncodeAll(ops, byLength)|
    ensures mid == pos + |Encode(ops[0], byLength)| && pos < mid
    ensures end == mid + |EncodeAll(ops[1..], byLength)|
    ensures Encodable(ops[0], byLength) && AllEncodable(ops[1..], byLength)
    ensures Holds(data, pos, Encode(ops[0], byLength)) && Holds(data, mid, EncodeAll(ops[1..], byLength))
  {
    var first, rest := Encode(ops[0], byLength), EncodeAll(ops[1..], byLength);
    EncodeAllFirst(ops, byLength);
    AllEncodableFirst(ops, byLength);
    mid := pos + |first|;
    HoldsSplit(data, pos, first, rest);
  }

  lemma EncodeAllFirst(ops: seq<Packet>, byLength: bool)
    requires |ops| > 0
    ensures EncodeAll(ops, byLength) == Encode(ops[0], byLength) + EncodeAll(ops[1..], byLength)
  {
  }

  lemma AllEncodableFirst(ops: seq<Packet>, byLength: bool)
    requires |ops| > 0 && AllEncodable(ops, byLength)
    ensures Encodable(ops[0], byLength) && AllEncodable(ops[1..], byLength)
  {
  }

  /** One packet parsed at `pos`, and the loop from after it, make the
      loop from `pos`. */
  lemma ParseUntilJoin(data: seq<Word32>, pos: nat, mid: nat, end: nat, acc: seq<Packet>, ops: seq<Packet>)
    requires |ops| > 0 && pos < mid
    requires ParsePacket(data, pos) == Some(Parsed(ops[0], mid))
    requires ParseUntil(data, mid, end, acc + [ops[0]]) == Some(Subpackets(acc + [ops[0]] + ops[1..], end))
    ensures ParseUntil(data, pos, end, acc) == Some(Subpackets(acc + ops, end))
  {
    SnocConcat(acc, ops);
  }

  lemma ParseCountJoin(data: seq<Word32>, pos: nat, mid: nat, end: nat, acc: seq<Packet>, ops: seq<Packet>)
    requires |ops| > 0
    requires ParsePacket(data, pos) == Some(Parsed(ops[0], mid))
    requires ParseCount(data, mid, |ops[1..]|, acc + [ops[0]]) == Some(Subpackets(acc + [ops[0]] + ops[1..], end))
    ensures ParseCount(data, pos, |ops|, acc) == Some(Subpackets(acc + ops, end))
  {
    SnocConcat(acc, ops);
  }

  lemma SnocConcat(acc: seq<Packet>, ops: seq<Packet>)
    requires |ops| > 0
    ensures acc + [ops[0]] + ops[1..] == acc + ops
  {
    assert ops == [ops[0]] + ops[1..];
  }

  /** The header and the groups of a held literal packet. */
  lemma LiteralHeld(data: seq<Word32>, pos: nat, end: nat, p: Packet, byLength: bool)
    requires p.body.Literal? && Encodable(p, byLength) && Holds(data, pos, Encode(p, byLength))
    requires end == pos + |Encode(p, byLength)|
    ensures Read(data, pos, 3) == Some(Reading(p.version, pos + 3))
    ensures Read(data, pos + 3, 3) == Some(Reading(4, pos + 6))
    ensures ReadGroups(data, pos + 6, 0) == Some(Reading(p.body.v, end))
  {
    var groups := Groups(Nibbles(p.body.v));
    assert Encode(p, byLength) == NatBits(p.version, 3) + (NatBits(p.typeid, 3) + groups);
    HeaderHeld(data, pos, p.version, p.typeid, groups);
    LiteralEncoded(data, pos + 6, end, p.body.v);
  }

  /** The header and length field of a held operator packet of length
      type 0. */
  lemma LengthHeld(data: seq<Word32>, pos: nat, end: nat, p: Packet)
    requires p.body.Operator? && Encodable(p, true) && Holds(data, pos, Encode(p, true))
    requires end == pos + |Encode(p, true)|
    ensures Read(data, pos, 3) == Some(Reading(p.version, pos + 3))
    ensures Read(data, pos + 3, 3) == Some(Reading(p.typeid, pos + 6))
    ensures Read(data, pos + 6, 1) == Some(Reading(0, pos + 7))
    ensures Read(data, pos + 7, 15) == Some(Reading(|EncodeAll(p.body.ops, true)|, pos + 22))
    ensures AllEncodable(p.body.ops, true) && Holds(data, pos + 22, EncodeAll(p.body.ops, true))
    ensures end == pos + 22 + |EncodeAll(p.body.ops, true)|
  {
    var inner := EncodeAll(p.body.ops, true);
    var tail := NatBits(0, 1) + (NatBits(|inner|, 15) + inner);
    assert Encode(p, true) == NatBits(p.version, 3) + (NatBits(p.typeid, 3) + tail);
    HeaderHeld(data, pos, p.version, p.typeid, tail);
    LengthFieldHeld(data, pos, end, inner);
  }

  lemma LengthFieldHeld(data: seq<Word32>, pos: nat, end: nat, inner: seq<bool>)
    requires |inner| < 32768 && end == pos + 22 + |inner|
    requires Holds(data, pos + 6, NatBits(0, 1) + (NatBits(|inner|, 15) + inner))
    ensures Read(data, pos + 6, 1) == Some(Reading(0, pos + 7))
    ensures Read(data, pos + 7, 15) == Some(Reading(|inner|, pos + 22))
    ensures Holds(data, pos + 22, inner)
  {
    Pow2OfFields();
    ReadHeld(data, pos + 6, 0, 1, NatBits(|inner|, 15) + inner);
    ReadHeld(data, pos + 7, |inner|, 15, inner);
  }

  /** The header and count field of a held operator packet of length
      type 1. */
  lemma CountHeld(data: seq<Word32>, pos: nat, end: nat, p: Packet)
    requires p.body.Operator? && Encodable(p, false) && Holds(data, pos, Encode(p, false))
    requires end == pos + |Encode(p, false)|
    ensures Read(data, pos, 3) == Some(Reading(p.version, pos + 3))
    ensures Read(data, pos + 3, 3) == Some(Reading(p.typeid, pos + 6))
    ensures Read(data, pos + 6, 1) == Some(Reading(1, pos + 7))
    ensures Read(data, pos + 7, 11) == Some(Reading(|p.body.ops|, pos + 18))
    ensures AllEncodable(p.body.ops, false) && Holds(data, pos + 18, EncodeAll(p.body.ops, false))
    ensures end == pos + 18 + |EncodeAll(p.body.ops, false)|
  {
    var inner := EncodeAll(p.body.ops, false);
    var tail := NatBits(1, 1) + (NatBits(|p.body.ops|, 11) + inner);
    assert Encode(p, false) == NatBits(p.version, 3) + (NatBits(p.typeid, 3) + tail);
    HeaderHeld(data, pos, p.version, p.typeid, tail);
    CountFieldHeld(data, pos, |p.body.ops|, inner);
  }

  lemma CountFieldHeld(data: seq<Word32>, pos: nat, n: nat, inner: seq<bool>)
    requires n < 2048
    requires Holds(data, pos + 6, NatBits(1, 1) + (NatBits(n, 11) + inner))
    ensures Read(data, pos + 6, 1) == Some(Reading(1, pos + 7))
    ensures Read(data, pos + 7, 11) == Some(Reading(n, pos + 18))
    ensures Holds(data, pos + 18, inner)
  {
    Pow2OfFields();
    ReadHeld(data, pos + 6, 1, 1, NatBits(n, 11) + inner);
    ReadHeld(data, pos + 7, n, 11, inner);
  }

  /** The version and type id fields of a held packet. */
  lemma HeaderHeld(data: seq<Word32>, pos: nat, version: nat, typeid: nat, tail: seq<bool>)
    requires version < 8 && typeid < 8
    requires Holds(data, pos, NatBits(version, 3) + (NatBits(typeid, 3) + tail))
    ensures Read(data, pos, 3) == Some(Reading(version, pos + 3))
    ensures Read(data, pos + 3, 3) == Some(Reading(typeid, pos + 6))
    ensures Holds(data, pos + 6, tail)
  {
    Pow2OfFields();
    ReadHeld(data, pos, version, 3, NatBits(typeid, 3) + tail);
    ReadHeld(data, pos + 3, typeid, 3, tail);
  }

  /** The groups of a literal's digits read back as the literal. */
  lemma LiteralEncoded(data: seq<Word32>, pos: nat, end: nat, v: nat)
    requires v < U64 && Holds(data, pos, Groups(Nibbles(v)))
    requires end == pos + |Groups(Nibbles(v))|
    ensures ReadGroups(data, pos, 0) == Some(Reading(v, end))
  {
    var ns := Nibbles(v);
    assert end == pos + 5 * |ns|;
    FoldNibbles(v);
    HeldGroupsAt(data, pos, ns);
    ReadGroupsAt(data, pos, end, 0, ns, v);
  }

  lemma ParseLiteral(data: seq<Word32>, pos: nat, version: nat, v: nat, end: nat)
    requires Read(data, pos, 3) == Some(Reading(version, pos + 3))
    requires Read(data, pos + 3, 3) == Some(Reading(4, pos + 6))
    requires ReadGroups(data, pos + 6, 0) == Some(Reading(v, end))
    ensures ParsePacket(data, pos) == Some(Parsed(Packet(version, 4, Literal(v)), end))
  {
  }

  lemma ParseOperatorPacket(data: seq<Word32>, pos: nat, p: Packet, ops: seq<Packet>, end: nat)
    requires p.body == Operator(ops) && p.typeid != 4
    requires Read(data, pos, 3) == Some(Reading(p.version, pos + 3))
    requires Read(data, pos + 3, 3) == Some(Reading(p.typeid, pos + 6))
    requires ParseOperator(data, pos + 6) == Some(Subpackets(ops, end))
    ensures ParsePacket(data, pos) == Some(Parsed(p, end))
  {
  }

  lemma ParseByLength(data: seq<Word32>, pos: nat, ops: seq<Packet>, len: nat, end: nat)
    requires Read(data, pos, 1) == Some(Reading(0, pos + 1))
    requires Read(data, pos + 1, 15) == Some(Reading(len, pos + 16))
    requires end == len + (pos + 16)
    requires ParseUntil(data, pos + 16, end, []) == Some(Subpackets([] + ops, end))
    ensures ParseOperator(data, pos) == Some(Subpackets(ops, end))
  {
    assert [] + ops == ops;
  }

  lemma ParseByCount(data: seq<Word32>, pos: nat, ops: seq<Packet>, end: nat)
    requires Read(data, pos, 1) == Some(Reading(1, pos + 1))
    requires Read(data, pos + 1, 11) == Some(Reading(|ops|, pos + 12))
    requires ParseCount(data, pos + 12, |ops|, []) == Some(Subpackets([] + ops, end))
    ensures ParseOperator(data, pos) == Some(Subpackets(ops, end))
  {
    assert [] + ops == ops;
  }

  // ------------------------------------------------------------------ packing

  /** Bits read as a number, most significant first. */
  function BitsValue(bs: seq<bool>): (v: nat)
    ensures v < Pow2(|bs|)
  {
    if |bs| == 0 then 0 else 2 * BitsValue(bs[..|bs| - 1]) + Flag(bs[|bs| - 1])
  }

  /** Digit `k` of the number is the `k`-th bit from the end. */
  lemma {:induction false} BitsValueBit(bs: seq<bool>, k: nat)
    requires k < |bs|
    ensures Bit(BitsValue(bs), k) == bs[|bs| - 1 - k]
    decreases k
  {
    var init := bs[..|bs| - 1];
    if k > 0 {
      assert BitsValue(bs) / 2 == BitsValue(init);
      BitsValueBit(init, k - 1);
      assert init[|init| - 1 - (k - 1)] == bs[|bs| - 1 - k];
    }
  }

  lemma Pow2Of32()
    ensures Pow2(32) == 0x1_0000_0000
  {
    assert Pow2(16) == 0x1_0000 by {
      assert Pow2(8) == 0x100;
    }
    PowAdd(16, 16);
  }

  /** Up to 32 bits as a word, padded with zero bits on the right, as the
      last, short chunk of the input is. */
  function Word(bs: seq<bool>): (w: Word32)
    requires |bs| <= 32
  {
    var padded := bs + seq(32 - |bs|, _ => false);
    Pow2Of32();
    BitsValue(padded)
  }

  lemma WordBit(bs: seq<bool>, i: nat)
    requires i < |bs| <= 32
    ensures Bit(Word(bs), 31 - i) == bs[i]
  {
    var padded := bs + seq(32 - |bs|, _ => false);
    BitsValueBit(padded, 31 - i);
  }

  /** A bit sequence as words of 32 bits, the last one padded. */
  function Pack(bs: seq<bool>): (data: seq<Word32>)
    ensures |bs| <= Capacity(data) < |bs| + 32
    decreases |bs|
  {
    if |bs| == 0 then []
    else if |bs| <= 32 then [Word(bs)]
    else [Word(bs[..32])] + Pack(bs[32..])
  }

  /** Every bit of the sequence is the stream bit at its index. */
  lemma {:induction false} PackBit(bs: seq<bool>, i: nat)
    requires i < |bs|
    ensures i < Capacity(Pack(bs)) && StreamBit(Pack(bs), i) == bs[i]
    decreases |bs|
  {
    if |bs| <= 32 {
      WordBit(bs, i);
    } else if i < 32 {
      WordBit(bs[..32], i);
    } else {
      PackBit(bs[32..], i - 32);
      assert Pack(bs)[i / 32] == Pack(bs[32..])[(i - 32) / 32];
    }
  }

  lemma {:induction false} HoldsEach(data: seq<Word32>, pos: nat, bs: seq<bool>)
    requires pos + |bs| <= Capacity(data)
    requires forall i :: 0 <= i < |bs| ==> StreamBit(data, pos + i) == bs[i]
    ensures Holds(data, pos, bs)
    decreases |bs|
  {
    if |bs| > 0 {
      assert StreamBit(data, pos + 0) == bs[0];
      var tail := bs[1..];
      forall i | 0 <= i < |tail|
        ensures StreamBit(data, pos + 1 + i) == tail[i]
      {
        assert tail[i] == bs[i + 1];
      }
      HoldsEach(data, pos + 1, tail);
    }
  }

  /** The packed words hold the bits from the start of the stream. */
  lemma PackHolds(bs: seq<bool>)
    ensures Holds(Pack(bs), 0, bs)
  {
    forall i | 0 <= i < |bs|
      ensures StreamBit(Pack(bs), 0 + i) == bs[i]
    {
      PackBit(bs, i);
    }
    HoldsEach(Pack(bs), 0, bs);
  }

  /** The round trip: the bits of an encodable packet, packed into words,
      parse back to the packet, ending right after its bits. */
  lemma RoundTrip(p: Packet, byLength: bool)
    requires Encodable(p, byLength)
    ensures ParsePacket(Pack(Encode(p, byLength)), 0) == Some(Parsed(p, |Encode(p, byLength)|))
  {
    PackHolds(Encode(p, byLength));
    ParseEncoded(Pack(Encode(p, byLength)), 0, |Encode(p, byLength)|, p, byLength);
  }
}

=== FILE: densegrid.dfy ===
/** The dense character grid of the 2023 utilities (2023/util/src/lib.rs):
    the lines of the input laid out row after row in one vector, `width`
    characters to a row, where `.` stands for an empty cell. Positions are
    `(x, y)` pairs of `i64`; those outside the grid hold nothing. */
module DenseGrid {
  import opened Wrappers
  import opened Text
  import opened Arith

  /** An `i64` coordinate. */
  type I64 = x: int | I64Min <= x <= I64Max

  datatype Grid = Grid(data: seq<char>, width: nat)

  /** What every constructor guarantees: a grid without columns holds no
      cells. */
  predicate Valid(g: Grid) {
    g.width == 0 ==> |g.data| == 0
  }

  /** The lines one after the other, as `data.extend(line.chars())` lays
      them out. */
  function Concat(ls: seq<string>): (s: string)
    ensures |s| == 0 <==> forall k :: 0 <= k < |ls| ==> |ls[k]| == 0
  {
    if |ls| == 0 then [] else ls[0] + Concat(ls[1..])
  }

  /** Every line is `w` bytes long, as the `assert_eq!` of `new` demands. */
  predicate SameLength(ls: seq<string>, w: nat) {
    forall k :: 0 <= k < |ls| ==> |Bytes(ls[k])| == w
  }

  /** `new`: the width is the byte length of the first line; `None` is the
      panic on empty input or on a line of another length. */
  function New(s: string): (r: Option<Grid>)
    ensures r.Some? ==> Valid(r.value)
    ensures r.Some? <==> |Lines(s)| > 0 && SameLength(Lines(s), |Bytes(Lines(s)[0])|)
  {
    var ls := Lines(s);
    if |ls| == 0 then None
    else
      var w := |Bytes(ls[0])|;
      if !SameLength(ls, w) then None
      else
        assert w == 0 ==> forall k :: 0 <= k < |ls| ==> |ls[k]| == 0 by {
          forall k | 0 <= k < |ls|
            ensures w == 0 ==> |ls[k]| == 0
          {
            assert |Bytes(ls[k])| >= |ls[k]|;
          }
        }
        Some(Grid(Concat(ls), w))
  }

  /** `empty`: `width * height` empty cells. */
  function Empty(width: nat, height: nat): (g: Grid)
    ensures Valid(g) && g.width == width && |g.data| == width * height
    ensures forall x: I64, y: I64 :: Get(g, x, y) == None
  {
    Grid(seq(width * height, _ => '.'), width)
  }

  /** `height`; `None` is the division by a zero width. */
  function Height(g: Grid): (h: Option<nat>)
    ensures h.Some? <==> g.width > 0
    ensures h.Some? ==> h.value * g.width <= |g.data| < (h.value + 1) * g.width
  {
    if g.width == 0 then None
    else
      var h := |g.data| / g.width;
      assert h * g.width <= |g.data| < (h + 1) * g.width by {
        DivBounds(|g.data|, g.width);
      }
      Some(h)
  }

  lemma DivBounds(n: nat, w: nat)
    requires w > 0
    ensures (n / w) * w <= n < (n / w + 1) * w
  {
  }

  /** `index`: the position of `(x, y)` in `data`, or `None` when `x` or `y`
      is negative, `x` is past the width or the index past the end. */
  function Index(g: Grid, x: I64, y: I64): (r: Option<nat>)
    ensures r.Some? ==> r.value < |g.data| && 0 <= x < g.width && 0 <= y
  {
    if x < 0 || y < 0 || x >= g.width then None
    else
      var i := y * g.width + x;
      if i >= |g.data| then None else Some(i)
  }

  /** `deindex`: the position of entry `i`. */
  function Deindex(g: Grid, i: nat): (pos: (int, int))
    requires g.width > 0
  {
    (i % g.width, i / g.width)
  }

  /** `deindex` inverts `index`. */
  lemma DeindexIndex(g: Grid, x: I64, y: I64)
    requires Index(g, x, y).Some?
    ensures Deindex(g, Index(g, x, y).value) == (x, y)
  {
    var w := g.width;
    DivMod(y, w, x);
  }

  /** `index` inverts `deindex` on every entry of a valid grid (whose
      length, as a `Vec`'s, is below `isize::MAX`). */
  lemma IndexDeindex(g: Grid, i: nat)
    requires Valid(g) && i < |g.data| <= I64Max
    ensures g.width > 0
    ensures var (x, y) := Deindex(g, i); I64Min <= x <= I64Max && I64Min <= y <= I64Max
    ensures var (x, y) := Deindex(g, i); Index(g, x as I64, y as I64) == Some(i)
  {
    var w := g.width;
    var x, y := i % w, i / w;
    assert y * w + x == i;
    assert y <= i by {
      MulAtLeast(w, y);
    }
  }

  /** Different positions have different indices. */
  lemma IndexInjective(g: Grid, x: I64, y: I64, x2: I64, y2: I64)
    requires Index(g, x, y).Some? && Index(g, x, y) == Index(g, x2, y2)
    ensures x == x2 && y == y2
  {
    DeindexIndex(g, x, y);
    DeindexIndex(g, x2, y2);
  }

  function Contains(g: Grid, x: I64, y: I64): bool {
    Index(g, x, y).Some?
  }

  /** `get`: the character at `(x, y)`, with `.` read as nothing. */
  function Get(g: Grid, x: I64, y: I64): (r: Option<char>)
    ensures r.Some? ==> Contains(g, x, y) && r.value != '.'
  {
    match Index(g, x, y)
    case None => None
    case Some(i) => if g.data[i] == '.' then None else Some(g.data[i])
  }

  /** `insert`; `None` is the panic on `c == '.'` or a position outside
      the grid. */
  function Insert(g: Grid, x: I64, y: I64, c: char): (r: Option<Grid>)
    ensures r.Some? <==> c != '.' && Contains(g, x, y)
    ensures r.Some? ==> r.value.width == g.width && |r.value.data| == |g.data|
    ensures r.Some? ==> Get(r.value, x, y) == Some(c)
    ensures r.Some? ==> forall x2: I64, y2: I64 :: (x2, y2) != (x, y) ==> Get(r.value, x2, y2) == Get(g, x2, y2)
  {
    if c == '.' then None
    else
      match Index(g, x, y)
      case None => None
      case Some(i) =>
        var h := Grid(g.data[i := c], g.width);
        assert forall x2: I64, y2: I64 :: (x2, y2) != (x, y) ==> Get(h, x2, y2) == Get(g, x2, y2) by {
          forall x2: I64, y2: I64 | (x2, y2) != (x, y)
            ensures Get(h, x2, y2) == Get(g, x2, y2)
          {
            if Index(g, x2, y2) == Some(i) {
              IndexInjective(g, x, y, x2, y2);
            }
          }
        }
        Some(h)
  }

  /** What `retain` leaves at `(x, y)`: the value, if it passes `f`. */
  function Kept(g: Grid, f: ((int, int), char) -> bool, x: I64, y: I64): Option<char> {
    match Get(g, x, y)
    case None => None
    case Some(c) => if f((x, y), c) then Some(c) else None
  }

  /** Entry `i` after `retain`'s loop has passed it. */
  function Retained(g: Grid, f: ((int, int), char) -> bool, i: nat): char
    requires g.width > 0 && i < |g.data|
  {
    if g.data[i] != '.' && !f(Deindex(g, i), g.data[i]) then '.' else g.data[i]
  }

  /** `retain`: every value failing `f` becomes empty, and nothing else
      changes. */
  method Retain(g: Grid, f: ((int, int), char) -> bool) returns (r: Grid)
    requires Valid(g)
    ensures Valid(r) && r.width == g.width && |r.data| == |g.data|
    ensures forall x: I64, y: I64 :: Get(r, x, y) == Kept(g, f, x, y)
  {
    var data := g.data;
    var i := 0;
    while i < |data|
      invariant 0 <= i <= |data| == |g.data|
      invariant g.width > 0 || |data| == 0
      invariant forall j :: 0 <= j < i ==> data[j] == Retained(g, f, j)
      invariant forall j :: i <= j < |data| ==> data[j] == g.data[j]
    {
      var pos := Deindex(g, i);
      if data[i] != '.' && !f(pos, data[i]) {
        data := data[i := '.'];
      }
      i := i + 1;
    }
    r := Grid(data, g.width);
    forall x: I64, y: I64
      ensures Get(r, x, y) == Kept(g, f, x, y)
    {
      if Index(g, x, y).Some? {
        DeindexIndex(g, x, y);
      }
    }
  }

  /** The grid `new` builds from lines of ASCII reads back the text: the
      character in column `x` of line `y`, with `.` read as nothing, and
      nothing outside the lines. */
  lemma NewReads(s: string, x: I64, y: I64)
    requires New(s).Some? && forall k :: 0 <= k < |Lines(s)| ==> Ascii(Lines(s)[k])
    ensures var ls, g := Lines(s), New(s).value;
      Get(g, x, y) ==
        if 0 <= y < |ls| && 0 <= x < g.width && ls[y][x] != '.' then Some(ls[y][x]) else None
  {
    var ls, g := Lines(s), New(s).value;
    NewIsConcat(s);
    ConcatReads(ls, g.width, x, y);
  }

  /** The grid `new` builds is the lines laid end to end, each as wide as
      the grid when the text is ASCII. */
  lemma NewIsConcat(s: string)
    requires New(s).Some? && forall k :: 0 <= k < |Lines(s)| ==> Ascii(Lines(s)[k])
    ensures New(s).value == Grid(Concat(Lines(s)), New(s).value.width)
    ensures forall k :: 0 <= k < |Lines(s)| ==> |Lines(s)[k]| == New(s).value.width
  {
  }

  /** Reading the lines laid end to end, `w` to a row. */
  lemma ConcatReads(ls: seq<string>, w: nat, x: I64, y: I64)
    requires forall k :: 0 <= k < |ls| ==> |ls[k]| == w
    ensures Get(Grid(Concat(ls), w), x, y) ==
      if 0 <= y < |ls| && 0 <= x < w && ls[y][x] != '.' then Some(ls[y][x]) else None
  {
    if 0 <= y < |ls| && 0 <= x < w {
      ConcatIndex(ls, w, y, x);
    } else if 0 <= y && 0 <= x < w {
      PastLines(ls, w, y, x);
    }
  }

  /** A row past the last line is past the end of the data. */
  lemma PastLines(ls: seq<string>, w: nat, y: nat, x: nat)
    requires forall k :: 0 <= k < |ls| ==> |ls[k]| == w
    requires |ls| <= y
    ensures y * w + x >= |Concat(ls)|
  {
    ConcatLength(ls, w);
    MulMono(|ls|, y, w);
  }

  lemma MulSucc(n: nat, w: nat)
    ensures (n + 1) * w == n * w + w
  {
  }

  lemma MulMono(a: nat, b: nat, w: nat)
    requires a <= b
    ensures a * w <= b * w
  {
  }

  lemma {:induction false} ConcatLength(ls: seq<string>, w: nat)
    requires forall k :: 0 <= k < |ls| ==> |ls[k]| == w
    ensures |Concat(ls)| == |ls| * w
  {
    if |ls| > 0 {
      ConcatLength(ls[1..], w);
      MulSucc(|ls| - 1, w);
    }
  }

  /** Row `y`, column `x` of equal-length lines sits at `y * w + x`. */
  lemma {:induction false} ConcatIndex(ls: seq<string>, w: nat, y: nat, x: nat)
    requires forall k :: 0 <= k < |ls| ==> |ls[k]| == w
    requires y < |ls| && x < w
    ensures y * w + x < |Concat(ls)| && Concat(ls)[y * w + x] == ls[y][x]
  {
    ConcatLength(ls, w);
    MulAddBound(y, |ls|, w, x);
    if y > 0 {
      ConcatIndex(ls[1..], w, y - 1, x);
      assert y * w + x == w + ((y - 1) * w + x);
    }
  }
}

=== FILE: equations.dfy ===
/** Bridge calibration of 2024 day 7 (2024/07/src/lib.rs): each line is a
    test value followed by numbers, and an equation holds when operators
    placed between the numbers, evaluated strictly left to right, give the
    test value. Part one allows `+` and `*`; part two also allows `||`,
    which writes the digits of its right operand after those of its left.
    The search tries `*`, then `+`, then `||`; part two abandons a branch
    as soon as the running value passes the test value. Numbers are
    unbounded: the `u64` overflow of the products is not modelled. */
module Equations {
  import opened Wrappers
  import opened Text
  import opened Util2024

  datatype Equation = Equation(total: nat, values: seq<nat>)

  // ------------------------------------------------------------ operators

  /** `ilog10`: the exponent of the largest power of ten not above `b`. */
  function ILog10(b: nat): (k: nat)
    requires b > 0
    ensures Pow(10, k) <= b < Pow(10, k + 1)
  {
    if b < 10 then 0
    else
      var k := 1 + ILog10(b / 10);
      assert Pow(10, k) == 10 * Pow(10, k - 1);
      assert Pow(10, k + 1) == 10 * Pow(10, k);
      k
  }

  /** The concatenation step of `recurse_any`:
      `accum * 10.pow(b.ilog10() + 1) + b`. */
  function CatCode(a: nat, b: nat): nat
    requires b > 0
  {
    a * Pow(10, ILog10(b) + 1) + b
  }

  /** The puzzle's `||`: the digits of `a`, then those of `b`, read as one
      number. */
  function Concat(a: nat, b: nat): nat {
    DigitsValue(NatToString(a) + NatToString(b))
  }

  /** `ilog10 + 1` is the number of decimal digits. */
  lemma {:induction false} DigitCount(b: nat)
    requires b > 0
    ensures |NatToString(b)| == ILog10(b) + 1
  {
    if b >= 10 {
      DigitCount(b / 10);
    }
  }

  /** The value of two digit strings written one after the other. */
  lemma {:induction false} DigitsAppend(x: string, y: string)
    requires AllDigits(x) && AllDigits(y)
    ensures AllDigits(x + y)
    ensures DigitsValue(x + y) == DigitsValue(x) * Pow(10, |y|) + DigitsValue(y)
    decreases |y|
  {
    if |y| == 0 {
      assert x + y == x;
    } else {
      var y' := y[..|y| - 1];
      var d := DigitValue(y[|y| - 1]);
      assert (x + y)[..|x + y| - 1] == x + y';
      DigitsAppend(x, y');
      var p := Pow(10, |y'|);
      assert DigitsValue(x + y) == DigitsValue(x + y') * 10 + d;
      assert Pow(10, |y|) == 10 * p;
      Shift(DigitsValue(x), p, DigitsValue(y'), d);
    }
  }

  lemma Shift(v: nat, p: nat, w: nat, d: nat)
    ensures (v * p + w) * 10 + d == v * (10 * p) + (w * 10 + d)
  {
  }

  /** The arithmetic of `recurse_any` is the puzzle's `||` on a positive
      right operand. */
  lemma CatIsConcat(a: nat, b: nat)
    requires b > 0
    ensures CatCode(a, b) == Concat(a, b)
  {
    DigitCount(b);
    DigitsAppend(NatToString(a), NatToString(b));
  }

  datatype Op = Add | Mul | Cat

  function Apply(op: Op, a: nat, b: nat): nat {
    match op
    case Add => a + b
    case Mul => a * b
    case Cat => Concat(a, b)
  }

  /** The operators `ops` placed after `accum`, one before each number,
      evaluated left to right. */
  function Eval(accum: nat, slice: seq<nat>, ops: seq<Op>): nat
    requires |ops| == |slice|
    decreases |slice|
  {
    if |slice| == 0 then accum else Eval(Apply(ops[0], accum, slice[0]), slice[1..], ops[1..])
  }

  /** Some choice of operators from `allowed` makes the numbers after
      `accum` give `total`. */
  ghost predicate Solvable(total: nat, accum: nat, slice: seq<nat>, allowed: set<Op>) {
    exists ops: seq<Op> ::
      |ops| == |slice| && (forall i :: 0 <= i < |ops| ==> ops[i] in allowed) && Eval(accum, slice, ops) == total
  }

  // ---------------------------------------------------------------- search

  /** `recurse`: `*` first, then `+`. */
  function Recurse(total: nat, accum: nat, slice: seq<nat>): bool
    decreases |slice|
  {
    if |slice| == 0 then total == accum
    else Recurse(total, accum * slice[0], slice[1..]) || Recurse(total, accum + slice[0], slice[1..])
  }

  /** `recurse_any`: `*`, `+`, then `||`, giving up once the running value
      passes the total; `None` is the panic of `ilog10` on a zero reached
      by the `||` branch. */
  function RecurseAny(total: nat, accum: nat, slice: seq<nat>): Option<bool>
    decreases |slice|
  {
    if |slice| == 0 then Some(total == accum)
    else if accum > total then Some(false)
    else
      match RecurseAny(total, accum * slice[0], slice[1..])
      case None => None
      case Some(true) => Some(true)
      case Some(false) =>
        match RecurseAny(total, accum + slice[0], slice[1..])
        case None => None
        case Some(true) => Some(true)
        case Some(false) =>
          if slice[0] == 0 then None else RecurseAny(total, CatCode(accum, slice[0]), slice[1..])
  }

  const Part1: set<Op> := {Add, Mul}
  const Part2: set<Op> := {Add, Mul, Cat}

  /** The first operator of a choice, and the rest of it. */
  lemma Unfold(accum: nat, slice: seq<nat>, ops: seq<Op>)
    requires |ops| == |slice| > 0
    ensures Eval(accum, slice, ops) == Eval(Apply(ops[0], accum, slice[0]), slice[1..], ops[1..])
  {
  }

  lemma Extend(total: nat, op: Op, accum: nat, slice: seq<nat>, allowed: set<Op>)
    requires |slice| > 0 && op in allowed
    requires Solvable(total, Apply(op, accum, slice[0]), slice[1..], allowed)
    ensures Solvable(total, accum, slice, allowed)
  {
    var ops :| |ops| == |slice[1..]| && (forall i :: 0 <= i < |ops| ==> ops[i] in allowed)
              && Eval(Apply(op, accum, slice[0]), slice[1..], ops) == total;
    var ops' := [op] + ops;
    assert ops'[1..] == ops;
    Unfold(accum, slice, ops');
  }

  lemma Peel(total: nat, accum: nat, slice: seq<nat>, allowed: set<Op>) returns (op: Op)
    requires |slice| > 0 && Solvable(total, accum, slice, allowed)
    ensures op in allowed && Solvable(total, Apply(op, accum, slice[0]), slice[1..], allowed)
  {
    var ops :| |ops| == |slice| && (forall i :: 0 <= i < |ops| ==> ops[i] in allowed) && Eval(accum, slice, ops) == total;
    op := ops[0];
    Unfold(accum, slice, ops);
    assert forall i :: 0 <= i < |ops[1..]| ==> ops[1..][i] == ops[i + 1];
  }

  lemma SolvableEmpty(total: nat, accum: nat, allowed: set<Op>)
    ensures Solvable(total, accum, [], allowed) <==> total == accum
  {
    var none: seq<Op> := [];
    assert Eval(accum, [], none) == accum;
  }

  /** `recurse` answers whether `+` and `*` can make the equation hold. */
  lemma {:induction false} RecurseSolvable(total: nat, accum: nat, slice: seq<nat>)
    ensures Recurse(total, accum, slice) <==> Solvable(total, accum, slice, Part1)
    decreases |slice|
  {
    if |slice| == 0 {
      SolvableEmpty(total, accum, Part1);
    } else {
      var x, rest := slice[0], slice[1..];
      RecurseSolvable(total, accum * x, rest);
      RecurseSolvable(total, accum + x, rest);
      if Recurse(total, accum * x, rest) {
        Extend(total, Mul, accum, slice, Part1);
      } else if Recurse(total, accum + x, rest) {
        Extend(total, Add, accum, slice, Part1);
      }
      if Solvable(total, accum, slice, Part1) {
        var op := Peel(total, accum, slice, Part1);
      }
    }
  }

  predicate Positive(slice: seq<nat>) {
    forall i :: 0 <= i < |slice| ==> slice[i] > 0
  }

  /** With positive numbers no operator makes the running value smaller,
      which is what justifies the pruning of `recurse_any`. */
  lemma {:induction false} EvalGrows(accum: nat, slice: seq<nat>, ops: seq<Op>)
    requires |ops| == |slice| && Positive(slice)
    ensures Eval(accum, slice, ops) >= accum
    decreases |slice|
  {
    if |slice| > 0 {
      var next := Apply(ops[0], accum, slice[0]);
      ApplyGrows(ops[0], accum, slice[0]);
      EvalGrows(next, slice[1..], ops[1..]);
    }
  }

  lemma ApplyGrows(op: Op, a: nat, b: nat)
    requires b > 0
    ensures Apply(op, a, b) >= a
  {
    match op
    case Add =>
    case Mul => MulGrows(a, b);
    case Cat =>
      CatIsConcat(a, b);
      MulGrows(a, Pow(10, ILog10(b) + 1));
  }

  lemma MulGrows(a: nat, b: nat)
    requires b > 0
    ensures a * b >= a
  {
  }

  /** `recurse_any` answers `true` only when `+`, `*` and `||` can make the
      equation hold. */
  lemma {:induction false} RecurseAnySound(total: nat, accum: nat, slice: seq<nat>)
    ensures RecurseAny(total, accum, slice) == Some(true) ==> Solvable(total, accum, slice, Part2)
    decreases |slice|
  {
    if |slice| == 0 {
      SolvableEmpty(total, accum, Part2);
    } else if accum <= total {
      var x, rest := slice[0], slice[1..];
      RecurseAnySound(total, accum * x, rest);
      RecurseAnySound(total, accum + x, rest);
      if RecurseAny(total, accum * x, rest) == Some(true) {
        Extend(total, Mul, accum, slice, Part2);
      } else if RecurseAny(total, accum + x, rest) == Some(true) {
        Extend(total, Add, accum, slice, Part2);
      } else if x > 0 {
        RecurseAnySound(total, CatCode(accum, x), rest);
        CatIsConcat(accum, x);
        if RecurseAny(total, CatCode(accum, x), rest) == Some(true) {
          Extend(total, Cat, accum, slice, Part2);
        }
      }
    }
  }

  /** On positive numbers `recurse_any` never panics and decides whether
      `+`, `*` and `||` can make the equation hold: the pruning loses no
      solution. */
  lemma {:induction false} RecurseAnyDecides(total: nat, accum: nat, slice: seq<nat>)
    requires Positive(slice)
    ensures RecurseAny(total, accum, slice) == Some(Solvable(total, accum, slice, Part2))
    decreases |slice|
  {
    if |slice| == 0 {
      SolvableEmpty(total, accum, Part2);
    } else {
      var x, rest := slice[0], slice[1..];
      assert Positive(rest);
      if accum > total {
        if Solvable(total, accum, slice, Part2) {
          var ops :| |ops| == |slice| && (forall i :: 0 <= i < |ops| ==> ops[i] in Part2) && Eval(accum, slice, ops) == total;
          EvalGrows(accum, slice, ops);
        }
      } else {
        RecurseAnyDecides(total, accum * x, rest);
        RecurseAnyDecides(total, accum + x, rest);
        RecurseAnyDecides(total, CatCode(accum, x), rest);
        CatIsConcat(accum, x);
        if RecurseAny(total, accum * x, rest) == Some(true) {
          Extend(total, Mul, accum, slice, Part2);
        } else if RecurseAny(total, accum + x, rest) == Some(true) {
          Extend(total, Add, accum, slice, Part2);
        } else if RecurseAny(total, CatCode(accum, x), rest) == Some(true) {
          Extend(total, Cat, accum, slice, Part2);
        }
        if Solvable(total, accum, slice, Part2) {
          var op := Peel(total, accum, slice, Part2);
        }
      }
    }
  }

  /** A choice of `+` and `*` is a choice of `+`, `*` and `||`. */
  lemma Widen(total: nat, accum: nat, slice: seq<nat>)
    requires Solvable(total, accum, slice, Part1)
    ensures Solvable(total, accum, slice, Part2)
  {
    var ops :| |ops| == |slice| && (forall i :: 0 <= i < |ops| ==> ops[i] in Part1) && Eval(accum, slice, ops) == total;
    assert forall i :: 0 <= i < |ops| ==> ops[i] in Part2;
  }

  // ------------------------------------------------------------- equations

  /** `is_valid`; `None` is the panic of `values[0]` on an equation with no
      numbers. */
  function IsValid(e: Equation): Option<bool> {
    if |e.values| == 0 then None else Some(Recurse(e.total, e.values[0], e.values[1..]))
  }

  function IsValidAny(e: Equation): Option<bool> {
    if |e.values| == 0 then None else RecurseAny(e.total, e.values[0], e.values[1..])
  }

  /** The equation holds with the operators in `allowed`. */
  ghost predicate Holds(e: Equation, allowed: set<Op>) {
    |e.values| > 0 && Solvable(e.total, e.values[0], e.values[1..], allowed)
  }

  /** `is_valid` decides part one's rule. */
  lemma IsValidMeans(e: Equation)
    requires |e.values| > 0
    ensures IsValid(e) == Some(Holds(e, Part1))
  {
    RecurseSolvable(e.total, e.values[0], e.values[1..]);
  }

  /** `is_valid_any` answers `true` only under part two's rule, and on
      positive numbers decides it. */
  lemma IsValidAnyMeans(e: Equation)
    requires |e.values| > 0
    ensures IsValidAny(e) == Some(true) ==> Holds(e, Part2)
    ensures Positive(e.values) ==> IsValidAny(e) == Some(Holds(e, Part2))
  {
    RecurseAnySound(e.total, e.values[0], e.values[1..]);
    if Positive(e.values) {
      RecurseAnyDecides(e.total, e.values[0], e.values[1..]);
    }
  }

  /** One line: its first integer is the test value (`None` is the panic
      of `unwrap` on a line without one), the rest are the numbers. */
  function ParseEquation(line: string): (r: Option<Equation>)
    ensures r.Some? ==> [r.value.total] + r.value.values == GetIntegers(line)
  {
    var xs := GetIntegers(line);
    if |xs| == 0 then None else Some(Equation(xs[0], xs[1..]))
  }

  function ParseEquations(ls: seq<string>): (r: Option<seq<Equation>>)
    ensures r.Some? ==> |r.value| == |ls|
  {
    if |ls| == 0 then Some([])
    else
      match (ParseEquation(ls[0]), ParseEquations(ls[1..]))
      case (Some(e), Some(rest)) => Some([e] + rest)
      case _ => None
  }

  /** The sum of the test values of the equations `check` accepts; `None`
      if it panics on one. */
  function SumIf(eqs: seq<Equation>, check: Equation -> Option<bool>): Option<nat> {
    if |eqs| == 0 then Some(0)
    else
      match (check(eqs[0]), SumIf(eqs[1..], check))
      case (Some(b), Some(n)) => Some(n + if b then eqs[0].total else 0)
      case _ => None
  }

  /** `solve`: the calibration results of parts one and two. */
  function Solve(s: string): Option<(nat, nat)> {
    match ParseEquations(Lines(s))
    case None => None
    case Some(eqs) =>
      match (SumIf(eqs, IsValid), SumIf(eqs, IsValidAny))
      case (Some(a), Some(b)) => Some((a, b))
      case _ => None
  }

  /** The sum of the test values of the equations that hold with the
      operators in `allowed`. */
  ghost function SumHolding(eqs: seq<Equation>, allowed: set<Op>): nat {
    if |eqs| == 0 then 0
    else SumHolding(eqs[1..], allowed) + if Holds(eqs[0], allowed) then eqs[0].total else 0
  }

  /** Equations with at least one number, all positive. */
  predicate WellFormed(eqs: seq<Equation>) {
    forall k :: 0 <= k < |eqs| ==> |eqs[k].values| > 0 && Positive(eqs[k].values)
  }

  /** On well-formed equations the sums of `solve` are the totals of the
      equations that hold under each part's rule. */
  lemma {:induction false} SumsMean(eqs: seq<Equation>)
    requires WellFormed(eqs)
    ensures SumIf(eqs, IsValid) == Some(SumHolding(eqs, Part1))
    ensures SumIf(eqs, IsValidAny) == Some(SumHolding(eqs, Part2))
  {
    if |eqs| > 0 {
      IsValidMeans(eqs[0]);
      IsValidAnyMeans(eqs[0]);
      SumsMean(eqs[1..]);
    }
  }

  /** Part two's result is at least part one's: every equation that holds
      with `+` and `*` holds with `||` allowed too. */
  lemma {:induction false} PartTwoCoversPartOne(eqs: seq<Equation>)
    ensures SumHolding(eqs, Part1) <= SumHolding(eqs, Part2)
  {
    if |eqs| > 0 {
      if Holds(eqs[0], Part1) {
        Widen(eqs[0].total, eqs[0].values[0], eqs[0].values[1..]);
      }
      PartTwoCoversPartOne(eqs[1..]);
    }
  }
  // ------------------------------------------------------------- rendering

  /** An equation written the way the input has it: `total: v1 v2 ...`. */
  function EquationText(e: Equation): string {
    NatToString(e.total) + ": " + RenderNumbers(e.values, " ")
  }

  function EquationTexts(eqs: seq<Equation>): (ls: seq<string>)
    ensures |ls| == |eqs|
  {
    seq(|eqs|, k requires 0 <= k < |eqs| => EquationText(eqs[k]))
  }

  /** Equations written out one per line. */
  function Render(eqs: seq<Equation>): string {
    Unlines(EquationTexts(eqs))
  }

  /** Reading a written-out equation gives it back. */
  lemma ParseEquationText(e: Equation)
    requires |e.values| > 0
    ensures ParseEquation(EquationText(e)) == Some(e)
  {
    var t, vs := NatToString(e.total), e.values;
    var r := RenderNumbers(vs, " ");
    var line := EquationText(e);
    var pre := t + ": ";
    assert line == pre + r;
    assert line[0..] == t + (": " + r);
    RenderedStartsWithDigit(vs, " ");
    assert IsDigit(t[0]) && line[0] == t[0];
    assert SkipNonDigits(line, 0) == 0;
    NextOverSeparator(line, 0, e.total, ": ", r);
    DrainRendered(pre, vs, " ");
    DrainGlue(line, 0, e.total, |pre|, vs);
  }

  /** A written-out list of numbers holds no newline. */
  lemma {:induction false} RenderedNoNewline(xs: seq<nat>)
    ensures '\n' !in RenderNumbers(xs, " ") && '\r' !in RenderNumbers(xs, " ")
  {
    if |xs| > 0 {
      var d := NatToString(xs[0]);
      assert forall j :: 0 <= j < |d| ==> IsDigit(d[j]);
      if |xs| > 1 {
        RenderedNoNewline(xs[1..]);
      }
    }
  }

  lemma EquationTextNoNewline(e: Equation)
    ensures '\n' !in EquationText(e) && '\r' !in EquationText(e)
  {
    var d := NatToString(e.total);
    assert forall j :: 0 <= j < |d| ==> IsDigit(d[j]);
    RenderedNoNewline(e.values);
  }

  lemma ParseCons(l: string, ls: seq<string>, e: Equation, es: seq<Equation>)
    requires ParseEquation(l) == Some(e) && ParseEquations(ls) == Some(es)
    ensures ParseEquations([l] + ls) == Some([e] + es)
  {
    assert ([l] + ls)[0] == l && ([l] + ls)[1..] == ls;
  }

  lemma {:induction false} ParseTexts(eqs: seq<Equation>)
    requires forall k :: 0 <= k < |eqs| ==> |eqs[k].values| > 0
    ensures ParseEquations(EquationTexts(eqs)) == Some(eqs)
  {
    if |eqs| > 0 {
      var e, es := eqs[0], eqs[1..];
      assert EquationTexts(eqs) == [EquationText(e)] + EquationTexts(es);
      ParseEquationText(e);
      ParseTexts(es);
      ParseCons(EquationText(e), EquationTexts(es), e, es);
      assert eqs == [e] + es;
    }
  }

  /** Parsing written-out equations gives them back. */
  lemma ParseRender(eqs: seq<Equation>)
    requires forall k :: 0 <= k < |eqs| ==> |eqs[k].values| > 0
    ensures ParseEquations(Lines(Render(eqs))) == Some(eqs)
  {
    var ls := EquationTexts(eqs);
    forall k | 0 <= k < |ls|
      ensures '\n' !in ls[k] && '\r' !in ls[k]
    {
      EquationTextNoNewline(eqs[k]);
    }
    LinesUnlines(ls);
    ParseTexts(eqs);
  }

  // ------------------------------------------------------------- example

  const Eq0 := Equation(190, [10, 19])
  const Eq1 := Equation(3267, [81, 40, 27])
  const Eq2 := Equation(83, [17, 5])
  const Eq3 := Equation(156, [15, 6])
  const Eq4 := Equation(7290, [6, 8, 6, 15])
  const Eq5 := Equation(161011, [16, 10, 13])
  const Eq6 := Equation(192, [17, 8, 14])
  const Eq7 := Equation(21037, [9, 7, 18, 13])
  const Eq8 := Equation(292, [11, 6, 16, 20])

  /** The nine equations of the puzzle's example, built from the back so
      that every suffix has a name. */
  const ExampleEquations := [Eq0] + From1
  const From1 := [Eq1] + From2
  const From2 := [Eq2] + From3
  const From3 := [Eq3] + From4
  const From4 := [Eq4] + From5
  const From5 := [Eq5] + From6
  const From6 := [Eq6] + From7
  const From7 := [Eq7] + From8
  const From8 := [Eq8]

  lemma Verdict0()
    ensures IsValid(Eq0) == Some(true) && IsValidAny(Eq0) == Some(true)
  {
  }

  lemma Verdict1()
    ensures IsValid(Eq1) == Some(true) && IsValidAny(Eq1) == Some(true)
  {
  }

  lemma Verdict2()
    ensures IsValid(Eq2) == Some(false) && IsValidAny(Eq2) == Some(false)
  {
  }

  lemma Verdict3()
    ensures IsValid(Eq3) == Some(false) && IsValidAny(Eq3) == Some(true)
  {
  }

  lemma Verdict4()
    ensures IsValid(Eq4) == Some(false) && IsValidAny(Eq4) == Some(true)
  {
  }

  lemma Verdict5()
    ensures IsValid(Eq5) == Some(false) && IsValidAny(Eq5) == Some(false)
  {
  }

  lemma Verdict6()
    ensures IsValid(Eq6) == Some(false) && IsValidAny(Eq6) == Some(true)
  {
  }

  lemma Verdict7()
    ensures IsValid(Eq7) == Some(false) && IsValidAny(Eq7) == Some(false)
  {
    Verdict7Any();
  }

  lemma Verdict7Any()
    ensures IsValidAny(Eq7) == Some(false)
  {
    Branches7();
    assert CatCode(9, 7) == 97;
  }

  lemma Branches7()
    ensures RecurseAny(21037, 63, [18, 13]) == Some(false)
    ensures RecurseAny(21037, 16, [18, 13]) == Some(false)
    ensures RecurseAny(21037, 97, [18, 13]) == Some(false)
  {
  }

  lemma Verdict8()
    ensures IsValid(Eq8) == Some(true) && IsValidAny(Eq8) == Some(true)
  {
  }

  lemma SumIfCons(e: Equation, rest: seq<Equation>, check: Equation -> Option<bool>)
    ensures SumIf([e] + rest, check) ==
      match (check(e), SumIf(rest, check))
      case (Some(b), Some(n)) => Some(n + if b then e.total else 0)
      case _ => None
  {
    assert ([e] + rest)[1..] == rest;
  }

  lemma ExampleSumsTail()
    ensures SumIf(From5, IsValid) == Some(292)
    ensures SumIf(From5, IsValidAny) == Some(192 + 292)
  {
    Verdict5(); Verdict6(); Verdict7(); Verdict8();
    SumIfCons(Eq8, [], IsValid);
    SumIfCons(Eq8, [], IsValidAny);
    assert From8 == [Eq8] + [];
    SumIfCons(Eq7, From8, IsValid);
    SumIfCons(Eq7, From8, IsValidAny);
    SumIfCons(Eq6, From7, IsValid);
    SumIfCons(Eq6, From7, IsValidAny);
    SumIfCons(Eq5, From6, IsValid);
    SumIfCons(Eq5, From6, IsValidAny);
  }

  /** The calibration results of the example are 3749 and 11387
      (2024/07/src/lib.rs:80). */
  lemma ExampleSums()
    ensures SumIf(ExampleEquations, IsValid) == Some(3749)
    ensures SumIf(ExampleEquations, IsValidAny) == Some(11387)
  {
    Verdict0(); Verdict1(); Verdict2(); Verdict3(); Verdict4();
    ExampleSumsTail();
    SumIfCons(Eq4, From5, IsValid);
    SumIfCons(Eq4, From5, IsValidAny);
    SumIfCons(Eq3, From4, IsValid);
    SumIfCons(Eq3, From4, IsValidAny);
    SumIfCons(Eq2, From3, IsValid);
    SumIfCons(Eq2, From3, IsValidAny);
    SumIfCons(Eq1, From2, IsValid);
    SumIfCons(Eq1, From2, IsValidAny);
    SumIfCons(Eq0, From1, IsValid);
    SumIfCons(Eq0, From1, IsValidAny);
  }

  /** The example input, one equation per line. */
  const ExampleInput := Render(ExampleEquations)

  /** `solve` on the example input gives (3749, 11387). */
  lemma ExampleSolves()
    ensures Solve(ExampleInput) == Some((3749, 11387))
  {
    ParseRender(ExampleEquations);
    ExampleSums();
  }

  /** Appending a digit to a positive number appends its character. */
  lemma DigitStep(q: nat, d: nat)
    requires q > 0 && d < 10
    ensures NatToString(10 * q + d) == NatToString(q) + [DigitChar(d)]
  {
    assert (10 * q + d) / 10 == q && (10 * q + d) % 10 == d;
  }

  lemma RenderTwo(a: nat, b: nat)
    ensures RenderNumbers([a, b], " ") == NatToString(a) + " " + NatToString(b)
  {
    assert [a, b][1..] == [b];
  }

  lemma RenderThree(a: nat, b: nat, c: nat)
    ensures RenderNumbers([a, b, c], " ") == NatToString(a) + " " + (NatToString(b) + " " + NatToString(c))
  {
    assert [a, b, c][1..] == [b, c];
    RenderTwo(b, c);
  }

  lemma RenderFour(a: nat, b: nat, c: nat, d: nat)
    ensures RenderNumbers([a, b, c, d], " ") ==
      NatToString(a) + " " + (NatToString(b) + " " + (NatToString(c) + " " + NatToString(d)))
  {
    assert [a, b, c, d][1..] == [b, c, d];
    RenderThree(b, c, d);
  }

  lemma TextIs(e: Equation, ts: string, rs: string)
    requires NatToString(e.total) == ts && RenderNumbers(e.values, " ") == rs
    ensures EquationText(e) == ts + ": " + rs
  {
  }

  lemma Total0()
    ensures NatToString(190) == "190"
  {
    DigitStep(1, 9);
    DigitStep(19, 0);
  }

  lemma Values0()
    ensures RenderNumbers([10, 19], " ") == "10 19"
  {
    DigitStep(1, 0);
    DigitStep(1, 9);
    RenderTwo(10, 19);
  }

  lemma Text0()
    ensures EquationText(Eq0) == "190: 10 19"
  {
    Total0();
    Values0();
    TextIs(Eq0, "190", "10 19");
  }

  lemma Total1()
    ensures NatToString(3267) == "3267"
  {
    DigitStep(3, 2);
    DigitStep(32, 6);
    DigitStep(326, 7);
  }

  lemma Values1()
    ensures RenderNumbers([81, 40, 27], " ") == "81 40 27"
  {
    DigitStep(8, 1);
    DigitStep(4, 0);
    DigitStep(2, 7);
    RenderThree(81, 40, 27);
  }

  lemma Text1()
    ensures EquationText(Eq1) == "3267: 81 40 27"
  {
    Total1();
    Values1();
    TextIs(Eq1, "3267", "81 40 27");
  }

  lemma Total2()
    ensures NatToString(83) == "83"
  {
    DigitStep(8, 3);
  }

  lemma Values2()
    ensures RenderNumbers([17, 5], " ") == "17 5"
  {
    DigitStep(1, 7);
    RenderTwo(17, 5);
  }

  lemma Text2()
    ensures EquationText(Eq2) == "83: 17 5"
  {
    Total2();
    Values2();
    TextIs(Eq2, "83", "17 5");
  }

  lemma Total3()
    ensures NatToString(156) == "156"
  {
    DigitStep(1, 5);
    DigitStep(15, 6);
  }

  lemma Values3()
    ensures RenderNumbers([15, 6], " ") == "15 6"
  {
    DigitStep(1, 5);
    RenderTwo(15, 6);
  }

  lemma Text3()
    ensures EquationText(Eq3) == "156: 15 6"
  {
    Total3();
    Values3();
    TextIs(Eq3, "156", "15 6");
  }

  lemma Total4()
    ensures NatToString(7290) == "7290"
  {
    DigitStep(7, 2);
    DigitStep(72, 9);
    DigitStep(729, 0);
  }

  lemma Values4()
    ensures RenderNumbers([6, 8, 6, 15], " ") == "6 8 6 15"
  {
    DigitStep(1, 5);
    RenderFour(6, 8, 6, 15);
  }

  lemma Text4()
    ensures EquationText(Eq4) == "7290: 6 8 6 15"
  {
    Total4();
    Values4();
    TextIs(Eq4, "7290", "6 8 6 15");
  }

  lemma Total5()
    ensures NatToString(161011) == "161011"
  {
    DigitStep(1, 6);
    DigitStep(16, 1);
    DigitStep(161, 0);
    DigitStep(1610, 1);
    DigitStep(16101, 1);
  }

  lemma Values5()
    ensures RenderNumbers([16, 10, 13], " ") == "16 10 13"
  {
    DigitStep(1, 6);
    DigitStep(1, 0);
    DigitStep(1, 3);
    RenderThree(16, 10, 13);
  }

  lemma Text5()
    ensures EquationText(Eq5) == "161011: 16 10 13"
  {
    Total5();
    Values5();
    TextIs(Eq5, "161011", "16 10 13");
  }

  lemma Total6()
    ensures NatToString(192) == "192"
  {
    DigitStep(1, 9);
    DigitStep(19, 2);
  }

  lemma Values6()
    ensures RenderNumbers([17, 8, 14], " ") == "17 8 14"
  {
    DigitStep(1, 7);
    DigitStep(1, 4);
    RenderThree(17, 8, 14);
  }

  lemma Text6()
    ensures EquationText(Eq6) == "192: 17 8 14"
  {
    Total6();
    Values6();
    TextIs(Eq6, "192", "17 8 14");
  }

  lemma Total7()
    ensures NatToString(21037) == "21037"
  {
    DigitStep(2, 1);
    DigitStep(21, 0);
    DigitStep(210, 3);
    DigitStep(2103, 7);
  }

  lemma Values7()
    ensures RenderNumbers([9, 7, 18, 13], " ") == "9 7 18 13"
  {
    DigitStep(1, 8);
    DigitStep(1, 3);
    RenderFour(9, 7, 18, 13);
  }

  lemma Text7()
    ensures EquationText(Eq7) == "21037: 9 7 18 13"
  {
    Total7();
    Values7();
    TextIs(Eq7, "21037", "9 7 18 13");
  }

  lemma Total8()
    ensures NatToString(292) == "292"
  {
    DigitStep(2, 9);
    DigitStep(29, 2);
  }

  lemma Values8()
    ensures RenderNumbers([11, 6, 16, 20], " ") == "11 6 16 20"
  {
    DigitStep(1, 1);
    DigitStep(1, 6);
    DigitStep(2, 0);
    RenderFour(11, 6, 16, 20);
  }

  lemma Text8()
    ensures EquationText(Eq8) == "292: 11 6 16 20"
  {
    Total8();
    Values8();
    TextIs(Eq8, "292", "11 6 16 20");
  }

  /** The lines of the example input are those of the puzzle text. */
  lemma ExampleLines()
    ensures EquationText(Eq0) == "190: 10 19" && EquationText(Eq1) == "3267: 81 40 27"
    ensures EquationText(Eq2) == "83: 17 5" && EquationText(Eq3) == "156: 15 6"
    ensures EquationText(Eq4) == "7290: 6 8 6 15" && EquationText(Eq5) == "161011: 16 10 13"
    ensures EquationText(Eq6) == "192: 17 8 14" && EquationText(Eq7) == "21037: 9 7 18 13"
    ensures EquationText(Eq8) == "292: 11 6 16 20"
  {
    Text0(); Text1(); Text2(); Text3(); Text4(); Text5(); Text6(); Text7(); Text8();
  }
}

=== FILE: escape.dfy ===
/** String-literal lengths of 2015 day 8 (2015/08/src/main.rs): a line is a
    double-quoted literal with `\\`, `\"` and `\xHH` escapes. `decode` is
    the length of the code in UTF-8 bytes (`str::len`) minus the number of
    characters in memory; `encode` is how many characters quoting the line
    again adds. */
module Escape {
  import opened Text

  /** The loop of `decode` from the state `escaping`/`hex` over `t`: the
      number of in-memory characters it counts. */
  function Scan(t: string, escaping: bool, hex: nat): (bytes: nat)
    ensures bytes <= |t|
  {
    if |t| == 0 then 0
    else if hex > 0 then Scan(t[1..], escaping, hex - 1)
    else if escaping then
      if t[0] == 'x' then 1 + Scan(t[1..], false, 2) else 1 + Scan(t[1..], false, 0)
    else if t[0] == '\\' then Scan(t[1..], true, 0)
    else if t[0] != '"' then 1 + Scan(t[1..], false, 0)
    else Scan(t[1..], false, 0)
  }

  /** `decode`: code length in bytes minus in-memory length; the `usize`
      subtraction never underflows. On ASCII text the byte length is the
      character count. */
  function Decode(s: string): (r: nat)
    ensures r == |Bytes(s)| - MemLen(s)
    ensures Ascii(s) ==> r == |s| - MemLen(s)
  {
    ScanMemLen(s, false, 0);
    |Bytes(s)| - Scan(s, false, 0)
  }

  function Min(a: nat, b: nat): nat {
    if a <= b then a else b
  }

  /** The in-memory length read off the literal's grammar: an escape is one
      character (`\x` with up to two hex digits after it), a quote is none,
      anything else is one. A lone backslash at the end counts nothing. */
  function MemLen(t: string): nat
    decreases |t|
  {
    if |t| == 0 then 0
    else if t[0] == '\\' then
      if |t| == 1 then 0
      else if t[1] == 'x' then 1 + MemLen(t[Min(4, |t|)..])
      else 1 + MemLen(t[2..])
    else if t[0] == '"' then MemLen(t[1..])
    else 1 + MemLen(t[1..])
  }

  /** What is left to count of the grammar when the loop is in the middle
      of an escape. */
  function Pending(t: string, escaping: bool, hex: nat): nat {
    if hex > 0 then MemLen(t[Min(hex, |t|)..])
    else if escaping then
      if |t| == 0 then 0
      else if t[0] == 'x' then 1 + MemLen(t[Min(3, |t|)..])
      else 1 + MemLen(t[1..])
    else MemLen(t)
  }

  /** The state machine counts what the grammar counts. */
  lemma {:induction false} ScanMemLen(t: string, escaping: bool, hex: nat)
    requires hex <= 2 && (hex > 0 ==> !escaping)
    ensures Scan(t, escaping, hex) == Pending(t, escaping, hex)
    decreases |t|
  {
    if |t| > 0 {
      if hex > 0 {
        ScanMemLen(t[1..], escaping, hex - 1);
        if hex > 1 {
          Tail(t, 1, Min(hex - 1, |t| - 1));
        }
      } else if escaping {
        if t[0] == 'x' {
          ScanMemLen(t[1..], false, 2);
          Tail(t, 1, Min(2, |t| - 1));
        } else {
          ScanMemLen(t[1..], false, 0);
        }
      } else {
        ScanMemLen(t[1..], t[0] == '\\', 0);
        if t[0] == '\\' && |t| > 1 {
          if t[1] == 'x' {
            Tail(t, 1, Min(3, |t| - 1));
          } else {
            Tail(t, 1, 1);
          }
        }
      }
    }
  }

  lemma Tail(t: string, a: nat, b: nat)
    requires a + b <= |t|
    ensures t[a..][b..] == t[a + b..]
  {
  }

  function Count(s: string, c: char): (n: nat)
    ensures n <= |s|
  {
    if |s| == 0 then 0 else (if s[0] == c then 1 else 0) + Count(s[1..], c)
  }

  /** `encode`: one extra character per quote and per backslash, and two
      enclosing quotes. */
  function Encode(s: string): nat {
    Count(s, '"') + Count(s, '\\') + 2
  }

  /** Quoting a string: every quote and backslash escaped, and quotes put
      around. */
  function Escaped(s: string): string {
    "\"" + Body(s) + "\""
  }

  function Body(s: string): string {
    if |s| == 0 then "" else EscapeChar(s[0]) + Body(s[1..])
  }

  function EscapeChar(c: char): string {
    if c == '"' || c == '\\' then ['\\', c] else [c]
  }

  /** `encode` is the growth of the string when it is quoted. */
  lemma {:induction false} EncodeIsGrowth(s: string)
    ensures |Escaped(s)| == |s| + Encode(s)
  {
    BodyLength(s);
  }

  lemma {:induction false} BodyLength(s: string)
    ensures |Body(s)| == |s| + Count(s, '"') + Count(s, '\\')
  {
    if |s| > 0 {
      BodyLength(s[1..]);
    }
  }

  /** Decoding a quoted string gives back exactly what quoting added: the
      literal's in-memory content is the original string. Characters beyond
      ASCII add the bytes of their encoding past the first. */
  lemma DecodeEscaped(s: string)
    ensures MemLen(Escaped(s)) == |s|
    ensures Decode(Escaped(s)) == Encode(s) + (|Bytes(s)| - |s|)
    ensures Ascii(s) ==> Decode(Escaped(s)) == Encode(s)
  {
    var e := Escaped(s);
    BodyMemLen(s, "\"");
    assert MemLen("\"") == 0;
    assert e[0] == '"' && e[1..] == Body(s) + "\"";
    assert MemLen(e) == MemLen(e[1..]);
    EncodeIsGrowth(s);
    EscapedBytes(s);
  }

  /** Quoting adds only ASCII characters, one byte each. */
  lemma EscapedBytes(s: string)
    ensures |Bytes(Escaped(s))| == |Escaped(s)| + (|Bytes(s)| - |s|)
  {
    BytesAppend("\"", Body(s));
    BytesAppend("\"" + Body(s), "\"");
    BodyBytes(s);
  }

  lemma {:induction false} BodyBytes(s: string)
    ensures |Bytes(Body(s))| == |Body(s)| + (|Bytes(s)| - |s|)
  {
    if |s| > 0 {
      var c := s[0];
      BodyBytes(s[1..]);
      BytesAppend(EscapeChar(c), Body(s[1..]));
      if c == '"' || c == '\\' {
        assert Bytes(EscapeChar(c)) == Utf8('\\') + Bytes([c]);
      }
    }
  }

  lemma {:induction false} BodyMemLen(s: string, tail: string)
    ensures MemLen(Body(s) + tail) == |s| + MemLen(tail)
  {
    if |s| == 0 {
      assert Body(s) + tail == tail;
    } else {
      var rest := Body(s[1..]) + tail;
      BodyMemLen(s[1..], tail);
      assert Body(s) + tail == EscapeChar(s[0]) + rest;
      EscapeCharMemLen(s[0], rest);
    }
  }

  /** Every escaped character is one character in memory. */
  lemma EscapeCharMemLen(c: char, rest: string)
    ensures MemLen(EscapeChar(c) + rest) == 1 + MemLen(rest)
  {
    var u := EscapeChar(c) + rest;
    if c == '"' || c == '\\' {
      assert u[0] == '\\' && u[1] == c && u[2..] == rest;
    } else {
      assert u[0] == c && u[1..] == rest;
    }
  }

  /** The examples of the day: the empty literal, a plain one, one with an
      escaped quote and one with a hex escape. */
  lemma DecodeEmpty()
    ensures Decode("\"\"") == 2
  {
    assert MemLen("\"") == 0;
  }

  lemma DecodePlain()
    ensures Decode("\"abc\"") == 2
  {
    var s := "\"abc\"";
    assert MemLen(s[4..]) == 0;
    assert MemLen(s[3..]) == 1;
    assert MemLen(s[2..]) == 2;
    assert MemLen(s[1..]) == 3;
  }

  lemma DecodeQuote()
    ensures Decode("\"aaa\\\"aaa\"") == 3
  {
    var s := "\"aaa\\\"aaa\"";
    assert MemLen(s[9..]) == 0;
    assert MemLen(s[8..]) == 1;
    assert MemLen(s[7..]) == 2;
    assert MemLen(s[6..]) == 3;
    assert MemLen(s[4..]) == 4;
    assert MemLen(s[3..]) == 5;
    assert MemLen(s[2..]) == 6;
    assert MemLen(s[1..]) == 7;
  }

  lemma DecodeHex()
    ensures Decode("\"\\x27\"") == 5
  {
    var s := "\"\\x27\"";
    assert MemLen(s[5..]) == 0;
    assert MemLen(s[1..]) == 1;
  }

  lemma EncodeEmpty()
    ensures Encode("\"\"") == 4
  {
  }

  lemma EncodePlain()
    ensures Encode("\"abc\"") == 4
  {
  }

  lemma EncodeQuote()
    ensures Encode("\"aaa\\\"aaa\"") == 6
  {
  }

  lemma EncodeHex()
    ensures Encode("\"\\x27\"") == 5
  {
  }
}

=== FILE: intcode.dfy ===
/** The Intcode virtual machine of 2019 (2019/vm/src/lib.rs): a tape of
    signed words, an instruction address `ip`, a relative base and an input
    queue. Each instruction's low two decimal digits select the opcode and
    the higher digits select one addressing mode per parameter. */
module Intcode {
  import opened Wrappers
  import opened Arith
  import Text

  /** `Vm::new` resizes the tape to 1024 * 1024 words. */
  const MemSize: nat := 0x10_0000

  const OpAdd: int := 1
  const OpMul: int := 2
  const OpInput: int := 3
  const OpOutput: int := 4
  const OpJit: int := 5
  const OpJif: int := 6
  const OpLt: int := 7
  const OpEq: int := 8
  const OpRbo: int := 9
  const OpBreak: int := 99

  const ModePosition: int := 0
  const ModeImmediate: int := 1
  const ModeRelative: int := 2

  /** The input queue is a deque: `input` pushes at the front (index 0) and
      the INPUT instruction pops at the back (the last index). */
  datatype Vm = Vm(mem: seq<int>, ip: nat, input: seq<int>, base: int)

  /** The ways a Rust panic ends a run, plus the fuel bound of `Run`. */
  datatype Fault =
    | OutOfBounds
    | BadMode(mode: int)
    | BadOpcode(opcode: int)
    | Blocked
    | OutOfFuel

  /** The tape followed by zeros, cut or padded to `MemSize` words. */
  function New(tape: seq<int>): (vm: Vm)
    ensures |vm.mem| == MemSize && vm.ip == 0 && vm.input == [] && vm.base == 0
    ensures forall i :: 0 <= i < |tape| && i < MemSize ==> vm.mem[i] == tape[i]
    ensures forall i :: |tape| <= i < MemSize ==> vm.mem[i] == 0
  {
    Vm(seq(MemSize, i requires 0 <= i < MemSize => if i < |tape| then tape[i] else 0), 0, [], 0)
  }

  /** `input`: push a value at the front of the queue. */
  function Push(vm: Vm, i: int): (r: Vm)
    ensures |r.input| == |vm.input| + 1 && r.input[0] == i && r.input[1..] == vm.input
    ensures r.mem == vm.mem && r.ip == vm.ip && r.base == vm.base
  {
    vm.(input := [i] + vm.input)
  }

  /** Pushing every value of `xs` in order, one `input` call each. */
  function PushAll(vm: Vm, xs: seq<int>): Vm
    decreases |xs|
  {
    if |xs| == 0 then vm else PushAll(Push(vm, xs[0]), xs[1..])
  }

  predicate InTape(vm: Vm) {
    vm.ip < |vm.mem|
  }

  /** `running`: the word under `ip` is not exactly 99 (a `199` is
      still "running", and then steps as a no-op). */
  function Running(vm: Vm): Result<bool, Fault> {
    if !InTape(vm) then Err(OutOfBounds) else Ok(vm.mem[vm.ip] != OpBreak)
  }

  function Opcode(vm: Vm): int
    requires InTape(vm)
  {
    TRem(vm.mem[vm.ip], 100)
  }

  /** `blocked`: an INPUT instruction with an empty queue. */
  predicate IsBlocked(vm: Vm)
    requires InTape(vm)
  {
    Opcode(vm) == OpInput && |vm.input| == 0
  }

  /** The addressing mode of parameter `index`: the decimal digit
      `10^(index+1)` of the instruction, with Rust's truncating `/` and `%`. */
  function Mode(vm: Vm, index: nat): int
    requires InTape(vm)
  {
    TRem(TDiv(vm.mem[vm.ip], Text.Pow(10, index + 1)), 10)
  }

  /** `param`: the memory cell parameter `index` refers to. */
  function Addr(vm: Vm, index: nat): (r: Result<nat, Fault>)
    requires InTape(vm)
    ensures r.Ok? ==> r.value < |vm.mem|
    ensures r.Ok? && Mode(vm, index) == ModeImmediate ==> r.value == vm.ip + index
    ensures r.Ok? && Mode(vm, index) == ModePosition ==> vm.ip + index < |vm.mem| && r.value == AsUsize(vm.mem[vm.ip + index])
    ensures r.Ok? && Mode(vm, index) == ModeRelative ==> vm.ip + index < |vm.mem| && r.value == AsUsize(vm.mem[vm.ip + index] + vm.base)
    ensures Mode(vm, index) !in {ModePosition, ModeImmediate, ModeRelative} ==> r.Err?
  {
    var m := Mode(vm, index);
    var arg := vm.ip + index;
    if arg >= |vm.mem| then Err(OutOfBounds)
    else
      var pos := vm.mem[arg];
      if m == ModePosition then
        var a := AsUsize(pos);
        if a < |vm.mem| then Ok(a) else Err(OutOfBounds)
      else if m == ModeImmediate then Ok(arg)
      else if m == ModeRelative then
        var a := AsUsize(pos + vm.base);
        if a < |vm.mem| then Ok(a) else Err(OutOfBounds)
      else Err(BadMode(m))
  }

  function Load(vm: Vm, index: nat): (r: Result<int, Fault>)
    requires InTape(vm)
    ensures r.Ok? <==> Addr(vm, index).Ok?
    ensures r.Ok? ==> r.value == vm.mem[Addr(vm, index).value]
  {
    var a :- Addr(vm, index);
    Ok(vm.mem[a])
  }

  /** The value a two-operand instruction stores. */
  function Arith2(op: int, lhs: int, rhs: int): int {
    if op == OpAdd then lhs + rhs
    else if op == OpMul then lhs * rhs
    else if op == OpLt then (if lhs < rhs then 1 else 0)
    else (if lhs == rhs then 1 else 0)
  }

  /** `step`: one instruction; `Some` output for OUTPUT. Memory keeps its
      size, and a fault is a panic of the source. */
  function Step(vm: Vm): (r: Result<(Vm, Option<int>), Fault>)
    ensures r.Ok? ==> |r.value.0.mem| == |vm.mem|
    ensures r.Ok? && r.value.1.Some? ==> InTape(vm) && Opcode(vm) == OpOutput
    ensures r.Ok? ==> r.value.0.input == vm.input || (|vm.input| > 0 && r.value.0.input == vm.input[..|vm.input| - 1])
  {
    if !InTape(vm) then Err(OutOfBounds)
    else
      var op := Opcode(vm);
      if op in {OpAdd, OpMul, OpLt, OpEq} then
        var lhs :- Load(vm, 1);
        var rhs :- Load(vm, 2);
        var dst :- Addr(vm, 3);
        Ok((vm.(mem := vm.mem[dst := Arith2(op, lhs, rhs)], ip := vm.ip + 4), None))
      else if op == OpInput then
        if |vm.input| == 0 then Ok((vm, None))
        else
          var i := vm.input[|vm.input| - 1];
          var dst :- Addr(vm, 1);
          Ok((vm.(mem := vm.mem[dst := i], ip := vm.ip + 2, input := vm.input[..|vm.input| - 1]), None))
      else if op == OpOutput then
        var out :- Load(vm, 1);
        Ok((vm.(ip := vm.ip + 2), Some(out)))
      else if op == OpJit || op == OpJif then
        var c :- Load(vm, 1);
        if (c != 0) == (op == OpJit) then
          var target :- Load(vm, 2);
          Ok((vm.(ip := AsUsize(target)), None))
        else Ok((vm.(ip := vm.ip + 3), None))
      else if op == OpRbo then
        var d :- Load(vm, 1);
        Ok((vm.(base := vm.base + d, ip := vm.ip + 2), None))
      else if op == OpBreak then Ok((vm, None))
      else Err(BadOpcode(op))
  }

  /** `run`: step until the word under `ip` is 99, collecting the
      outputs; a blocked machine fails the source's assertion. At most
      `fuel` steps are taken. */
  function Run(vm: Vm, fuel: nat): (r: Result<(Vm, seq<int>), Fault>)
    ensures r.Ok? ==> Running(r.value.0) == Ok(false) && |r.value.0.mem| == |vm.mem|
    decreases fuel
  {
    var running :- Running(vm);
    if !running then Ok((vm, []))
    else if fuel == 0 then Err(OutOfFuel)
    else if IsBlocked(vm) then Err(Blocked)
    else
      var s :- Step(vm);
      var rest :- Run(s.0, fuel - 1);
      Ok((rest.0, (if s.1.Some? then [s.1.value] else []) + rest.1))
  }

  // ------------------------------------------------------------ properties

  /** ADD and MUL store the sum or product of the first two parameters at
      the third and move four words on; nothing else changes. */
  lemma AddMulStore(vm: Vm)
    requires InTape(vm) && Opcode(vm) in {OpAdd, OpMul}
    requires Step(vm).Ok?
    ensures Load(vm, 1).Ok? && Load(vm, 2).Ok? && Addr(vm, 3).Ok?
    ensures var lhs, rhs := Load(vm, 1).value, Load(vm, 2).value;
      var next := Step(vm).value.0;
      && next.mem[Addr(vm, 3).value] == (if Opcode(vm) == OpAdd then lhs + rhs else lhs * rhs)
      && (forall k :: 0 <= k < |vm.mem| && k != Addr(vm, 3).value ==> next.mem[k] == vm.mem[k])
      && next.ip == vm.ip + 4 && next.input == vm.input && next.base == vm.base
      && Step(vm).value.1 == None
  {
  }

  /** LT and EQ store exactly 0 or 1, and 1 exactly when the comparison
      holds. */
  lemma CompareStoresBit(vm: Vm)
    requires InTape(vm) && Opcode(vm) in {OpLt, OpEq}
    requires Step(vm).Ok?
    ensures Load(vm, 1).Ok? && Load(vm, 2).Ok? && Addr(vm, 3).Ok?
    ensures var lhs, rhs := Load(vm, 1).value, Load(vm, 2).value;
      var v := Step(vm).value.0.mem[Addr(vm, 3).value];
      && (v == 0 || v == 1)
      && (v == 1 <==> (if Opcode(vm) == OpLt then lhs < rhs else lhs == rhs))
  {
  }

  /** INPUT with an empty queue leaves the machine exactly as it was. */
  lemma BlockedStepIsNoop(vm: Vm)
    requires InTape(vm) && IsBlocked(vm)
    ensures Step(vm) == Ok((vm, None))
  {
  }

  /** INPUT stores the value at the back of the queue, which is the oldest
      one pushed. */
  lemma InputTakesOldest(vm: Vm)
    requires InTape(vm) && Opcode(vm) == OpInput && |vm.input| > 0
    requires Step(vm).Ok?
    ensures Addr(vm, 1).Ok?
    ensures var next := Step(vm).value.0;
      && next.mem[Addr(vm, 1).value] == vm.input[|vm.input| - 1]
      && next.input == vm.input[..|vm.input| - 1]
      && next.ip == vm.ip + 2
  {
  }

  /** Pushing `xs` one by one puts them in reverse in front of the queue. */
  lemma {:induction false} PushAllQueue(vm: Vm, xs: seq<int>)
    ensures PushAll(vm, xs).input == Reverse(xs) + vm.input
    ensures PushAll(vm, xs).mem == vm.mem && PushAll(vm, xs).ip == vm.ip
    decreases |xs|
  {
    if |xs| > 0 {
      PushAllQueue(Push(vm, xs[0]), xs[1..]);
      assert Reverse(xs) == Reverse(xs[1..]) + [xs[0]];
    }
  }

  function Reverse(xs: seq<int>): (r: seq<int>)
    ensures |r| == |xs|
    decreases |xs|
  {
    if |xs| == 0 then [] else Reverse(xs[1..]) + [xs[0]]
  }

  lemma {:induction false} ReverseIndex(xs: seq<int>, k: nat)
    requires k < |xs|
    ensures Reverse(xs)[|xs| - 1 - k] == xs[k]
    decreases |xs|
  {
    if k > 0 {
      ReverseIndex(xs[1..], k - 1);
    }
  }

  /** The queue is first-in first-out: after pushing `xs` on an empty
      queue, the `k`-th pop (from the back) yields `xs[k]`. */
  lemma InputFifo(vm: Vm, xs: seq<int>, k: nat)
    requires vm.input == [] && k < |xs|
    ensures var q := PushAll(vm, xs).input;
      |q| == |xs| && q[..|q| - k][|q| - k - 1] == xs[k]
  {
    PushAllQueue(vm, xs);
    ReverseIndex(xs, k);
  }

  /** JIT jumps exactly when its first parameter is nonzero and JIF exactly
      when it is zero; otherwise `ip` moves three words on. */
  lemma JumpTaken(vm: Vm)
    requires InTape(vm) && Opcode(vm) in {OpJit, OpJif}
    requires Step(vm).Ok?
    ensures Load(vm, 1).Ok?
    ensures var taken := (Load(vm, 1).value != 0) == (Opcode(vm) == OpJit);
      var next := Step(vm).value.0;
      && (taken ==> Load(vm, 2).Ok? && next.ip == AsUsize(Load(vm, 2).value))
      && (!taken ==> next.ip == vm.ip + 3)
      && next.mem == vm.mem && next.input == vm.input
  {
  }

  /** Opcode 99 is a fixed point of `step`, and `run` stops on it without
      output. */
  lemma BreakHalts(vm: Vm, fuel: nat)
    requires InTape(vm) && vm.mem[vm.ip] == OpBreak
    ensures Step(vm) == Ok((vm, None))
    ensures Run(vm, fuel) == Ok((vm, []))
  {
    assert Opcode(vm) == OpBreak;
  }

  /** More fuel never changes a finished run. */
  lemma {:induction false} RunFuel(vm: Vm, fuel: nat, more: nat)
    requires Run(vm, fuel).Ok? && fuel <= more
    ensures Run(vm, more) == Run(vm, fuel)
    decreases fuel
  {
    if Running(vm) == Ok(true) {
      var s := Step(vm).value;
      RunFuel(s.0, fuel - 1, more - 1);
    }
  }

  lemma {:induction false} PowAtLeast(e: nat)
    requires e >= 2
    ensures Text.Pow(10, e) >= 100
    decreases e
  {
    if e > 2 {
      PowAtLeast(e - 1);
    }
  }

  /** An instruction below 100 has every mode digit zero. */
  lemma PositionModes(vm: Vm, index: nat)
    requires InTape(vm) && 0 <= vm.mem[vm.ip] < 100 && index >= 1
    ensures Mode(vm, index) == ModePosition
  {
    PowAtLeast(index + 1);
    DivSmall(vm.mem[vm.ip], Text.Pow(10, index + 1));
    assert TDiv(vm.mem[vm.ip], Text.Pow(10, index + 1)) == 0;
  }

  /** The `io` test: `[3,0,4,0,99]` echoes its one input. */
  lemma EchoProgram(i: int)
    ensures Run(Push(New([3, 0, 4, 0, 99]), i), 2).Ok?
    ensures Run(Push(New([3, 0, 4, 0, 99]), i), 2).value.1 == [i]
  {
    var vm := Push(New([3, 0, 4, 0, 99]), i);
    var m := vm.mem;
    assert m[0] == 3 && m[1] == 0 && m[2] == 4 && m[3] == 0 && m[4] == 99;
    var vm1 := vm.(mem := m[0 := i], ip := 2, input := []);
    EchoFirst(vm, vm1, i);
    var vm2 := vm1.(ip := 4);
    EchoSecond(vm1, i);
    assert Run(vm2, 0) == Ok((vm2, []));
    assert Run(vm1, 1) == Ok((vm2, [i]));
  }

  lemma EchoFirst(vm: Vm, vm1: Vm, i: int)
    requires |vm.mem| == MemSize && vm.ip == 0 && vm.input == [i]
    requires vm.mem[0] == 3 && vm.mem[1] == 0
    requires vm1 == vm.(mem := vm.mem[0 := i], ip := 2, input := [])
    ensures Step(vm) == Ok((vm1, None))
  {
    PositionModes(vm, 1);
    assert Opcode(vm) == OpInput;
    assert Addr(vm, 1) == Ok(0);
    assert vm.input[..0] == [];
  }

  lemma EchoSecond(vm1: Vm, i: int)
    requires |vm1.mem| == MemSize && vm1.ip == 2 && vm1.mem[0] == i
    requires vm1.mem[2] == 4 && vm1.mem[3] == 0
    ensures Step(vm1) == Ok((vm1.(ip := 4), Some(i)))
  {
    PositionModes(vm1, 1);
    assert Opcode(vm1) == OpOutput;
    assert Addr(vm1, 1) == Ok(0);
  }

  /** The first `basics` test: `[1,0,0,0,99]` becomes `[2,0,0,0,99]`. */
  lemma AddProgram()
    ensures Run(New([1, 0, 0, 0, 99]), 1).Ok?
    ensures Run(New([1, 0, 0, 0, 99]), 1).value.0.mem[..5] == [2, 0, 0, 0, 99]
  {
    var vm := New([1, 0, 0, 0, 99]);
    var m := vm.mem;
    assert m[0] == 1 && m[1] == 0 && m[2] == 0 && m[3] == 0 && m[4] == 99;
    var vm1 := vm.(mem := m[0 := 2], ip := 4);
    AddFirst(vm, vm1);
    RunLastStep(vm, vm1);
    assert |vm1.mem| == MemSize;
    FivePrefix(vm1.mem, 2, 0, 0, 0, 99);
  }

  lemma RunLastStep(vm: Vm, vm1: Vm)
    requires Running(vm) == Ok(true) && !IsBlocked(vm)
    requires Step(vm) == Ok((vm1, None)) && Running(vm1) == Ok(false)
    ensures Run(vm, 1) == Ok((vm1, []))
  {
    assert Run(vm1, 0) == Ok((vm1, []));
    var none: seq<int> := [];
    assert none + none == none;
  }

  lemma FivePrefix(m: seq<int>, a: int, b: int, c: int, d: int, e: int)
    requires |m| >= 5 && m[0] == a && m[1] == b && m[2] == c && m[3] == d && m[4] == e
    ensures m[..5] == [a, b, c, d, e]
  {
  }

  lemma AddFirst(vm: Vm, vm1: Vm)
    requires |vm.mem| == MemSize && vm.ip == 0
    requires vm.mem[0] == 1 && vm.mem[1] == 0 && vm.mem[2] == 0 && vm.mem[3] == 0
    requires vm1 == vm.(mem := vm.mem[0 := 2], ip := 4)
    ensures Step(vm) == Ok((vm1, None))
  {
    PositionModes(vm, 1);
    PositionModes(vm, 2);
    PositionModes(vm, 3);
    assert Opcode(vm) == OpAdd;
    assert Load(vm, 1) == Ok(1) && Load(vm, 2) == Ok(1) && Addr(vm, 3) == Ok(0);
  }
}

=== FILE: lenses.dfy ===
/** The lens library of 2023 day 15 (2023/15/src/lib.rs): the HASH of a
    label picks one of 256 boxes; `label-` takes the lens with that label out
    of its box and `label=f` sets its focal length in place or puts a new
    lens at the back. HASH works on the UTF-8 bytes of the label. */
module Lenses {
  import opened Wrappers
  import opened Text
  import opened Arith

  /** One round of the hash loop: `wrapping_add` then `wrapping_mul(17)`
      on a `u8`. */
  function Step(h: Byte, b: Byte): Byte {
    (h + b) % 256 * 17 % 256
  }

  /** The hash loop from state `h` over the bytes `bs`. */
  function HashFrom(h: Byte, bs: seq<Byte>): Byte
    decreases |bs|
  {
    if |bs| == 0 then h else HashFrom(Step(h, bs[0]), bs[1..])
  }

  function Hash(s: string): Byte {
    HashFrom(0, Bytes(s))
  }

  /** The bytes weighted by descending powers of 17: the first of `k` bytes
      by `17^k`, the last by `17`. */
  function Weighted(bs: seq<Byte>): nat {
    if |bs| == 0 then 0 else bs[0] * Pow(17, |bs|) + Weighted(bs[1..])
  }

  /** HASH in closed form: the reductions modulo 256 after each step can all
      be postponed to the end. */
  lemma {:induction false} HashClosedForm(h: Byte, bs: seq<Byte>)
    ensures HashFrom(h, bs) == (h * Pow(17, |bs|) + Weighted(bs)) % 256
    decreases |bs|
  {
    if |bs| > 0 {
      var c := bs[0];
      var m := |bs| - 1;
      var p := Pow(17, m);
      var w := Weighted(bs[1..]);
      HashClosedForm(Step(h, c), bs[1..]);
      StepClosedForm(h, c, p, w);
    }
  }

  lemma StepClosedForm(h: Byte, c: Byte, p: nat, w: nat)
    ensures (Step(h, c) * p + w) % 256 == (h * (17 * p) + (c * (17 * p) + w)) % 256
  {
    var u := (h + c) * 17;
    ModMul(h + c, 17, 256);
    assert Step(h, c) == u % 256;
    ModMul(u, p, 256);
    ModAdd(u % 256 * p, w, 256);
    ModAdd(u * p, w, 256);
    assert u * p == h * (17 * p) + c * (17 * p);
  }

  /** Part one: the sum of the hashes of the steps, each below 256. */
  function SumHashes(steps: seq<string>): (r: nat)
    ensures r <= 255 * |steps|
  {
    if |steps| == 0 then 0 else Hash(steps[0]) + SumHashes(steps[1..])
  }

  datatype Lens = Lens(name: string, focal: nat)

  type Box = seq<Lens>

  /** No two lenses of a box share a label. */
  predicate Unique(b: Box) {
    forall j, k :: 0 <= j < k < |b| ==> b[j].name != b[k].name
  }

  /** `iter_mut().find(..)`: the slot of the first lens labelled `label`. */
  function Slot(b: Box, name: string): (r: Option<nat>)
    ensures r.None? <==> forall j :: 0 <= j < |b| ==> b[j].name != name
    ensures r.Some? ==> r.value < |b| && b[r.value].name == name
    ensures r.Some? ==> forall j :: 0 <= j < r.value ==> b[j].name != name
  {
    if |b| == 0 then None
    else if b[0].name == name then Some(0)
    else
      match Slot(b[1..], name)
      case None => None
      case Some(j) => Some(j + 1)
  }

  /** The focal length of the lens labelled `label`, if the box holds one. */
  function Focal(b: Box, name: string): Option<nat> {
    match Slot(b, name)
    case None => None
    case Some(j) => Some(b[j].focal)
  }

  /** `retain(|(l, _)| *l != label)`. */
  function Remove(b: Box, name: string): (r: Box)
    ensures forall x :: x in r <==> x in b && x.name != name
    ensures |r| <= |b|
    ensures Unique(b) ==> Unique(r)
  {
    if |b| == 0 then []
    else
      var rest := Remove(b[1..], name);
      if b[0].name == name then rest
      else
        assert Unique(b) ==> forall y :: y in rest ==> y.name != b[0].name by {
          if Unique(b) {
            forall y | y in rest
              ensures y.name != b[0].name
            {
              var k :| 0 <= k < |b[1..]| && b[1..][k] == y;
              assert b[k + 1] == y;
            }
          }
        }
        [b[0]] + rest
  }

  /** In a box with unique labels, removing a label present at slot `k`
      closes the gap at `k` and keeps every other lens in order. */
  lemma {:induction false} RemoveAt(b: Box, name: string, k: nat)
    requires Unique(b) && k < |b| && b[k].name == name
    ensures Remove(b, name) == b[..k] + b[k + 1..]
  {
    var t := b[1..];
    assert Unique(t) by {
      forall j, i | 0 <= j < i < |t|
        ensures t[j].name != t[i].name
      {
        assert t[j] == b[j + 1] && t[i] == b[i + 1];
      }
    }
    if k == 0 {
      assert forall j :: 0 <= j < |t| ==> t[j].name != name by {
        forall j | 0 <= j < |t|
          ensures t[j].name != name
        {
          assert t[j] == b[j + 1];
        }
      }
      RemoveAbsent(t, name);
    } else {
      assert b[0].name != name;
      RemoveAt(t, name, k - 1);
      assert Remove(b, name) == [b[0]] + (t[..k - 1] + t[k..]);
      ConsGap(b, k);
    }
  }

  lemma ConsGap(b: Box, k: nat)
    requires 0 < k < |b|
    ensures [b[0]] + (b[1..][..k - 1] + b[1..][k..]) == b[..k] + b[k + 1..]
  {
    assert b[1..][..k - 1] == b[1..k] && b[1..][k..] == b[k + 1..];
    assert b[..k] == [b[0]] + b[1..k];
  }

  /** Removing a label no lens carries leaves the box as it was. */
  lemma {:induction false} RemoveAbsent(b: Box, name: string)
    requires forall j :: 0 <= j < |b| ==> b[j].name != name
    ensures Remove(b, name) == b
  {
    if |b| > 0 {
      RemoveAbsent(b[1..], name);
      assert b == [b[0]] + b[1..];
    }
  }

  /** The `=` branch: change the focal length of the lens labelled `label`
      in place, or push a new lens. */
  function Upsert(b: Box, name: string, f: nat): (r: Box)
    ensures Focal(r, name) == Some(f)
    ensures forall l :: l != name ==> Focal(r, l) == Focal(b, l)
    ensures |r| == if Slot(b, name).Some? then |b| else |b| + 1
    ensures forall j :: 0 <= j < |b| && b[j].name != name ==> r[j] == b[j]
    ensures Unique(b) ==> Unique(r)
  {
    match Slot(b, name)
    case Some(k) =>
      var r := b[k := Lens(name, f)];
      UpdateSlots(b, k, Lens(name, f));
      r
    case None =>
      var r := b + [Lens(name, f)];
      AppendSlots(b, Lens(name, f));
      r
  }

  /** Replacing the lens at slot `k` by one with the same label moves no
      label. */
  lemma UpdateSlots(b: Box, k: nat, x: Lens)
    requires k < |b| && b[k].name == x.name
    requires forall j :: 0 <= j < k ==> b[j].name != x.name
    ensures Focal(b[k := x], x.name) == Some(x.focal)
    ensures forall l :: l != x.name ==> Focal(b[k := x], l) == Focal(b, l)
  {
    var r := b[k := x];
    forall l | l != x.name
      ensures Focal(r, l) == Focal(b, l)
    {
      SameLabelsSlot(b, r, l);
    }
    SameLabelsSlot(b, r, x.name);
  }

  /** Boxes with the same labels slot by slot find a label at the same
      slot. */
  lemma {:induction false} SameLabelsSlot(b: Box, r: Box, l: string)
    requires |b| == |r| && forall j :: 0 <= j < |b| ==> b[j].name == r[j].name
    ensures Slot(b, l) == Slot(r, l)
  {
    if |b| > 0 {
      SameLabelsSlot(b[1..], r[1..], l);
    }
  }

  /** A lens pushed at the back is found by its label only when no earlier
      lens carries it. */
  lemma AppendSlots(b: Box, x: Lens)
    requires forall j :: 0 <= j < |b| ==> b[j].name != x.name
    ensures Focal(b + [x], x.name) == Some(x.focal)
    ensures forall l :: l != x.name ==> Focal(b + [x], l) == Focal(b, l)
  {
    var r := b + [x];
    forall l
      ensures Slot(r, l) == if l == x.name then Some(|b|) else Slot(b, l)
    {
      AppendSlot(b, x, l);
    }
  }

  lemma {:induction false} AppendSlot(b: Box, x: Lens, l: string)
    requires x.name == l ==> forall j :: 0 <= j < |b| ==> b[j].name != l
    ensures Slot(b + [x], l) == if l == x.name then Some(|b|) else Slot(b, l)
  {
    if |b| > 0 {
      assert (b + [x])[1..] == b[1..] + [x];
      AppendSlot(b[1..], x, l);
    }
  }

  /** One step of the initialization sequence. */
  datatype Command = Dash(name: string) | Equals(name: string, focal: nat)

  /** Parsing a step; `None` is a panic: no `=` in a step that does not end
      in `-`, or a focal length that is not a `u8`. Text after a second `=`
      is ignored, as `split('=')` only has its first two pieces read. */
  function ParseCommand(cmd: string): (r: Option<Command>)
    ensures r.Some? && r.value.Equals? ==> r.value.focal <= U8Max
  {
    if |cmd| > 0 && cmd[|cmd| - 1] == '-' then Some(Dash(cmd[..|cmd| - 1]))
    else
      var pieces := Split(cmd, '=');
      if |pieces| < 2 then None
      else
        match ParseNat(pieces[1], U8Max)
        case None => None
        case Some(f) => Some(Equals(pieces[0], f))
  }

  function ShowCommand(c: Command): string {
    match c
    case Dash(name) => name + "-"
    case Equals(name, f) => name + "=" + NatToString(f)
  }

  /** A step shows and parses back when its label has no `=` and its focal
      length fits a `u8`. */
  lemma ParseShowCommand(c: Command)
    requires c.Equals? ==> '=' !in c.name && c.focal <= U8Max
    ensures ParseCommand(ShowCommand(c)) == Some(c)
  {
    match c {
      case Dash(name) =>
        var s := ShowCommand(c);
        assert s[..|s| - 1] == name;
      case Equals(name, f) =>
        ParseShowEquals(name, f);
    }
  }

  lemma ParseShowEquals(name: string, f: nat)
    requires '=' !in name && f <= U8Max
    ensures ParseCommand(name + "=" + NatToString(f)) == Some(Equals(name, f))
  {
    var digits := NatToString(f);
    var s := name + "=" + digits;
    assert s[|s| - 1] == digits[|digits| - 1];
    assert ParseNat(digits, U8Max) == Some(f);
    DigitsNoEquals(f);
    EqualsSplit(name, digits);
    assert Split(s, '=')[1] == digits;
  }

  lemma DigitsNoEquals(f: nat)
    ensures '=' !in NatToString(f)
  {
    var digits := NatToString(f);
    assert forall k :: 0 <= k < |digits| ==> digits[k] != '=' by {
      assert AllDigits(digits);
    }
  }

  lemma EqualsSplit(name: string, digits: string)
    requires '=' !in name && '=' !in digits
    ensures Split(name + "=" + digits, '=') == [name, digits]
  {
    assert name + "=" + digits == Join([name, digits], '=');
    SplitJoin([name, digits], '=');
  }

  const Boxes: nat := 256

  /** Every lens of box `i` has a label that hashes to `i`. */
  predicate InBox(b: Box, i: nat) {
    forall j :: 0 <= j < |b| ==> Hash(b[j].name) == i
  }

  lemma RemoveInBox(b: Box, name: string, i: nat)
    requires InBox(b, i)
    ensures InBox(Remove(b, name), i)
  {
    var r := Remove(b, name);
    forall j | 0 <= j < |r|
      ensures Hash(r[j].name) == i
    {
      var k :| 0 <= k < |b| && b[k] == r[j];
    }
  }

  lemma UpsertInBox(b: Box, name: string, f: nat, i: nat)
    requires InBox(b, i) && Hash(name) == i
    ensures InBox(Upsert(b, name, f), i)
  {
  }

  /** The invariant of the box array: 256 boxes, labels unique in each box,
      and every lens in the box its label hashes to. */
  predicate WellFormed(bx: seq<Box>) {
    && |bx| == Boxes
    && (forall i :: 0 <= i < |bx| ==> Unique(bx[i]) && InBox(bx[i], i))
  }

  function Empty(): (bx: seq<Box>)
    ensures WellFormed(bx)
  {
    seq(Boxes, _ => [])
  }

  /** Carrying out one step on the box holding its label. */
  function Perform(bx: seq<Box>, c: Command): (r: seq<Box>)
    requires |bx| == Boxes
    ensures |r| == Boxes
    ensures forall i :: 0 <= i < Boxes && i != Hash(c.name) ==> r[i] == bx[i]
    ensures WellFormed(bx) ==> WellFormed(r)
  {
    var i := Hash(c.name);
    var b := bx[i];
    var nb := match c
      case Dash(name) => Remove(b, name)
      case Equals(name, f) => Upsert(b, name, f);
    assert WellFormed(bx) ==> InBox(nb, i) by {
      if WellFormed(bx) && c.Dash? {
        RemoveInBox(b, c.name, i);
      } else if WellFormed(bx) {
        UpsertInBox(b, c.name, c.focal, i);
      }
    }
    bx[i := nb]
  }
  /** The loop over the steps; `None` is a panic on a malformed step. */
  function Run(bx: seq<Box>, steps: seq<string>): (r: Option<seq<Box>>)
    requires |bx| == Boxes
    ensures r.Some? ==> |r.value| == Boxes
    ensures r.Some? && WellFormed(bx) ==> WellFormed(r.value)
    decreases |steps|
  {
    if |steps| == 0 then Some(bx)
    else
      match ParseCommand(steps[0])
      case None => None
      case Some(c) => Run(Perform(bx, c), steps[1..])
  }

  /** The sequence runs to the end exactly when every step parses: no box
      state makes a well-formed step fail. */
  lemma {:induction false} RunSucceeds(bx: seq<Box>, steps: seq<string>)
    requires |bx| == Boxes
    ensures Run(bx, steps).Some? <==> forall k :: 0 <= k < |steps| ==> ParseCommand(steps[k]).Some?
    decreases |steps|
  {
    if |steps| > 0 {
      match ParseCommand(steps[0])
      case None =>
      case Some(c) =>
        RunSucceeds(Perform(bx, c), steps[1..]);
        assert forall k :: 1 <= k < |steps| ==> steps[k] == steps[1..][k - 1];
    }
  }

  /** The focusing power of one box: slot `j` counts `(j + 1)` times its
      focal length. */
  function BoxPower(b: Box): nat {
    if |b| == 0 then 0 else BoxPower(b[..|b| - 1]) + |b| * b[|b| - 1].focal
  }

  /** The focusing power of the first `n` boxes: box `i` counts `(i + 1)`
      times its own power. */
  function Power(bx: seq<Box>, n: nat): nat
    requires n <= |bx|
  {
    if n == 0 then 0 else Power(bx, n - 1) + n * BoxPower(bx[n - 1])
  }

  /** The scoring loops of `solve`: `(i + 1) * (j + 1) * focal` summed over
      every box `i` and slot `j`. */
  method Score(bx: seq<Box>) returns (p: nat)
    ensures p == Power(bx, |bx|)
  {
    p := 0;
    for i := 0 to |bx|
      invariant p == Power(bx, i)
    {
      var b := bx[i];
      for j := 0 to |b|
        invariant p == Power(bx, i) + (i + 1) * BoxPower(b[..j])
      {
        ScoreStep(b, i, j);
        p := p + (i + 1) * (j + 1) * b[j].focal;
      }
      assert b[..|b|] == b;
    }
  }

  lemma ScoreStep(b: Box, i: nat, j: nat)
    requires j < |b|
    ensures (i + 1) * BoxPower(b[..j + 1]) == (i + 1) * BoxPower(b[..j]) + (i + 1) * (j + 1) * b[j].focal
  {
    assert b[..j + 1][..j] == b[..j];
    assert BoxPower(b[..j + 1]) == BoxPower(b[..j]) + (j + 1) * b[j].focal;
  }

  /** `solve`: the sum of the step hashes, and the focusing power after the
      whole sequence; `None` is a panic on a malformed step. */
  function Solve(s: string): (r: Option<(nat, nat)>)
    ensures r.Some? ==> r.value.0 <= 255 * |Split(Trim(s), ',')|
    ensures r.Some? <==> forall k :: 0 <= k < |Split(Trim(s), ',')| ==> ParseCommand(Split(Trim(s), ',')[k]).Some?
  {
    var steps := Split(Trim(s), ',');
    RunSucceeds(Empty(), steps);
    match Run(Empty(), steps)
    case None => None
    case Some(bx) => Some((SumHashes(steps), Power(bx, Boxes)))
  }
}

=== FILE: nice.dfy ===
/** Naughty or nice strings (2015/05/src/main.rs): two sets of rules about
    vowels, doubled letters, forbidden pairs, repeated pairs and letters
    one apart. */
module Nice {
  // -------------------------------------------------------------- part one

  predicate IsVowel(c: char) {
    c == 'a' || c == 'e' || c == 'i' || c == 'o' || c == 'u'
  }

  /** How many vowels `s` holds from position `k` on. */
  function Vowels(s: string, k: nat): (n: nat)
    requires k <= |s|
    ensures n <= |s| - k
    decreases |s| - k
  {
    if k == |s| then 0 else (if IsVowel(s[k]) then 1 else 0) + Vowels(s, k + 1)
  }

  /** The count is the size of the set of positions holding a vowel. */
  lemma {:induction false} VowelsCount(s: string, k: nat)
    requires k <= |s|
    ensures Vowels(s, k) == |set i | k <= i < |s| && IsVowel(s[i])|
    decreases |s| - k
  {
    if k < |s| {
      VowelsCount(s, k + 1);
      var later := set i | k + 1 <= i < |s| && IsVowel(s[i]);
      var here := set i | k <= i < |s| && IsVowel(s[i]);
      if IsVowel(s[k]) {
        assert here == later + {k};
      } else {
        assert here == later;
      }
    }
  }

  /** The four pairs part one forbids. */
  predicate Forbidden(a: char, b: char) {
    (a == 'a' && b == 'b') || (a == 'c' && b == 'd') || (a == 'p' && b == 'q') || (a == 'x' && b == 'y')
  }

  /** Some letter from position `k` on is followed by itself, scanning
      adjacent pairs in order. */
  function HasDouble(s: string, k: nat): bool
    decreases |s| - k
  {
    if k + 1 >= |s| then false
    else if s[k] == s[k + 1] then true
    else HasDouble(s, k + 1)
  }

  lemma {:induction false} HasDoubleMeans(s: string, k: nat)
    ensures HasDouble(s, k) <==> exists i :: k <= i && i + 1 < |s| && s[i] == s[i + 1]
    decreases |s| - k
  {
    if k + 1 < |s| && s[k] != s[k + 1] {
      HasDoubleMeans(s, k + 1);
    }
  }

  /** Some adjacent pair from position `k` on is forbidden. */
  function HasForbidden(s: string, k: nat): bool
    decreases |s| - k
  {
    if k + 1 >= |s| then false
    else if Forbidden(s[k], s[k + 1]) then true
    else HasForbidden(s, k + 1)
  }

  lemma {:induction false} HasForbiddenMeans(s: string, k: nat)
    ensures HasForbidden(s, k) <==> exists i :: k <= i && i + 1 < |s| && Forbidden(s[i], s[i + 1])
    decreases |s| - k
  {
    if k + 1 < |s| && !Forbidden(s[k], s[k + 1]) {
      HasForbiddenMeans(s, k + 1);
    }
  }

  /** `nice1`: at least three vowels, a doubled letter, no forbidden pair. */
  predicate Nice1(s: string) {
    Vowels(s, 0) >= 3 && HasDouble(s, 0) && !HasForbidden(s, 0)
  }

  /** The same rules, said over positions. */
  lemma Nice1Means(s: string)
    ensures Nice1(s) <==> (|set i | 0 <= i < |s| && IsVowel(s[i])| >= 3
      && (exists i :: 0 <= i && i + 1 < |s| && s[i] == s[i + 1])
      && !(exists i :: 0 <= i && i + 1 < |s| && Forbidden(s[i], s[i + 1])))
  {
    VowelsCount(s, 0);
    HasDoubleMeans(s, 0);
    HasForbiddenMeans(s, 0);
  }

  /** The examples part one lists. */
  lemma Nice1Nice()
    ensures Nice1("ugknbfddgicrmopn")
  {
    var s := "ugknbfddgicrmopn";
    assert Vowels(s, 16) == 0;
    assert Vowels(s, 15) == 0;
    assert Vowels(s, 14) == 0;
    assert Vowels(s, 13) == 1;
    assert Vowels(s, 12) == 1;
    assert Vowels(s, 11) == 1;
    assert Vowels(s, 10) == 1;
    assert Vowels(s, 9) == 2;
    assert Vowels(s, 8) == 2;
    assert Vowels(s, 7) == 2;
    assert Vowels(s, 6) == 2;
    assert Vowels(s, 5) == 2;
    assert Vowels(s, 4) == 2;
    assert Vowels(s, 3) == 2;
    assert Vowels(s, 2) == 2;
    assert Vowels(s, 1) == 2;
    assert Vowels(s, 0) == 3;
    assert !HasForbidden(s, 15);
    assert !HasForbidden(s, 14);
    assert !HasForbidden(s, 13);
    assert !HasForbidden(s, 12);
    assert !HasForbidden(s, 11);
    assert !HasForbidden(s, 10);
    assert !HasForbidden(s, 9);
    assert !HasForbidden(s, 8);
    assert !HasForbidden(s, 7);
    assert !HasForbidden(s, 6);
    assert !HasForbidden(s, 5);
    assert !HasForbidden(s, 4);
    assert !HasForbidden(s, 3);
    assert !HasForbidden(s, 2);
    assert !HasForbidden(s, 1);
    assert !HasForbidden(s, 0);
    assert s[6] == s[7];
  }

  lemma Nice1Triple()
    ensures Nice1("aaa")
  {
    var s := "aaa";
  }

  lemma Nice1NoDouble()
    ensures !Nice1("jchzalrnumimnmhp")
  {
    var s := "jchzalrnumimnmhp";
    assert !HasDouble(s, 15);
    assert !HasDouble(s, 14);
    assert !HasDouble(s, 13);
    assert !HasDouble(s, 12);
    assert !HasDouble(s, 11);
    assert !HasDouble(s, 10);
    assert !HasDouble(s, 9);
    assert !HasDouble(s, 8);
    assert !HasDouble(s, 7);
    assert !HasDouble(s, 6);
    assert !HasDouble(s, 5);
    assert !HasDouble(s, 4);
    assert !HasDouble(s, 3);
    assert !HasDouble(s, 2);
    assert !HasDouble(s, 1);
    assert !HasDouble(s, 0);
  }

  lemma Nice1Forbidden()
    ensures !Nice1("haegwjzuvuyypxyu")
  {
    var s := "haegwjzuvuyypxyu";
    assert Forbidden(s[13], s[14]);
    assert HasForbidden(s, 13);
    assert HasForbidden(s, 12);
    assert HasForbidden(s, 11);
    assert HasForbidden(s, 10);
    assert HasForbidden(s, 9);
    assert HasForbidden(s, 8);
    assert HasForbidden(s, 7);
    assert HasForbidden(s, 6);
    assert HasForbidden(s, 5);
    assert HasForbidden(s, 4);
    assert HasForbidden(s, 3);
    assert HasForbidden(s, 2);
    assert HasForbidden(s, 1);
    assert HasForbidden(s, 0);
  }

  lemma Nice1OneVowel()
    ensures !Nice1("dvszwmarrgswjxmb")
  {
    var s := "dvszwmarrgswjxmb";
    assert Vowels(s, 16) == 0;
    assert Vowels(s, 15) == 0;
    assert Vowels(s, 14) == 0;
    assert Vowels(s, 13) == 0;
    assert Vowels(s, 12) == 0;
    assert Vowels(s, 11) == 0;
    assert Vowels(s, 10) == 0;
    assert Vowels(s, 9) == 0;
    assert Vowels(s, 8) == 0;
    assert Vowels(s, 7) == 0;
    assert Vowels(s, 6) == 1;
    assert Vowels(s, 5) == 1;
    assert Vowels(s, 4) == 1;
    assert Vowels(s, 3) == 1;
    assert Vowels(s, 2) == 1;
    assert Vowels(s, 1) == 1;
    assert Vowels(s, 0) == 1;
  }

  // -------------------------------------------------------------- part two

  /** The pair of letters starting at `k`. */
  function Pair(s: string, k: nat): (char, char)
    requires k + 1 < |s|
  {
    (s[k], s[k + 1])
  }

  /** Some pair of letters appears twice without overlapping. */
  predicate RepeatsApart(s: string) {
    exists a, b :: 0 <= a && a + 1 < b && b + 1 < |s| && Pair(s, a) == Pair(s, b)
  }

  /** Some letter repeats with exactly one letter between. */
  predicate Sandwich(s: string) {
    exists i :: 0 <= i && i + 2 < |s| && s[i] == s[i + 2]
  }

  /** The `x?x` scan from position `k` on: `tuple_windows` over three
      letters. */
  function HasSandwich(s: string, k: nat): bool
    decreases |s| - k
  {
    if k + 2 >= |s| then false
    else if s[k] == s[k + 2] then true
    else HasSandwich(s, k + 1)
  }

  lemma {:induction false} HasSandwichMeans(s: string, k: nat)
    ensures HasSandwich(s, k) <==> exists i :: k <= i && i + 2 < |s| && s[i] == s[i + 2]
    decreases |s| - k
  {
    if k + 2 < |s| && s[k] != s[k + 2] {
      HasSandwichMeans(s, k + 1);
    }
  }

  /** `nice2`: walk the pairs, remembering where each was first seen; a pair
      seen before that started two or more letters earlier is a repeat that
      does not overlap. Then look for a letter repeated one apart. */
  method Nice2(s: string) returns (nice: bool)
    ensures nice <==> RepeatsApart(s) && Sandwich(s)
  {
    var pairs: map<(char, char), nat> := map[];
    var found := false;
    var i := 0;
    while i + 1 < |s| && !found
      invariant i <= |s|
      invariant forall q :: q in pairs ==> pairs[q] < i && pairs[q] + 1 < |s| && Pair(s, pairs[q]) == q
      invariant forall q :: q in pairs ==> forall k :: 0 <= k < pairs[q] ==> Pair(s, k) != q
      invariant forall k :: 0 <= k < i && k + 1 < |s| ==> Pair(s, k) in pairs
      invariant !found ==> forall a, b :: 0 <= a && a + 1 < b < i && b + 1 < |s| ==> Pair(s, a) != Pair(s, b)
      invariant found ==> RepeatsApart(s)
      decreases |s| - i
    {
      var q := Pair(s, i);
      if q in pairs {
        var j := pairs[q];
        if i > j + 1 {
          found := true;
        } else {
          forall a | 0 <= a && a + 1 < i && Pair(s, a) == q
            ensures false
          {
          }
        }
      } else {
        pairs := pairs[q := i];
      }
      i := i + 1;
    }
    HasSandwichMeans(s, 0);
    nice := found && HasSandwich(s, 0);
  }

  /** The examples part two lists. */
  lemma Nice2Nice()
    ensures RepeatsApart("qjhvhtzxzqqjkmpb") && Sandwich("qjhvhtzxzqqjkmpb")
    ensures RepeatsApart("xxyxx") && Sandwich("xxyxx")
  {
    assert Pair("qjhvhtzxzqqjkmpb", 0) == Pair("qjhvhtzxzqqjkmpb", 10);
    assert "qjhvhtzxzqqjkmpb"[2] == "qjhvhtzxzqqjkmpb"[4];
    assert Pair("xxyxx", 0) == Pair("xxyxx", 3);
    assert "xxyxx"[1] == "xxyxx"[3];
  }

  /** No letter comes back one apart. */
  lemma Nice2NoSandwich()
    ensures !Sandwich("uurcxstgmygtbstg")
  {
    var s := "uurcxstgmygtbstg";
    assert !HasSandwich(s, 15);
    assert !HasSandwich(s, 14);
    assert !HasSandwich(s, 13);
    assert !HasSandwich(s, 12);
    assert !HasSandwich(s, 11);
    assert !HasSandwich(s, 10);
    assert !HasSandwich(s, 9);
    assert !HasSandwich(s, 8);
    assert !HasSandwich(s, 7);
    assert !HasSandwich(s, 6);
    assert !HasSandwich(s, 5);
    assert !HasSandwich(s, 4);
    assert !HasSandwich(s, 3);
    assert !HasSandwich(s, 2);
    assert !HasSandwich(s, 1);
    assert !HasSandwich(s, 0);
    HasSandwichMeans(s, 0);
  }

  /** No pair comes back at all. */
  lemma Nice2NoRepeat()
    ensures !RepeatsApart("ieodomkazucvgmuy")
  {
    var t := "ieodomkazucvgmuy";
    assert forall a, b :: 0 <= a < b && b + 1 < |t| ==> Pair(t, a) != Pair(t, b);
  }
}

=== FILE: packets.dfy ===
/** Distress-signal packets of 2022 day 13 (2022/13/src/main.rs): nested
    lists of integers, their text form, and the order in which a pair of
    packets is "in the right order". */
module Packets {
  import opened Wrappers
  import opened Text

  datatype Packet = Integer(i: int) | List(items: seq<Packet>)

  /** `Malformed` is an `Err` of the parser; `Panic` is the out-of-range
      `split_at(1)` the parser as written reaches on an unclosed `[`;
      `SplitInsideChar` is the panic of `split_at(1)` at a token whose first
      character takes more than one UTF-8 byte, so that byte 1 is not a
      character boundary. */
  datatype ParseFault = Malformed | Panic | SplitInsideChar

  /** Why `from_str` refuses a string. */
  datatype FromStrFault = ParseFailed(fault: ParseFault) | Multiple | Trailing

  /** Packets read so far, and the unread rest of the text. */
  datatype Items = Items(items: seq<Packet>, rest: string)

  function Size(p: Packet): nat {
    match p
    case Integer(_) => 1
    case List(ps) => 1 + SizeItems(ps)
  }

  function SizeItems(ps: seq<Packet>): nat
    decreases ps
  {
    if |ps| == 0 then 0 else Size(ps[0]) + SizeItems(ps[1..])
  }

  lemma SizeSingle(p: Packet)
    ensures SizeItems([p]) == Size(p)
  {
    assert [p][1..] == [];
  }

  // ----------------------------------------------------------------- compare

  /** `compare`: `Some(true)` when `l` comes first, `Some(false)` when `r`
      does, `None` when neither decides. An integer against a list is
      compared as the one-element list holding it. */
  function Compare(l: Packet, r: Packet): (c: Option<bool>)
    ensures l.Integer? && r.Integer? ==>
      (c == Some(true) <==> l.i < r.i) && (c == Some(false) <==> l.i > r.i) && (c.None? <==> l.i == r.i)
    decreases Size(l) + Size(r), 0
  {
    match (l, r)
    case (Integer(a), Integer(b)) => if a < b then Some(true) else if a > b then Some(false) else None
    case (Integer(_), List(bs)) => SizeSingle(l); CompareLists([l], bs)
    case (List(as_), Integer(_)) => SizeSingle(r); CompareLists(as_, [r])
    case (List(as_), List(bs)) => CompareLists(as_, bs)
  }

  /** The loop over both lists: the first position where one list has ended
      or the elements decide. */
  function CompareLists(as_: seq<Packet>, bs: seq<Packet>): (c: Option<bool>)
    ensures |as_| == 0 ==> (c.None? <==> |bs| == 0) && (|bs| > 0 ==> c == Some(true))
    ensures |as_| > 0 && |bs| == 0 ==> c == Some(false)
    decreases SizeItems(as_) + SizeItems(bs), 1
  {
    if |as_| == 0 && |bs| == 0 then None
    else if |as_| == 0 then Some(true)
    else if |bs| == 0 then Some(false)
    else
      match Compare(as_[0], bs[0])
      case Some(v) => Some(v)
      case None => CompareLists(as_[1..], bs[1..])
  }

  function Flip(c: Option<bool>): Option<bool> {
    match c
    case None => None
    case Some(v) => Some(!v)
  }

  /** Swapping the packets swaps the verdict. */
  lemma {:induction false} CompareAntisymmetric(l: Packet, r: Packet)
    ensures Compare(r, l) == Flip(Compare(l, r))
    decreases Size(l) + Size(r), 0
  {
    match (l, r)
    case (Integer(a), Integer(b)) =>
    case (Integer(_), List(bs)) =>
      SizeSingle(l);
      CompareListsAntisymmetric([l], bs);
    case (List(as_), Integer(_)) =>
      SizeSingle(r);
      CompareListsAntisymmetric(as_, [r]);
    case (List(as_), List(bs)) => CompareListsAntisymmetric(as_, bs);
  }

  lemma {:induction false} CompareListsAntisymmetric(as_: seq<Packet>, bs: seq<Packet>)
    ensures CompareLists(bs, as_) == Flip(CompareLists(as_, bs))
    decreases SizeItems(as_) + SizeItems(bs), 1
  {
    if |as_| > 0 && |bs| > 0 {
      CompareAntisymmetric(as_[0], bs[0]);
      CompareListsAntisymmetric(as_[1..], bs[1..]);
    }
  }

  /** An integer met by a list is compared as the list holding only it, on
      either side. */
  lemma PromoteInteger(a: int, bs: seq<Packet>)
    ensures Compare(Integer(a), List(bs)) == Compare(List([Integer(a)]), List(bs))
    ensures Compare(List(bs), Integer(a)) == Compare(List(bs), List([Integer(a)]))
  {
  }

  /** No packet is in the right order against itself. */
  lemma CompareSelf(p: Packet)
    ensures Compare(p, p).None?
  {
    CompareAntisymmetric(p, p);
  }

  /** A proper prefix comes first: the shorter list runs out while every
      earlier pair of elements is undecided. */
  lemma {:induction false} PrefixComesFirst(as_: seq<Packet>, bs: seq<Packet>)
    requires |as_| < |bs| && as_ == bs[..|as_|]
    ensures CompareLists(as_, bs) == Some(true)
    decreases |as_|
  {
    if |as_| > 0 {
      CompareSelf(as_[0]);
      assert as_[1..] == bs[1..][..|as_| - 1];
      PrefixComesFirst(as_[1..], bs[1..]);
    }
  }

  // ------------------------------------------------------------------- parse

  /** `Packet::parse` reading packets into `acc`: it stops at the end of the
      text or before a `]`, panics on a token that starts with a non-ASCII
      character, skips commas, reads a `[` as a nested list that
      must be followed by `]`, and anything else as an `i64` made of the
      leading decimal digits. What a missing `]` produces is `unclosed`. */
  function ParseWith(s: string, acc: seq<Packet>, unclosed: ParseFault): (r: Result<Items, ParseFault>)
    ensures r.Ok? ==> |r.value.rest| <= |s|
    ensures r.Ok? ==> |r.value.rest| == 0 || r.value.rest[0] == ']'
    decreases |s|
  {
    if |s| == 0 || s[0] == ']' then Ok(Items(acc, s))
    else if s[0] as int >= 0x80 then Err(SplitInsideChar)
    else if s[0] == '[' then
      match ParseWith(s[1..], [], unclosed)
      case Err(e) => Err(e)
      case Ok(Items(list, rest)) =>
        if |rest| == 0 then Err(unclosed)
        else if rest[0] != ']' then Err(Malformed)
        else ParseWith(rest[1..], acc + [List(list)], unclosed)
    else if s[0] == ',' then ParseWith(s[1..], acc, unclosed)
    else
      var k := DigitRun(s);
      match ParseInt(s[..k], I64Min, I64Max)
      case None => Err(Malformed)
      case Some(v) => ParseWith(s[k..], acc + [Integer(v)], unclosed)
  }

  /** `Packet::parse` as written: an unclosed `[` runs into `split_at(1)` on
      empty text and panics; the `bail!` meant for it cannot be reached. */
  function ParseAsWritten(s: string): (r: Result<Items, ParseFault>)
    ensures r.Ok? ==> |r.value.rest| == 0 || r.value.rest[0] == ']'
  {
    ParseWith(s, [], Panic)
  }

  /** `Packet::parse` with an unclosed `[` reported as the error it was
      meant to be. */
  function Parse(s: string): (r: Result<Items, ParseFault>)
    ensures r.Ok? ==> |r.value.rest| == 0 || r.value.rest[0] == ']'
    ensures r != Err(Panic)
  {
    NoPanic(s, []);
    ParseWith(s, [], Malformed)
  }

  lemma {:induction false} NoPanic(s: string, acc: seq<Packet>)
    ensures ParseWith(s, acc, Malformed) != Err(Panic)
    decreases |s|
  {
    if |s| == 0 || s[0] == ']' {
    } else if s[0] == '[' {
      NoPanic(s[1..], []);
      match ParseWith(s[1..], [], Malformed)
      case Err(e) =>
      case Ok(Items(list, rest)) =>
        if |rest| > 0 && rest[0] == ']' {
          NoPanic(rest[1..], acc + [List(list)]);
        }
    } else if s[0] == ',' {
      NoPanic(s[1..], acc);
    } else {
      var k := DigitRun(s);
      if ParseInt(s[..k], I64Min, I64Max).Some? {
        NoPanic(s[k..], acc + [Integer(ParseInt(s[..k], I64Min, I64Max).value)]);
      }
    }
  }

  /** The two parsers differ only in how they report an unclosed `[`; in
      particular both panic alike on a token that starts with a non-ASCII
      character. */
  lemma {:induction false} ParseAgrees(s: string, acc: seq<Packet>)
    ensures ParseWith(s, acc, Panic) != Err(Panic) ==> ParseWith(s, acc, Panic) == ParseWith(s, acc, Malformed)
    ensures ParseWith(s, acc, Panic) == Err(Panic) <==> ParseWith(s, acc, Malformed) == Err(Malformed) && ParseUnclosed(s, acc)
    decreases |s|
  {
    if |s| == 0 || s[0] == ']' {
    } else if s[0] == '[' {
      ParseAgrees(s[1..], []);
      match ParseWith(s[1..], [], Panic)
      case Err(e) =>
      case Ok(Items(list, rest)) =>
        if |rest| > 0 && rest[0] == ']' {
          ParseAgrees(rest[1..], acc + [List(list)]);
        }
    } else if s[0] == ',' {
      ParseAgrees(s[1..], acc);
    } else {
      var k := DigitRun(s);
      if ParseInt(s[..k], I64Min, I64Max).Some? {
        ParseAgrees(s[k..], acc + [Integer(ParseInt(s[..k], I64Min, I64Max).value)]);
      }
    }
  }

  /** The text runs out inside a `[` before anything else goes wrong. */
  predicate ParseUnclosed(s: string, acc: seq<Packet>)
    decreases |s|
  {
    if |s| == 0 || s[0] == ']' || s[0] as int >= 0x80 then false
    else if s[0] == '[' then
      match ParseWith(s[1..], [], Malformed)
      case Err(_) => ParseUnclosed(s[1..], [])
      case Ok(Items(list, rest)) =>
        if |rest| == 0 then true
        else rest[0] == ']' && ParseUnclosed(rest[1..], acc + [List(list)])
    else if s[0] == ',' then ParseUnclosed(s[1..], acc)
    else
      var k := DigitRun(s);
      match ParseInt(s[..k], I64Min, I64Max)
      case None => false
      case Some(v) => ParseUnclosed(s[k..], acc + [Integer(v)])
  }

  /** A token that starts with a character of more than one UTF-8 byte makes
      both parsers panic in `split_at(1)`, wherever the token stands. */
  lemma NonAsciiTokenPanics(s: string, acc: seq<Packet>, u: ParseFault)
    requires |s| > 0 && s[0] as int >= 0x80
    ensures ParseWith(s, acc, u) == Err(SplitInsideChar)
    ensures |Utf8(s[0])| >= 2
  {
  }

  /** `é` is two bytes long, so the parser as written panics on it rather
      than reporting a parse error. */
  lemma AccentPanics()
    ensures ParseAsWritten("é") == Err(SplitInsideChar)
    ensures Parse("[é]") == Err(SplitInsideChar)
  {
    NonAsciiTokenPanics("é", [], Panic);
    NonAsciiTokenPanics("é]", [], Malformed);
    assert "[é]"[1..] == "é]";
  }

  /** On `[1` the parser as written panics where an error was intended. */
  lemma UnclosedPanics(s: string)
    requires s == "[1"
    ensures ParseAsWritten(s) == Err(Panic)
    ensures Parse(s) == Err(Malformed)
  {
    var t := s[1..];
    assert t == "1" + "";
    assert DigitsValue("1") == 1 by {
      assert "1"[..0] == "";
    }
    DigitRunOfDigits("1", "");
    ParseIntegerStep("1", "", [], Panic);
    ParseIntegerStep("1", "", [], Malformed);
    UnclosedStep(s, [], Panic);
    UnclosedStep(s, [], Malformed);
  }

  lemma UnclosedStep(s: string, acc: seq<Packet>, u: ParseFault)
    requires |s| > 0 && s[0] == '['
    requires ParseWith(s[1..], [], u).Ok? && ParseWith(s[1..], [], u).value.rest == ""
    ensures ParseWith(s, acc, u) == Err(u)
  {
  }

  /** `from_str`: exactly one packet and no text left over. */
  function FromStr(s: string): (r: Result<Packet, FromStrFault>)
    ensures r.Ok? <==> Parse(s).Ok? && |Parse(s).value.items| == 1 && Parse(s).value.rest == ""
    ensures r.Ok? ==> r.value == Parse(s).value.items[0]
    ensures Parse(s).Ok? && |Parse(s).value.items| != 1 ==> r == Err(Multiple)
  {
    match Parse(s)
    case Err(e) => Err(ParseFailed(e))
    case Ok(Items(out, rest)) =>
      if |out| != 1 then Err(Multiple)
      else if rest != "" then Err(Trailing)
      else Ok(out[0])
  }

  // ----------------------------------------------------------------- display

  /** `Display`: integers in decimal, lists as `[` items separated by `,`
      `]`. */
  function Show(p: Packet): string
    decreases Size(p), 0
  {
    match p
    case Integer(i) => IntToString(i)
    case List(ps) => "[" + ShowItems(ps) + "]"
  }

  function ShowItems(ps: seq<Packet>): string
    decreases SizeItems(ps), 1
  {
    if |ps| == 0 then ""
    else if |ps| == 1 then Show(ps[0])
    else Show(ps[0]) + "," + ShowItems(ps[1..])
  }

  /** Every integer is one the parser can produce: non-negative and an `i64`. */
  predicate Readable(p: Packet)
    decreases Size(p), 0
  {
    match p
    case Integer(i) => 0 <= i <= I64Max
    case List(ps) => ReadableItems(ps)
  }

  predicate ReadableItems(ps: seq<Packet>)
    decreases SizeItems(ps), 1
  {
    |ps| == 0 || (Readable(ps[0]) && ReadableItems(ps[1..]))
  }

  /** Reading the printed packet gives it back. */
  lemma FromStrShow(p: Packet)
    requires Readable(p)
    ensures FromStr(Show(p)) == Ok(p)
  {
    ParseOneShow(p, "", []);
    assert Show(p) + "" == Show(p);
  }

  /** One printed packet followed by `,` or `]` or nothing is read as that
      packet, and reading carries on after it. */
  lemma {:induction false} ParseOneShow(p: Packet, t: string, acc: seq<Packet>)
    requires Readable(p)
    requires |t| == 0 || t[0] == ',' || t[0] == ']'
    ensures ParseWith(Show(p) + t, acc, Malformed) == ParseWith(t, acc + [p], Malformed)
    decreases Size(p), 0
  {
    match p
    case Integer(v) =>
      DigitRunOfDigits(NatToString(v), t);
      ParseIntegerStep(NatToString(v), t, acc, Malformed);
    case List(qs) =>
      ParseItemsShow(qs, "]" + t, []);
      assert [] + qs == qs;
      ListText(ShowItems(qs), t);
      ParseListStep(Show(p) + t, qs, "]" + t, acc);
  }

  /** Printed packets separated by commas, followed by `]` or nothing, are
      read as those packets. */
  lemma {:induction false} ParseItemsShow(ps: seq<Packet>, t: string, acc: seq<Packet>)
    requires ReadableItems(ps)
    requires |t| == 0 || t[0] == ']'
    ensures ParseWith(ShowItems(ps) + t, acc, Malformed) == Ok(Items(acc + ps, t))
    decreases SizeItems(ps), 1
  {
    if |ps| == 0 {
      assert ShowItems(ps) + t == t;
      assert acc + ps == acc;
    } else if |ps| == 1 {
      ParseOneShow(ps[0], t, acc);
      assert acc + ps == acc + [ps[0]];
    } else {
      var u := ShowItems(ps[1..]) + t;
      ParseOneShow(ps[0], "," + u, acc);
      ParseItemsShow(ps[1..], t, acc + [ps[0]]);
      ItemsCons(ps, t, acc);
    }
  }

  /** The step of `ParseItemsShow` past the first packet and its comma. */
  lemma ItemsCons(ps: seq<Packet>, t: string, acc: seq<Packet>)
    requires |ps| > 1
    requires var u := ShowItems(ps[1..]) + t;
      ParseWith(Show(ps[0]) + ("," + u), acc, Malformed) == ParseWith("," + u, acc + [ps[0]], Malformed)
    requires ParseWith(ShowItems(ps[1..]) + t, acc + [ps[0]], Malformed) == Ok(Items(acc + [ps[0]] + ps[1..], t))
    ensures ParseWith(ShowItems(ps) + t, acc, Malformed) == Ok(Items(acc + ps, t))
  {
    ShowItemsCons(ps);
    ItemsText(Show(ps[0]), ShowItems(ps[1..]), t);
    CommaStep(ShowItems(ps[1..]) + t, acc + [ps[0]]);
    ConsConcat(acc, ps);
  }

  lemma ShowItemsCons(ps: seq<Packet>)
    requires |ps| > 1
    ensures ShowItems(ps) == Show(ps[0]) + "," + ShowItems(ps[1..])
  {
  }

  lemma ConsConcat(acc: seq<Packet>, ps: seq<Packet>)
    requires |ps| > 0
    ensures acc + [ps[0]] + ps[1..] == acc + ps
  {
    assert ps == [ps[0]] + ps[1..];
  }

  lemma ItemsText(x: string, y: string, t: string)
    ensures x + "," + y + t == x + ("," + (y + t))
  {
  }

  lemma CommaStep(u: string, acc: seq<Packet>)
    ensures ParseWith("," + u, acc, Malformed) == ParseWith(u, acc, Malformed)
  {
    assert ("," + u)[1..] == u;
  }

  lemma ParseIntegerStep(d: string, t: string, acc: seq<Packet>, u: ParseFault)
    requires AllDigits(d) && |d| >= 1 && DigitsValue(d) <= I64Max
    requires DigitRun(d + t) == |d| && (d + t)[..|d|] == d && (d + t)[|d|..] == t
    ensures ParseWith(d + t, acc, u) == ParseWith(t, acc + [Integer(DigitsValue(d))], u)
  {
    assert (d + t)[0] == d[0];
  }

  lemma ListText(x: string, t: string)
    ensures ("[" + x + "]" + t)[0] == '[' && ("[" + x + "]" + t)[1..] == x + ("]" + t)
    ensures ("]" + t)[0] == ']' && ("]" + t)[1..] == t
  {
    assert ("[" + x + "]" + t)[1..] == x + ("]" + t);
  }

  lemma ParseListStep(s: string, qs: seq<Packet>, rest: string, acc: seq<Packet>)
    requires |s| > 0 && s[0] == '[' && ParseWith(s[1..], [], Malformed) == Ok(Items(qs, rest))
    requires |rest| > 0 && rest[0] == ']'
    ensures ParseWith(s, acc, Malformed) == ParseWith(rest[1..], acc + [List(qs)], Malformed)
  {
  }

  // ---------------------------------------------------------------- examples

  /** `[1,1,3,1,1]` comes before `[1,1,5,1,1]`, and `[[8,7,6]]` before
      `[9]`. */
  lemma CompareExamples()
    ensures Compare(List([Integer(1), Integer(1), Integer(3), Integer(1), Integer(1)]),
                    List([Integer(1), Integer(1), Integer(5), Integer(1), Integer(1)])) == Some(true)
    ensures Compare(List([Integer(9)]), List([List([Integer(8), Integer(7), Integer(6)])])) == Some(false)
  {
    var xs := [Integer(1), Integer(1), Integer(3), Integer(1), Integer(1)];
    var ys := [Integer(1), Integer(1), Integer(5), Integer(1), Integer(1)];
    assert xs[1..][1..] == [Integer(3), Integer(1), Integer(1)];
    assert ys[1..][1..] == [Integer(5), Integer(1), Integer(1)];
  }
}

=== FILE: pageorder.dfy ===
/** Print queue page ordering (2024/05/src/lib.rs): rules `a|b` say page `a`
    must come before page `b`; a run of pages is in order when no page comes
    before one it must follow, and an out-of-order run is sorted just far
    enough to read its middle page. */
module PageOrder {
  import opened Wrappers
  import opened Text
  import opened Bits

  // ------------------------------------------------------------- tuple set

  /** `TupleSet`: 256 rows of four `u64` words; bit `b % 64` of word
      `b / 64` in row `a` records the pair `(a, b)`. */
  datatype TupleSet = TupleSet(words: seq<seq<nat>>)

  predicate Valid(t: TupleSet) {
    && |t.words| == 256
    && (forall a :: 0 <= a < 256 ==> |t.words[a]| == 4)
    && (forall a, w :: 0 <= a < 256 && 0 <= w < 4 ==> t.words[a][w] < Pow2(64))
  }

  /** `TupleSet::new`: every word zero. */
  function New(): (t: TupleSet)
    ensures Valid(t)
  {
    TupleSet(seq(256, _ => seq(4, _ => 0)))
  }

  /** `get`: the bit for `(a, b)` is set. */
  predicate Get(t: TupleSet, a: Byte, b: Byte) {
    a < |t.words| && b / 64 < |t.words[a]| && And(t.words[a][b / 64], Pow2(b % 64)) != 0
  }

  /** Which page may not come before which: the relation `check` and `sort`
      read through `get`. */
  type Relation = (Byte, Byte) -> bool

  function Illegal(t: TupleSet): (ill: Relation)
    ensures forall a, b :: ill(a, b) == Get(t, a, b)
  {
    (a: Byte, b: Byte) => Get(t, a, b)
  }

  /** `set`: or the bit for `(a, b)` into its word. */
  function Set(t: TupleSet, a: Byte, b: Byte): (r: TupleSet)
    requires Valid(t)
    ensures Valid(r)
  {
    var row: seq<nat> := t.words[a][b / 64 := WordWith(t.words[a][b / 64], b % 64)];
    assert |row| == 4 && forall w :: 0 <= w < 4 ==> row[w] < Pow2(64);
    TupleSet(t.words[a := row])
  }

  /** `w | (1 << k)`, still a `u64`. */
  function WordWith(w: nat, k: nat): (v: nat)
    requires w < Pow2(64) && k < 64
    ensures v < Pow2(64)
  {
    PowMonotone(k + 1, 64);
    OrBound(w, Pow2(k), 64);
    Or(w, Pow2(k))
  }

  /** The empty set holds no pair. */
  lemma NewEmpty(x: Byte, y: Byte)
    ensures !Get(New(), x, y)
  {
    AndPow2(0, y % 64);
    ZeroBits(y % 64);
  }

  /** After `set(a, b)` the set holds exactly the pairs it held before and
      `(a, b)`. */
  lemma SetGet(t: TupleSet, a: Byte, b: Byte, x: Byte, y: Byte)
    requires Valid(t)
    ensures Get(Set(t, a, b), x, y) <==> Get(t, x, y) || (x == a && y == b)
  {
    var r := Set(t, a, b);
    if x == a && y / 64 == b / 64 {
      var w := t.words[a][b / 64];
      assert r.words[x][y / 64] == WordWith(w, b % 64) == Or(w, Pow2(b % 64));
      AndPow2(Or(w, Pow2(b % 64)), y % 64);
      AndPow2(w, y % 64);
      OrBit(w, Pow2(b % 64), y % 64);
      Pow2Bit(b % 64, y % 64);
    } else {
      assert r.words[x][y / 64] == t.words[x][y / 64];
    }
  }

  // ----------------------------------------------------------------- check

  /** `row[1..].iter().any(|&b| illegal.get(row[0], b))`, with the first
      page given as `a` and the rest as `bs`. */
  function AnyIllegal(ill: Relation, a: Byte, bs: seq<Byte>): bool
  {
    if |bs| == 0 then false else ill(a, bs[0]) || AnyIllegal(ill, a, bs[1..])
  }

  lemma {:induction false} AnyIllegalMeans(ill: Relation, a: Byte, bs: seq<Byte>)
    ensures AnyIllegal(ill, a, bs) <==> exists j :: 0 <= j < |bs| && ill(a, bs[j])
  {
    if |bs| > 0 {
      AnyIllegalMeans(ill, a, bs[1..]);
      assert forall j :: 1 <= j < |bs| ==> bs[j] == bs[1..][j - 1];
    }
  }

  /** `check`: no page of the run is followed by a page the set says it may
      not come before. */
  function Check(row: seq<Byte>, ill: Relation): bool
  {
    if |row| == 0 then true
    else if AnyIllegal(ill, row[0], row[1..]) then false
    else Check(row[1..], ill)
  }

  /** A run passes `check` exactly when no earlier page is illegal before a
      later one. */
  lemma {:induction false} CheckMeans(row: seq<Byte>, ill: Relation)
    ensures Check(row, ill) <==> forall i, j :: 0 <= i < j < |row| ==> !ill(row[i], row[j])
  {
    if |row| > 0 {
      var rest := row[1..];
      CheckMeans(rest, ill);
      AnyIllegalMeans(ill, row[0], rest);
      assert forall j :: 1 <= j < |row| ==> row[j] == rest[j - 1];
      if !Check(row, ill) && !AnyIllegal(ill, row[0], rest) {
        var i, j :| 0 <= i < j < |rest| && ill(rest[i], rest[j]);
        assert ill(row[i + 1], row[j + 1]);
      }
    }
  }

  // ------------------------------------------------------------------ sort

  /** Page `x` may be placed last among the first `m` pages of `a`: the set
      forbids it before none of them. */
  predicate Candidate(ill: Relation, a: seq<Byte>, m: nat, x: Byte)
    requires m <= |a|
  {
    forall j :: 0 <= j < m ==> !ill(x, a[j])
  }

  /** `(0..m).position(..)`: the first index from `i` on whose page is a
      candidate. */
  function Position(ill: Relation, a: seq<Byte>, m: nat, i: nat): (r: Option<nat>)
    requires i <= m <= |a|
    ensures r.Some? ==> i <= r.value < m
    decreases m - i
  {
    if i == m then None
    else if AllLegal(ill, a, m, a[i], 0) then Some(i)
    else Position(ill, a, m, i + 1)
  }

  /** `(0..m).all(|j| !illegal.get(x, a[j]))` from `j` on. */
  function AllLegal(ill: Relation, a: seq<Byte>, m: nat, x: Byte, j: nat): bool
    requires m <= |a|
    decreases m - j
  {
    if j >= m then true else !ill(x, a[j]) && AllLegal(ill, a, m, x, j + 1)
  }

  lemma {:induction false} AllLegalMeans(ill: Relation, a: seq<Byte>, m: nat, x: Byte, j: nat)
    requires m <= |a|
    ensures AllLegal(ill, a, m, x, j) <==> forall k :: j <= k < m ==> !ill(x, a[k])
    decreases m - j
  {
    if j < m {
      AllLegalMeans(ill, a, m, x, j + 1);
    }
  }

  /** What `position` finds is a candidate, and the first from `i` on. */
  lemma {:induction false} PositionFinds(ill: Relation, a: seq<Byte>, m: nat, i: nat)
    requires i <= m <= |a|
    requires Position(ill, a, m, i).Some?
    ensures Candidate(ill, a, m, a[Position(ill, a, m, i).value])
    ensures forall k :: i <= k < Position(ill, a, m, i).value ==> !Candidate(ill, a, m, a[k])
    decreases m - i
  {
    AllLegalMeans(ill, a, m, a[i], 0);
    if !Candidate(ill, a, m, a[i]) {
      PositionFinds(ill, a, m, i + 1);
    }
  }

  /** `position` fails exactly when no page from `i` on is a candidate. */
  lemma {:induction false} PositionMisses(ill: Relation, a: seq<Byte>, m: nat, i: nat)
    requires i <= m <= |a|
    ensures Position(ill, a, m, i).None? <==> forall k :: i <= k < m ==> !Candidate(ill, a, m, a[k])
    decreases m - i
  {
    if i < m {
      AllLegalMeans(ill, a, m, a[i], 0);
      if !Candidate(ill, a, m, a[i]) {
        PositionMisses(ill, a, m, i + 1);
      }
    }
  }

  /** `row.swap(p, q)`. */
  function Swap(a: seq<Byte>, p: nat, q: nat): (b: seq<Byte>)
    requires p < |a| && q < |a|
    ensures |b| == |a| && b[p] == a[q] && b[q] == a[p]
    ensures forall k :: 0 <= k < |a| && k != p && k != q ==> b[k] == a[k]
    ensures multiset(b) == multiset(a)
  {
    a[p := a[q]][q := a[p]]
  }

  /** The pages from `lo` on are placed: none is forbidden before any page
      at a smaller index. */
  predicate Placed(ill: Relation, a: seq<Byte>, lo: int)
  {
    forall p, q :: lo <= p < |a| && 0 <= q < p ==> !ill(a[p], a[q])
  }

  /** The loop of `sort` from round `n` to round `steps`: each round moves
      the first candidate among the unplaced pages to the end of them; a
      round with no candidate is the `unwrap` that panics. */
  function Arrange(ill: Relation, a: seq<Byte>, n: nat, steps: nat): (r: Option<seq<Byte>>)
    requires n <= steps <= |a| / 2 + 1
    ensures r.Some? ==> |r.value| == |a|
    decreases steps - n
  {
    if n == steps then Some(a)
    else
      match Position(ill, a, |a| - n, 0)
      case None => None
      case Some(i) => Arrange(ill, Swap(a, |a| - n - 1, i), n + 1, steps)
  }

  /** A round keeps the placed pages and places one more. */
  lemma PlaceOne(ill: Relation, a: seq<Byte>, n: nat, i: nat)
    requires n < |a| && i < |a| - n
    requires Placed(ill, a, |a| - n) && Candidate(ill, a, |a| - n, a[i])
    ensures Placed(ill, Swap(a, |a| - n - 1, i), |a| - n - 1)
  {
    var m := |a| - n;
    var b := Swap(a, m - 1, i);
    forall p, q | m - 1 <= p < |b| && 0 <= q < p
      ensures !ill(b[p], b[q])
    {
      var q' := if q == i then m - 1 else if q == m - 1 then i else q;
      assert b[q] == a[q'];
      if p >= m {
        assert b[p] == a[p] && q' < p;
      } else {
        assert q' < m;
      }
    }
  }

  /** Arranging keeps the pages and leaves every page from `|a| - steps` on
      placed. */
  lemma {:induction false} ArrangeKeeps(ill: Relation, a: seq<Byte>, n: nat, steps: nat)
    requires n <= steps <= |a| / 2 + 1 && Placed(ill, a, |a| - n)
    requires Arrange(ill, a, n, steps).Some?
    ensures multiset(Arrange(ill, a, n, steps).value) == multiset(a)
    ensures Placed(ill, Arrange(ill, a, n, steps).value, |a| - steps)
    decreases steps - n
  {
    if n < steps {
      var i := ArrangeStep(ill, a, n, steps);
      PlaceOne(ill, a, n, i);
      ArrangeKeeps(ill, Swap(a, |a| - n - 1, i), n + 1, steps);
    }
  }

  /** One round of `Arrange`, unfolded: the index it swaps to the end of the
      unplaced pages. */
  lemma ArrangeStep(ill: Relation, a: seq<Byte>, n: nat, steps: nat) returns (i: nat)
    requires n < steps <= |a| / 2 + 1
    requires Arrange(ill, a, n, steps).Some?
    ensures i < |a| - n && Candidate(ill, a, |a| - n, a[i])
    ensures Arrange(ill, a, n, steps) == Arrange(ill, Swap(a, |a| - n - 1, i), n + 1, steps)
  {
    i := Position(ill, a, |a| - n, 0).value;
    PositionFinds(ill, a, |a| - n, 0);
    ArrangeUnfold(ill, a, n, steps, i);
  }

  /** `sort`: arrange `|row| / 2 + 1` rounds and read the page at
      `|row| / 2`; `None` is the panic. */
  function Sort(row: seq<Byte>, ill: Relation): (r: Option<Byte>)
  {
    match Arrange(ill, row, 0, |row| / 2 + 1)
    case None => None
    case Some(b) => if |row| > 0 then Some(b[|row| / 2]) else None
  }

  /** What `sort` reads: a rearrangement of the run in which the set forbids
      the middle page before none of the pages at smaller indices, and
      forbids none of the pages at larger indices before it. The run is
      built back to front, so in reading order the pages after the middle
      come first. An empty run always panics. */
  lemma SortMiddle(row: seq<Byte>, ill: Relation)
    ensures |row| == 0 ==> Sort(row, ill).None?
    ensures Sort(row, ill).Some? ==>
      var b := Arrange(ill, row, 0, |row| / 2 + 1).value;
      var h := |row| / 2;
      && multiset(b) == multiset(row) && |b| == |row| && Sort(row, ill).value == b[h]
      && (forall q :: 0 <= q < h ==> !ill(b[h], b[q]))
      && (forall p :: h < p < |row| ==> !ill(b[p], b[h]))
  {
    if |row| == 0 {
      assert Position(ill, row, 0, 0).None?;
    } else if Sort(row, ill).Some? {
      var h := |row| / 2;
      ArrangeKeeps(ill, row, 0, h + 1);
      var b := Arrange(ill, row, 0, h + 1).value;
      assert |row| - (h + 1) <= h;
      assert Placed(ill, b, |row| - (h + 1));
    }
  }

  // --------------------------------------------------------------- success

  predicate IsElement(x: Byte, vals: set<Byte>) {
    x in vals
  }

  /** The rules never say a page must follow itself and chain: the set is a
      strict order on `vals`. */
  predicate StrictOn(ill: Relation, vals: set<Byte>)
  {
    && (forall x :: IsElement(x, vals) ==> !ill(x, x))
    && (forall x, y, z {:trigger Chain(ill, vals, x, y, z)} :: Chain(ill, vals, x, y, z) ==> ill(x, z))
  }

  /** Three pages of `vals`, each forbidden before the next. */
  predicate Chain(ill: Relation, vals: set<Byte>, x: Byte, y: Byte, z: Byte) {
    IsElement(x, vals) && IsElement(y, vals) && IsElement(z, vals) && ill(x, y) && ill(y, z)
  }

  /** Among any pages drawn from a strictly ordered set, one may be placed
      last. */
  lemma {:induction false} CandidateExists(ill: Relation, a: seq<Byte>, m: nat, vals: set<Byte>)
    requires 0 < m <= |a| && StrictOn(ill, vals)
    requires forall j :: 0 <= j < m ==> IsElement(a[j], vals)
    ensures exists i :: 0 <= i < m && Candidate(ill, a, m, a[i])
  {
    if m == 1 {
      assert IsElement(a[0], vals);
      assert Candidate(ill, a, 1, a[0]);
    } else {
      CandidateExists(ill, a, m - 1, vals);
      var c :| 0 <= c < m - 1 && Candidate(ill, a, m - 1, a[c]);
      if !ill(a[c], a[m - 1]) {
        assert Candidate(ill, a, m, a[c]);
      } else {
        forall j | 0 <= j < m
          ensures !ill(a[m - 1], a[j])
        {
          assert IsElement(a[j], vals) && IsElement(a[c], vals) && IsElement(a[m - 1], vals);
          if j < m - 1 {
            assert !ill(a[c], a[j]);
            assert ill(a[m - 1], a[j]) ==> Chain(ill, vals, a[c], a[m - 1], a[j]);
          }
        }
        assert Candidate(ill, a, m, a[m - 1]);
      }
    }
  }

  /** When the rules order the run's pages strictly, no round of `sort`
      panics. */
  lemma {:induction false} ArrangeSucceeds(ill: Relation, a: seq<Byte>, n: nat, steps: nat, vals: set<Byte>)
    requires n <= steps <= |a| / 2 + 1 && 0 < |a| && StrictOn(ill, vals)
    requires forall j :: 0 <= j < |a| ==> IsElement(a[j], vals)
    ensures Arrange(ill, a, n, steps).Some?
    decreases steps - n
  {
    if n < steps {
      var i := PositionSucceeds(ill, a, |a| - n, vals);
      var b := Swap(a, |a| - n - 1, i);
      SwapKeepsElements(a, |a| - n - 1, i, vals);
      ArrangeUnfold(ill, a, n, steps, i);
      ArrangeSucceeds(ill, b, n + 1, steps, vals);
    }
  }

  lemma ArrangeUnfold(ill: Relation, a: seq<Byte>, n: nat, steps: nat, i: nat)
    requires n < steps <= |a| / 2 + 1 && Position(ill, a, |a| - n, 0) == Some(i)
    ensures Arrange(ill, a, n, steps) == Arrange(ill, Swap(a, |a| - n - 1, i), n + 1, steps)
  {
  }

  /** Among pages drawn from a strictly ordered set, `position` finds one. */
  lemma PositionSucceeds(ill: Relation, a: seq<Byte>, m: nat, vals: set<Byte>) returns (i: nat)
    requires 0 < m <= |a| && StrictOn(ill, vals)
    requires forall j :: 0 <= j < |a| ==> IsElement(a[j], vals)
    ensures Position(ill, a, m, 0) == Some(i) && i < m
  {
    CandidateExists(ill, a, m, vals);
    PositionMisses(ill, a, m, 0);
    i := Position(ill, a, m, 0).value;
  }

  lemma SwapKeepsElements(a: seq<Byte>, p: nat, q: nat, vals: set<Byte>)
    requires p < |a| && q < |a|
    requires forall j :: 0 <= j < |a| ==> IsElement(a[j], vals)
    ensures forall j :: 0 <= j < |a| ==> IsElement(Swap(a, p, q)[j], vals)
  {
  }

  lemma SortSucceeds(row: seq<Byte>, ill: Relation, vals: set<Byte>)
    requires |row| > 0 && StrictOn(ill, vals)
    requires forall j :: 0 <= j < |row| ==> IsElement(row[j], vals)
    ensures Sort(row, ill).Some?
  {
    ArrangeSucceeds(ill, row, 0, |row| / 2 + 1, vals);
  }

  // ----------------------------------------------------------------- solve

  /** A rule line `a|b`: the first two pieces between `|` parse as `u8`;
      anything after a second `|` is ignored. */
  function ParseRule(line: string): (r: Option<(Byte, Byte)>)
    ensures r.Some? ==> |Split(line, '|')| >= 2
  {
    var parts := Split(line, '|');
    if |parts| < 2 then None
    else
      match (ParseNat(parts[0], U8Max), ParseNat(parts[1], U8Max))
      case (Some(a), Some(b)) => Some((a, b))
      case _ => None
  }

  /** A run line: every piece between commas parses as `u8`. */
  function ParseRun(parts: seq<string>): (r: Option<seq<Byte>>)
    ensures r.Some? ==> |r.value| == |parts|
    ensures r.Some? ==> forall k :: 0 <= k < |parts| ==> ParseNat(parts[k], U8Max) == Some(r.value[k])
    ensures r.None? <==> exists k :: 0 <= k < |parts| && ParseNat(parts[k], U8Max).None?
  {
    if |parts| == 0 then Some([])
    else
      match (ParseNat(parts[0], U8Max), ParseRun(parts[1..]))
      case (Some(x), Some(rest)) => Some([x as Byte] + rest)
      case (None, _) => None
      case (_, None) => None
  }

  /** The reading loop of `solve` over the first lines: a line with `|` is a
      rule and records `(b, a)`, else a line with `,` is a run, else it is
      skipped; a piece that fails to parse is the `unwrap` that panics. */
  function Collect(lines: seq<string>): (r: Option<(TupleSet, seq<seq<Byte>>)>)
    ensures r.Some? ==> Valid(r.value.0)
    ensures r.Some? ==> forall k :: 0 <= k < |r.value.1| ==> |r.value.1[k]| >= 2
  {
    if |lines| == 0 then Some((New(), []))
    else
      var line := lines[|lines| - 1];
      match Collect(lines[..|lines| - 1])
      case None => None
      case Some((t, runs)) =>
        if '|' in line then
          match ParseRule(line)
          case None => None
          case Some((a, b)) => Some((Set(t, b, a), runs))
        else if ',' in line then
          match ParseRun(Split(line, ','))
          case None => None
          case Some(run) =>
            SplitAtSeparator(line, ',');
            Some((t, runs + [run]))
        else Some((t, runs))
  }

  /** A line holding the separator splits into two pieces or more. */
  lemma SplitAtSeparator(s: string, sep: char)
    requires sep in s
    ensures |Split(s, sep)| >= 2
  {
  }

  /** `line` is the rule `a|b`. */
  predicate IsRule(line: string, a: Byte, b: Byte) {
    '|' in line && ParseRule(line) == Some((a, b))
  }

  /** The set holds `(b, a)` exactly for the rules `a|b` among the lines. */
  lemma {:induction false} CollectRules(lines: seq<string>, x: Byte, y: Byte)
    requires Collect(lines).Some?
    ensures Get(Collect(lines).value.0, x, y) <==> exists k :: 0 <= k < |lines| && IsRule(lines[k], y, x)
  {
    if |lines| == 0 {
      NewEmpty(x, y);
    } else {
      var init := lines[..|lines| - 1];
      var line := lines[|lines| - 1];
      CollectRules(init, x, y);
      var t := Collect(init).value.0;
      if '|' in line {
        var (a, b) := ParseRule(line).value;
        SetGet(t, b, a, x, y);
      }
      ExistsSnoc(lines, init, l => IsRule(l, y, x));
    }
  }

  /** Some element of `s` satisfies `p` exactly when one before the last
      does or the last does. */
  lemma ExistsSnoc<T>(s: seq<T>, init: seq<T>, p: T -> bool)
    requires |s| > 0 && init == s[..|s| - 1]
    ensures (exists k :: 0 <= k < |s| && p(s[k])) <==>
      (exists k :: 0 <= k < |init| && p(init[k])) || p(s[|s| - 1])
  {
    if exists k :: 0 <= k < |s| && p(s[k]) {
      var k :| 0 <= k < |s| && p(s[k]);
      if k < |s| - 1 {
        assert p(init[k]);
      }
    }
    if exists k :: 0 <= k < |init| && p(init[k]) {
      var k :| 0 <= k < |init| && p(init[k]);
      assert p(s[k]);
    }
  }

  /** The loop over the runs: an in-order run adds its middle page to the
      first total, any other its sorted middle page to the second. */
  function Totals(runs: seq<seq<Byte>>, ill: Relation): (r: Option<(nat, nat)>)
  {
    if |runs| == 0 then Some((0, 0))
    else
      var run := runs[|runs| - 1];
      match Totals(runs[..|runs| - 1], ill)
      case None => None
      case Some((sum, sorted)) =>
        if Check(run, ill) then
          (if |run| == 0 then None else Some((sum + run[|run| / 2], sorted)))
        else
          match Sort(run, ill)
          case None => None
          case Some(m) => Some((sum, sorted + m))
  }

  /** `solve`: the two totals, or `None` where the program panics. */
  function Solve(input: string): Option<(nat, nat)> {
    match Collect(Lines(input))
    case None => None
    case Some((t, runs)) => Totals(runs, Illegal(t))
  }

  /** The middle page of every in-order run, added up. */
  function SumInOrder(runs: seq<seq<Byte>>, ill: Relation): nat
  {
    if |runs| == 0 then 0
    else
      var run := runs[|runs| - 1];
      SumInOrder(runs[..|runs| - 1], ill)
        + (if Check(run, ill) && |run| > 0 then run[|run| / 2] else 0)
  }

  /** The first total is the sum of the middles of the in-order runs, and
      when the rules order every page strictly and no run is empty, neither
      loop panics. */
  lemma {:induction false} TotalsMean(runs: seq<seq<Byte>>, ill: Relation, vals: set<Byte>)
    ensures Totals(runs, ill).Some? ==> Totals(runs, ill).value.0 == SumInOrder(runs, ill)
    ensures StrictOn(ill, vals)
      && (forall k :: 0 <= k < |runs| ==> |runs[k]| > 0)
      && (forall k, j :: 0 <= k < |runs| && 0 <= j < |runs[k]| ==> IsElement(runs[k][j], vals))
      ==> Totals(runs, ill).Some?
  {
    if |runs| > 0 {
      var init := runs[..|runs| - 1];
      var run := runs[|runs| - 1];
      TotalsMean(init, ill, vals);
      if StrictOn(ill, vals)
        && (forall k :: 0 <= k < |runs| ==> |runs[k]| > 0)
        && (forall k, j :: 0 <= k < |runs| && 0 <= j < |runs[k]| ==> IsElement(runs[k][j], vals))
      {
        assert forall k :: 0 <= k < |init| ==> init[k] == runs[k];
        if !Check(run, ill) {
          SortSucceeds(run, ill, vals);
        }
      }
    }
  }
}

=== FILE: password.dfy ===
/** Santa's password rules of 2015 day 11 (2015/11/src/main.rs): a password
    is eight bytes, `next` counts it up as a base-26 number written in the
    letters `a` to `z`, and `check` asks for a straight of three letters,
    none of `i`, `o`, `l`, and pairs of equal letters that are not all in
    one overlapping run. Byte arithmetic panics on `u8` overflow, as a
    debug build does. */
module Password {
  import opened Wrappers
  import opened Text
  import opened Arith

  const LowerA: int := 'a' as int
  const LowerZ: int := 'z' as int

  type Password = p: seq<Byte> | |p| == 8 witness [0, 0, 0, 0, 0, 0, 0, 0]

  predicate Lowercase(w: seq<Byte>) {
    forall j :: 0 <= j < |w| ==> LowerA <= w[j] <= LowerZ
  }

  /** The loop of `next` over the first `k` bytes, from byte `k - 1` down
      to byte 0, with the carry into byte `k - 1`; the result is the new
      prefix of length `k`. `None` is the `u8` overflow of `*c + carry`. */
  function Inc(w: seq<Byte>, k: nat, carry: nat): (r: Option<seq<Byte>>)
    requires carry <= 1 && k <= |w|
    ensures r.Some? ==> |r.value| == k
    ensures Lowercase(w) ==> r.Some? && Lowercase(r.value)
  {
    if k == 0 then Some([])
    else
      var c := w[k - 1] + carry;
      if c > U8Max then None
      else
        var d: Byte := if c > LowerZ then c - (LowerZ - LowerA + 1) else c;
        var kk := if c > LowerZ then 1 else 0;
        match Inc(w, k - 1, kk)
        case None => None
        case Some(front) => Some(front + [d])
  }

  function Next(pw: Password): (r: Option<Password>)
    ensures Lowercase(pw) ==> r.Some? && Lowercase(r.value)
  {
    match Inc(pw, |pw|, 1)
    case None => None
    case Some(w) => Some(w)
  }

  /** The value of the first `k` letters of a lowercase word as a base-26
      number, `a` being 0 and letter `k - 1` the least significant. */
  function Value(w: seq<Byte>, k: nat): (v: nat)
    requires Lowercase(w) && k <= |w|
    ensures v < Pow(26, k)
  {
    if k == 0 then 0
    else
      var front := Value(w, k - 1);
      MulAddBound(front, Pow(26, k - 1), 26, w[k - 1] - LowerA);
      front * 26 + (w[k - 1] - LowerA)
  }

  function Val(w: seq<Byte>): (v: nat)
    requires Lowercase(w)
    ensures v < Pow(26, |w|)
  {
    Value(w, |w|)
  }

  /** A value below `big`, or zero once it reaches `big`. */
  function Wrap(v: nat, big: nat): nat {
    if v < big then v else 0
  }

  /** The number of eight-letter passwords, `26^8`. */
  const Passwords: nat := 208827064576

  lemma PasswordsCount()
    ensures Pow(26, 8) == Passwords
  {
  }

  /** `next` adds one to the base-26 value, wrapping from `zzzzzzzz` to
      `aaaaaaaa`. */
  lemma NextValue(pw: Password)
    requires Lowercase(pw)
    ensures Val(Next(pw).value) == (Val(pw) + 1) % Passwords
  {
    var r := Inc(pw, |pw|, 1).value;
    IncValue(pw, |pw|, 1);
    PasswordsCount();
    assert Next(pw).value == r;
    assert Value(r, 8) == Wrap(Value(pw, 8) + 1, Passwords);
    WrapIsMod(Value(pw, 8) + 1, Passwords);
  }

  /** A value at most `big` wraps to zero exactly at `big`. */
  lemma WrapIsMod(v: nat, big: nat)
    requires 0 < big && v <= big
    ensures Wrap(v, big) == v % big
  {
    if v < big {
      DivMod(0, big, v);
    } else {
      DivMod(1, big, 0);
    }
  }

  /** The loop of `next` adds the carry to the value, and only a run of
      `z`s carried into wraps round to all `a`s. */
  lemma {:induction false} IncValue(w: seq<Byte>, k: nat, carry: nat)
    requires Lowercase(w) && carry <= 1 && k <= |w|
    ensures Value(w, k) + carry <= Pow(26, k)
    ensures Value(Inc(w, k, carry).value, k) == Wrap(Value(w, k) + carry, Pow(26, k))
  {
    if k == 0 {
    } else if w[k - 1] - LowerA + carry >= 26 {
      IncValue(w, k - 1, 1);
      IncWraps(w, k, carry);
    } else {
      IncStops(w, k, carry);
    }
  }

  /** Letter `k - 1` is `z` and the carry moves on. */
  lemma IncWraps(w: seq<Byte>, k: nat, carry: nat)
    requires Lowercase(w) && carry <= 1 && 0 < k <= |w|
    requires w[k - 1] - LowerA + carry >= 26
    requires Value(Inc(w, k - 1, 1).value, k - 1) == Wrap(Value(w, k - 1) + 1, Pow(26, k - 1))
    ensures Value(w, k) + carry <= Pow(26, k)
    ensures Value(Inc(w, k, carry).value, k) == Wrap(Value(w, k) + carry, Pow(26, k))
  {
    var f := Inc(w, k - 1, 1).value;
    assert Inc(w, k, carry).value == f + [LowerA];
    ValueAppend(f, LowerA);
    WrapStep(Value(w, k - 1), Value(f, k - 1), Pow(26, k - 1), w[k - 1] - LowerA, carry);
  }

  /** The arithmetic of a wrapping step: `(vf + 1) * 26` either stays below
      `26 * p` or reaches it exactly. */
  lemma WrapStep(vf: nat, vfi: nat, p: nat, x: nat, carry: nat)
    requires vf < p && x + carry == 26 && vfi == Wrap(vf + 1, p)
    ensures vf * 26 + x + carry <= 26 * p
    ensures vfi * 26 == Wrap(vf * 26 + x + carry, 26 * p)
  {
  }

  /** The carry stops at letter `k - 1`. */
  lemma IncStops(w: seq<Byte>, k: nat, carry: nat)
    requires Lowercase(w) && carry <= 1 && 0 < k <= |w|
    requires w[k - 1] - LowerA + carry < 26
    ensures Value(w, k) + carry <= Pow(26, k)
    ensures Value(Inc(w, k, carry).value, k) == Wrap(Value(w, k) + carry, Pow(26, k))
  {
    IncZero(w, k - 1);
    assert Inc(w, k, carry).value == w[..k - 1] + [w[k - 1] + carry];
    ValueAppend(w[..k - 1], w[k - 1] + carry);
    ValuePrefix(w, k - 1);
    StopStep(Value(w, k - 1), Pow(26, k - 1), w[k - 1] - LowerA, carry);
  }

  /** The arithmetic of a step where the carry stops: the sum stays below
      `26 * p`. */
  lemma StopStep(vf: nat, p: nat, x: nat, carry: nat)
    requires vf < p && x + carry < 26
    ensures vf * 26 + x + carry < 26 * p
    ensures vf * 26 + (x + carry) == Wrap(vf * 26 + x + carry, 26 * p)
  {
  }

  lemma ValueAppend(f: seq<Byte>, d: Byte)
    requires Lowercase(f) && LowerA <= d <= LowerZ
    ensures Lowercase(f + [d]) && Value(f + [d], |f| + 1) == Value(f, |f|) * 26 + (d - LowerA)
  {
    ValuePrefixes(f, f + [d], |f|);
  }

  /** The value of a prefix depends on nothing after it. */
  lemma {:induction false} ValuePrefixes(a: seq<Byte>, b: seq<Byte>, k: nat)
    requires Lowercase(a) && Lowercase(b) && k <= |a| && k <= |b| && a[..k] == b[..k]
    ensures Value(a, k) == Value(b, k)
  {
    if k > 0 {
      assert a[..k - 1] == a[..k][..k - 1];
      assert b[..k - 1] == b[..k][..k - 1];
      assert a[k - 1] == a[..k][k - 1];
      assert b[k - 1] == b[..k][k - 1];
      ValuePrefixes(a, b, k - 1);
    }
  }

  lemma ValuePrefix(w: seq<Byte>, k: nat)
    requires Lowercase(w) && k <= |w|
    ensures Lowercase(w[..k]) && Value(w[..k], k) == Value(w, k)
  {
    ValuePrefixes(w[..k], w, k);
  }

  /** Without a carry `next`'s loop copies a lowercase prefix. */
  lemma {:induction false} IncZero(w: seq<Byte>, k: nat)
    requires Lowercase(w) && k <= |w|
    ensures Inc(w, k, 0) == Some(w[..k])
  {
    if k > 0 {
      IncZero(w, k - 1);
      assert w[..k] == w[..k - 1] + [w[k - 1]];
    }
  }

  /** Three consecutive letters at `j`, each one more than the one before. */
  predicate Run3(w: seq<Byte>, j: nat)
    requires j + 2 < |w|
  {
    w[j + 1] as int == w[j] as int + 1 && w[j + 2] as int == w[j + 1] as int + 1
  }

  /** The first test of `check`: `windows(3).any(..)` from window `i` on;
      `None` is the `u8` overflow of `w[0] + 1` or `w[1] + 1`. */
  function StraightFrom(w: seq<Byte>, i: nat): (r: Option<bool>)
    requires i <= |w|
    ensures (forall j :: i <= j < |w| ==> w[j] < U8Max) ==> r.Some?
    ensures r.Some? ==> (r.value <==> exists j :: i <= j && j + 2 < |w| && Run3(w, j))
    decreases |w| - i
  {
    if i + 3 > |w| then Some(false)
    else if w[i] as int + 1 > U8Max then None
    else if w[i + 1] as int != w[i] as int + 1 then StraightFrom(w, i + 1)
    else if w[i + 1] as int + 1 > U8Max then None
    else if w[i + 2] as int == w[i + 1] as int + 1 then (assert Run3(w, i); Some(true))
    else StraightFrom(w, i + 1)
  }

  /** The second test: none of the confusing letters `i`, `o`, `l`. */
  predicate NoConfusing(w: seq<Byte>) {
    forall j :: 0 <= j < |w| ==> w[j] != 'i' as int && w[j] != 'o' as int && w[j] != 'l' as int
  }

  predicate IsPair(w: seq<Byte>, j: nat) {
    j + 1 < |w| && w[j] == w[j + 1]
  }

  /** The indices of `windows(2)` whose two letters are equal, from `i`
      on, in increasing order. */
  function PairStarts(w: seq<Byte>, i: nat): (q: seq<nat>)
    ensures forall k :: 0 <= k < |q| ==> i <= q[k] && IsPair(w, q[k])
    ensures forall k :: 0 <= k < |q| - 1 ==> q[k] < q[k + 1]
    ensures forall j :: i <= j && IsPair(w, j) ==> j in q
    decreases |w| - i
  {
    if i + 1 >= |w| then []
    else if w[i] == w[i + 1] then [i] + PairStarts(w, i + 1)
    else PairStarts(w, i + 1)
  }

  /** The third test as written: two successive pair indices more than one
      apart. (`q[1] - q[0]` cannot underflow: the indices increase.) */
  predicate Gapped(q: seq<nat>) {
    exists k :: 0 <= k < |q| - 1 && q[k + 1] as int - q[k] > 1
  }

  /** What the third test means: two pairs with a position between them that
      does not start a pair. So a run such as `aaaa`, whose pairs overlap in
      a chain, counts once. */
  predicate SplitPairs(w: seq<Byte>) {
    exists a, m, b :: 0 <= a < m < b < |w| && IsPair(w, a) && !IsPair(w, m) && IsPair(w, b)
  }

  lemma GappedMeansSplit(w: seq<Byte>)
    ensures Gapped(PairStarts(w, 0)) <==> SplitPairs(w)
  {
    if Gapped(PairStarts(w, 0)) {
      GappedSplits(w);
    }
    if SplitPairs(w) {
      SplitGaps(w);
    }
  }

  lemma GappedSplits(w: seq<Byte>)
    requires Gapped(PairStarts(w, 0))
    ensures SplitPairs(w)
  {
    var q := PairStarts(w, 0);
    var k :| 0 <= k < |q| - 1 && q[k + 1] as int - q[k] > 1;
    var m := q[k] + 1;
    Between(q, k, m);
    assert IsPair(w, q[k]) && !IsPair(w, m) && IsPair(w, q[k + 1]);
  }

  lemma SplitGaps(w: seq<Byte>)
    requires SplitPairs(w)
    ensures Gapped(PairStarts(w, 0))
  {
    var q := PairStarts(w, 0);
    var a, m, b :| 0 <= a < m < b < |w| && IsPair(w, a) && !IsPair(w, m) && IsPair(w, b);
    var s := Position(q, a);
    var t := Position(q, b);
    if t <= s {
      Sorted(q, t, s);
    }
    assert forall k :: 0 <= k < |q| ==> q[k] != m;
    var k := Straddle(q, s, t, m);
    assert q[k + 1] as int - q[k] > 1;
  }

  lemma Position(q: seq<nat>, x: nat) returns (s: nat)
    requires x in q
    ensures s < |q| && q[s] == x
  {
    s :| 0 <= s < |q| && q[s] == x;
  }

  /** Nothing lies in a strictly increasing sequence between two successive
      entries. */
  lemma Between(q: seq<nat>, k: nat, m: nat)
    requires forall k :: 0 <= k < |q| - 1 ==> q[k] < q[k + 1]
    requires k + 1 < |q| && q[k] < m < q[k + 1]
    ensures m !in q
  {
    if m in q {
      var t :| 0 <= t < |q| && q[t] == m;
      if t <= k {
        Sorted(q, t, k);
      } else {
        Sorted(q, k + 1, t);
      }
    }
  }

  /** In a strictly increasing sequence, a larger value sits at a larger
      index. */
  lemma {:induction false} Sorted(q: seq<nat>, s: nat, t: nat)
    requires forall k :: 0 <= k < |q| - 1 ==> q[k] < q[k + 1]
    requires s <= t < |q|
    ensures q[s] <= q[t]
    ensures s < t ==> q[s] < q[t]
    decreases t - s
  {
    if s < t {
      Sorted(q, s + 1, t);
    }
  }

  /** A value strictly between `q[s]` and `q[t]` that is not in `q` falls
      between two successive entries. */
  lemma {:induction false} Straddle(q: seq<nat>, s: nat, t: nat, m: nat) returns (k: nat)
    requires s < t < |q| && q[s] < m < q[t]
    requires forall k :: 0 <= k < |q| ==> q[k] != m
    ensures s <= k < t && q[k] < m < q[k + 1]
    decreases t - s
  {
    if m < q[s + 1] {
      k := s;
    } else {
      k := Straddle(q, s + 1, t, m);
    }
  }

  /** `check`; `None` is a panic in the straight test. */
  function Check(w: seq<Byte>): (r: Option<bool>)
    ensures (forall j :: 0 <= j < |w| ==> w[j] < U8Max) ==> r.Some?
  {
    match StraightFrom(w, 0)
    case None => None
    case Some(false) => Some(false)
    case Some(true) => Some(NoConfusing(w) && Gapped(PairStarts(w, 0)))
  }

  predicate HasStraight(w: seq<Byte>) {
    exists j :: 0 <= j && j + 2 < |w| && Run3(w, j)
  }

  /** For a lowercase password `check` is the conjunction of the three
      rules. */
  lemma CheckMeans(w: seq<Byte>)
    requires Lowercase(w)
    ensures Check(w) == Some(HasStraight(w) && NoConfusing(w) && SplitPairs(w))
  {
    GappedMeansSplit(w);
  }

  /** The `successors(..).filter(check)` search from `pw` on, cut off after
      `fuel` passwords; `None` also stands for a panic on the way. */
  function FindValid(pw: Password, fuel: nat): Option<Password>
    decreases fuel
  {
    if fuel == 0 then None
    else
      match Check(pw)
      case None => None
      case Some(true) => Some(pw)
      case Some(false) =>
        match Next(pw)
        case None => None
        case Some(n) => FindValid(n, fuel - 1)
  }

  /** Whatever the search finds passes `check`. */
  lemma {:induction false} FindValidChecks(pw: Password, fuel: nat)
    requires FindValid(pw, fuel).Some?
    ensures Check(FindValid(pw, fuel).value) == Some(true)
    decreases fuel
  {
    if Check(pw) != Some(true) {
      FindValidChecks(Next(pw).value, fuel - 1);
    }
  }

  /** A lowercase search result is one of the passwords counted up from the
      start: its value is the start's plus `steps`, fewer than `fuel`. */
  lemma {:induction false} FindValidReaches(pw: Password, fuel: nat) returns (steps: nat, found: Password)
    requires Lowercase(pw) && FindValid(pw, fuel).Some?
    ensures FindValid(pw, fuel) == Some(found) && Lowercase(found)
    ensures steps < fuel && Val(found) == (Val(pw) + steps) % Passwords
    decreases fuel
  {
    if FindValid(pw, fuel) == Some(pw) {
      steps, found := 0, pw;
      PasswordsCount();
      DivMod(0, Passwords, Val(pw));
    } else {
      var n := Next(pw).value;
      MovesOn(pw, fuel);
      NextValue(pw);
      var more;
      more, found := FindValidReaches(n, fuel - 1);
      steps := more + 1;
      CountOn(Val(pw), Val(n), Val(found), more, Passwords);
    }
  }

  /** A search that does not stop at its start moves on to the next
      password. */
  lemma MovesOn(pw: Password, fuel: nat)
    requires Lowercase(pw) && FindValid(pw, fuel).Some? && FindValid(pw, fuel) != Some(pw)
    ensures fuel > 0 && FindValid(pw, fuel) == FindValid(Next(pw).value, fuel - 1)
  {
  }

  /** One count up and then `more` is `more + 1` counts up. */
  lemma CountOn(v: nat, vn: nat, r: nat, more: nat, big: nat)
    requires big > 0 && vn == (v + 1) % big && r == (vn + more) % big
    ensures r == (v + (more + 1)) % big
  {
    ModAdd(v + 1, more, big);
  }

  /** Reading the input: the first eight characters, each cut to its low
      byte by `as u8`, padded with zero bytes. */
  function ReadPassword(s: string): (pw: Password)
    ensures forall j :: 0 <= j < 8 ==> pw[j] == if j < |s| then (s[j] as int) % 256 else 0
  {
    seq(8, j requires 0 <= j < 8 => if j < |s| then (s[j] as int) % 256 else 0)
  }

  /** `main`: the first valid password from the input on, then the next
      valid one after it. */
  function Solve(s: string, fuel: nat): (r: Option<(Password, Password)>)
    ensures r.Some? ==> Check(r.value.0) == Some(true) && Check(r.value.1) == Some(true)
  {
    match FindValid(ReadPassword(s), fuel)
    case None => None
    case Some(first) =>
      FindValidChecks(ReadPassword(s), fuel);
      match Next(first)
      case None => None
      case Some(n) =>
        match FindValid(n, fuel)
        case None => None
        case Some(second) =>
          FindValidChecks(n, fuel);
          Some((first, second))
  }
}

=== FILE: rangemap.dfy ===
/** The piecewise-shift map of 2023 day 5 (2023/05/src/lib.rs): a `BTreeMap`
    from split points to the value the first point of each segment maps to;
    every point maps by the offset of the greatest split point at or below
    it. The ordered map is modelled by its `map` view: "the greatest key at
    or below `i`" and "the keys in `lo..hi` in ascending order" are
    computed by scanning the integers, which picks out the same keys the
    B-tree's ordered traversal visits. */
module RangeMap {
  import opened Wrappers

  type Splits = map<nat, nat>

  /** `RangeMap::new`: the single split point `0 -> 0`. */
  function New(): (m: Splits)
    ensures 0 in m
  {
    map[0 := 0]
  }

  /** `RangeMap::insert`: `src` now maps to `dest`, and `src + n` becomes a
      split point that maps to itself unless it already was one. */
  function Insert(m: Splits, dest: nat, src: nat, n: nat): (r: Splits)
    ensures r.Keys == m.Keys + {src, src + n}
    ensures r[src] == dest
    ensures src + n != src ==> r[src + n] == if src + n in m then m[src + n] else src + n
    ensures forall k :: k in m && k != src ==> r[k] == m[k]
  {
    var m1 := m[src := dest];
    if src + n in m1 then m1 else m1[src + n := src + n]
  }

  /** The greatest key at or below `i` (`range(..=i).last()`). */
  function Floor(m: Splits, i: nat): (r: Option<nat>)
    ensures r.Some? ==> r.value in m && r.value <= i
    ensures r.Some? ==> forall k :: r.value < k <= i ==> k !in m
    ensures r.None? ==> forall k :: 0 <= k <= i ==> k !in m
  {
    if i in m then Some(i)
    else if i == 0 then None
    else Floor(m, i - 1)
  }

  /** `RangeMap::get`: shift `i` by the offset of its floor key; `None` is the
      `unwrap` panic when no key lies at or below `i`. */
  function Get(m: Splits, i: nat): (r: Option<nat>)
    ensures r.None? <==> forall k :: 0 <= k <= i ==> k !in m
    ensures r.Some? ==> exists k :: k in m && k <= i && r.value == m[k] + i - k
  {
    match Floor(m, i)
    case None => None
    case Some(k) => Some(m[k] + i - k)
  }

  /** The greatest key is unique: any key `k <= i` with no key in `(k, i]`
      determines `get(i)`. */
  lemma GetOfFloor(m: Splits, i: nat, k: nat)
    requires k in m && k <= i
    requires forall t :: k < t <= i ==> t !in m
    ensures Get(m, i) == Some(m[k] + i - k)
  {
    assert Floor(m, i) == Some(k);
  }

  /** A fresh map sends every value to itself. */
  lemma NewIsIdentity(i: nat)
    ensures Get(New(), i) == Some(i)
  {
    GetOfFloor(New(), i, 0);
  }

  /** After `insert(dest, src, n)`, `src + t` maps to `dest + t` for every
      `t < n`, provided no earlier split point falls strictly inside the
      inserted segment. */
  lemma InsertMapsSegment(m: Splits, dest: nat, src: nat, n: nat, t: nat)
    requires t < n
    requires forall k :: src < k < src + n ==> k !in m
    ensures Get(Insert(m, dest, src, n), src + t) == Some(dest + t)
  {
    GetOfFloor(Insert(m, dest, src, n), src + t, src);
  }

  /** Below `src` nothing changes. */
  lemma InsertKeepsBelow(m: Splits, dest: nat, src: nat, n: nat, i: nat)
    requires i < src
    ensures Get(Insert(m, dest, src, n), i) == Get(m, i)
  {
    var r := Insert(m, dest, src, n);
    match Floor(m, i)
    case None =>
      assert forall k :: 0 <= k <= i ==> k !in r;
    case Some(k) =>
      GetOfFloor(r, i, k);
  }

  /** Past the segment, up to the next old split point, values map to
      themselves again when the end point was new. */
  lemma InsertIdentityAfter(m: Splits, dest: nat, src: nat, n: nat, i: nat)
    requires n > 0 && src + n !in m && src + n <= i
    requires forall k :: src < k <= i ==> k !in m
    ensures Get(Insert(m, dest, src, n), i) == Some(i)
  {
    GetOfFloor(Insert(m, dest, src, n), i, src + n);
  }

  /** Between two split points `get` is a shift: no key in `(a, t]` means
      `t` maps `t - a` past `a`. */
  lemma GetShift(m: Splits, a: nat, t: nat)
    requires a <= t && Get(m, a).Some?
    requires forall k :: a < k <= t ==> k !in m
    ensures Get(m, t) == Some(Get(m, a).value + t - a)
  {
    var k := Floor(m, a).value;
    GetOfFloor(m, t, k);
  }

  /** The loop of `get_range` before filtering: the current piece starts at
      `cur`, keys are scanned upward from `k`; each key in `start..end`
      closes a piece, and the rest `cur..end` is the last one. */
  function Pieces(m: Splits, cur: nat, k: nat, end: nat): (ps: seq<(nat, nat)>)
    requires cur <= k <= end
    requires forall t :: cur < t < k ==> t !in m
    ensures |ps| >= 1 && ps[0].0 == cur && ps[|ps| - 1].1 == end
    ensures Chain(m, ps)
    decreases end - k
  {
    if k >= end then [(cur, end)]
    else if k in m then
      var rest := Pieces(m, k, k + 1, end);
      PrependChain(m, (cur, k), rest);
      [(cur, k)] + rest
    else Pieces(m, cur, k + 1, end)
  }

  /** Pieces in order, each ending where the next starts, with no split
      point strictly inside any of them. */
  predicate Chain(m: Splits, ps: seq<(nat, nat)>) {
    && (forall j :: 0 <= j < |ps| ==> ps[j].0 <= ps[j].1)
    && (forall j :: 0 <= j < |ps| - 1 ==> ps[j].1 == ps[j + 1].0)
    && (forall j, t :: 0 <= j < |ps| && ps[j].0 < t < ps[j].1 ==> t !in m)
  }

  lemma PrependChain(m: Splits, p: (nat, nat), rest: seq<(nat, nat)>)
    requires Chain(m, rest) && |rest| >= 1 && p.0 <= p.1 && p.1 == rest[0].0
    requires forall t :: p.0 < t < p.1 ==> t !in m
    ensures Chain(m, [p] + rest)
  {
    var ps := [p] + rest;
    assert forall j :: 1 <= j < |ps| ==> ps[j] == rest[j - 1];
  }

  function Len(r: (nat, nat)): nat {
    if r.0 < r.1 then r.1 - r.0 else 0
  }

  function SumLen(rs: seq<(nat, nat)>): nat {
    if |rs| == 0 then 0 else Len(rs[0]) + SumLen(rs[1..])
  }

  /** Contiguous pieces from `a` to `b` have total length `b - a`. */
  lemma {:induction false} ContiguousLength(ps: seq<(nat, nat)>)
    requires |ps| >= 1
    requires forall j :: 0 <= j < |ps| ==> ps[j].0 <= ps[j].1
    requires forall j :: 0 <= j < |ps| - 1 ==> ps[j].1 == ps[j + 1].0
    ensures ps[0].0 + SumLen(ps) == ps[|ps| - 1].1
  {
    if |ps| > 1 {
      ContiguousLength(ps[1..]);
    }
  }

  /** Contiguous pieces from `a` to `b` cover every point of `a..b`. */
  lemma {:induction false} ContiguousCovers(ps: seq<(nat, nat)>, t: nat) returns (j: nat)
    requires |ps| >= 1 && ps[0].0 <= t < ps[|ps| - 1].1
    requires forall j :: 0 <= j < |ps| - 1 ==> ps[j].1 == ps[j + 1].0
    ensures j < |ps| && ps[j].0 <= t < ps[j].1
  {
    if t < ps[0].1 {
      j := 0;
    } else {
      var j' := ContiguousCovers(ps[1..], t);
      j := j' + 1;
    }
  }

  /** The `filter(!is_empty).map(..)` stage: every non-empty piece becomes
      the piece of the same length starting at the image of its start;
      `None` is the `get` panic. */
  function Image(m: Splits, ps: seq<(nat, nat)>): (r: Option<seq<(nat, nat)>>)
    ensures r.Some? ==> SumLen(r.value) == SumLen(ps)
    ensures r.Some? ==> forall j :: 0 <= j < |r.value| ==> r.value[j].0 < r.value[j].1
  {
    if |ps| == 0 then Some([])
    else
      match Image(m, ps[1..])
      case None => None
      case Some(rest) =>
        var (a, b) := ps[0];
        if a >= b then Some(rest)
        else
          match Get(m, a)
          case None => None
          case Some(g) =>
            var piece: (nat, nat) := (g, g + (b - a));
            Some([piece] + rest)
  }

  /** A point of a piece with no split point inside maps into the output. */
  lemma {:induction false} ImageCovers(m: Splits, ps: seq<(nat, nat)>, j: nat, t: nat) returns (i: nat)
    requires Image(m, ps).Some?
    requires j < |ps| && ps[j].0 <= t < ps[j].1
    requires forall k :: ps[j].0 < k <= t ==> k !in m
    ensures Get(m, t).Some?
    ensures i < |Image(m, ps).value| && Image(m, ps).value[i].0 <= Get(m, t).value < Image(m, ps).value[i].1
  {
    var rest := Image(m, ps[1..]).value;
    if j == 0 {
      var g := Get(m, ps[0].0).value;
      GetShift(m, ps[0].0, t);
      var piece: (nat, nat) := (g, g + (ps[0].1 - ps[0].0));
      assert Image(m, ps).value == [piece] + rest;
      i := 0;
    } else {
      var i' := ImageCovers(m, ps[1..], j - 1, t);
      if ps[0].0 >= ps[0].1 {
        i := i';
      } else {
        i := i' + 1;
      }
    }
  }

  /** `RangeMap::get_range` on `start..end`; `None` is a panic (`start > end`
      in `BTreeMap::range`, or `get` failing). */
  function GetRange(m: Splits, start: nat, end: nat): (r: Option<seq<(nat, nat)>>)
    ensures r.Some? ==> SumLen(r.value) == end - start
    ensures r.Some? ==> forall j :: 0 <= j < |r.value| ==> r.value[j].0 < r.value[j].1
  {
    if start > end then None
    else
      var ps := Pieces(m, start, start, end);
      ContiguousLength(ps);
      Image(m, ps)
  }

  /** The output of `get_range` covers the image of every point of the input
      range. */
  lemma GetRangeCovers(m: Splits, start: nat, end: nat, t: nat)
    requires GetRange(m, start, end).Some? && start <= t < end
    ensures Get(m, t).Some?
    ensures exists i ::
      && 0 <= i < |GetRange(m, start, end).value|
      && GetRange(m, start, end).value[i].0 <= Get(m, t).value < GetRange(m, start, end).value[i].1
  {
    var ps := Pieces(m, start, start, end);
    var j := ContiguousCovers(ps, t);
    var i := ImageCovers(m, ps, j, t);
  }

  /** Every range maps completely under a map with the split point `0`,
      as every map built by `new` and `insert` has. */
  lemma GetRangeTotal(m: Splits, start: nat, end: nat)
    requires 0 in m && start <= end
    ensures GetRange(m, start, end).Some?
  {
    var ps := Pieces(m, start, start, end);
    ImageTotal(m, ps);
  }

  lemma {:induction false} ImageTotal(m: Splits, ps: seq<(nat, nat)>)
    requires 0 in m
    ensures Image(m, ps).Some?
  {
    if |ps| > 0 {
      ImageTotal(m, ps[1..]);
      assert Get(m, ps[0].0).Some? by {
        assert !(0 !in m);
      }
    }
  }
}

=== FILE: regops.dfy ===
/** The sixteen register operations of 2018 day 16
    (2018/day16/src/main.rs): four registers, and instructions `op a b c`
    that write register `c` from registers or literals `a` and `b`. */
module RegOps {
  import opened Wrappers
  import opened Bits

  type Regs = rs: seq<nat> | |rs| == 4 witness [0, 0, 0, 0]

  datatype Op =
    | Addr | Addi | Mulr | Muli
    | Banr | Bani | Borr | Bori
    | Setr | Seti
    | Gtir | Gtri | Gtrr
    | Eqir | Eqri | Eqrr

  const AllOps: seq<Op> :=
    [Addr, Addi, Mulr, Muli, Banr, Bani, Borr, Bori, Setr, Seti, Gtir, Gtri, Gtrr, Eqir, Eqri, Eqrr]

  /** Operations whose `a` names a register. */
  predicate ReadsA(op: Op) {
    !(op == Seti || op == Gtir || op == Eqir)
  }

  /** Operations whose `b` names a register. */
  predicate ReadsB(op: Op) {
    op in {Addr, Mulr, Banr, Borr, Gtir, Gtrr, Eqir, Eqrr}
  }

  function Flag(b: bool): nat {
    if b then 1 else 0
  }

  /** `Op::eval`: `None` is the index panic of a register operand or target
      outside `0..4`. */
  function Eval(op: Op, s: Regs, a: nat, b: nat, c: nat): (r: Option<Regs>)
    ensures r.Some? <==> c < 4 && (ReadsA(op) ==> a < 4) && (ReadsB(op) ==> b < 4)
    ensures r.Some? ==> forall k :: 0 <= k < 4 && k != c ==> r.value[k] == s[k]
  {
    if c >= 4 || (ReadsA(op) && a >= 4) || (ReadsB(op) && b >= 4) then None
    else
      var v: nat := match op
        case Addr => s[a] + s[b]
        case Addi => s[a] + b
        case Mulr => s[a] * s[b]
        case Muli => s[a] * b
        case Banr => And(s[a], s[b])
        case Bani => And(s[a], b)
        case Borr => Or(s[a], s[b])
        case Bori => Or(s[a], b)
        case Setr => s[a]
        case Seti => a
        case Gtir => Flag(a > s[b])
        case Gtri => Flag(s[a] > b)
        case Gtrr => Flag(s[a] > s[b])
        case Eqir => Flag(a == s[b])
        case Eqri => Flag(s[a] == b)
        case Eqrr => Flag(s[a] == s[b]);
      Some(s[c := v])
  }

  /** Comparisons write exactly 0 or 1, and 1 exactly when the comparison
      holds. */
  lemma ComparisonsWriteFlags(op: Op, s: Regs, a: nat, b: nat, c: nat)
    requires op in {Gtir, Gtri, Gtrr, Eqir, Eqri, Eqrr}
    requires Eval(op, s, a, b, c).Some?
    ensures var v := Eval(op, s, a, b, c).value[c];
      var x := if ReadsA(op) then s[a] else a;
      var y := if ReadsB(op) then s[b] else b;
      && (v == 0 || v == 1)
      && (v == 1 <==> (if op in {Gtir, Gtri, Gtrr} then x > y else x == y))
  {
  }

  /** `seti` writes the literal `a`, `setr` copies register `a`, and `addi`
      adds the literal `b` to register `a`. */
  lemma SetAndAddImmediate(s: Regs, a: nat, b: nat, c: nat)
    requires c < 4
    ensures Eval(Seti, s, a, b, c) == Some(s[c := a])
    ensures a < 4 ==> Eval(Setr, s, a, b, c) == Some(s[c := s[a]])
    ensures a < 4 ==> Eval(Addi, s, a, b, c) == Some(s[c := s[a] + b])
  {
  }

  /** The bitwise operations act on each binary digit separately. */
  lemma BitwiseDigits(s: Regs, a: nat, b: nat, c: nat, k: nat)
    requires a < 4 && b < 4 && c < 4
    ensures Bit(Eval(Banr, s, a, b, c).value[c], k) == (Bit(s[a], k) && Bit(s[b], k))
    ensures Bit(Eval(Borr, s, a, b, c).value[c], k) == (Bit(s[a], k) || Bit(s[b], k))
  {
    AndBit(s[a], s[b], k);
    OrBit(s[a], s[b], k);
  }

  /** `MachineCode::eval`: look the opcode number up and run the operation;
      a missing number is the `expect` panic. */
  function Exec(code: seq<nat>, s: Regs, table: map<nat, Op>): (r: Option<Regs>)
    requires |code| == 4
    ensures code[0] !in table ==> r.None?
    ensures code[0] in table ==> r == Eval(table[code[0]], s, code[1], code[2], code[3])
  {
    if code[0] !in table then None else Eval(table[code[0]], s, code[1], code[2], code[3])
  }

  /** The operations consistent with one before/instruction/after sample.
      Every operation is tried, so an operand of 4 or more would panic in
      one of them; samples keep all three below 4. */
  function Candidates(before: Regs, code: seq<nat>, after: Regs): (ops: set<Op>)
    requires |code| == 4 && code[1] < 4 && code[2] < 4 && code[3] < 4
    ensures forall op :: op in ops <==> Exec(code, before, map[code[0] := op]) == Some(after)
  {
    set op | op in AllOps && Eval(op, before, code[1], code[2], code[3]) == Some(after)
  }

  /** The puzzle's sample `[3,2,1,1]`, `9 2 1 2`, `[3,2,2,1]` behaves like
      `mulr`, `addi` and `seti` and like nothing else. */
  lemma SampleCandidates()
    ensures Candidates([3, 2, 1, 1], [9, 2, 1, 2], [3, 2, 2, 1]) == {Mulr, Addi, Seti}
  {
    var before: Regs := [3, 2, 1, 1];
    var after: Regs := [3, 2, 2, 1];
    assert And(1, 1) == 1 && Or(1, 1) == 1;
    assert And(1, 2) == 0 && Or(1, 2) == 3 by {
      assert And(0, 1) == 0 && Or(0, 1) == 1;
    }
    forall op: Op
      ensures Eval(op, before, 2, 1, 2) == Some(after) <==> op in {Mulr, Addi, Seti}
    {
      match op
      case Addr => assert Eval(op, before, 2, 1, 2).value[2] == 3;
      case Addi => assert Eval(op, before, 2, 1, 2).value == after;
      case Mulr => assert Eval(op, before, 2, 1, 2).value == after;
      case Muli => assert Eval(op, before, 2, 1, 2).value[2] == 1;
      case Banr => assert Eval(op, before, 2, 1, 2).value[2] == 0;
      case Bani => assert Eval(op, before, 2, 1, 2).value[2] == 1;
      case Borr => assert Eval(op, before, 2, 1, 2).value[2] == 3;
      case Bori => assert Eval(op, before, 2, 1, 2).value[2] == 1;
      case Setr => assert Eval(op, before, 2, 1, 2).value[2] == 1;
      case Seti => assert Eval(op, before, 2, 1, 2).value == after;
      case Gtir => assert Eval(op, before, 2, 1, 2).value[2] == 0;
      case Gtri => assert Eval(op, before, 2, 1, 2).value[2] == 0;
      case Gtrr => assert Eval(op, before, 2, 1, 2).value[2] == 0;
      case Eqir => assert Eval(op, before, 2, 1, 2).value[2] == 1;
      case Eqri => assert Eval(op, before, 2, 1, 2).value[2] == 1;
      case Eqrr => assert Eval(op, before, 2, 1, 2).value[2] == 0;
    }
  }
}

=== FILE: reports.dfy ===
/** Reactor reports of 2024 day 2 (2024/02/src/lib.rs): each line is a row
    of `i8` levels. A row is safe when it steps strictly up or strictly
    down by one to three each time; part two also counts rows made safe by
    dropping one level, which the source does through `SkipBuf`, a view of
    a row with one index hidden. Arithmetic is `i8` with overflow checks:
    an overflowing subtraction or `abs`, like an index out of range or a
    failed parse, is a panic, modelled as `None`. */
module Reports {
  import opened Wrappers
  import opened Text

  const I8Min: int := -128
  const I8Max: int := 127

  type I8 = x: int | I8Min <= x <= I8Max

  /** `a - b` on `i8`; `None` on overflow. */
  function Sub(a: I8, b: I8): (r: Option<I8>)
    ensures r.Some? <==> I8Min <= a as int - b as int <= I8Max
    ensures r.Some? ==> r.value == a as int - b as int
  {
    var d := a as int - b as int;
    if I8Min <= d <= I8Max then Some(d) else None
  }

  function Signum(d: int): (s: int)
    ensures s in {-1, 0, 1} && (s == 0 <==> d == 0) && s * d >= 0
  {
    if d > 0 then 1 else if d < 0 then -1 else 0
  }

  /** The row with entry `k` removed. */
  function Remove(row: seq<I8>, k: nat): (v: seq<I8>)
    requires k < |row|
    ensures |v| == |row| - 1
  {
    row[..k] + row[k + 1..]
  }

  /** `SkipBuf`: `data` seen with index `skip` hidden. */
  datatype SkipBuf = SkipBuf(data: seq<I8>, skip: nat)

  /** `SkipBuf::index`: indices from `skip` on read one entry further;
      `None` is the out-of-range panic of the slice. */
  function SkipIndex(b: SkipBuf, i: nat): Option<I8> {
    var j := if i >= b.skip then i + 1 else i;
    if j < |b.data| then Some(b.data[j]) else None
  }

  /** `SkipBuf::len`; `None` is the `usize` underflow on an empty slice. */
  function SkipLen(b: SkipBuf): Option<nat> {
    if |b.data| == 0 then None else Some(|b.data| - 1)
  }

  /** What `SkipBufIter` yields: `index` for every index below `len`. */
  function SkipItems(b: SkipBuf): Option<seq<I8>> {
    match SkipLen(b)
    case None => None
    case Some(n) =>
      if forall i :: 0 <= i < n ==> SkipIndex(b, i).Some? then
        Some(seq(n, i requires 0 <= i < n => SkipIndex(b, i).value))
      else None
  }

  /** A `SkipBuf` hiding an index of its slice is, for indexing and for
      iteration, the slice with that entry removed. */
  lemma SkipBufIsRemove(b: SkipBuf, i: nat)
    requires b.skip < |b.data|
    ensures SkipIndex(b, i) == if i < |Remove(b.data, b.skip)| then Some(Remove(b.data, b.skip)[i]) else None
    ensures SkipItems(b) == Some(Remove(b.data, b.skip))
  {
    var v := Remove(b.data, b.skip);
    assert forall j :: 0 <= j < |v| ==> SkipIndex(b, j) == Some(v[j]);
    assert seq(|v|, j requires 0 <= j < |v| => SkipIndex(b, j).value) == v;
  }

  /** `is_safe`, for a slice or a `SkipBuf` seen as the sequence `v`: the
      sign of the first step, then every step against it. */
  function IsSafe(v: seq<I8>): (r: Option<bool>)
    ensures |v| < 2 ==> r.None?
  {
    if |v| < 2 then None
    else
      match Sub(v[1], v[0])
      case None => None
      case Some(d) => if d == 0 then Some(false) else Steps(v, 0, Signum(d))
  }

  /** The `all` over the pairs from position `i`: it stops at the first
      failing pair, panicking first if the pair's subtraction or `abs`
      overflows. */
  function Steps(v: seq<I8>, i: nat, sign: int): Option<bool>
    decreases |v| - i
  {
    if i + 1 >= |v| then Some(true)
    else
      match Sub(v[i + 1], v[i])
      case None => None
      case Some(d) =>
        if Signum(d) != sign then Some(false)
        else if d == I8Min then None
        else if Abs(d) > 3 then Some(false)
        else Steps(v, i + 1, sign)
  }

  function Abs(d: int): nat {
    if d < 0 then -d else d
  }

  /** Every step from position `i` goes up by one to three. */
  predicate Rising(v: seq<I8>, i: nat) {
    forall j :: i <= j < |v| - 1 ==> 1 <= v[j + 1] as int - v[j] as int <= 3
  }

  /** Every step from position `i` goes down by one to three. */
  predicate Falling(v: seq<I8>, i: nat) {
    forall j :: i <= j < |v| - 1 ==> 1 <= v[j] as int - v[j + 1] as int <= 3
  }

  /** The puzzle's rule: at least two levels, all increasing or all
      decreasing, each step by one to three. */
  predicate Safe(v: seq<I8>) {
    |v| >= 2 && (Rising(v, 0) || Falling(v, 0))
  }

  /** The check of the pairs from `i` succeeds exactly when they all step
      in the direction `sign` by one to three. */
  lemma {:induction false} StepsTrue(v: seq<I8>, i: nat, sign: int)
    requires sign == 1 || sign == -1
    ensures Steps(v, i, sign) == Some(true) <==> if sign == 1 then Rising(v, i) else Falling(v, i)
    decreases |v| - i
  {
    if i + 1 < |v| {
      StepsTrue(v, i + 1, sign);
    }
  }

  /** `is_safe` answers `true` exactly for the safe rows: whatever it
      panics on is never a safe row. */
  lemma IsSafeIff(v: seq<I8>)
    ensures IsSafe(v) == Some(true) <==> Safe(v)
  {
    if |v| >= 2 {
      StepsTrue(v, 0, 1);
      StepsTrue(v, 0, -1);
    }
  }

  /** Levels that are all non-negative never overflow a step. */
  predicate NonNegative(v: seq<I8>) {
    forall j :: 0 <= j < |v| ==> v[j] >= 0
  }

  lemma {:induction false} StepsTotal(v: seq<I8>, i: nat, sign: int)
    requires NonNegative(v)
    ensures Steps(v, i, sign).Some?
    decreases |v| - i
  {
    if i + 1 < |v| {
      StepsTotal(v, i + 1, sign);
    }
  }

  /** On non-negative levels `is_safe` panics only for a row shorter than
      two, so it decides `Safe`. */
  lemma IsSafeDecides(v: seq<I8>)
    requires |v| >= 2 && NonNegative(v)
    ensures IsSafe(v) == Some(Safe(v))
  {
    var d := v[1] as int - v[0] as int;
    assert v[0] >= 0 && v[1] >= 0;
    assert Sub(v[1], v[0]) == Some(d);
    if d == 0 {
      assert !Rising(v, 0) && !Falling(v, 0);
    } else {
      StepsTotal(v, 0, Signum(d));
    }
    IsSafeIff(v);
    var r := IsSafe(v);
    assert r.Some? && (r.value <==> Safe(v));
  }

  /** `any_safe`: tries each index to hide, from the first, stopping at a
      safe view or at a panic. */
  function AnySafe(row: seq<I8>): Option<bool> {
    AnyFrom(row, 0)
  }

  function AnyFrom(row: seq<I8>, k: nat): Option<bool>
    decreases |row| - k
  {
    if k >= |row| then Some(false)
    else
      match IsSafe(Remove(row, k))
      case None => None
      case Some(true) => Some(true)
      case Some(false) => AnyFrom(row, k + 1)
  }

  /** Some entry from `k` on can be dropped to leave a safe row. */
  predicate Dampened(row: seq<I8>, k: nat) {
    exists j :: k <= j < |row| && Safe(Remove(row, j))
  }

  lemma {:induction false} AnyFromTrue(row: seq<I8>, k: nat)
    ensures AnyFrom(row, k) == Some(true) ==> Dampened(row, k)
    decreases |row| - k
  {
    if k < |row| {
      IsSafeIff(Remove(row, k));
      AnyFromTrue(row, k + 1);
    }
  }

  lemma {:induction false} AnyFromDecides(row: seq<I8>, k: nat)
    requires |row| >= 3 && NonNegative(row)
    ensures AnyFrom(row, k) == Some(Dampened(row, k))
    decreases |row| - k
  {
    if k < |row| {
      var v := Remove(row, k);
      assert NonNegative(v) by {
        forall j | 0 <= j < |v|
          ensures v[j] >= 0
        {
          if j < k { assert v[j] == row[j]; } else { assert v[j] == row[j + 1]; }
        }
      }
      IsSafeDecides(v);
      AnyFromDecides(row, k + 1);
      if Dampened(row, k + 1) {
        var j :| k + 1 <= j < |row| && Safe(Remove(row, j));
        assert k <= j;
      }
      if Dampened(row, k) && !Safe(v) {
        var j :| k <= j < |row| && Safe(Remove(row, j));
        assert j != k;
      }
    }
  }

  /** `any_safe` is `true` only when dropping some entry leaves a safe row,
      and on rows of three or more non-negative levels it is exactly that. */
  lemma AnySafeIff(row: seq<I8>)
    ensures AnySafe(row) == Some(true) ==> Dampened(row, 0)
    ensures |row| >= 3 && NonNegative(row) ==> AnySafe(row) == Some(Dampened(row, 0))
  {
    AnyFromTrue(row, 0);
    if |row| >= 3 && NonNegative(row) {
      AnyFromDecides(row, 0);
    }
  }

  /** A safe row of three or more stays safe without its first level, so
      part two counts every row part one does. */
  lemma SafeDampened(row: seq<I8>)
    requires Safe(row) && |row| >= 3
    ensures Dampened(row, 0)
  {
    var v := Remove(row, 0);
    assert v == row[1..];
    assert Safe(v);
  }

  /** One line: its `i8`s separated by ASCII whitespace; `None` is the
      panic of `unwrap` on a word that is not an `i8`. */
  function ParseRow(ws: seq<string>): (r: Option<seq<I8>>)
    ensures r.Some? ==> |r.value| == |ws|
  {
    if |ws| == 0 then Some([])
    else
      match ParseInt(ws[0], I8Min, I8Max)
      case None => None
      case Some(x) =>
        match ParseRow(ws[1..])
        case None => None
        case Some(rest) => Some([x as I8] + rest)
  }

  function ParseRows(ls: seq<string>): (r: Option<seq<seq<I8>>>)
    ensures r.Some? ==> |r.value| == |ls|
  {
    if |ls| == 0 then Some([])
    else
      match ParseRow(Words(ls[0]))
      case None => None
      case Some(row) =>
        match ParseRows(ls[1..])
        case None => None
        case Some(rest) => Some([row] + rest)
  }

  /** A row written out the way the input has it: its levels in decimal,
      separated by single spaces. */
  function RowText(row: seq<I8>): string {
    Join(RowWords(row), ' ')
  }

  function RowWords(row: seq<I8>): (ws: seq<string>)
    ensures |ws| == |row|
  {
    if |row| == 0 then [] else [IntToString(row[0])] + RowWords(row[1..])
  }

  /** Rows written out one per line. */
  function Render(rows: seq<seq<I8>>): string {
    Unlines(RowTexts(rows))
  }

  function RowTexts(rows: seq<seq<I8>>): (ls: seq<string>)
    ensures |ls| == |rows|
  {
    seq(|rows|, k requires 0 <= k < |rows| => RowText(rows[k]))
  }

  /** A written-out number holds no whitespace. */
  lemma IntToStringWord(i: int)
    ensures |IntToString(i)| > 0 && NoAsciiSpace(IntToString(i))
  {
    var d := NatToString(if i >= 0 then i else -i);
    assert forall j :: 0 <= j < |d| ==> IsDigit(d[j]);
  }

  lemma {:induction false} RowWordsAreWords(row: seq<I8>)
    ensures forall k :: 0 <= k < |row| ==> |RowWords(row)[k]| > 0 && NoAsciiSpace(RowWords(row)[k])
  {
    if |row| > 0 {
      IntToStringWord(row[0]);
      RowWordsAreWords(row[1..]);
    }
  }

  /** Words joined by spaces hold no line break. */
  lemma {:induction false} JoinNoNewline(ws: seq<string>)
    requires forall k :: 0 <= k < |ws| ==> NoAsciiSpace(ws[k])
    ensures forall j :: 0 <= j < |Join(ws, ' ')| ==> Join(ws, ' ')[j] != '\n' && Join(ws, ' ')[j] != '\r'
  {
    if |ws| > 1 {
      JoinNoNewline(ws[1..]);
      var a, b := ws[0] + [' '], Join(ws[1..], ' ');
      assert forall j :: 0 <= j < |a + b| ==> (a + b)[j] == if j < |a| then a[j] else b[j - |a|];
    }
  }

  /** Parsing the words of a written-out row gives the row back. */
  lemma {:induction false} ParseRowWords(row: seq<I8>)
    ensures ParseRow(RowWords(row)) == Some(row)
  {
    if |row| > 0 {
      ParseIntOfString(row[0], I8Min, I8Max);
      assert RowWords(row)[1..] == RowWords(row[1..]);
      assert row == [row[0]] + row[1..];
      ParseRowWords(row[1..]);
    }
  }

  lemma {:induction false} ParseRowTexts(rows: seq<seq<I8>>)
    ensures ParseRows(RowTexts(rows)) == Some(rows)
  {
    if |rows| > 0 {
      var ws := RowWords(rows[0]);
      RowWordsAreWords(rows[0]);
      WordsJoin(ws);
      ParseRowWords(rows[0]);
      assert RowTexts(rows)[1..] == RowTexts(rows[1..]);
      assert rows == [rows[0]] + rows[1..];
      ParseRowTexts(rows[1..]);
    }
  }

  /** Parsing written-out rows gives them back: the parser reads exactly
      the text the rows stand for. */
  lemma ParseRender(rows: seq<seq<I8>>)
    ensures ParseRows(Lines(Render(rows))) == Some(rows)
  {
    var ls := RowTexts(rows);
    forall k | 0 <= k < |ls|
      ensures '\n' !in ls[k] && '\r' !in ls[k]
    {
      RowWordsAreWords(rows[k]);
      JoinNoNewline(RowWords(rows[k]));
    }
    LinesUnlines(ls);
    ParseRowTexts(rows);
  }

  /** How many rows `check` accepts; `None` if it panics on one. */
  function CountIf(rows: seq<seq<I8>>, check: seq<I8> -> Option<bool>): (n: Option<nat>)
    ensures n.Some? ==> n.value <= |rows|
  {
    if |rows| == 0 then Some(0)
    else
      match check(rows[0])
      case None => None
      case Some(b) =>
        match CountIf(rows[1..], check)
        case None => None
        case Some(n) => Some(n + if b then 1 else 0)
  }

  /** `solve`: the number of safe rows and of rows safe after dropping at
      most one level. */
  function Solve(s: string): (r: Option<(nat, nat)>) {
    match ParseRows(Lines(s))
    case None => None
    case Some(rows) =>
      match (CountIf(rows, IsSafe), CountIf(rows, AnySafe))
      case (Some(a), Some(b)) => Some((a, b))
      case _ => None
  }

  /** The number of rows satisfying `p`. */
  function Count(rows: seq<seq<I8>>, p: seq<I8> -> bool): (n: nat)
    ensures n <= |rows|
  {
    if |rows| == 0 then 0 else (if p(rows[0]) then 1 else 0) + Count(rows[1..], p)
  }

  /** A row that dropping one level makes safe. */
  predicate Fixable(row: seq<I8>) {
    Dampened(row, 0)
  }

  /** Rows of three or more non-negative levels, which neither check
      panics on. */
  predicate WellFormed(rows: seq<seq<I8>>) {
    forall k :: 0 <= k < |rows| ==> |rows[k]| >= 3 && NonNegative(rows[k])
  }

  /** On well-formed rows the first count of `solve` is the number of safe
      rows. */
  lemma {:induction false} CountSafe(rows: seq<seq<I8>>)
    requires WellFormed(rows)
    ensures CountIf(rows, IsSafe) == Some(Count(rows, Safe))
  {
    if |rows| > 0 {
      IsSafeDecides(rows[0]);
      CountSafe(rows[1..]);
    }
  }

  /** On well-formed rows the second count of `solve` is the number of
      rows one removal makes safe. */
  lemma {:induction false} CountFixable(rows: seq<seq<I8>>)
    requires WellFormed(rows)
    ensures CountIf(rows, AnySafe) == Some(Count(rows, Fixable))
  {
    if |rows| > 0 {
      AnySafeIff(rows[0]);
      CountFixable(rows[1..]);
    }
  }

  /** Part two counts every row part one counts. */
  lemma {:induction false} SafeCountBelowFixable(rows: seq<seq<I8>>)
    requires WellFormed(rows)
    ensures Count(rows, Safe) <= Count(rows, Fixable)
  {
    if |rows| > 0 {
      if Safe(rows[0]) {
        SafeDampened(rows[0]);
      }
      SafeCountBelowFixable(rows[1..]);
    }
  }

  /** The rows of the day's example. */
  const Row0: seq<I8> := [7, 6, 4, 2, 1]
  const Row1: seq<I8> := [1, 2, 7, 8, 9]
  const Row2: seq<I8> := [9, 7, 6, 2, 1]
  const Row3: seq<I8> := [1, 3, 2, 4, 5]
  const Row4: seq<I8> := [8, 6, 4, 4, 1]
  const Row5: seq<I8> := [1, 3, 6, 7, 9]
  const ExampleRows: seq<seq<I8>> := [Row0, Row1, Row2, Row3, Row4, Row5]

  /** The example input of the day: its rows written out one per line,
      as `ExampleRowTexts` spells out. */
  const ExampleInput: string := Render(ExampleRows)

  /** `solve` on the example input gives 2 and 4. */
  lemma ExampleSolves()
    ensures Solve(ExampleInput) == Some((2, 4))
  {
    ParseRender(ExampleRows);
    ExampleCounts();
  }

  lemma ExampleCounts()
    ensures CountIf(ExampleRows, IsSafe) == Some(2)
    ensures CountIf(ExampleRows, AnySafe) == Some(4)
  {
    ExampleSafeCount();
    ExampleFixableCount();
  }

  lemma ExampleSafeCount()
    ensures CountIf(ExampleRows, IsSafe) == Some(2)
  {
    RowsSafe();
    var rs := ExampleRows;
    assert rs[5..] == [Row5] + [];
    CountIfCons(Row5, [], IsSafe);
    assert rs[4..] == [Row4] + rs[5..];
    CountIfCons(Row4, rs[5..], IsSafe);
    assert rs[3..] == [Row3] + rs[4..];
    CountIfCons(Row3, rs[4..], IsSafe);
    assert rs[2..] == [Row2] + rs[3..];
    CountIfCons(Row2, rs[3..], IsSafe);
    assert rs[1..] == [Row1] + rs[2..];
    CountIfCons(Row1, rs[2..], IsSafe);
    assert rs == [Row0] + rs[1..];
    CountIfCons(Row0, rs[1..], IsSafe);
  }

  lemma ExampleFixableCount()
    ensures CountIf(ExampleRows, AnySafe) == Some(4)
  {
    var rs := ExampleRows;
    RowsDampened();
    RowsUndampened();
    FixableTail();
    assert rs[2..] == [Row2] + rs[3..];
    CountIfCons(Row2, rs[3..], AnySafe);
    assert rs[1..] == [Row1] + rs[2..];
    CountIfCons(Row1, rs[2..], AnySafe);
    assert rs == [Row0] + rs[1..];
    CountIfCons(Row0, rs[1..], AnySafe);
  }

  lemma FixableTail()
    ensures CountIf(ExampleRows[3..], AnySafe) == Some(3)
  {
    var rs := ExampleRows;
    RowsDampened();
    assert rs[5..] == [Row5] + [];
    CountIfCons(Row5, [], AnySafe);
    assert rs[4..] == [Row4] + rs[5..];
    CountIfCons(Row4, rs[5..], AnySafe);
    assert rs[3..] == [Row3] + rs[4..];
    CountIfCons(Row3, rs[4..], AnySafe);
  }

  lemma CountIfCons(row: seq<I8>, rest: seq<seq<I8>>, check: seq<I8> -> Option<bool>)
    requires check(row).Some? && CountIf(rest, check).Some?
    ensures CountIf([row] + rest, check) == Some(CountIf(rest, check).value + if check(row).value then 1 else 0)
  {
    assert ([row] + rest)[1..] == rest;
  }

  /** Rows one and six of the example are safe. */
  lemma RowsSafe()
    ensures IsSafe(Row0) == Some(true) && IsSafe(Row1) == Some(false)
    ensures IsSafe(Row2) == Some(false) && IsSafe(Row3) == Some(false)
    ensures IsSafe(Row4) == Some(false) && IsSafe(Row5) == Some(true)
  {
  }

  /** Rows one and six stay safe without their first level; rows four and
      five become safe without their second and third. */
  lemma RowsDampened()
    ensures AnySafe(Row0) == Some(true) && AnySafe(Row3) == Some(true)
    ensures AnySafe(Row4) == Some(true) && AnySafe(Row5) == Some(true)
  {
    DampenedFirst();
    DampenedMiddle();
  }

  lemma DampenedFirst()
    ensures AnySafe(Row0) == Some(true) && AnySafe(Row5) == Some(true)
  {
    DampenedAt(Row0, 0, [6, 4, 2, 1]);
    DampenedAt(Row5, 0, [3, 6, 7, 9]);
  }

  lemma DampenedMiddle()
    ensures AnySafe(Row3) == Some(true) && AnySafe(Row4) == Some(true)
  {
    DampenedAt(Row3, 1, [1, 2, 4, 5]);
    DampenedAt(Row4, 2, [8, 6, 4, 1]);
  }

  /** No removal makes rows two or three safe. */
  lemma RowsUndampened()
    ensures AnySafe(Row1) == Some(false) && AnySafe(Row2) == Some(false)
  {
    Row1Unsafe();
    Row2Unsafe();
  }

  /** Dropping entry `k` leaves the safe row `v`. */
  lemma DampenedAt(row: seq<I8>, k: nat, v: seq<I8>)
    requires |row| >= 3 && NonNegative(row) && k < |row|
    requires row[..k] + row[k + 1..] == v && IsSafe(v) == Some(true)
    ensures AnySafe(row) == Some(true)
  {
    IsSafeIff(v);
    assert Safe(Remove(row, k));
    AnySafeIff(row);
  }

  /** Dropping entry `k` leaves the unsafe row `v`. */
  lemma AnyFromSkips(row: seq<I8>, k: nat, v: seq<I8>)
    requires k < |row| && row[..k] + row[k + 1..] == v && IsSafe(v) == Some(false)
    ensures AnyFrom(row, k) == AnyFrom(row, k + 1)
  {
  }

  lemma Row1Unsafe()
    ensures AnySafe(Row1) == Some(false)
  {
    AnyFromSkips(Row1, 4, [1, 2, 7, 8]);
    AnyFromSkips(Row1, 3, [1, 2, 7, 9]);
    AnyFromSkips(Row1, 2, [1, 2, 8, 9]);
    AnyFromSkips(Row1, 1, [1, 7, 8, 9]);
    AnyFromSkips(Row1, 0, [2, 7, 8, 9]);
  }

  lemma Row2Unsafe()
    ensures AnySafe(Row2) == Some(false)
  {
    AnyFromSkips(Row2, 4, [9, 7, 6, 2]);
    AnyFromSkips(Row2, 3, [9, 7, 6, 1]);
    AnyFromSkips(Row2, 2, [9, 7, 2, 1]);
    AnyFromSkips(Row2, 1, [9, 6, 2, 1]);
    AnyFromSkips(Row2, 0, [7, 6, 2, 1]);
  }

  /** Each example row written out is its line of the input. */
  lemma ExampleRowTexts()
    ensures RowText(Row0) == Line0 && RowText(Row1) == Line1 && RowText(Row2) == Line2
    ensures RowText(Row3) == Line3 && RowText(Row4) == Line4 && RowText(Row5) == Line5
  {
    RowTextsHead();
    RowTextsTail();
  }

  lemma RowTextsHead()
    ensures RowText(Row0) == Line0 && RowText(Row1) == Line1 && RowText(Row2) == Line2
  {
    DigitsText(7, 6, 4, 2, 1);
    DigitsText(1, 2, 7, 8, 9);
    DigitsText(9, 7, 6, 2, 1);
  }

  lemma RowTextsTail()
    ensures RowText(Row3) == Line3 && RowText(Row4) == Line4 && RowText(Row5) == Line5
  {
    DigitsText(1, 3, 2, 4, 5);
    DigitsText(8, 6, 4, 4, 1);
    DigitsText(1, 3, 6, 7, 9);
  }

  const Line0: string := "7 6 4 2 1"
  const Line1: string := "1 2 7 8 9"
  const Line2: string := "9 7 6 2 1"
  const Line3: string := "1 3 2 4 5"
  const Line4: string := "8 6 4 4 1"
  const Line5: string := "1 3 6 7 9"
  /** A row of five one-digit levels written out. */
  lemma DigitsText(a: I8, b: I8, c: I8, d: I8, e: I8)
    requires 0 <= a < 10 && 0 <= b < 10 && 0 <= c < 10 && 0 <= d < 10 && 0 <= e < 10
    ensures RowText([a, b, c, d, e]) ==
      [DigitChar(a), ' ', DigitChar(b), ' ', DigitChar(c), ' ', DigitChar(d), ' ', DigitChar(e)]
  {
    var row: seq<I8> := [a, b, c, d, e];
    OneDigit(a);
    OneDigit(b);
    OneDigit(c);
    OneDigit(d);
    OneDigit(e);
    assert RowWords(row[4..]) == [[DigitChar(e)]];
    assert RowWords(row[3..]) == [[DigitChar(d)], [DigitChar(e)]];
    assert RowWords(row[2..]) == [[DigitChar(c)], [DigitChar(d)], [DigitChar(e)]];
    assert RowWords(row[1..]) == [[DigitChar(b)], [DigitChar(c)], [DigitChar(d)], [DigitChar(e)]];
    var ws := RowWords(row);
    assert ws == [[DigitChar(a)], [DigitChar(b)], [DigitChar(c)], [DigitChar(d)], [DigitChar(e)]];
    assert Join(ws[3..], ' ') == [DigitChar(d), ' ', DigitChar(e)];
    assert Join(ws[2..], ' ') == [DigitChar(c), ' ', DigitChar(d), ' ', DigitChar(e)];
    assert Join(ws[1..], ' ') == [DigitChar(b), ' ', DigitChar(c), ' ', DigitChar(d), ' ', DigitChar(e)];
  }

  lemma OneDigit(x: I8)
    requires 0 <= x < 10
    ensures IntToString(x) == [DigitChar(x)]
  {
  }
}

=== FILE: rope.dfy ===
/** Rope bridge (2022/09/src/main.rs): the head of a rope of knots moves one
    square at a time, every other knot follows the knot before it, and the
    answer is how many squares the last knot visits. */
module Rope {
  import opened Wrappers
  import opened Text

  /** A knot's square; the program's `i64` pairs, as integers. */
  type Pos = (int, int)

  function Abs(x: int): nat {
    if x < 0 then -x else x
  }

  /** `i64::signum`. */
  function Sign(x: int): int {
    if x > 0 then 1 else if x < 0 then -1 else 0
  }

  /** The king-move distance: the largest coordinate difference. */
  function Cheb(a: Pos, b: Pos): nat {
    var dx := Abs(a.0 - b.0);
    var dy := Abs(a.1 - b.1);
    if dx < dy then dy else dx
  }

  /** `adjust`: a knot more than one square away from the knot ahead in
      either coordinate steps one square towards it in each coordinate that
      differs; otherwise it stays put. */
  function Adjust(h: Pos, t: Pos): (r: Pos) {
    var dx := h.0 - t.0;
    var dy := h.1 - t.1;
    if Abs(dx) > 1 || Abs(dy) > 1 then (t.0 + Sign(dx), t.1 + Sign(dy)) else t
  }

  /** A knot touching the knot ahead stays; one further away moves a single
      king step and ends exactly one step closer. */
  lemma AdjustMeans(h: Pos, t: Pos)
    ensures Cheb(h, t) <= 1 ==> Adjust(h, t) == t
    ensures Cheb(t, Adjust(h, t)) <= 1
    ensures Cheb(h, t) > 1 ==> Cheb(h, Adjust(h, t)) == Cheb(h, t) - 1
  {
  }

  /** In particular a knot two steps behind catches up to touching. */
  lemma AdjustCatchesUp(h: Pos, t: Pos)
    requires Cheb(h, t) <= 2
    ensures Cheb(h, Adjust(h, t)) <= 1
  {
    AdjustMeans(h, t);
  }

  // ------------------------------------------------------------------ rope

  datatype Dir = Up | Down | Left | Right

  /** The unit step of each direction code. */
  function Delta(d: Dir): Pos {
    match d
    case Up => (0, 1)
    case Down => (0, -1)
    case Left => (-1, 0)
    case Right => (1, 0)
  }

  /** Every knot touches the knot ahead of it. */
  predicate Taut(rope: seq<Pos>) {
    forall j :: 1 <= j < |rope| ==> Cheb(rope[j - 1], rope[j]) <= 1
  }

  /** The inner `for i in 1..length` loop from knot `i` on: each knot is
      adjusted towards the knot ahead, which has already moved. */
  function Follow(rope: seq<Pos>, i: nat): (r: seq<Pos>)
    requires 1 <= i <= |rope|
    ensures |r| == |rope| && r[..i] == rope[..i]
    decreases |rope| - i
  {
    if i == |rope| then rope
    else
      var next := rope[i := Adjust(rope[i - 1], rope[i])];
      assert next[..i] == rope[..i];
      Follow(next, i + 1)
  }

  /** One unit step of the head, followed by the rest of the rope. */
  function Step(rope: seq<Pos>, d: Dir): (r: seq<Pos>)
    requires |rope| > 0
    ensures |r| == |rope|
  {
    var h := rope[0];
    Follow(rope[0 := (h.0 + Delta(d).0, h.1 + Delta(d).1)], 1)
  }

  /** Following keeps every knot touching the one ahead and moves each by at
      most one king step, given that the knots before `i` already do. */
  lemma {:induction false} FollowKeepsTaut(cur: seq<Pos>, before: seq<Pos>, i: nat)
    requires 1 <= i <= |cur| == |before| && Taut(before)
    requires forall j :: i <= j < |cur| ==> cur[j] == before[j]
    requires forall j :: 1 <= j < i ==> Cheb(cur[j - 1], cur[j]) <= 1
    requires forall j :: 0 <= j < i ==> Cheb(cur[j], before[j]) <= 1
    ensures Taut(Follow(cur, i))
    ensures forall j :: 0 <= j < |cur| ==> Cheb(Follow(cur, i)[j], before[j]) <= 1
    decreases |cur| - i
  {
    if i < |cur| {
      var t := Adjust(cur[i - 1], cur[i]);
      assert Cheb(cur[i - 1], cur[i]) <= 2 by {
        assert Cheb(before[i - 1], before[i]) <= 1;
      }
      AdjustCatchesUp(cur[i - 1], cur[i]);
      AdjustMeans(cur[i - 1], cur[i]);
      FollowKeepsTaut(cur[i := t], before, i + 1);
    }
  }

  /** A unit step keeps the rope taut and moves no knot more than one king
      step. */
  lemma StepKeepsTaut(rope: seq<Pos>, d: Dir)
    requires |rope| > 0 && Taut(rope)
    ensures Taut(Step(rope, d))
    ensures forall j :: 0 <= j < |rope| ==> Cheb(Step(rope, d)[j], rope[j]) <= 1
  {
    var h := rope[0];
    FollowKeepsTaut(rope[0 := (h.0 + Delta(d).0, h.1 + Delta(d).1)], rope, 1);
  }

  // ------------------------------------------------------------------- run

  datatype Command = Command(dir: Dir, count: nat)

  function Repeat(d: Dir, n: nat): (ds: seq<Dir>)
    ensures |ds| == n && forall k :: 0 <= k < n ==> ds[k] == d
  {
    if n == 0 then [] else Repeat(d, n - 1) + [d]
  }

  /** The unit steps of the commands, in order. */
  function Expand(cs: seq<Command>): seq<Dir> {
    if |cs| == 0 then []
    else Expand(cs[..|cs| - 1]) + Repeat(cs[|cs| - 1].dir, cs[|cs| - 1].count)
  }

  /** The rope and the set of squares the last knot has visited after a run
      of unit steps, starting with every knot at the origin. */
  function Walk(length: nat, moves: seq<Dir>): (w: (seq<Pos>, set<Pos>))
    requires length > 0
    ensures |w.0| == length && w.0[length - 1] in w.1
  {
    if |moves| == 0 then (seq(length, _ => (0, 0)), {(0, 0)})
    else
      var (rope, seen) := Walk(length, moves[..|moves| - 1]);
      var next := Step(rope, moves[|moves| - 1]);
      (next, seen + {next[length - 1]})
  }

  /** The walk keeps the rope taut, and the last knot reaches at most one
      new square per unit step. */
  lemma {:induction false} WalkTaut(length: nat, moves: seq<Dir>)
    requires length > 0
    ensures Taut(Walk(length, moves).0)
    ensures |Walk(length, moves).1| <= |moves| + 1
  {
    if |moves| > 0 {
      var (rope, seen) := Walk(length, moves[..|moves| - 1]);
      WalkTaut(length, moves[..|moves| - 1]);
      StepKeepsTaut(rope, moves[|moves| - 1]);
      var next := Step(rope, moves[|moves| - 1]);
      assert |seen + {next[length - 1]}| <= |seen| + 1;
    }
  }

  /** One more unit step of the current command extends the walk by one
      step. */
  lemma WalkSnoc(length: nat, done: seq<Dir>, d: Dir, k: nat)
    requires length > 0
    ensures var (rope, seen) := Walk(length, done + Repeat(d, k));
      var next := Step(rope, d);
      Walk(length, done + Repeat(d, k + 1)) == (next, seen + {next[length - 1]})
  {
    var moves := done + Repeat(d, k + 1);
    assert moves[..|moves| - 1] == done + Repeat(d, k);
  }

  lemma ExpandSnoc(cs: seq<Command>, c: nat)
    requires c < |cs|
    ensures Expand(cs[..c + 1]) == Expand(cs[..c]) + Repeat(cs[c].dir, cs[c].count)
  {
    assert cs[..c + 1][..c] == cs[..c];
  }

  /** `run`: walk the rope through every command and count the squares the
      last knot visits; `None` is the panic of `rope.last().unwrap()` on an
      empty rope. */
  method Run(commands: seq<Command>, length: nat) returns (r: Option<nat>)
    ensures length == 0 <==> r.None?
    ensures length > 0 ==> r == Some(|Walk(length, Expand(commands)).1|)
  {
    if length == 0 {
      return None;
    }
    var rope: seq<Pos> := seq(length, _ => (0, 0));
    var seen: set<Pos> := {rope[length - 1]};
    var c := 0;
    while c < |commands|
      invariant c <= |commands|
      invariant (rope, seen) == Walk(length, Expand(commands[..c]))
    {
      var cmd := commands[c];
      var k := 0;
      assert Expand(commands[..c]) + Repeat(cmd.dir, 0) == Expand(commands[..c]);
      while k < cmd.count
        invariant k <= cmd.count
        invariant (rope, seen) == Walk(length, Expand(commands[..c]) + Repeat(cmd.dir, k))
      {
        WalkSnoc(length, Expand(commands[..c]), cmd.dir, k);
        rope := Step(rope, cmd.dir);
        seen := seen + {rope[length - 1]};
        k := k + 1;
      }
      ExpandSnoc(commands, c);
      c := c + 1;
    }
    assert commands[..c] == commands;
    r := Some(|seen|);
  }

  // --------------------------------------------------------------- parsing

  datatype CommandError =
    | NoDirection
    | InvalidDirection(code: string)
    | NoCount
    | BadCount(text: string)
    | ExtraData(extra: string)

  function ParseDir(code: string): Option<Dir> {
    if code == "U" then Some(Up)
    else if code == "D" then Some(Down)
    else if code == "L" then Some(Left)
    else if code == "R" then Some(Right)
    else None
  }

  function DirCode(d: Dir): string {
    match d
    case Up => "U"
    case Down => "D"
    case Left => "L"
    case Right => "R"
  }

  /** The closure in `main`: a direction code, a `usize` count, and nothing
      more, split on single spaces. `str::split` always yields a first
      piece, so the "no direction" error is never raised. */
  function ParseCommand(line: string): (r: Result<Command, CommandError>)
    ensures r != Err(NoDirection)
    ensures r.Ok? <==> (|Split(line, ' ')| == 2 && ParseDir(Split(line, ' ')[0]).Some?
                        && ParseNat(Split(line, ' ')[1], U64Max).Some?)
  {
    var parts := Split(line, ' ');
    match ParseDir(parts[0])
    case None => Err(InvalidDirection(parts[0]))
    case Some(d) =>
      if |parts| < 2 then Err(NoCount)
      else
        match ParseNat(parts[1], U64Max)
        case None => Err(BadCount(parts[1]))
        case Some(n) =>
          if |parts| > 2 then Err(ExtraData(parts[2])) else Ok(Command(d, n))
  }

  /** A command written as the puzzle writes it. */
  function Render(c: Command): string {
    DirCode(c.dir) + " " + NatToString(c.count)
  }

  /** Every command whose count fits a `usize` reads back. */
  lemma ParseRender(c: Command)
    requires c.count <= U64Max
    ensures ParseCommand(Render(c)) == Ok(c)
  {
    var n := NatToString(c.count);
    assert ' ' !in n by {
      assert forall k :: 0 <= k < |n| ==> IsDigit(n[k]);
    }
    SplitJoin([DirCode(c.dir), n], ' ');
    assert Join([DirCode(c.dir), n], ' ') == Render(c);
  }
}

=== FILE: rps.dfy ===
/** The rock-paper-scissors strategy guide (2022/02/src/main.rs): every
    line names the opponent's move and either your move (part one) or the
    outcome you must reach (part two); a round scores your shape plus the
    outcome. */
module Rps {
  import opened Wrappers
  import opened Text

  datatype Move = Rock | Paper | Scissors

  datatype Goal = Win | Lose | Draw

  /** `Move::from_str`: `A`/`X` rock, `B`/`Y` paper, `C`/`Z` scissors,
      anything else an error. */
  function ParseMove(s: string): (r: Option<Move>)
    ensures r.Some? <==> s in {"A", "B", "C", "X", "Y", "Z"}
    ensures r.Some? ==> s == [OpponentLetter(r.value)] || s == [YourLetter(r.value)]
  {
    if s == "A" || s == "X" then Some(Rock)
    else if s == "B" || s == "Y" then Some(Paper)
    else if s == "C" || s == "Z" then Some(Scissors)
    else None
  }

  /** `Goal::from_str`: `X` lose, `Y` draw, `Z` win, anything else an
      error. */
  function ParseGoal(s: string): (r: Option<Goal>)
    ensures r.Some? <==> s in {"X", "Y", "Z"}
    ensures r.Some? ==> s == [GoalLetter(r.value)]
  {
    if s == "X" then Some(Lose)
    else if s == "Y" then Some(Draw)
    else if s == "Z" then Some(Win)
    else None
  }

  /** The letters the guide uses for each move and goal. */
  function OpponentLetter(m: Move): char {
    match m
    case Rock => 'A'
    case Paper => 'B'
    case Scissors => 'C'
  }

  function YourLetter(m: Move): char {
    match m
    case Rock => 'X'
    case Paper => 'Y'
    case Scissors => 'Z'
  }

  function GoalLetter(g: Goal): char {
    match g
    case Lose => 'X'
    case Draw => 'Y'
    case Win => 'Z'
  }

  /** Both parsers read back the letters of the guide. */
  lemma ParseLetters(m: Move, g: Goal)
    ensures ParseMove([OpponentLetter(m)]) == Some(m)
    ensures ParseMove([YourLetter(m)]) == Some(m)
    ensures ParseGoal([GoalLetter(g)]) == Some(g)
  {
  }

  /** The position of a move on the cycle rock, paper, scissors, in which
      every move beats the one before it. */
  function Ord(m: Move): nat {
    match m
    case Rock => 0
    case Paper => 1
    case Scissors => 2
  }

  predicate Beats(a: Move, b: Move) {
    Ord(a) == (Ord(b) + 1) % 3
  }

  /** `Move::score`: the points for the shape you chose. */
  function Score(m: Move): (s: nat)
    ensures 1 <= s <= 3
  {
    match m
    case Rock => 1
    case Paper => 2
    case Scissors => 3
  }

  /** Different shapes score differently. */
  lemma ScoreInjective(a: Move, b: Move)
    ensures Score(a) == Score(b) <==> a == b
  {
  }

  /** `Move::play`: the points for the outcome of `you` against
      `opponent`. */
  function Play(you: Move, opponent: Move): (p: nat)
    ensures p == 6 <==> Beats(you, opponent)
    ensures p == 0 <==> Beats(opponent, you)
    ensures p == 3 <==> you == opponent
    ensures p in {0, 3, 6}
  {
    match (you, opponent)
    case (Rock, Scissors) => 6
    case (Scissors, Paper) => 6
    case (Paper, Rock) => 6
    case (Scissors, Rock) => 0
    case (Paper, Scissors) => 0
    case (Rock, Paper) => 0
    case _ => 3
  }

  /** The points each goal asks for. */
  function Points(g: Goal): nat {
    match g
    case Win => 6
    case Draw => 3
    case Lose => 0
  }

  /** `Goal::play`: the move that reaches the goal against `opponent`. */
  function GoalPlay(g: Goal, opponent: Move): (m: Move)
    ensures Play(m, opponent) == Points(g)
  {
    match (g, opponent)
    case (Win, Rock) => Paper
    case (Draw, Paper) => Paper
    case (Lose, Scissors) => Paper
    case (Win, Paper) => Scissors
    case (Draw, Scissors) => Scissors
    case (Lose, Rock) => Scissors
    case _ => Rock
  }

  /** The move `Goal::play` chooses is the only one that reaches the goal. */
  lemma GoalPlayUnique(g: Goal, opponent: Move, m: Move)
    ensures Play(m, opponent) == Points(g) <==> m == GoalPlay(g, opponent)
  {
  }

  /** One round: your shape plus the outcome. */
  function RoundScore(play: (Move, Move)): (s: nat)
    ensures 1 <= s <= 9
    ensures s % 3 == Score(play.1) % 3
  {
    Score(play.1) + Play(play.1, play.0)
  }

  /** `score`: the total over the rounds, each given as (opponent, you). */
  function Total(plays: seq<(Move, Move)>): (t: nat)
    ensures |plays| <= t <= 9 * |plays|
  {
    if |plays| == 0 then 0 else RoundScore(plays[0]) + Total(plays[1..])
  }

  /** The total of a guide is the totals of its parts added. */
  lemma {:induction false} TotalAppend(a: seq<(Move, Move)>, b: seq<(Move, Move)>)
    ensures Total(a + b) == Total(a) + Total(b)
  {
    if |a| == 0 {
      assert a + b == b;
    } else {
      assert (a + b)[1..] == a[1..] + b;
      TotalAppend(a[1..], b);
    }
  }

  // --------------------------------------------------------------- parsing

  /** Parse every token as a move, failing on the first bad one. */
  function ParseMoves(tokens: seq<string>): (r: Option<seq<Move>>)
    ensures r.Some? <==> forall k :: 0 <= k < |tokens| ==> ParseMove(tokens[k]).Some?
    ensures r.Some? ==> |r.value| == |tokens|
    ensures r.Some? ==> forall k :: 0 <= k < |tokens| ==> ParseMove(tokens[k]) == Some(r.value[k])
  {
    if |tokens| == 0 then Some([])
    else
      match (ParseMove(tokens[0]), ParseMoves(tokens[1..]))
      case (Some(m), Some(rest)) => Some([m] + rest)
      case _ => None
  }

  /** A part-one line: exactly two moves separated by one space. */
  function ParseRound(line: string): (r: Option<(Move, Move)>)
    ensures r.Some? <==> (|Split(line, ' ')| == 2 &&
      ParseMove(Split(line, ' ')[0]).Some? && ParseMove(Split(line, ' ')[1]).Some?)
  {
    match ParseMoves(Split(line, ' '))
    case None => None
    case Some(out) => if |out| != 2 then None else Some((out[0], out[1]))
  }

  /** A part-two line: the opponent's move and a goal, and nothing after;
      the round is played with the move that reaches the goal. */
  function ParseStrategy(line: string): (r: Option<(Move, Move)>)
    ensures r.Some? <==> (|Split(line, ' ')| == 2 &&
      ParseMove(Split(line, ' ')[0]).Some? && ParseGoal(Split(line, ' ')[1]).Some?)
  {
    var out := Split(line, ' ');
    match ParseMove(out[0])
    case None => None
    case Some(opponent) =>
      if |out| < 2 then None
      else
        match ParseGoal(out[1])
        case None => None
        case Some(goal) =>
          if |out| > 2 then None else Some((opponent, GoalPlay(goal, opponent)))
  }

  /** A part-two round reaches the outcome its line asks for. */
  lemma StrategyMeetsGoal(line: string)
    requires ParseStrategy(line).Some?
    ensures var (opponent, you) := ParseStrategy(line).value;
      Play(you, opponent) == Points(ParseGoal(Split(line, ' ')[1]).value)
  {
  }

  /** Parse every line, failing on the first bad one. */
  function ParseAll(lines: seq<string>, parse: string -> Option<(Move, Move)>): (r: Option<seq<(Move, Move)>>)
    ensures r.Some? <==> forall k :: 0 <= k < |lines| ==> parse(lines[k]).Some?
    ensures r.Some? ==> (|r.value| == |lines| &&
      forall k :: 0 <= k < |lines| ==> parse(lines[k]) == Some(r.value[k]))
  {
    if |lines| == 0 then Some([])
    else
      match (parse(lines[0]), ParseAll(lines[1..], parse))
      case (Some(p), Some(rest)) => Some([p] + rest)
      case _ => None
  }

  /** The two totals `main` prints for a guide given as its lines. */
  function Part1(lines: seq<string>): Option<nat> {
    match ParseAll(lines, ParseRound)
    case None => None
    case Some(plays) => Some(Total(plays))
  }

  function Part2(lines: seq<string>): Option<nat> {
    match ParseAll(lines, ParseStrategy)
    case None => None
    case Some(plays) => Some(Total(plays))
  }

  // ------------------------------------------------------------- rendering

  /** A guide line in each reading. */
  function RoundLine(play: (Move, Move)): string {
    [OpponentLetter(play.0), ' ', YourLetter(play.1)]
  }

  function StrategyLine(opponent: Move, g: Goal): string {
    [OpponentLetter(opponent), ' ', GoalLetter(g)]
  }

  lemma SplitPair(a: char, b: char)
    requires a != ' ' && b != ' '
    ensures Split([a, ' ', b], ' ') == [[a], [b]]
  {
    SplitJoin([[a], [b]], ' ');
    assert Join([[a], [b]], ' ') == [a, ' ', b];
  }

  /** Both readings parse a written line back. */
  lemma ParseLines(play: (Move, Move), g: Goal)
    ensures ParseRound(RoundLine(play)) == Some(play)
    ensures ParseStrategy(StrategyLine(play.0, g)) == Some((play.0, GoalPlay(g, play.0)))
  {
    SplitPair(OpponentLetter(play.0), YourLetter(play.1));
    SplitPair(OpponentLetter(play.0), GoalLetter(g));
    ParseLetters(play.0, g);
    ParseLetters(play.1, g);
  }

  /** The lines of a part-one guide. */
  function RoundLines(plays: seq<(Move, Move)>): (ls: seq<string>)
    ensures |ls| == |plays|
  {
    seq(|plays|, k requires 0 <= k < |plays| => RoundLine(plays[k]))
  }

  /** Part one on a written-out guide is the total of its rounds. */
  lemma Part1OfGuide(plays: seq<(Move, Move)>)
    ensures Part1(RoundLines(plays)) == Some(Total(plays))
  {
    var ls := RoundLines(plays);
    forall k | 0 <= k < |ls|
      ensures ParseRound(ls[k]) == Some(plays[k])
    {
      ParseLines(plays[k], Win);
    }
    var r := ParseAll(ls, ParseRound);
    assert r.Some?;
    assert r.value == plays;
  }

  /** Part two on a written-out guide is the total of the rounds that reach
      each goal. */
  lemma Part2OfGuide(opponents: seq<Move>, goals: seq<Goal>)
    requires |opponents| == |goals|
    ensures var ls := seq(|goals|, k requires 0 <= k < |goals| => StrategyLine(opponents[k], goals[k]));
      var plays := seq(|goals|, k requires 0 <= k < |goals| => (opponents[k], GoalPlay(goals[k], opponents[k])));
      Part2(ls) == Some(Total(plays))
  {
    var ls := seq(|goals|, k requires 0 <= k < |goals| => StrategyLine(opponents[k], goals[k]));
    var plays := seq(|goals|, k requires 0 <= k < |goals| => (opponents[k], GoalPlay(goals[k], opponents[k])));
    forall k | 0 <= k < |ls|
      ensures ParseStrategy(ls[k]) == Some(plays[k])
    {
      ParseLines((opponents[k], Rock), goals[k]);
    }
    var r := ParseAll(ls, ParseStrategy);
    assert r.Some?;
    assert r.value == plays;
  }
}

=== FILE: scramble.dfy ===
/** The password scrambler of 2016 day 21 (2016/21/src/main.rs): a word of
    letters and seven rearranging operations. Every operation that does not
    panic is a permutation of the word. */
module Scramble {
  import opened Wrappers
  import opened Text

  datatype Action =
    | SwapPosition(ia: nat, ib: nat)
    | SwapLetter(ca: char, cb: char)
    | RotateLeft(n: nat)
    | RotateRight(n: nat)
    | RotateLetter(c: char)
    | Reverse(ia: nat, ib: nat)
    | Move(ia: nat, ib: nat)

  /** `Word::find`: the first position of `c`; `None` is the `unwrap`
      panic when the letter is absent. */
  function Find(w: seq<char>, c: char): (r: Option<nat>)
    ensures r.None? <==> c !in w
    ensures r.Some? ==> r.value < |w| && w[r.value] == c
    ensures r.Some? ==> forall j :: 0 <= j < r.value ==> w[j] != c
  {
    if |w| == 0 then None
    else if w[0] == c then Some(0)
    else
      match Find(w[1..], c)
      case None => None
      case Some(i) => Some(i + 1)
  }

  /** Exchange the letters at two positions. */
  function Swap(w: seq<char>, ia: nat, ib: nat): (r: seq<char>)
    requires ia < |w| && ib < |w|
    ensures |r| == |w| && r[ia] == w[ib] && r[ib] == w[ia]
    ensures forall j :: 0 <= j < |w| && j != ia && j != ib ==> r[j] == w[j]
    ensures multiset(r) == multiset(w)
  {
    w[ia := w[ib]][ib := w[ia]]
  }

  /** `rotate_left(n)`: the letter at `(j + n) mod len` moves to `j`. */
  function RotLeft(w: seq<char>, n: nat): (r: seq<char>)
    requires n <= |w|
    ensures |r| == |w| && multiset(r) == multiset(w)
    ensures forall j :: 0 <= j < |w| ==> r[j] == if j + n < |w| then w[j + n] else w[j + n - |w|]
  {
    assert w == w[..n] + w[n..];
    w[n..] + w[..n]
  }

  /** `rotate_right(n)`: the letter at `j` moves to `(j + n) mod len`. */
  function RotRight(w: seq<char>, n: nat): (r: seq<char>)
    requires n <= |w|
    ensures |r| == |w| && multiset(r) == multiset(w)
    ensures forall j :: 0 <= j < |w| ==> r[j] == if j >= n then w[j - n] else w[j + |w| - n]
  {
    var m := |w| - n;
    assert w == w[..m] + w[m..];
    w[m..] + w[..m]
  }

  /** Rotating right undoes rotating left by the same amount. */
  lemma RotateInverse(w: seq<char>, n: nat)
    requires n <= |w|
    ensures RotRight(RotLeft(w, n), n) == w
  {
    var l := RotLeft(w, n);
    var r := RotRight(l, n);
    forall j | 0 <= j < |w|
      ensures r[j] == w[j]
    {
      if j >= n {
        assert r[j] == l[j - n];
      } else {
        assert r[j] == l[j + |w| - n];
      }
    }
  }

  /** `r` is `w` with the slice `ia..=ib` reversed and the rest kept. */
  predicate ReversedSlice(w: seq<char>, r: seq<char>, ia: nat, ib: nat)
    requires ia <= ib < |w|
  {
    && |r| == |w|
    && (forall j :: 0 <= j < |w| && (j < ia || j > ib) ==> r[j] == w[j])
    && (forall j :: ia <= j <= ib ==> r[j] == w[ia + ib - j])
  }

  function RevSlice(w: seq<char>, ia: nat, ib: nat): (r: seq<char>)
    requires ia <= ib < |w|
    ensures ReversedSlice(w, r, ia, ib)
    ensures multiset(r) == multiset(w)
  {
    var mid := Rev(w[ia..ib + 1]);
    assert w == w[..ia] + w[ia..ib + 1] + w[ib + 1..];
    var r := w[..ia] + mid + w[ib + 1..];
    assert forall j :: ia <= j <= ib ==> r[j] == mid[j - ia];
    r
  }

  /** The reversal of a slice is determined by the slice. */
  lemma ReversedUnique(w: seq<char>, r1: seq<char>, r2: seq<char>, ia: nat, ib: nat)
    requires ia <= ib < |w|
    requires ReversedSlice(w, r1, ia, ib) && ReversedSlice(w, r2, ia, ib)
    ensures r1 == r2
  {
    forall j | 0 <= j < |w|
      ensures r1[j] == r2[j]
    {
      if ia <= j <= ib {
        assert r1[j] == w[ia + ib - j];
      } else {
        assert r1[j] == w[j];
      }
    }
  }

  lemma ReversedTwice(w: seq<char>, once: seq<char>, r: seq<char>, ia: nat, ib: nat)
    requires ia <= ib < |w|
    requires ReversedSlice(w, once, ia, ib) && ReversedSlice(once, r, ia, ib)
    ensures r == w
  {
    forall j | 0 <= j < |w|
      ensures r[j] == w[j]
    {
      if ia <= j <= ib {
        var m := ia + ib - j;
        assert r[j] == once[m];
        assert once[m] == w[ia + ib - m];
      } else {
        assert r[j] == once[j];
      }
    }
  }

  function Rev(s: seq<char>): (r: seq<char>)
    ensures |r| == |s| && multiset(r) == multiset(s)
    ensures forall t :: 0 <= t < |s| ==> r[t] == s[|s| - 1 - t]
  {
    if |s| == 0 then []
    else
      assert s == s[..|s| - 1] + [s[|s| - 1]];
      [s[|s| - 1]] + Rev(s[..|s| - 1])
  }

  /** The loop of `Reverse`: swap `ia + i` with `ib - i` for
      `i < (ib - ia + 1) / 2`. It reverses the slice. */
  method ReverseLoop(w: seq<char>, ia: nat, ib: nat) returns (r: seq<char>)
    requires ia <= ib < |w|
    ensures r == RevSlice(w, ia, ib)
  {
    r := w;
    var half := (ib - ia + 1) / 2;
    assert 2 * half == ib - ia + 1 || 2 * half == ib - ia;
    for i := 0 to half
      invariant |r| == |w|
      invariant forall j :: 0 <= j < |w| && (j < ia || j > ib) ==> r[j] == w[j]
      invariant forall j :: ia + i <= j <= ib - i ==> r[j] == w[j]
      invariant forall j :: ia <= j < ia + i ==> r[j] == w[ia + ib - j]
      invariant forall j :: ib - i < j <= ib ==> r[j] == w[ia + ib - j]
    {
      r := Swap(r, ia + i, ib - i);
    }
    assert ReversedSlice(w, r, ia, ib);
    ReversedUnique(w, r, RevSlice(w, ia, ib), ia, ib);
  }

  /** `Vec::remove(ia)` then `Vec::insert(ib, c)`. */
  function MoveLetter(w: seq<char>, ia: nat, ib: nat): (r: seq<char>)
    requires ia < |w| && ib < |w|
    ensures |r| == |w| && r[ib] == w[ia]
    ensures r[..ib] + r[ib + 1..] == w[..ia] + w[ia + 1..]
    ensures multiset(r) == multiset(w)
  {
    var v := w[..ia] + w[ia + 1..];
    assert w == w[..ia] + [w[ia]] + w[ia + 1..];
    assert multiset(w) == multiset(v) + multiset{w[ia]};
    assert v == v[..ib] + v[ib..];
    var r := v[..ib] + [w[ia]] + v[ib..];
    assert multiset(r) == multiset(v[..ib]) + multiset{w[ia]} + multiset(v[ib..]);
    assert r[..ib] == v[..ib] && r[ib + 1..] == v[ib..];
    r
  }

  /** Moving the letter back where it came from restores the word, which
      makes `Move` its own inverse with the positions swapped. */
  lemma MoveLetterBack(w: seq<char>, ia: nat, ib: nat)
    requires ia < |w| && ib < |w|
    ensures MoveLetter(MoveLetter(w, ia, ib), ib, ia) == w
  {
    var q := MoveLetter(MoveLetter(w, ia, ib), ib, ia);
    SameApartFromOne(q, w, ia);
  }

  /** Two words of one length that agree at `i` and agree once `i` is
      removed are the same word. */
  lemma SameApartFromOne(x: seq<char>, y: seq<char>, i: nat)
    requires |x| == |y| && i < |x| && x[i] == y[i]
    requires x[..i] + x[i + 1..] == y[..i] + y[i + 1..]
    ensures x == y
  {
    assert x[..i] == (x[..i] + x[i + 1..])[..i];
    assert y[..i] == (y[..i] + y[i + 1..])[..i];
    assert x[i + 1..] == (x[..i] + x[i + 1..])[i..];
    assert y[i + 1..] == (y[..i] + y[i + 1..])[i..];
    assert x == x[..i] + [x[i]] + x[i + 1..];
    assert y == y[..i] + [y[i]] + y[i + 1..];
  }

  /** The rotation of `RotateLetter`: one more than the letter's position,
      and one more again from position 4 on, modulo the length. */
  function LetterRotation(i: nat, len: nat): (rot: nat)
    requires i < len
    ensures rot < len
  {
    (1 + i + (if i >= 4 then 1 else 0)) % len
  }

  /** `Word::apply`; `None` is a panic: an index past the end, a letter
      that is not in the word, a rotation longer than the word, `ib < ia`
      in `Reverse` (the `usize` subtraction), or an insertion past the end
      in `Move`. */
  function Apply(w: seq<char>, a: Action): (r: Option<seq<char>>)
    ensures r.Some? ==> |r.value| == |w| && multiset(r.value) == multiset(w)
  {
    match a
    case SwapPosition(ia, ib) =>
      if ia < |w| && ib < |w| then Some(Swap(w, ia, ib)) else None
    case SwapLetter(ca, cb) =>
      (match (Find(w, ca), Find(w, cb))
       case (Some(ia), Some(ib)) => Some(w[ia := cb][ib := ca])
       case _ => None)
    case RotateLeft(n) =>
      if n <= |w| then Some(RotLeft(w, n)) else None
    case RotateRight(n) =>
      if n <= |w| then Some(RotRight(w, n)) else None
    case RotateLetter(c) =>
      (match Find(w, c)
       case None => None
       case Some(i) => Some(RotRight(w, LetterRotation(i, |w|))))
    case Reverse(ia, ib) =>
      if ib < ia then None
      else if ib == ia then Some(w)
      else if ib >= |w| then None
      else Some(RevSlice(w, ia, ib))
    case Move(ia, ib) =>
      if ia < |w| && ib < |w| then Some(MoveLetter(w, ia, ib)) else None
  }

  /** Swapping two letters is swapping their first positions. */
  lemma SwapLetterSwaps(w: seq<char>, ca: char, cb: char)
    requires ca in w && cb in w
    ensures Apply(w, SwapLetter(ca, cb)) == Some(Swap(w, Find(w, ca).value, Find(w, cb).value))
  {
  }

  /** Swapping the same two positions twice, or reversing the same slice
      twice, gives the word back. */
  lemma SwapInvolution(w: seq<char>, ia: nat, ib: nat)
    requires ia < |w| && ib < |w|
    ensures Swap(Swap(w, ia, ib), ia, ib) == w
  {
  }

  lemma ReverseInvolution(w: seq<char>, ia: nat, ib: nat)
    requires ia <= ib < |w|
    ensures RevSlice(RevSlice(w, ia, ib), ia, ib) == w
  {
    var once := RevSlice(w, ia, ib);
    ReversedTwice(w, once, RevSlice(once, ia, ib), ia, ib);
  }

  /** `RotateLetter(c)` lands `c` (its first occurrence) `rot` places to the
      right, wrapping around once at most. */
  lemma RotateLetterLands(w: seq<char>, c: char)
    requires c in w
    ensures var i := Find(w, c).value;
      var rot := LetterRotation(i, |w|);
      var r := Apply(w, RotateLetter(c)).value;
      if i + rot < |w| then r[i + rot] == c else r[i + rot - |w|] == c
  {
    var i := Find(w, c).value;
    var rot := LetterRotation(i, |w|);
    assert Apply(w, RotateLetter(c)) == Some(RotRight(w, rot));
    var r := RotRight(w, rot);
    if i + rot < |w| {
      assert r[i + rot] == w[i];
    } else {
      assert r[i + rot - |w|] == w[i + rot - |w| + |w| - rot];
    }
  }

  /** `main`'s loop: apply every action in turn. */
  function ApplyAll(w: seq<char>, acts: seq<Action>): (r: Option<seq<char>>)
    ensures r.Some? ==> |r.value| == |w| && multiset(r.value) == multiset(w)
    decreases |acts|
  {
    if |acts| == 0 then Some(w)
    else
      match Apply(w, acts[0])
      case None => None
      case Some(v) => ApplyAll(v, acts[1..])
  }

  /** `Action::from_str`'s two outcomes besides success: `Err(())` for an
      unknown verb, and a panic for a missing word, a bad number or an empty
      letter word. */
  datatype ParseError = Unknown | Malformed

  function Word(words: seq<string>, k: nat): Result<string, ParseError> {
    if k < |words| then Ok(words[k]) else Err(Malformed)
  }

  /** `usize::from_str(..).unwrap()` on a word. */
  function Number(words: seq<string>, k: nat): (r: Result<nat, ParseError>)
    ensures r.Ok? ==> k < |words| && ParseNat(words[k], U64Max) == Some(r.value)
  {
    if k < |words| then
      match ParseNat(words[k], U64Max)
      case None => Err(Malformed)
      case Some(v) => Ok(v)
    else Err(Malformed)
  }

  /** `chars().next().unwrap()` on a word. */
  function Letter(words: seq<string>, k: nat): (r: Result<char, ParseError>)
    ensures r.Ok? ==> k < |words| && |words[k]| > 0 && r.value == words[k][0]
  {
    if k < |words| && |words[k]| > 0 then Ok(words[k][0]) else Err(Malformed)
  }


  const Verbs: set<string> := {"swap", "rotate", "reverse", "move"}

  /** `Action::from_str` on the words of a line split at single spaces. */
  function ParseWords(words: seq<string>): (r: Result<Action, ParseError>)
    requires |words| >= 1
    ensures words[0] !in Verbs ==> r == Err(Unknown)
  {
    if words[0] == "swap" then ParseSwap(words)
    else if words[0] == "rotate" then ParseRotate(words)
    else if words[0] == "reverse" then
      var a :- Number(words, 2);
      var b :- Number(words, 4);
      Ok(Reverse(a, b))
    else if words[0] == "move" then
      var a :- Number(words, 2);
      var b :- Number(words, 5);
      Ok(Move(a, b))
    else Err(Unknown)
  }

  /** The `"swap"` arm: `Err` when the second word is neither `position`
      nor `letter`. */
  function ParseSwap(words: seq<string>): (r: Result<Action, ParseError>)
    ensures r.Ok? ==> r.value.SwapPosition? || r.value.SwapLetter?
  {
    var w1 :- Word(words, 1);
    if w1 == "position" then
      var a :- Number(words, 2);
      var b :- Number(words, 5);
      Ok(SwapPosition(a, b))
    else if w1 == "letter" then
      var a :- Letter(words, 2);
      var b :- Letter(words, 5);
      Ok(SwapLetter(a, b))
    else Err(Unknown)
  }

  /** The `"rotate"` arm: `Err` when the second word is not `left`,
      `right` or `based`. */
  function ParseRotate(words: seq<string>): (r: Result<Action, ParseError>)
    ensures r.Ok? ==> r.value.RotateLeft? || r.value.RotateRight? || r.value.RotateLetter?
  {
    var w1 :- Word(words, 1);
    if w1 == "left" then
      var n :- Number(words, 2);
      Ok(RotateLeft(n))
    else if w1 == "right" then
      var n :- Number(words, 2);
      Ok(RotateRight(n))
    else if w1 == "based" then
      var c :- Letter(words, 6);
      Ok(RotateLetter(c))
    else Err(Unknown)
  }

  function Parse(s: string): Result<Action, ParseError> {
    ParseWords(Split(s, ' '))
  }

  /** The puzzle's wording of each action, as words. */
  function ShowWords(a: Action): seq<string> {
    match a
    case SwapPosition(ia, ib) => ["swap", "position", NatToString(ia), "with", "position", NatToString(ib)]
    case SwapLetter(ca, cb) => ["swap", "letter", [ca], "with", "letter", [cb]]
    case RotateLeft(n) => ["rotate", "left", NatToString(n), "steps"]
    case RotateRight(n) => ["rotate", "right", NatToString(n), "steps"]
    case RotateLetter(c) => ["rotate", "based", "on", "position", "of", "letter", [c]]
    case Reverse(ia, ib) => ["reverse", "positions", NatToString(ia), "through", NatToString(ib)]
    case Move(ia, ib) => ["move", "position", NatToString(ia), "to", "position", NatToString(ib)]
  }

  function Show(a: Action): string {
    Join(ShowWords(a), ' ')
  }

  /** An action fits the parser when its numbers are `usize` values and its
      letters are not spaces. */
  predicate Showable(a: Action) {
    match a
    case SwapPosition(ia, ib) => ia <= U64Max && ib <= U64Max
    case SwapLetter(ca, cb) => ca != ' ' && cb != ' '
    case RotateLeft(n) => n <= U64Max
    case RotateRight(n) => n <= U64Max
    case RotateLetter(c) => c != ' '
    case Reverse(ia, ib) => ia <= U64Max && ib <= U64Max
    case Move(ia, ib) => ia <= U64Max && ib <= U64Max
  }

  predicate Spaceless(ws: seq<string>) {
    forall k :: 0 <= k < |ws| ==> ' ' !in ws[k]
  }

  lemma NumberOfString(n: nat)
    requires n <= U64Max
    ensures ParseNat(NatToString(n), U64Max) == Some(n)
  {
  }

  lemma DigitsSpaceless(n: nat)
    ensures ' ' !in NatToString(n)
  {
    var s := NatToString(n);
    assert forall k :: 0 <= k < |s| ==> s[k] != ' ' by {
      assert AllDigits(s);
    }
  }

  lemma SwapSpaceless(ia: nat, ib: nat)
    ensures Spaceless(ShowWords(SwapPosition(ia, ib)))
  {
    DigitsSpaceless(ia);
    DigitsSpaceless(ib);
  }

  lemma ReverseSpaceless(ia: nat, ib: nat)
    ensures Spaceless(ShowWords(Reverse(ia, ib)))
  {
    DigitsSpaceless(ia);
    DigitsSpaceless(ib);
  }

  lemma MoveSpaceless(ia: nat, ib: nat)
    ensures Spaceless(ShowWords(Move(ia, ib)))
  {
    DigitsSpaceless(ia);
    DigitsSpaceless(ib);
  }

  lemma CountSpaceless(n: nat)
    ensures Spaceless(ShowWords(RotateLeft(n)))
    ensures Spaceless(ShowWords(RotateRight(n)))
  {
    DigitsSpaceless(n);
  }

  lemma ShowSpaceless(a: Action)
    requires Showable(a)
    ensures Spaceless(ShowWords(a))
  {
    match a {
      case SwapPosition(ia, ib) => SwapSpaceless(ia, ib);
      case SwapLetter(ca, cb) =>
      case RotateLeft(n) => CountSpaceless(n);
      case RotateRight(n) => CountSpaceless(n);
      case RotateLetter(c) =>
      case Reverse(ia, ib) => ReverseSpaceless(ia, ib);
      case Move(ia, ib) => MoveSpaceless(ia, ib);
    }
  }

  /** The words of a shown action are its `ShowWords`. */
  lemma WordsOfShow(a: Action)
    requires Showable(a)
    ensures Split(Show(a), ' ') == ShowWords(a)
  {
    ShowSpaceless(a);
    SplitJoin(ShowWords(a), ' ');
  }

  lemma SwapPositionParses(ia: nat, ib: nat)
    requires ia <= U64Max && ib <= U64Max
    ensures ParseWords(ShowWords(SwapPosition(ia, ib))) == Ok(SwapPosition(ia, ib))
  {
    NumberOfString(ia);
    NumberOfString(ib);
  }

  lemma SwapLetterParses(ca: char, cb: char)
    ensures ParseWords(ShowWords(SwapLetter(ca, cb))) == Ok(SwapLetter(ca, cb))
  {
  }

  lemma RotateLeftParses(n: nat)
    requires n <= U64Max
    ensures ParseWords(ShowWords(RotateLeft(n))) == Ok(RotateLeft(n))
  {
    NumberOfString(n);
  }

  lemma RotateRightParses(n: nat)
    requires n <= U64Max
    ensures ParseWords(ShowWords(RotateRight(n))) == Ok(RotateRight(n))
  {
    NumberOfString(n);
  }

  lemma RotateLetterParses(c: char)
    ensures ParseWords(ShowWords(RotateLetter(c))) == Ok(RotateLetter(c))
  {
  }

  lemma ReverseParses(ia: nat, ib: nat)
    requires ia <= U64Max && ib <= U64Max
    ensures ParseWords(ShowWords(Reverse(ia, ib))) == Ok(Reverse(ia, ib))
  {
    NumberOfString(ia);
    NumberOfString(ib);
  }

  lemma MoveParses(ia: nat, ib: nat)
    requires ia <= U64Max && ib <= U64Max
    ensures ParseWords(ShowWords(Move(ia, ib))) == Ok(Move(ia, ib))
  {
    NumberOfString(ia);
    NumberOfString(ib);
  }

  /** Showing an action and parsing it back gives the action. */
  lemma ParseShow(a: Action)
    requires Showable(a)
    ensures Parse(Show(a)) == Ok(a)
  {
    WordsOfShow(a);
    match a {
      case SwapPosition(ia, ib) => SwapPositionParses(ia, ib);
      case SwapLetter(ca, cb) => SwapLetterParses(ca, cb);
      case RotateLeft(n) => RotateLeftParses(n);
      case RotateRight(n) => RotateRightParses(n);
      case RotateLetter(c) => RotateLetterParses(c);
      case Reverse(ia, ib) => ReverseParses(ia, ib);
      case Move(ia, ib) => MoveParses(ia, ib);
    }
  }
}

=== FILE: shuffle.dfy ===
/** The card shuffle of 2019 day 22 (2019/22/src/main.rs): each technique
    moves the card at position `c` of an `n`-card deck to `(A * c + B) mod n`,
    and a whole sequence of techniques folds into a single such pair. */
module Shuffle {
  import opened Wrappers
  import opened Text
  import opened Arith

  datatype Action = CutPos(k: int) | CutNeg(k: int) | DealIncrement(k: int) | DealStack

  /** An affine position map `c -> (a * c + b) mod n`. */
  datatype Affine = Affine(a: int, b: int)

  /** The numbers in a line: every space-separated piece that reads as an
      `i64`, in order. */
  function Numbers(pieces: seq<string>): (r: seq<int>)
    ensures forall j :: 0 <= j < |r| ==> I64Min <= r[j] <= I64Max
  {
    if |pieces| == 0 then []
    else
      var rest := Numbers(pieces[1..]);
      match ParseInt(pieces[0], I64Min, I64Max)
      case None => rest
      case Some(v) => [v] + rest
  }

  predicate StartsWith(s: string, p: string) {
    |p| <= |s| && s[..|p|] == p
  }

  /** `Action::new`: `cut` (split by the sign of its number),
      `deal with increment`, then `deal into new stack`; `None` is a panic:
      an unknown line, a missing number, or negating `i64::MIN`. */
  function Parse(s: string): (r: Option<Action>)
    ensures !StartsWith(s, "cut") && !StartsWith(s, "deal with increment") && s != "deal into new stack"
      ==> r.None?
    ensures r.Some? && (r.value.CutPos? || r.value.CutNeg?) ==> StartsWith(s, "cut") && r.value.k >= 0
    ensures r.Some? && r.value.DealIncrement? ==> StartsWith(s, "deal with increment")
  {
    var nums := Numbers(Split(s, ' '));
    if StartsWith(s, "cut") then
      if |nums| == 0 then None
      else if nums[0] < 0 then
        if -nums[0] > I64Max then None else Some(CutNeg(-nums[0]))
      else Some(CutPos(nums[0]))
    else if StartsWith(s, "deal with increment") then
      if |nums| == 0 then None else Some(DealIncrement(nums[0]))
    else if s == "deal into new stack" then Some(DealStack)
    else None
  }

  /** `Action::math`: the pair `(A, B)` of one technique. */
  function Math(act: Action, n: int): Affine {
    match act
    case CutPos(k) => Affine(1, -k)
    case CutNeg(k) => Affine(1, n + k)
    case DealIncrement(k) => Affine(k, 0)
    case DealStack => Affine(-1, n - 1)
  }

  /** Where the card at position `c` lands, straight from the puzzle's
      description of each technique: a cut moves the top (or bottom) `k`
      cards to the other end, dealing with increment `k` puts the `c`-th
      card `c * k` places on, and a new stack reverses the deck. */
  function Moved(act: Action, n: nat, c: nat): nat
    requires c < n
  {
    match act
    case CutPos(k) => if k < 0 || k > n then 0 else if c >= k then c - k else c + (n - k)
    case CutNeg(k) => if k < 0 || k > n then 0 else if c >= n - k then c - (n - k) else c + k
    case DealIncrement(k) => (c * k) % n
    case DealStack => n - 1 - c
  }

  /** The cut techniques need `0 <= k <= n`. */
  predicate Fits(act: Action, n: nat) {
    (act.CutPos? || act.CutNeg?) ==> 0 <= act.k <= n
  }

  /** `Math` is the technique: the affine map sends each position where the
      technique sends it. */
  lemma MathMoves(act: Action, n: nat, c: nat)
    requires c < n && Fits(act, n)
    ensures Apply(Math(act, n), c, n) == Moved(act, n, c)
  {
    match act
    case CutPos(k) => CutPosMoves(k, n, c);
    case CutNeg(k) => CutNegMoves(k, n, c);
    case DealIncrement(k) => IncrementMoves(k, n, c);
    case DealStack => StackMoves(n, c);
  }

  lemma IncrementMoves(k: int, n: nat, c: nat)
    requires c < n
    ensures Apply(Math(DealIncrement(k), n), c, n) == Moved(DealIncrement(k), n, c)
  {
    assert k * c + 0 == c * k;
  }

  lemma StackMoves(n: nat, c: nat)
    requires c < n
    ensures Apply(Math(DealStack, n), c, n) == Moved(DealStack, n, c)
  {
    assert -1 * c + (n - 1) == n - 1 - c;
    ShiftMod(n - 1 - c, n);
  }

  lemma CutPosMoves(k: int, n: nat, c: nat)
    requires c < n && 0 <= k <= n
    ensures Apply(Math(CutPos(k), n), c, n) == Moved(CutPos(k), n, c)
  {
    assert 1 * c + -k == c - k;
    ShiftMod(c - k, n);
  }

  lemma CutNegMoves(k: int, n: nat, c: nat)
    requires c < n && 0 <= k <= n
    ensures Apply(Math(CutNeg(k), n), c, n) == Moved(CutNeg(k), n, c)
  {
    assert 1 * c + (n + k) == 1 * n + (c + k);
    assert 1 * n + (c + k - n) == c + k;
    ModShift(c + k, 1, n);
    ModShift(c + k - n, 1, n);
    ShiftMod(c + k - n, n);
  }

  /** A value within one deck length of `0..n` reduces by at most one wrap. */
  lemma ShiftMod(x: int, n: int)
    requires n > 0 && -n <= x < n
    ensures x >= 0 ==> x % n == x
    ensures x < 0 ==> x % n == x + n
  {
    if x < 0 {
      ModShift(x, 1, n);
    }
  }

  function Apply(t: Affine, c: int, n: int): int
    requires n > 0
  {
    (t.a * c + t.b) % n
  }

  /** The `while x < 0 { x += n }` loops of `fuse`. */
  function Lift(x: int, n: int): (r: int)
    requires n > 0
    ensures r >= 0 && r % n == x % n
    ensures x >= 0 ==> r == x
    ensures x < 0 ==> r < n
    decreases if x < 0 then -x else 0
  {
    if x >= 0 then x
    else
      var r := Lift(x + n, n);
      ModShift(x, 1, n);
      r
  }

  /** `fuse`: the pair that applies `f` and then `g`, both components reduced
      into `0..n`. */
  function Fuse(f: Affine, g: Affine, n: int): (r: Affine)
    requires n > 0
    ensures 0 <= r.a < n && 0 <= r.b < n
    ensures r.a == (g.a * f.a) % n && r.b == (g.a * f.b + g.b) % n
  {
    Affine(Lift(g.a * f.a, n) % n, Lift(g.a * f.b + g.b, n) % n)
  }

  /** Fusing composes the maps: applying the fused pair is applying `f`, then
      `g`. */
  lemma FuseComposes(f: Affine, g: Affine, n: int, c: int)
    requires n > 0
    ensures Apply(Fuse(f, g, n), c, n) == Apply(g, Apply(f, c, n), n)
  {
    var u := g.a * f.a;
    var w := g.a * f.b + g.b;
    var y := f.a * c + f.b;
    assert Apply(Fuse(f, g, n), c, n) == ((u % n) * c + w % n) % n;
    ReduceBoth(u, c, w, n);
    assert u * c + w == g.a * y + g.b by {
      Expand(g.a, f.a, c, f.b, g.b);
    }
    ReduceOne(y, g.a, g.b, n);
  }

  /** `((u mod n) * c + (w mod n)) mod n == (u * c + w) mod n`. */
  lemma ReduceBoth(u: int, c: int, w: int, n: int)
    requires n > 0
    ensures ((u % n) * c + w % n) % n == (u * c + w) % n
  {
    ModAdd(w, (u % n) * c, n);
    ModMul(u, c, n);
    ModAdd(u * c, w, n);
    ModAdd((u % n) * c, w, n);
    assert (w % n + (u % n) * c) % n == (w + (u % n) * c) % n;
    assert ((u % n) * c % n + w) % n == ((u % n) * c + w) % n;
    assert (u * c % n + w) % n == (u * c + w) % n;
  }

  /** `(g * (y mod n) + h) mod n == (g * y + h) mod n`. */
  lemma ReduceOne(y: int, g: int, h: int, n: int)
    requires n > 0
    ensures (g * (y % n) + h) % n == (g * y + h) % n
  {
    ModMul(y, g, n);
    ModAdd((y % n) * g, h, n);
    ModAdd(y * g, h, n);
    assert g * (y % n) == (y % n) * g && g * y == y * g;
  }

  lemma Expand(ga: int, fa: int, c: int, fb: int, gb: int)
    ensures ga * fa * c + (ga * fb + gb) == ga * (fa * c + fb) + gb
  {
  }

  /** `(1, 0)` is neutral on both sides, up to reduction into `0..n`. */
  lemma FuseIdentity(t: Affine, n: int)
    requires n > 0
    ensures Fuse(Affine(1, 0), t, n) == Affine(t.a % n, t.b % n)
    ensures Fuse(t, Affine(1, 0), n) == Affine(t.a % n, t.b % n)
  {
  }

  /** `build`: fold every technique into one pair, starting from `(1, 0)`. */
  function Build(acts: seq<Action>, n: int): Affine
    requires n > 0
  {
    if |acts| == 0 then Affine(1, 0)
    else Fuse(Build(acts[..|acts| - 1], n), Math(acts[|acts| - 1], n), n)
  }

  /** Where the card at `c` lands after every technique in turn. */
  function MovedAll(acts: seq<Action>, n: nat, c: nat): (r: nat)
    requires c < n
    ensures r < n
  {
    if |acts| == 0 then c
    else
      var p := MovedAll(acts[..|acts| - 1], n, c);
      var r := Moved(acts[|acts| - 1], n, p);
      assert r < n by {
        MovedBound(acts[|acts| - 1], n, p);
      }
      r
  }

  lemma MovedBound(act: Action, n: nat, c: nat)
    requires c < n
    ensures Moved(act, n, c) < n
  {
  }

  /** The folded pair sends every position where the whole shuffle does. */
  lemma {:induction false} BuildMoves(acts: seq<Action>, n: nat, c: nat)
    requires c < n
    requires forall j :: 0 <= j < |acts| ==> Fits(acts[j], n)
    ensures Apply(Build(acts, n), c, n) == MovedAll(acts, n, c)
  {
    if |acts| > 0 {
      var init := acts[..|acts| - 1];
      var last := acts[|acts| - 1];
      BuildMoves(init, n, c);
      var p := MovedAll(init, n, c);
      FuseComposes(Build(init, n), Math(last, n), n, c);
      MathMoves(last, n, p);
    }
  }

  /** The puzzle's rendering of a technique. */
  function Show(act: Action): string {
    match act
    case CutPos(k) => "cut " + IntToString(k)
    case CutNeg(k) => "cut " + IntToString(-k)
    case DealIncrement(k) => "deal with increment " + IntToString(k)
    case DealStack => "deal into new stack"
  }

  /** Numbers of pieces that all fail to parse, followed by one that does. */
  /** Pieces that cannot read as numbers: each ends in a non-digit. */
  predicate NoDigitEnds(words: seq<string>) {
    forall j :: 0 <= j < |words| ==> |words[j]| > 0 && !IsDigit(words[j][|words[j]| - 1])
  }

  lemma NumbersOfWords(words: seq<string>, v: int)
    requires NoDigitEnds(words)
    requires I64Min <= v <= I64Max
    ensures Numbers(words + [IntToString(v)]) == [v]
    decreases |words|
  {
    if |words| == 0 {
      ParseIntOfString(v, I64Min, I64Max);
      assert Numbers([IntToString(v)]) == [v] + Numbers([]);
    } else {
      assert (words + [IntToString(v)])[1..] == words[1..] + [IntToString(v)];
      NumbersOfWords(words[1..], v);
    }
  }

  /** A rendered number holds no space. */
  lemma NoSpace(v: int)
    ensures ' ' !in IntToString(v)
  {
    var d := NatToString(if v < 0 then -v else v);
    assert forall j :: 0 <= j < |d| ==> IsDigit(d[j]);
    if v < 0 {
      assert IntToString(v) == "-" + d;
    }
  }

  /** The words of a technique split back out of its rendering. */
  lemma WordsOf(words: seq<string>, v: int, s: string)
    requires |words| >= 1 && forall j :: 0 <= j < |words| ==> ' ' !in words[j]
    requires s == Join(words + [IntToString(v)], ' ')
    ensures Split(s, ' ') == words + [IntToString(v)]
  {
    NoSpace(v);
    var ws := words + [IntToString(v)];
    assert forall j :: 0 <= j < |ws| ==> ' ' !in ws[j] by {
      forall j | 0 <= j < |ws| ensures ' ' !in ws[j] {
        if j < |words| {
          assert ws[j] == words[j];
        }
      }
    }
    SplitJoin(ws, ' ');
  }

  /** Every technique with a number that fits an `i64` (and, for a cut from
      the bottom, is positive) reads back from its rendering. */
  lemma ParseShow(act: Action)
    requires act.CutPos? ==> 0 <= act.k <= I64Max
    requires act.CutNeg? ==> 0 < act.k <= I64Max
    requires act.DealIncrement? ==> I64Min <= act.k <= I64Max
    ensures Parse(Show(act)) == Some(act)
  {
    match act
    case CutPos(k) =>
      CutParses(k);
    case CutNeg(k) =>
      CutParses(-k);
    case DealIncrement(k) =>
      IncrementParses(k);
    case DealStack =>
      StackParses();
  }

  lemma IncrementParses(k: int)
    requires I64Min <= k <= I64Max
    ensures Parse(Show(DealIncrement(k))) == Some(DealIncrement(k))
  {
    var s := Show(DealIncrement(k));
    IncrementNumbers(k);
    IncrementPrefix(k);
    ParseIncrementLine(s, k);
  }

  lemma ParseIncrementLine(s: string, k: int)
    requires Numbers(Split(s, ' ')) == [k]
    requires StartsWith(s, "deal with increment") && !StartsWith(s, "cut")
    ensures Parse(s) == Some(DealIncrement(k))
  {
  }

  lemma IncrementNumbers(k: int)
    requires I64Min <= k <= I64Max
    ensures Numbers(Split(Show(DealIncrement(k)), ' ')) == [k]
  {
    var words := ["deal", "with", "increment"];
    IncrementJoin(IntToString(k));
    WordsOf(words, k, Show(DealIncrement(k)));
    IncrementWords();
    NumbersOfWords(words, k);
  }

  lemma IncrementJoin(x: string)
    ensures Join(["deal", "with", "increment"] + [x], ' ') == "deal with increment " + x
  {
    JoinCons("increment", [x]);
    JoinCons("with", ["increment", x]);
    JoinCons("deal", ["with", "increment", x]);
    assert ["deal", "with", "increment"] + [x] == ["deal"] + ["with", "increment", x];
  }

  lemma IncrementWords()
    ensures NoDigitEnds(["deal", "with", "increment"])
    ensures forall j :: 0 <= j < 3 ==> ' ' !in ["deal", "with", "increment"][j]
  {
    assert "deal"[3] == 'l' && "with"[3] == 'h' && "increment"[8] == 't';
  }

  lemma IncrementPrefix(k: int)
    ensures var s := Show(DealIncrement(k));
      StartsWith(s, "deal with increment") && !StartsWith(s, "cut")
  {
    var s := Show(DealIncrement(k));
    assert s[0] == 'd';
    assert s[..|"deal with increment"|] == "deal with increment";
  }

  lemma StackParses()
    ensures Parse(Show(DealStack)) == Some(DealStack)
  {
    assert !StartsWith("deal into new stack", "cut") by {
      assert "deal into new stack"[0] == 'd';
    }
    assert !StartsWith("deal into new stack", "deal with increment") by {
      assert "deal into new stack"[5] == 'i';
    }
  }

  lemma JoinCons(w: string, rest: seq<string>)
    requires |rest| >= 1
    ensures Join([w] + rest, ' ') == w + " " + Join(rest, ' ')
  {
    assert ([w] + rest)[1..] == rest;
  }

  lemma CutParses(v: int)
    requires I64Min < v <= I64Max
    ensures Parse("cut " + IntToString(v)) == Some(if v < 0 then CutNeg(-v) else CutPos(v))
  {
    var s := "cut " + IntToString(v);
    CutNumbers(v);
    assert s[..3] == "cut";
    ParseCutLine(s, v);
  }

  lemma ParseCutLine(s: string, v: int)
    requires I64Min < v <= I64Max
    requires Numbers(Split(s, ' ')) == [v] && StartsWith(s, "cut")
    ensures Parse(s) == Some(if v < 0 then CutNeg(-v) else CutPos(v))
  {
  }

  lemma CutNumbers(v: int)
    requires I64Min <= v <= I64Max
    ensures Numbers(Split("cut " + IntToString(v), ' ')) == [v]
  {
    CutJoin(IntToString(v));
    WordsOf(["cut"], v, "cut " + IntToString(v));
    CutWord();
    NumbersOfWords(["cut"], v);
  }

  lemma CutJoin(x: string)
    ensures Join(["cut"] + [x], ' ') == "cut " + x
  {
  }

  lemma CutWord()
    ensures NoDigitEnds(["cut"]) && ' ' !in "cut"
  {
    assert "cut"[2] == 't';
  }
}

=== FILE: snailfish.dfy ===
/** Snailfish numbers of 2021 day 18 (2021/18/src/main.rs): binary trees of
    small numbers, parsed from and printed as bracketed pairs, added by
    pairing and then reduced by repeated explosions and splits. */
module Snailfish {
  import opened Wrappers
  import opened Text

  datatype Number = Value(v: nat) | Pair(left: Number, right: Number)

  /** What an explosion hands up to the enclosing pair: `Nothing` happened,
      it is `Done`, or amounts still have to be added to a leaf on the left
      or right of the subtree. */
  datatype Output = Nothing | Done | Explode(a: nat, b: nat) | AddLeft(a: nat) | AddRight(a: nat)

  datatype Exploded = Exploded(n: Number, out: Output)

  datatype Split = Split(n: Number, changed: bool)

  /** `OutOfFuel` bounds the reduction loop; `ExplodePanic` is the `unwrap`
      of a pair deeper than four whose halves are not both plain values. */
  datatype Fault = ExplodePanic | OutOfFuel

  datatype ParseError = Mismatch | Overflow

  datatype Parsed = Parsed(n: Number, rest: string)

  // ------------------------------------------------------------ observations

  /** The regular numbers, left to right. */
  function Leaves(n: Number): (ls: seq<nat>)
    ensures |ls| >= 1
  {
    match n
    case Value(v) => [v]
    case Pair(l, r) => Leaves(l) + Leaves(r)
  }

  /** The tree with every regular number replaced by 0. */
  function Shape(n: Number): Number {
    match n
    case Value(_) => Value(0)
    case Pair(l, r) => Pair(Shape(l), Shape(r))
  }

  /** Nesting depth of the deepest pair (0 for a regular number). */
  function PairDepth(n: Number): nat {
    match n
    case Value(_) => 0
    case Pair(l, r) => 1 + if PairDepth(l) >= PairDepth(r) then PairDepth(l) else PairDepth(r)
  }

  function Sum(s: seq<nat>): nat {
    if |s| == 0 then 0 else s[0] + Sum(s[1..])
  }

  /** Index of the first element of at least 10, or `|s|`. */
  function FirstBig(s: seq<nat>): (i: nat)
    ensures i <= |s|
    ensures i < |s| ==> s[i] >= 10
  {
    if |s| == 0 then 0 else if s[0] >= 10 then 0 else 1 + FirstBig(s[1..])
  }

  /** Every element before the one `FirstBig` finds is below 10. */
  lemma {:induction false} FirstBigIsFirst(s: seq<nat>)
    ensures forall j :: 0 <= j < FirstBig(s) ==> s[j] < 10
    decreases |s|
  {
    if |s| > 0 && s[0] < 10 {
      FirstBigIsFirst(s[1..]);
      assert forall j :: 1 <= j < |s| ==> s[j] == s[1..][j - 1];
    }
  }

  /** Reduced: no pair nested inside four pairs, and no regular number of
      10 or more. */
  predicate Reduced(n: Number) {
    PairDepth(n) <= 4 && FirstBig(Leaves(n)) == |Leaves(n)|
  }

  lemma {:induction false} SumConcat(a: seq<nat>, b: seq<nat>)
    ensures Sum(a + b) == Sum(a) + Sum(b)
    decreases |a|
  {
    if |a| > 0 {
      assert (a + b)[1..] == a[1..] + b;
      SumConcat(a[1..], b);
    } else {
      assert a + b == b;
    }
  }

  lemma {:induction false} FirstBigConcat(a: seq<nat>, b: seq<nat>)
    ensures FirstBig(a + b) == if FirstBig(a) < |a| then FirstBig(a) else |a| + FirstBig(b)
    decreases |a|
  {
    if |a| == 0 {
      assert a + b == b;
    } else {
      assert (a + b)[0] == a[0];
      assert (a + b)[1..] == a[1..] + b;
      FirstBigConcat(a[1..], b);
    }
  }

  /** The shape and the regular numbers together determine a number. */
  lemma {:induction false} ShapeAndLeaves(x: Number, y: Number)
    requires Shape(x) == Shape(y) && Leaves(x) == Leaves(y)
    ensures x == y
  {
    match x
    case Value(_) =>
    case Pair(l, r) =>
      SameShapeSameCount(l, y.left);
      var lx, ly := Leaves(l), Leaves(y.left);
      assert Leaves(x)[..|lx|] == lx;
      assert Leaves(y)[..|ly|] == ly;
      assert Leaves(x)[|lx|..] == Leaves(r);
      assert Leaves(y)[|ly|..] == Leaves(y.right);
      ShapeAndLeaves(l, y.left);
      ShapeAndLeaves(r, y.right);
  }

  lemma {:induction false} SameShapeSameCount(x: Number, y: Number)
    requires Shape(x) == Shape(y)
    ensures |Leaves(x)| == |Leaves(y)|
  {
    match x
    case Value(_) =>
    case Pair(l, r) =>
      SameShapeSameCount(l, y.left);
      SameShapeSameCount(r, y.right);
  }

  // -------------------------------------------------------- add_left / right

  /** `add_left`: add `a` to the leftmost regular number. */
  function AddLeftmost(n: Number, a: nat): (r: Number)
    ensures Leaves(r) == Leaves(n)[0 := Leaves(n)[0] + a]
    ensures Shape(r) == Shape(n) && PairDepth(r) == PairDepth(n)
    ensures Sum(Leaves(r)) == Sum(Leaves(n)) + a
  {
    match n
    case Value(v) => Value(v + a)
    case Pair(l, rt) =>
      var l2 := AddLeftmost(l, a);
      assert Leaves(Pair(l2, rt)) == Leaves(n)[0 := Leaves(n)[0] + a];
      assert Leaves(n)[0 := Leaves(n)[0] + a][1..] == Leaves(n)[1..];
      Pair(l2, rt)
  }

  /** `add_right`: add `a` to the rightmost regular number. */
  function AddRightmost(n: Number, a: nat): (r: Number)
    ensures var ls := Leaves(n);
      Leaves(r) == ls[..|ls| - 1] + [ls[|ls| - 1] + a]
    ensures Shape(r) == Shape(n) && PairDepth(r) == PairDepth(n)
    ensures Sum(Leaves(r)) == Sum(Leaves(n)) + a
  {
    match n
    case Value(v) => Value(v + a)
    case Pair(l, rt) =>
      var r2 := AddRightmost(rt, a);
      var ls, rs := Leaves(l), Leaves(rt);
      assert Leaves(n)[..|Leaves(n)| - 1] == ls + rs[..|rs| - 1];
      SumConcat(ls, rs);
      SumConcat(ls, Leaves(r2));
      Pair(l, r2)
  }

  // ------------------------------------------------------------------- split

  /** `simplify_split`: the leftmost regular number of 10 or more becomes the
      pair of its halves, rounded down and up; `changed` says whether there
      was one. */
  function SplitFirst(n: Number): (r: Split)
    ensures r.changed <==> FirstBig(Leaves(n)) < |Leaves(n)|
    ensures !r.changed ==> r.n == n
    ensures PairDepth(r.n) <= PairDepth(n) + 1
  {
    match n
    case Value(v) =>
      if v >= 10 then Split(Pair(Value(v / 2), Value((v + 1) / 2)), true) else Split(n, false)
    case Pair(l, rt) =>
      FirstBigConcat(Leaves(l), Leaves(rt));
      var sl := SplitFirst(l);
      if sl.changed then Split(Pair(sl.n, rt), true)
      else
        var sr := SplitFirst(rt);
        if sr.changed then Split(Pair(l, sr.n), true) else Split(n, false)
  }

  /** A split replaces the first regular number of 10 or more by its
      halves and leaves the other regular numbers alone. */
  lemma {:induction false} SplitFirstLeaves(n: Number, ls: seq<nat>)
    requires ls == Leaves(n) && FirstBig(ls) < |ls|
    ensures Leaves(SplitFirst(n).n) == Halve(ls, FirstBig(ls))
  {
    match n
    case Value(v) =>
    case Pair(l, rt) =>
      var left, right := Leaves(l), Leaves(rt);
      FirstBigConcat(left, right);
      if SplitFirst(l).changed {
        var i := FirstBig(left);
        assert FirstBig(ls) == i;
        SplitFirstLeaves(l, left);
        SplitLeftHalf(l, rt, left, right, i);
      } else {
        var j := FirstBig(right);
        assert FirstBig(ls) == |left| + j;
        SplitFirstLeaves(rt, right);
        SplitRightHalf(l, rt, left, right, j);
      }
  }

  lemma SplitLeftHalf(l: Number, rt: Number, left: seq<nat>, right: seq<nat>, i: nat)
    requires left == Leaves(l) && i < |left|
    requires SplitFirst(l).changed && Leaves(SplitFirst(l).n) == Halve(left, i)
    ensures Leaves(SplitFirst(Pair(l, rt)).n) == Halve(left + Leaves(rt), i)
  {
    SpliceLeft(left, Leaves(rt), i);
  }

  lemma SplitRightHalf(l: Number, rt: Number, left: seq<nat>, right: seq<nat>, j: nat)
    requires left == Leaves(l) && right == Leaves(rt) && j < |right|
    requires !SplitFirst(l).changed && SplitFirst(rt).changed && Leaves(SplitFirst(rt).n) == Halve(right, j)
    ensures Leaves(SplitFirst(Pair(l, rt)).n) == Halve(left + right, |left| + j)
  {
    SpliceRight(left, right, j);
  }

  /** The halves of element `i`, spliced in place of it. */
  function Halve(s: seq<nat>, i: nat): seq<nat>
    requires i < |s|
    decreases i
  {
    if i == 0 then [s[0] / 2, (s[0] + 1) / 2] + s[1..] else [s[0]] + Halve(s[1..], i - 1)
  }

  /** `Halve` keeps what lies before and after element `i`. */
  lemma {:induction false} HalveSlices(s: seq<nat>, i: nat)
    requires i < |s|
    ensures Halve(s, i) == s[..i] + [s[i] / 2, (s[i] + 1) / 2] + s[i + 1..]
    decreases i
  {
    if i > 0 {
      HalveSlices(s[1..], i - 1);
      assert s[1..][..i - 1] == s[1..i] && s[1..][i - 1] == s[i] && s[1..][i..] == s[i + 1..];
      assert s[..i] == [s[0]] + s[1..i];
    }
  }

  lemma {:induction false} SpliceLeft(a: seq<nat>, b: seq<nat>, i: nat)
    requires i < |a|
    ensures Halve(a + b, i) == Halve(a, i) + b
    decreases i
  {
    assert (a + b)[0] == a[0];
    assert (a + b)[1..] == a[1..] + b;
    if i > 0 {
      SpliceLeft(a[1..], b, i - 1);
    }
  }

  lemma {:induction false} SpliceRight(a: seq<nat>, b: seq<nat>, j: nat)
    requires j < |b|
    ensures Halve(a + b, |a| + j) == a + Halve(b, j)
    decreases |a|
  {
    if |a| == 0 {
      assert a + b == b;
    } else {
      assert (a + b)[0] == a[0];
      assert (a + b)[1..] == a[1..] + b;
      SpliceRight(a[1..], b, j);
    }
  }

  // ----------------------------------------------------------------- explode

  /** What an explosion still owes to leaves outside the subtree. */
  function Carried(out: Output): nat {
    match out
    case Nothing => 0
    case Done => 0
    case Explode(a, b) => a + b
    case AddLeft(a) => a
    case AddRight(a) => a
  }

  /** `simplify_explode` of a subtree nested inside `depth` pairs: the
      leftmost pair nested inside four or more pairs becomes the regular
      number 0, and its halves are added to the nearest regular numbers on
      either side, as far as those lie inside this subtree. `None` is the
      `unwrap` panic. */
  function ExplodeAt(n: Number, depth: nat): (r: Option<Exploded>)
    ensures depth + PairDepth(n) <= 5 ==> r.Some?
    ensures r.None? ==> depth + PairDepth(n) > 5
    ensures r.Some? ==> (r.value.out == Nothing <==> n.Value? || depth + PairDepth(n) <= 4)
    ensures r.Some? && r.value.out == Nothing ==> r.value.n == n
    ensures r.Some? ==> PairDepth(r.value.n) <= PairDepth(n)
    ensures r.Some? && r.value.out.Explode? ==> r.value.n == Value(0) && n == Pair(Value(r.value.out.a), Value(r.value.out.b))
    ensures depth >= 4 && n.Pair? && n.left.Value? && n.right.Value? ==>
      r == Some(Exploded(Value(0), Explode(n.left.v, n.right.v)))
  {
    match n
    case Value(_) => Some(Exploded(n, Nothing))
    case Pair(l, rt) =>
      if depth >= 4 then
        if l.Value? && rt.Value? then Some(Exploded(Value(0), Explode(l.v, rt.v))) else None
      else
        match ExplodeAt(l, depth + 1)
        case None => None
        case Some(el) =>
          if el.out != Nothing then Some(AfterLeft(el, rt))
          else
            match ExplodeAt(rt, depth + 1)
            case None => None
            case Some(er) =>
              if er.out == Nothing then Some(Exploded(n, Nothing)) else Some(AfterRight(l, er))
  }

  /** An explosion removes one regular number, and the regular numbers it
      leaves plus what it still owes add up to the ones before. */
  lemma {:induction false} ExplodeAtLeaves(n: Number, depth: nat)
    requires ExplodeAt(n, depth).Some?
    ensures var e := ExplodeAt(n, depth).value;
      && (e.out != Nothing ==> |Leaves(e.n)| + 1 == |Leaves(n)|)
      && Sum(Leaves(e.n)) + Carried(e.out) == Sum(Leaves(n))
  {
    match n
    case Value(_) =>
    case Pair(l, rt) =>
      SumConcat(Leaves(l), Leaves(rt));
      if depth < 4 {
        ExplodeAtLeaves(l, depth + 1);
        var el := ExplodeAt(l, depth + 1).value;
        if el.out == Nothing {
          ExplodeAtLeaves(rt, depth + 1);
        }
      }
  }

  /** The enclosing pair's share of an explosion in its left half: what the
      left half owes to the right goes to the right half's leftmost number. */
  function AfterLeft(el: Exploded, rt: Number): (r: Exploded)
    requires el.out != Nothing
    ensures r.out != Nothing && r.n.Pair? && r.n.left == el.n
    ensures Shape(r.n.right) == Shape(rt) && PairDepth(r.n.right) == PairDepth(rt)
    ensures |Leaves(r.n)| == |Leaves(el.n)| + |Leaves(rt)|
    ensures Sum(Leaves(r.n)) + Carried(r.out) == Sum(Leaves(el.n)) + Carried(el.out) + Sum(Leaves(rt))
  {
    var r := match el.out
      case Explode(a, b) => Exploded(Pair(el.n, AddLeftmost(rt, b)), AddLeft(a))
      case AddRight(a) => Exploded(Pair(el.n, AddLeftmost(rt, a)), Done)
      case Done => Exploded(Pair(el.n, rt), Done)
      case AddLeft(a) => Exploded(Pair(el.n, rt), AddLeft(a));
    SumConcat(Leaves(el.n), Leaves(r.n.right));
    r
  }

  /** The enclosing pair's share of an explosion in its right half: what the
      right half owes to the left goes to the left half's rightmost number. */
  function AfterRight(l: Number, er: Exploded): (r: Exploded)
    requires er.out != Nothing
    ensures r.out != Nothing && r.n.Pair? && r.n.right == er.n
    ensures Shape(r.n.left) == Shape(l) && PairDepth(r.n.left) == PairDepth(l)
    ensures |Leaves(r.n)| == |Leaves(l)| + |Leaves(er.n)|
    ensures Sum(Leaves(r.n)) + Carried(r.out) == Sum(Leaves(l)) + Sum(Leaves(er.n)) + Carried(er.out)
  {
    var r := match er.out
      case Explode(a, b) => Exploded(Pair(AddRightmost(l, a), er.n), AddRight(b))
      case AddLeft(a) => Exploded(Pair(AddRightmost(l, a), er.n), Done)
      case Done => Exploded(Pair(l, er.n), Done)
      case AddRight(a) => Exploded(Pair(l, er.n), AddRight(a));
    SumConcat(Leaves(r.n.left), Leaves(er.n));
    r
  }

  // --------------------------------------------------------------- reduction

  /** `simplify`: explode while anything explodes, then split once, and
      start over until neither applies. Each explosion or split spends one
      unit of `fuel`. */
  function Reduce(n: Number, fuel: nat): (r: Result<Number, Fault>)
    ensures r.Ok? ==> Reduced(r.value)
    ensures PairDepth(n) <= 5 ==> r != Err(ExplodePanic)
    decreases fuel
  {
    match ExplodeAt(n, 0)
    case None => Err(ExplodePanic)
    case Some(Exploded(n2, out)) =>
      if out != Nothing then
        if fuel == 0 then Err(OutOfFuel) else Reduce(n2, fuel - 1)
      else
        var s := SplitFirst(n);
        if !s.changed then Ok(n)
        else if fuel == 0 then Err(OutOfFuel)
        else Reduce(s.n, fuel - 1)
  }

  /** `Add`: pair the operands, then reduce. Adding two reduced numbers never
      reaches the `unwrap` panic. */
  function Add(x: Number, y: Number, fuel: nat): (r: Result<Number, Fault>)
    ensures r.Ok? ==> Reduced(r.value)
    ensures Reduced(x) && Reduced(y) ==> r != Err(ExplodePanic)
  {
    Reduce(Pair(x, y), fuel)
  }

  /** A number that is already reduced is its own reduction. */
  lemma ReduceReduced(n: Number, fuel: nat)
    requires Reduced(n)
    ensures Reduce(n, fuel) == Ok(n)
  {
  }

  // --------------------------------------------------------------- magnitude

  /** `magnitude`. */
  function Magnitude(n: Number): nat {
    match n
    case Value(v) => v
    case Pair(l, r) => 3 * Magnitude(l) + 2 * Magnitude(r)
  }

  /** The route from the root to each regular number, left to right; `false`
      is a step into the left half. */
  function Paths(n: Number): (ps: seq<seq<bool>>)
    ensures |ps| == |Leaves(n)|
  {
    match n
    case Value(_) => [[]]
    case Pair(l, r) => Prepend(false, Paths(l)) + Prepend(true, Paths(r))
  }

  function Prepend(b: bool, ps: seq<seq<bool>>): (qs: seq<seq<bool>>)
    ensures |qs| == |ps|
    ensures forall i :: 0 <= i < |ps| ==> qs[i] == [b] + ps[i]
  {
    if |ps| == 0 then [] else [[b] + ps[0]] + Prepend(b, ps[1..])
  }

  /** Weight of a regular number: 3 for every step left, 2 for every step
      right. */
  function PathWeight(p: seq<bool>): nat {
    if |p| == 0 then 1 else (if p[0] then 2 else 3) * PathWeight(p[1..])
  }

  function WeightedSum(ls: seq<nat>, ps: seq<seq<bool>>): nat
    requires |ls| == |ps|
  {
    if |ls| == 0 then 0 else ls[0] * PathWeight(ps[0]) + WeightedSum(ls[1..], ps[1..])
  }

  lemma {:induction false} WeightedSumConcat(a: seq<nat>, b: seq<nat>, p: seq<seq<bool>>, q: seq<seq<bool>>)
    requires |a| == |p| && |b| == |q|
    ensures WeightedSum(a + b, p + q) == WeightedSum(a, p) + WeightedSum(b, q)
    decreases |a|
  {
    if |a| > 0 {
      assert (a + b)[1..] == a[1..] + b;
      assert (p + q)[1..] == p[1..] + q;
      WeightedSumConcat(a[1..], b, p[1..], q);
    } else {
      assert a + b == b && p + q == q;
    }
  }

  lemma {:induction false} WeightedSumPrepend(a: seq<nat>, b: bool, p: seq<seq<bool>>)
    requires |a| == |p|
    ensures WeightedSum(a, Prepend(b, p)) == (if b then 2 else 3) * WeightedSum(a, p)
    decreases |a|
  {
    if |a| > 0 {
      var q := Prepend(b, p);
      assert q[0][1..] == p[0];
      assert q[1..] == Prepend(b, p[1..]);
      WeightedSumPrepend(a[1..], b, p[1..]);
    }
  }

  /** The magnitude weighs each regular number by its route: the product of
      3 per step into a left half and 2 per step into a right half. */
  lemma {:induction false} MagnitudeIsWeightedSum(n: Number)
    ensures Magnitude(n) == WeightedSum(Leaves(n), Paths(n))
  {
    match n
    case Value(v) =>
    case Pair(l, r) =>
      MagnitudeIsWeightedSum(l);
      MagnitudeIsWeightedSum(r);
      WeightedSumPrepend(Leaves(l), false, Paths(l));
      WeightedSumPrepend(Leaves(r), true, Paths(r));
      WeightedSumConcat(Leaves(l), Leaves(r), Prepend(false, Paths(l)), Prepend(true, Paths(r)));
  }

  // ---------------------------------------------------------- text and parse

  /** `Display`. */
  function Show(n: Number): string {
    match n
    case Value(v) => NatToString(v)
    case Pair(l, r) => "[" + Show(l) + "," + Show(r) + "]"
  }

  /** `parse_value`: a run of digits read as a `u8` (a larger value is the
      `unwrap` panic, `Overflow`), or `[`, a value, `,`, a value and `]`.
      The unparsed rest of the input comes back with the number. */
  function ParseValue(s: string): (r: Result<Parsed, ParseError>)
    ensures r.Ok? ==> |r.value.rest| < |s| && r.value.rest == s[|s| - |r.value.rest|..]
    decreases |s|
  {
    var k := DigitRun(s);
    if k > 0 then
      if DigitsValue(s[..k]) > U8Max then Err(Overflow)
      else Ok(Parsed(Value(DigitsValue(s[..k])), s[k..]))
    else if |s| == 0 || s[0] != '[' then Err(Mismatch)
    else
      match ParseValue(s[1..])
      case Err(e) => Err(e)
      case Ok(Parsed(l, r1)) =>
        if |r1| == 0 || r1[0] != ',' then Err(Mismatch)
        else
          match ParseValue(r1[1..])
          case Err(e) => Err(e)
          case Ok(Parsed(rt, r2)) =>
            if |r2| == 0 || r2[0] != ']' then Err(Mismatch)
            else Ok(Parsed(Pair(l, rt), r2[1..]))
  }

  predicate FitsU8(n: Number) {
    forall i :: 0 <= i < |Leaves(n)| ==> Leaves(n)[i] <= U8Max
  }

  /** Parsing the printed form of a number whose regular numbers fit in a
      byte gives the number back, and stops where the printed form ends. */
  lemma {:induction false} ParseShow(n: Number, rest: string)
    requires FitsU8(n)
    requires |rest| == 0 || !IsDigit(rest[0])
    ensures ParseValue(Show(n) + rest) == Ok(Parsed(n, rest))
  {
    match n
    case Value(v) =>
      assert Leaves(n)[0] == v;
      ParseShowValue(v, rest);
    case Pair(l, r) =>
      FitsU8Halves(l, r);
      var tail2 := "]" + rest;
      var tail1 := "," + Show(r) + tail2;
      ParseShow(l, tail1);
      ParseShow(r, tail2);
      ParseShowPair(l, r, rest, tail1, tail2);
  }

  lemma ParseShowValue(v: nat, rest: string)
    requires v <= U8Max
    requires |rest| == 0 || !IsDigit(rest[0])
    ensures ParseValue(NatToString(v) + rest) == Ok(Parsed(Value(v), rest))
  {
    DigitRunOfDigits(NatToString(v), rest);
  }

  lemma ParseShowPair(l: Number, r: Number, rest: string, tail1: string, tail2: string)
    requires tail2 == "]" + rest && tail1 == "," + Show(r) + tail2
    requires ParseValue(Show(l) + tail1) == Ok(Parsed(l, tail1))
    requires ParseValue(Show(r) + tail2) == Ok(Parsed(r, tail2))
    ensures ParseValue(Show(Pair(l, r)) + rest) == Ok(Parsed(Pair(l, r), rest))
  {
    PairText(Show(l), Show(r), rest);
    ParseBracket(Show(Pair(l, r)) + rest, l, tail1, r, tail2);
  }

  lemma PairText(x: string, y: string, rest: string)
    ensures var s := "[" + x + "," + y + "]" + rest;
      && s[0] == '[' && s[1..] == x + ("," + y + ("]" + rest))
      && ("," + y + ("]" + rest))[1..] == y + ("]" + rest)
      && ("]" + rest)[1..] == rest
  {
    var s := "[" + x + "," + y + "]" + rest;
    assert s[1..] == x + ("," + y + ("]" + rest));
    assert ("," + y + ("]" + rest))[1..] == y + ("]" + rest);
  }

  lemma FitsU8Halves(l: Number, r: Number)
    requires FitsU8(Pair(l, r))
    ensures FitsU8(l) && FitsU8(r)
  {
    var n := Pair(l, r);
    forall i | 0 <= i < |Leaves(l)| ensures Leaves(l)[i] <= U8Max {
      assert Leaves(n)[i] == Leaves(l)[i];
    }
    forall i | 0 <= i < |Leaves(r)| ensures Leaves(r)[i] <= U8Max {
      assert Leaves(n)[|Leaves(l)| + i] == Leaves(r)[i];
    }
  }

  /** One bracketed pair, given how its two halves parse. */
  /** The pair branch of the parser, with the pieces named. */
  lemma ParseBracket(s: string, l: Number, t1: string, r: Number, t2: string)
    requires |s| > 0 && s[0] == '[' && ParseValue(s[1..]) == Ok(Parsed(l, t1))
    requires |t1| > 0 && t1[0] == ',' && ParseValue(t1[1..]) == Ok(Parsed(r, t2))
    requires |t2| > 0 && t2[0] == ']'
    ensures ParseValue(s) == Ok(Parsed(Pair(l, r), t2[1..]))
  {
    assert DigitRun(s) == 0;
  }

  // ---------------------------------------------------------------- examples

  /** `[[1,2],[[3,4],5]]` has magnitude 143. */
  lemma MagnitudeExample()
    ensures Magnitude(Pair(Pair(Value(1), Value(2)), Pair(Pair(Value(3), Value(4)), Value(5)))) == 143
  {
  }

  /** `[[[[[9,8],1],2],3],4]` explodes to `[[[[0,9],2],3],4]`; the 9 falls off
      the left end. */
  lemma ExplodeExample()
    ensures ExplodeAt(Pair(Pair(Pair(Pair(Pair(Value(9), Value(8)), Value(1)), Value(2)), Value(3)), Value(4)), 0)
      == Some(Exploded(Pair(Pair(Pair(Pair(Value(0), Value(9)), Value(2)), Value(3)), Value(4)), AddLeft(9)))
  {
  }

  /** 11 splits into `[5,6]`. */
  lemma SplitExample()
    ensures SplitFirst(Pair(Value(3), Value(11))) == Split(Pair(Value(3), Pair(Value(5), Value(6))), true)
  {
  }
}

=== FILE: syntax.dfy ===
/** The navigation-subsystem syntax checker of 2021 day 10
    (2021/10/src/main.rs): a line of brackets is read with a stack of open
    brackets. The first closer that does not match the top of the stack
    makes the line corrupted, scored by its kind; a line that runs out is
    incomplete, scored by the closers that would complete it. A character
    that is no bracket at all panics. */
module Syntax {
  import opened Wrappers

  predicate IsOpen(c: char) {
    c == '(' || c == '[' || c == '{' || c == '<'
  }

  predicate IsClose(c: char) {
    c == ')' || c == ']' || c == '}' || c == '>'
  }

  /** The closer that matches an opener. */
  function Partner(c: char): (d: char)
    requires IsOpen(c)
    ensures IsClose(d)
  {
    match c
    case '(' => ')'
    case '[' => ']'
    case '{' => '}'
    case '<' => '>'
  }

  lemma PartnerInjective(a: char, b: char)
    requires IsOpen(a) && IsOpen(b) && Partner(a) == Partner(b)
    ensures a == b
  {
  }

  /** The score of a corrupted line, by its first illegal closer. */
  function ErrorScore(c: char): (n: nat)
    requires IsClose(c)
    ensures n in {3, 57, 1197, 25137}
  {
    match c
    case ')' => 3
    case ']' => 57
    case '}' => 1197
    case '>' => 25137
  }

  /** The points of one open bracket in the completion score. */
  function OpenPoints(c: char): (n: nat)
    requires IsOpen(c)
    ensures 1 <= n <= 4
  {
    match c
    case '(' => 1
    case '[' => 2
    case '{' => 3
    case '<' => 4
  }

  /** The points of one closer of the completion string, as the puzzle
      scores it. */
  function ClosePoints(c: char): (n: nat)
    requires IsClose(c)
    ensures 1 <= n <= 4
  {
    match c
    case ')' => 1
    case ']' => 2
    case '}' => 3
    case '>' => 4
  }

  predicate Openers(st: seq<char>) {
    forall j :: 0 <= j < |st| ==> IsOpen(st[j])
  }

  predicate Closers(t: seq<char>) {
    forall j :: 0 <= j < |t| ==> IsClose(t[j])
  }

  /** What one character does to the stack: `Ok` with the new stack, `Err`
      with the score of an illegal closer, `None` for the panic. */
  function Step(st: seq<char>, c: char): (r: Option<Result<seq<char>, nat>>)
    requires Openers(st)
    ensures r.None? <==> !IsOpen(c) && !IsClose(c)
    ensures IsOpen(c) ==> r == Some(Ok(st + [c]))
    ensures IsClose(c) && |st| > 0 && Partner(st[|st| - 1]) == c ==> r == Some(Ok(st[..|st| - 1]))
    ensures IsClose(c) && (|st| == 0 || Partner(st[|st| - 1]) != c) ==> r == Some(Err(ErrorScore(c)))
    ensures r.Some? && r.value.Ok? ==> Openers(r.value.value)
  {
    if IsOpen(c) then Some(Ok(st + [c]))
    else if |st| > 0 && IsClose(c) && Partner(st[|st| - 1]) == c then Some(Ok(st[..|st| - 1]))
    else if IsClose(c) then Some(Err(ErrorScore(c)))
    else None
  }

  /** The loop of `parse` from stack `st` over `s`. */
  function Scan(s: string, st: seq<char>): (r: Option<Result<seq<char>, nat>>)
    requires Openers(st)
    ensures r.Some? && r.value.Ok? ==> Openers(r.value.value)
    decreases |s|
  {
    if |s| == 0 then Some(Ok(st))
    else
      match Step(st, s[0])
      case None => None
      case Some(Err(e)) => Some(Err(e))
      case Some(Ok(next)) => Scan(s[1..], next)
  }

  /** The completion score, folded over the stack from its top down to its
      bottom: five times the score so far plus the bracket's points. */
  function AutoScore(st: seq<char>): nat
    requires Openers(st)
  {
    if |st| == 0 then 0 else AutoScore(st[1..]) * 5 + OpenPoints(st[0])
  }

  /** `parse`. */
  function Parse(s: string): Option<Result<nat, nat>> {
    match Scan(s, [])
    case None => None
    case Some(Err(e)) => Some(Err(e))
    case Some(Ok(st)) => Some(Ok(AutoScore(st)))
  }

  /** Reading `s` then `t` is reading `s + t`. */
  lemma {:induction false} ScanAppend(s: string, t: string, st: seq<char>)
    requires Openers(st)
    ensures Scan(s + t, st) ==
      match Scan(s, st)
      case Some(Ok(mid)) => Scan(t, mid)
      case other => other
    decreases |s|
  {
    if |s| == 0 {
      assert s + t == t;
    } else {
      assert (s + t)[0] == s[0] && (s + t)[1..] == s[1..] + t;
      match Step(st, s[0])
      case None =>
      case Some(Err(e)) =>
      case Some(Ok(next)) => ScanAppend(s[1..], t, next);
    }
  }

  /** Extending a prefix by one character is one more step. */
  lemma ScanSnoc(s: string, i: nat, st: seq<char>)
    requires Openers(st) && i < |s|
    ensures Scan(s[..i + 1], st) ==
      match Scan(s[..i], st)
      case Some(Ok(mid)) => Step(mid, s[i])
      case other => other
  {
    assert s[..i + 1] == s[..i] + [s[i]];
    ScanAppend(s[..i], [s[i]], st);
    match Scan(s[..i], st)
    case Some(Ok(mid)) =>
      assert [s[i]][1..] == [];
    case other =>
  }

  /** A corrupted line has a first illegal closer: everything before it
      reads cleanly to a stack whose top it does not close. */
  lemma {:induction false} CorruptAt(s: string, st: seq<char>) returns (i: nat, before: seq<char>)
    requires Openers(st) && Scan(s, st).Some? && Scan(s, st).value.Err?
    ensures i < |s| && IsClose(s[i]) && Openers(before)
    ensures Scan(s[..i], st) == Some(Ok(before))
    ensures |before| == 0 || Partner(before[|before| - 1]) != s[i]
    ensures Scan(s, st).value.error == ErrorScore(s[i])
    decreases |s|
  {
    match Step(st, s[0])
    case Some(Err(e)) =>
      i, before := 0, st;
    case Some(Ok(next)) =>
      var j, b := CorruptAt(s[1..], next);
      i, before := j + 1, b;
      assert s[..i] == [s[0]] + s[1..][..j];
      ScanAppend([s[0]], s[1..][..j], st);
      assert [s[0]][1..] == [];
  }

  /** Conversely, the first illegal closer decides the line, whatever
      follows it. */
  lemma CorruptFrom(s: string, st: seq<char>, i: nat, before: seq<char>)
    requires Openers(st) && i < |s| && IsClose(s[i])
    requires Scan(s[..i], st) == Some(Ok(before))
    requires |before| == 0 || Partner(before[|before| - 1]) != s[i]
    ensures Scan(s, st) == Some(Err(ErrorScore(s[i])))
  {
    assert s == s[..i] + s[i..];
    ScanAppend(s[..i], s[i..], st);
    assert s[i..][0] == s[i];
  }

  /** The closers that complete a stack, innermost first. */
  function Completion(st: seq<char>): (t: string)
    requires Openers(st)
    ensures |t| == |st| && Closers(t)
  {
    if |st| == 0 then [] else Completion(st[1..]) + [Partner(st[0])]
  }

  /** The completion read from the other end: it starts by closing the top
      of the stack. */
  lemma {:induction false} CompletionTop(st: seq<char>)
    requires Openers(st) && |st| > 0
    ensures Completion(st) == [Partner(st[|st| - 1])] + Completion(st[..|st| - 1])
    decreases |st|
  {
    if |st| > 1 {
      CompletionTop(st[1..]);
      assert st[1..][..|st| - 2] == st[..|st| - 1][1..];
    } else {
      assert st[..0] == [];
    }
  }

  /** Appending the completion closes every open bracket. */
  lemma {:induction false} CompletionCloses(st: seq<char>)
    requires Openers(st)
    ensures Scan(Completion(st), st) == Some(Ok([]))
    decreases |st|
  {
    if |st| > 0 {
      var t := Completion(st);
      CompletionTop(st);
      assert t[0] == Partner(st[|st| - 1]) && t[1..] == Completion(st[..|st| - 1]);
      CompletionCloses(st[..|st| - 1]);
    }
  }

  /** The completion score as the puzzle states it on the completion string:
      left to right, five times the score so far plus the closer's points. */
  function CompletionScore(t: string): nat
    requires Closers(t)
  {
    if |t| == 0 then 0 else CompletionScore(t[..|t| - 1]) * 5 + ClosePoints(t[|t| - 1])
  }

  /** The fold over the reversed stack is the score of the completion
      string. */
  lemma {:induction false} AutoScoreIsCompletionScore(st: seq<char>)
    requires Openers(st)
    ensures AutoScore(st) == CompletionScore(Completion(st))
    decreases |st|
  {
    if |st| > 0 {
      AutoScoreIsCompletionScore(st[1..]);
      var t := Completion(st);
      assert t[..|t| - 1] == Completion(st[1..]);
    }
  }

  /** An incomplete or balanced line: the completion appended to it makes
      it balanced, and `parse` scores exactly that completion. */
  lemma Completes(s: string) returns (t: string)
    requires Parse(s).Some? && Parse(s).value.Ok?
    ensures Closers(t) && Parse(s).value.value == CompletionScore(t)
    ensures Parse(s + t) == Some(Ok(0))
  {
    var st := Scan(s, []).value.value;
    t := Completion(st);
    AutoScoreIsCompletionScore(st);
    CompletionCloses(st);
    ScanAppend(s, t, []);
  }

  /** The score names the stack: it is zero exactly for an empty stack,
      and its base-5 digits are the brackets' points. */
  lemma {:induction false} AutoScoreZero(st: seq<char>)
    requires Openers(st)
    ensures AutoScore(st) == 0 <==> |st| == 0
  {
  }

  /** The open bracket worth `d` points. */
  function OpenerOf(d: nat): (c: char)
    requires 1 <= d <= 4
    ensures IsOpen(c) && OpenPoints(c) == d
  {
    if d == 1 then '(' else if d == 2 then '[' else if d == 3 then '{' else '<'
  }

  /** Reading a completion score back into the stack, bottom first; `None`
      for a number with a zero base-5 digit. */
  function Unscore(n: nat): (r: Option<seq<char>>)
    ensures r.Some? ==> Openers(r.value)
  {
    if n == 0 then Some([])
    else if n % 5 == 0 then None
    else
      match Unscore(n / 5)
      case None => None
      case Some(rest) => Some([OpenerOf(n % 5)] + rest)
  }

  /** The completion score loses nothing: the stack comes back from it. */
  lemma {:induction false} UnscoreAutoScore(st: seq<char>)
    requires Openers(st)
    ensures Unscore(AutoScore(st)) == Some(st)
    decreases |st|
  {
    if |st| > 0 {
      var n := AutoScore(st);
      UnscoreAutoScore(st[1..]);
      assert n % 5 == OpenPoints(st[0]) && n / 5 == AutoScore(st[1..]);
      assert st == [st[0]] + st[1..];
    }
  }

  /** So two lines with the same completion score have the same stack. */
  lemma AutoScoreInjective(a: seq<char>, b: seq<char>)
    requires Openers(a) && Openers(b) && AutoScore(a) == AutoScore(b)
    ensures a == b
  {
    UnscoreAutoScore(a);
    UnscoreAutoScore(b);
  }

  /** A line `parse` scores `Ok(0)` is balanced: it leaves no bracket
      open. */
  lemma BalancedIsZero(s: string)
    requires Parse(s).Some? && Parse(s).value.Ok?
    ensures Parse(s).value.value == 0 <==> Scan(s, []) == Some(Ok([]))
  {
    AutoScoreZero(Scan(s, []).value.value);
  }

  /** Small lines: one for each error score, a balanced one, an
      incomplete one and a panic. */
  lemma ExampleErrors()
    ensures Parse("[)") == Some(Err(3))
    ensures Parse("(]") == Some(Err(57))
    ensures Parse("(}") == Some(Err(1197))
    ensures Parse(">") == Some(Err(25137))
  {
    assert "[)"[1..] == ")";
    assert "(]"[1..] == "]";
    assert "(}"[1..] == "}";
  }

  lemma ExampleScores()
    ensures Parse("<>") == Some(Ok(0))
    ensures Parse("(((") == Some(Ok(31))
    ensures Parse("(a") == None
  {
    assert "<>"[1..] == ">";
    assert "(a"[1..] == "a";
    assert "((("[1..] == "((" && "(("[1..] == "(";
    assert ['('] + ['('] == "((";
    assert "((" + ['('] == "(((";
  }
}

=== FILE: text.dfy ===
/** Text helpers shared by the parsers: ASCII digits, decimal rendering,
    Rust's `str::split` and `str::lines`, Rust's integer `from_str`, and the
    UTF-8 bytes behind `str::len` and `str::bytes`. */
module Text {
  import opened Wrappers

  const U8Max: nat := 0xff
  const U32Max: nat := 0xffff_ffff
  const U64Max: nat := 0xffff_ffff_ffff_ffff
  const I32Min: int := -0x8000_0000
  const I32Max: int := 0x7fff_ffff
  const I64Min: int := -0x8000_0000_0000_0000
  const I64Max: int := 0x7fff_ffff_ffff_ffff

  /** A `u8`. */
  type Byte = b: int | 0 <= b <= U8Max

  /** The UTF-8 encoding of one character, as `str::bytes` yields it. */
  function Utf8(c: char): (bs: seq<Byte>)
    ensures 1 <= |bs| <= 4
    ensures (c as int < 0x80 ==> bs == [c as int]) && (c as int >= 0x80 ==> |bs| >= 2)
  {
    var x := c as int;
    if x < 0x80 then [x]
    else if x < 0x800 then [0xC0 + x / 64, 0x80 + x % 64]
    else if x < 0x1_0000 then [0xE0 + x / 4096, 0x80 + x / 64 % 64, 0x80 + x % 64]
    else [0xF0 + x / 262144, 0x80 + x / 4096 % 64, 0x80 + x / 64 % 64, 0x80 + x % 64]
  }

  /** The UTF-8 bytes of a string, as `str::bytes` yields them; their
      number is `str::len`. */
  function Bytes(s: string): (bs: seq<Byte>)
    ensures |bs| >= |s|
    ensures Ascii(s) ==> |bs| == |s|
  {
    if |s| == 0 then [] else Utf8(s[0]) + Bytes(s[1..])
  }

  /** `str::len` of a concatenation adds up. */
  lemma {:induction false} BytesAppend(a: string, b: string)
    ensures Bytes(a + b) == Bytes(a) + Bytes(b)
  {
    if |a| > 0 {
      assert (a + b)[1..] == a[1..] + b;
      BytesAppend(a[1..], b);
    } else {
      assert a + b == b;
    }
  }

  predicate Ascii(s: string) {
    forall j :: 0 <= j < |s| ==> s[j] as int < 0x80
  }

  function Pow(b: nat, e: nat): (p: nat)
    ensures b >= 1 ==> p >= 1
  {
    if e == 0 then 1 else b * Pow(b, e - 1)
  }

  predicate IsDigit(c: char) {
    '0' <= c <= '9'
  }

  function DigitValue(c: char): (d: nat)
    requires IsDigit(c)
    ensures d < 10
  {
    c as int - '0' as int
  }

  function DigitChar(d: nat): (c: char)
    requires d < 10
    ensures IsDigit(c) && DigitValue(c) == d
  {
    ('0' as int + d) as char
  }

  predicate AllDigits(s: string) {
    forall i :: 0 <= i < |s| ==> IsDigit(s[i])
  }

  /** Decimal value of a digit string, accumulated left to right as
      `v = v * 10 + d`, the way every scanner in the repository does it. */
  function DigitsValue(s: string): nat
    requires AllDigits(s)
  {
    if |s| == 0 then 0 else DigitsValue(s[..|s| - 1]) * 10 + DigitValue(s[|s| - 1])
  }

  /** Decimal rendering without leading zeros (Rust's `Display` for integers). */
  function NatToString(n: nat): (s: string)
    ensures |s| >= 1 && AllDigits(s) && DigitsValue(s) == n
    ensures s[0] == '0' ==> n == 0
  {
    if n < 10 then [DigitChar(n)]
    else
      var s := NatToString(n / 10) + [DigitChar(n % 10)];
      assert s[..|s| - 1] == NatToString(n / 10);
      s
  }

  /** Rust's `Display` for a signed integer. */
  function IntToString(i: int): (s: string)
    ensures |s| >= 1
    ensures i >= 0 <==> s[0] != '-'
  {
    if i >= 0 then NatToString(i) else "-" + NatToString(-i)
  }

  /** Length of the longest prefix made of digits. */
  function DigitRun(s: string): (k: nat)
    ensures k <= |s| && AllDigits(s[..k])
    ensures k < |s| ==> !IsDigit(s[k])
  {
    if |s| == 0 || !IsDigit(s[0]) then 0
    else
      var k := 1 + DigitRun(s[1..]);
      assert s[..k] == [s[0]] + s[1..][..k - 1];
      k
  }

  /** The digit run of a digit string followed by a non-digit is that string. */
  lemma {:induction false} DigitRunOfDigits(d: string, tail: string)
    requires AllDigits(d)
    requires |tail| == 0 || !IsDigit(tail[0])
    ensures DigitRun(d + tail) == |d|
    ensures (d + tail)[..|d|] == d && (d + tail)[|d|..] == tail
    decreases |d|
  {
    if |d| > 0 {
      assert (d + tail)[1..] == d[1..] + tail;
      DigitRunOfDigits(d[1..], tail);
    }
  }

  /** Dropping a known prefix of a suffix. */
  lemma DropPrefix<T>(s: seq<T>, i: nat, a: seq<T>, b: seq<T>)
    requires i <= |s| && s[i..] == a + b
    ensures s[i + |a|..] == b && i + |a| <= |s|
  {
    assert s[i + |a|..] == s[i..][|a|..];
  }

  /** Index of the first `c` in `s`, or `|s|` when there is none. */
  function IndexOf(s: string, c: char): (i: nat)
    ensures i <= |s|
    ensures i < |s| ==> s[i] == c
    ensures forall j :: 0 <= j < i ==> s[j] != c
  {
    if |s| == 0 || s[0] == c then 0 else 1 + IndexOf(s[1..], c)
  }

  /** Rust's `str::split` on one character: always at least one piece,
      adjacent separators give empty pieces. */
  function Split(s: string, sep: char): (parts: seq<string>)
    ensures |parts| >= 1
    ensures forall k :: 0 <= k < |parts| ==> sep !in parts[k]
    decreases |s|
  {
    var i := IndexOf(s, sep);
    if i == |s| then [s] else [s[..i]] + Split(s[i + 1..], sep)
  }

  function Join(parts: seq<string>, sep: char): string
  {
    if |parts| == 0 then ""
    else if |parts| == 1 then parts[0]
    else parts[0] + [sep] + Join(parts[1..], sep)
  }

  lemma {:induction false} SplitJoin(parts: seq<string>, sep: char)
    requires |parts| >= 1
    requires forall k :: 0 <= k < |parts| ==> sep !in parts[k]
    ensures Split(Join(parts, sep), sep) == parts
    decreases |parts|
  {
    var s := Join(parts, sep);
    var i := |parts[0]|;
    if |parts| == 1 {
      assert IndexOf(s, sep) == |s|;
    } else {
      assert s == parts[0] + [sep] + Join(parts[1..], sep);
      assert s[i] == sep;
      assert forall j :: 0 <= j < i ==> s[j] == parts[0][j];
      assert IndexOf(s, sep) == i;
      assert s[..i] == parts[0];
      assert s[i + 1..] == Join(parts[1..], sep);
      SplitJoin(parts[1..], sep);
    }
  }

  /** A line ended by `\r\n` loses the `\r` as well. */
  function StripCr(l: string): (r: string)
    ensures r == l || (l == r + "\r")
  {
    if |l| > 0 && l[|l| - 1] == '\r' then l[..|l| - 1] else l
  }

  /** Rust's `str::lines`: the pieces between newlines, each piece that a
      newline ends losing a `\r` just before it, and the empty piece after a
      final newline dropped. A last piece without a newline keeps any `\r`. */
  function Lines(s: string): (ls: seq<string>)
    ensures forall k :: 0 <= k < |ls| ==> '\n' !in ls[k]
  {
    var p := Split(s, '\n');
    var ended := StripAll(p[..|p| - 1]);
    if p[|p| - 1] == "" then ended else ended + [p[|p| - 1]]
  }

  function StripAll(ps: seq<string>): (r: seq<string>)
    ensures |r| == |ps| && forall k :: 0 <= k < |ps| ==> r[k] == StripCr(ps[k])
  {
    seq(|ps|, k requires 0 <= k < |ps| => StripCr(ps[k]))
  }

  /** Rust's `from_str` for an unsigned type whose largest value is `max`:
      an optional `+`, then one or more digits, with no overflow. */
  function ParseNat(s: string, max: nat): (r: Option<nat>)
    ensures r.Some? ==> r.value <= max
    ensures AllDigits(s) && |s| >= 1 && DigitsValue(s) <= max ==> r == Some(DigitsValue(s))
    ensures r.Some? ==> |s| > 0 && IsDigit(s[|s| - 1])
    ensures |s| == 0 ==> r.None?
  {
    var t := if |s| > 0 && s[0] == '+' then s[1..] else s;
    if |t| == 0 || !AllDigits(t) || DigitsValue(t) > max then None
    else Some(DigitsValue(t))
  }

  /** Rust's `from_str` for a signed type with range `[min, max]`. */
  function ParseInt(s: string, min: int, max: int): (r: Option<int>)
    requires min <= 0 <= max
    ensures r.Some? ==> min <= r.value <= max
    ensures AllDigits(s) && |s| >= 1 && DigitsValue(s) <= max ==> r == Some(DigitsValue(s))
    ensures r.Some? ==> |s| > 0 && IsDigit(s[|s| - 1])
    ensures |s| == 0 ==> r.None?
  {
    if |s| > 0 && s[0] == '-' then
      var t := s[1..];
      if |t| == 0 || !AllDigits(t) then None
      else
        var v: int := DigitsValue(t);
        if -v < min then None else Some(-v)
    else
      match ParseNat(s, max)
      case Some(v) => Some(v)
      case None => None
  }

  lemma ParseIntOfString(i: int, min: int, max: int)
    requires min <= i <= max && min <= 0 <= max
    ensures ParseInt(IntToString(i), min, max) == Some(i)
  {
    if i < 0 {
      assert IntToString(i)[1..] == NatToString(-i);
    }
  }

  /** Rust's `char::is_whitespace`: the Unicode `White_Space` property. */
  predicate IsWhitespace(c: char) {
    || '\t' <= c <= '\r' || c == ' ' || c == '\U{0085}' || c == '\U{00A0}'
    || c == '\U{1680}' || '\U{2000}' <= c <= '\U{200A}' || c == '\U{2028}'
    || c == '\U{2029}' || c == '\U{202F}' || c == '\U{205F}' || c == '\U{3000}'
  }

  /** Rust's `str::trim`: the slice `s[a..b]` left after dropping the
      whitespace at both ends. */
  function Trim(s: string): (t: string)
    ensures exists a, b ::
              && 0 <= a <= b <= |s| && t == s[a..b]
              && (forall k :: 0 <= k < a ==> IsWhitespace(s[k]))
              && (forall k :: b <= k < |s| ==> IsWhitespace(s[k]))
    ensures |t| > 0 ==> !IsWhitespace(t[0]) && !IsWhitespace(t[|t| - 1])
  {
    var a := TrimStart(s);
    var b := TrimEnd(s, a);
    s[a..b]
  }

  /** The first non-whitespace position, or `|s|`. */
  function TrimStart(s: string): (a: nat)
    ensures a <= |s| && (forall k :: 0 <= k < a ==> IsWhitespace(s[k]))
    ensures a < |s| ==> !IsWhitespace(s[a])
  {
    if |s| == 0 || !IsWhitespace(s[0]) then 0 else 1 + TrimStart(s[1..])
  }

  /** One past the last non-whitespace position at or after `a`, or `a`. */
  function TrimEnd(s: string, a: nat): (b: nat)
    requires a <= |s|
    ensures a <= b <= |s| && (forall k :: b <= k < |s| ==> IsWhitespace(s[k]))
    ensures b > a ==> !IsWhitespace(s[b - 1])
    decreases |s|
  {
    if |s| == a || !IsWhitespace(s[|s| - 1]) then |s|
    else TrimEnd(s[..|s| - 1], a)
  }
  /** Rust's `u8::is_ascii_whitespace`: space, tab, line feed, form feed
      and carriage return. */
  predicate IsAsciiSpace(c: char) {
    c == ' ' || c == '\t' || c == '\n' || c == '\U{000C}' || c == '\r'
  }

  predicate NoAsciiSpace(w: string) {
    forall j :: 0 <= j < |w| ==> !IsAsciiSpace(w[j])
  }

  /** Length of the run of non-whitespace at the start of `s`. */
  function WordLen(s: string): (n: nat)
    ensures n <= |s| && NoAsciiSpace(s[..n])
    ensures n < |s| ==> IsAsciiSpace(s[n])
  {
    if |s| == 0 || IsAsciiSpace(s[0]) then 0
    else
      var n := 1 + WordLen(s[1..]);
      assert s[..n] == [s[0]] + s[1..][..n - 1];
      n
  }

  /** Rust's `str::split_ascii_whitespace`: the non-empty runs between
      ASCII whitespace. */
  function Words(s: string): (ws: seq<string>)
    ensures forall k :: 0 <= k < |ws| ==> |ws[k]| > 0 && NoAsciiSpace(ws[k])
    decreases |s|
  {
    if |s| == 0 then []
    else if IsAsciiSpace(s[0]) then Words(s[1..])
    else
      var n := WordLen(s);
      [s[..n]] + Words(s[n..])
  }

  /** Splitting words joined by single spaces gives them back. */
  lemma {:induction false} WordsJoin(ws: seq<string>)
    requires forall k :: 0 <= k < |ws| ==> |ws[k]| > 0 && NoAsciiSpace(ws[k])
    ensures Words(Join(ws, ' ')) == ws
    decreases |ws|
  {
    if |ws| == 1 {
      var s := ws[0];
      WordLenOf(s, "");
      assert s + "" == s;
      assert s[|s|..] == [];
    } else if |ws| > 1 {
      var rest := Join(ws[1..], ' ');
      var s := ws[0] + [' '] + rest;
      WordLenOf(ws[0], [' '] + rest);
      assert s == ws[0] + ([' '] + rest);
      assert s[|ws[0]|..][1..] == rest;
      WordsJoin(ws[1..]);
    }
  }

  /** The first word of a word followed by whitespace or nothing. */
  lemma {:induction false} WordLenOf(w: string, tail: string)
    requires |w| > 0 && NoAsciiSpace(w)
    requires |tail| == 0 || IsAsciiSpace(tail[0])
    ensures WordLen(w + tail) == |w|
    ensures (w + tail)[..|w|] == w && (w + tail)[|w|..] == tail
    decreases |w|
  {
    assert (w + tail)[1..] == w[1..] + tail;
    if |w| > 1 {
      WordLenOf(w[1..], tail);
    }
  }
  /** Text made of the given lines, each ended by a newline. */
  function Unlines(ls: seq<string>): string {
    if |ls| == 0 then "" else ls[0] + "\n" + Unlines(ls[1..])
  }

  lemma {:induction false} UnlinesJoin(ls: seq<string>)
    ensures Unlines(ls) == Join(ls + [""], '\n')
  {
    if |ls| > 0 {
      assert (ls + [""])[1..] == ls[1..] + [""];
      UnlinesJoin(ls[1..]);
    }
  }

  /** The lines of text whose newline pieces end with an empty one. */
  lemma LinesOfSplit(s: string, ps: seq<string>)
    requires Split(s, '\n') == ps + [""]
    ensures Lines(s) == StripAll(ps)
  {
    assert (ps + [""])[..|ps|] == ps;
  }

  lemma StripCrKeeps(l: string)
    requires '\r' !in l
    ensures StripCr(l) == l
  {
    if |l| > 0 {
      assert l[|l| - 1] in l;
    }
  }

  lemma SplitUnlines(ls: seq<string>)
    requires forall k :: 0 <= k < |ls| ==> '\n' !in ls[k]
    ensures Split(Unlines(ls), '\n') == ls + [""]
  {
    UnlinesJoin(ls);
    SplitJoin(ls + [""], '\n');
  }

  /** `str::lines` gives back lines that were each ended by a newline. A
      line that itself ends in `\r` would lose it, so none may. */
  lemma LinesUnlines(ls: seq<string>)
    requires forall k :: 0 <= k < |ls| ==> '\n' !in ls[k] && '\r' !in ls[k]
    ensures Lines(Unlines(ls)) == ls
  {
    SplitUnlines(ls);
    LinesOfSplit(Unlines(ls), ls);
    forall k | 0 <= k < |ls|
      ensures StripCr(ls[k]) == ls[k]
    {
      StripCrKeeps(ls[k]);
    }
  }

  /** Lines each ended by `\r\n`. */
  function UnlinesCrlf(ls: seq<string>): string {
    if |ls| == 0 then "" else ls[0] + "\r\n" + UnlinesCrlf(ls[1..])
  }

  /** Each line with a `\r` added. */
  function AddCr(ls: seq<string>): (r: seq<string>)
    ensures |r| == |ls| && forall k :: 0 <= k < |ls| ==> r[k] == ls[k] + "\r"
  {
    seq(|ls|, k requires 0 <= k < |ls| => ls[k] + "\r")
  }

  lemma {:induction false} UnlinesCrlfIsUnlines(ls: seq<string>)
    ensures UnlinesCrlf(ls) == Unlines(AddCr(ls))
  {
    if |ls| > 0 {
      assert AddCr(ls)[1..] == AddCr(ls[1..]);
      UnlinesCrlfIsUnlines(ls[1..]);
      assert UnlinesCrlf(ls) == (ls[0] + "\r") + "\n" + UnlinesCrlf(ls[1..]);
    }
  }

  /** `str::lines` reads text with `\r\n` line ends the same as with `\n`
      ones. */
  lemma LinesUnlinesCrlf(ls: seq<string>)
    requires forall k :: 0 <= k < |ls| ==> '\n' !in ls[k]
    ensures Lines(UnlinesCrlf(ls)) == ls
  {
    UnlinesCrlfIsUnlines(ls);
    AddCrUnbroken(ls);
    SplitUnlines(AddCr(ls));
    LinesOfSplit(UnlinesCrlf(ls), AddCr(ls));
    StripAddCr(ls);
  }

  lemma AddCrUnbroken(ls: seq<string>)
    requires forall k :: 0 <= k < |ls| ==> '\n' !in ls[k]
    ensures forall k :: 0 <= k < |ls| ==> '\n' !in AddCr(ls)[k]
  {
    forall k | 0 <= k < |ls|
      ensures '\n' !in AddCr(ls)[k]
    {
      assert AddCr(ls)[k] == ls[k] + "\r";
    }
  }

  lemma StripAddCr(ls: seq<string>)
    ensures StripAll(AddCr(ls)) == ls
  {
    var cr := AddCr(ls);
    forall k | 0 <= k < |ls|
      ensures StripCr(cr[k]) == ls[k]
    {
      assert cr[k][..|cr[k]| - 1] == ls[k];
    }
  }
}

=== FILE: threebit.dfy ===
/** The three-bit computer of 2024 day 17 (2024/17/src/lib.rs): registers
    `A`, `B`, `C` of 64 bits, a tape of 3-bit numbers read as
    opcode/operand pairs, and eight instructions. */
module ThreeBit {
  import opened Wrappers
  import opened Text
  import Util2024
  import opened Bits

  /** Registers are `u64`. */
  const Word: nat := 0x1_0000_0000_0000_0000

  datatype Combo = RegA | RegB | RegC | Lit(v: nat)

  datatype Opcode =
    | Adv(c: Combo)
    | Bxl(x: nat)
    | Bst(c: Combo)
    | Jnz(target: nat)
    | Bxc
    | Out(c: Combo)
    | Bdv(c: Combo)
    | Cdv(c: Combo)

  datatype Vm = Vm(a: nat, b: nat, c: nat, ip: nat, tape: seq<nat>)

  datatype Outcome = Output(v: nat) | Continue | Done

  /** Panics of the source, and the fuel bound of `Run`. */
  datatype Fault =
    | BadCombo(v: nat)
    | BadOpcode(op: nat)
    | OddTape
    | ShiftOverflow
    | BadInput
    | OutOfFuel

  predicate ValidRegs(vm: Vm) {
    vm.a < Word && vm.b < Word && vm.c < Word
  }

  /** `Combo::new`: 0..=3 are literals, 4..=6 name a register, 7 panics. */
  function NewCombo(v: nat): (r: Result<Combo, Fault>)
    ensures v <= 3 <==> r.Ok? && r.value.Lit?
    ensures v <= 3 ==> r == Ok(Lit(v))
    ensures v == 4 <==> r == Ok(RegA)
    ensures v == 5 <==> r == Ok(RegB)
    ensures v == 6 <==> r == Ok(RegC)
    ensures v >= 7 <==> r.Err?
  {
    if v <= 3 then Ok(Lit(v))
    else if v == 4 then Ok(RegA)
    else if v == 5 then Ok(RegB)
    else if v == 6 then Ok(RegC)
    else Err(BadCombo(v))
  }

  /** `Opcode::new`: the combo operand is decoded (and may panic) for
      exactly the instructions that take one. */
  function NewOpcode(op: nat, operand: nat): (r: Result<Opcode, Fault>)
    ensures op >= 8 ==> r == Err(BadOpcode(op))
    ensures op in {1, 3, 4} ==> r.Ok?
    ensures op in {0, 2, 5, 6, 7} ==> (r.Ok? <==> operand < 7)
  {
    match op
    case 0 => var c :- NewCombo(operand); Ok(Adv(c))
    case 1 => Ok(Bxl(operand))
    case 2 => var c :- NewCombo(operand); Ok(Bst(c))
    case 3 => Ok(Jnz(operand))
    case 4 => Ok(Bxc)
    case 5 => var c :- NewCombo(operand); Ok(Out(c))
    case 6 => var c :- NewCombo(operand); Ok(Bdv(c))
    case 7 => var c :- NewCombo(operand); Ok(Cdv(c))
    case _ => Err(BadOpcode(op))
  }

  function ComboValue(vm: Vm, c: Combo): nat {
    match c
    case Lit(v) => v
    case RegA => vm.a
    case RegB => vm.b
    case RegC => vm.c
  }

  lemma WordIsPow()
    ensures Word == Pow2(64)
  {
    Pow2Of64();
  }

  /** `a >> k` on `u64`: a shift of 64 or more is an overflow panic. */
  function Shr(x: nat, k: nat): (r: Result<nat, Fault>)
    ensures k >= 64 <==> r.Err?
    ensures r.Ok? ==> r.value <= x
  {
    if k >= 64 then Err(ShiftOverflow) else Ok(x / Pow2(k))
  }

  /** `apply`: `ip` has already moved past the pair. */
  function Apply(vm: Vm, op: Opcode): (r: Result<(Vm, Outcome), Fault>)
    ensures r.Ok? ==> r.value.1 != Done && r.value.0.tape == vm.tape
    ensures r.Ok? && r.value.1.Output? ==> op.Out? && r.value.1.v < 8 && r.value.0 == vm
    ensures r.Ok? && !op.Jnz? ==> r.value.0.ip == vm.ip
    ensures r.Ok? && (op.Adv? || op.Jnz? || op.Out?) ==> r.value.0.b == vm.b
    ensures r.Ok? && !op.Cdv? ==> r.value.0.c == vm.c
    ensures r.Ok? && !op.Adv? ==> r.value.0.a == vm.a
    ensures r.Ok? && op.Jnz? ==> r.value.0.ip == (if vm.a != 0 then op.target else vm.ip)
  {
    match op
    case Adv(c) => var x :- Shr(vm.a, ComboValue(vm, c)); Ok((vm.(a := x), Continue))
    case Bxl(x) => Ok((vm.(b := Xor(vm.b, x)), Continue))
    case Bst(c) => Ok((vm.(b := ComboValue(vm, c) % 8), Continue))
    case Jnz(t) => if vm.a != 0 then Ok((vm.(ip := t), Continue)) else Ok((vm, Continue))
    case Bxc => Ok((vm.(b := Xor(vm.b, vm.c)), Continue))
    case Out(c) => Ok((vm, Output(ComboValue(vm, c) % 8)))
    case Bdv(c) => var x :- Shr(vm.a, ComboValue(vm, c)); Ok((vm.(b := x), Continue))
    case Cdv(c) => var x :- Shr(vm.a, ComboValue(vm, c)); Ok((vm.(c := x), Continue))
  }

  /** `step`: `Done` once `ip` is past the tape, otherwise decode the
      pair at `ip`, move past it and apply it. */
  function Step(vm: Vm): (r: Result<(Vm, Outcome), Fault>)
    ensures vm.ip >= |vm.tape| <==> r == Ok((vm, Done))
    ensures r.Ok? && r.value.1 != Done ==> r.value.0.tape == vm.tape
  {
    if vm.ip >= |vm.tape| then Ok((vm, Done))
    else if vm.ip + 1 >= |vm.tape| then Err(OddTape)
    else
      var op :- NewOpcode(vm.tape[vm.ip], vm.tape[vm.ip + 1]);
      Apply(vm.(ip := vm.ip + 2), op)
  }

  /** `run_to_completion`, for at most `fuel` steps. */
  function Run(vm: Vm, fuel: nat): (r: Result<seq<nat>, Fault>)
    ensures r.Ok? ==> forall k :: 0 <= k < |r.value| ==> r.value[k] < 8
    decreases fuel
  {
    if fuel == 0 then Err(OutOfFuel)
    else
      var s :- Step(vm);
      match s.1
      case Done => Ok([])
      case Continue => Run(s.0, fuel - 1)
      case Output(v) =>
        var rest :- Run(s.0, fuel - 1);
        Ok([v] + rest)
  }

  /** `Vm::new`: the first integer of each of three register lines, a blank
      line, then every integer of the program line. */
  function Parse(s: string): (r: Result<Vm, Fault>)
    ensures r.Ok? ==> r.value.ip == 0 && |Lines(s)| >= 5 && Lines(s)[3] == ""
  {
    var lines := Lines(s);
    if |lines| < 5 then Err(BadInput)
    else
      var ra := Util2024.GetIntegers(lines[0]);
      var rb := Util2024.GetIntegers(lines[1]);
      var rc := Util2024.GetIntegers(lines[2]);
      if |ra| == 0 || |rb| == 0 || |rc| == 0 || lines[3] != "" then Err(BadInput)
      else Ok(Vm(ra[0], rb[0], rc[0], 0, Util2024.GetIntegers(lines[4])))
  }

  /** The puzzle text of a machine: three register lines, a blank line and
      the program, comma-separated. */
  function Render(vm: Vm): string {
    Unlines(RenderLines(vm))
  }

  function RenderLines(vm: Vm): seq<string> {
    [ "Register A: " + NatToString(vm.a),
      "Register B: " + NatToString(vm.b),
      "Register C: " + NatToString(vm.c),
      "",
      "Program: " + Util2024.RenderNumbers(vm.tape, ",") ]
  }

  // --------------------------------------------------------------- properties

  /** Parsing the text of a machine gives that machine back, ready to run
      from its first instruction. */
  lemma ParseRender(vm: Vm)
    ensures Parse(Render(vm)) == Ok(vm.(ip := 0))
  {
    RenderLinesSplit(vm);
    RenderLinesRead(vm);
    ParseOfLines(Render(vm), RenderLines(vm), vm.(ip := 0));
  }

  /** What the scanner reads off each line of a machine's text. */
  lemma RenderLinesRead(vm: Vm)
    ensures |RenderLines(vm)| == 5 && RenderLines(vm)[3] == ""
    ensures Util2024.GetIntegers(RenderLines(vm)[0]) == [vm.a]
    ensures Util2024.GetIntegers(RenderLines(vm)[1]) == [vm.b]
    ensures Util2024.GetIntegers(RenderLines(vm)[2]) == [vm.c]
    ensures Util2024.GetIntegers(RenderLines(vm)[4]) == vm.tape
  {
    var ls := RenderLines(vm);
    RegisterLine("Register A: ", vm.a, ls[0]);
    RegisterLine("Register B: ", vm.b, ls[1]);
    RegisterLine("Register C: ", vm.c, ls[2]);
    ProgramLine(vm.tape, ls[4]);
  }

  /** A register line reads back as its value. */
  lemma RegisterLine(head: string, x: nat, line: string)
    requires forall k :: 0 <= k < |head| ==> !IsDigit(head[k])
    requires line == head + NatToString(x)
    ensures Util2024.GetIntegers(line) == [x]
  {
    assert Util2024.RenderNumbers([x], ",") == NatToString(x);
    Util2024.GetIntegersAfterLabel(head, [x], ",");
  }

  /** The program line reads back as the tape. */
  lemma ProgramLine(tape: seq<nat>, line: string)
    requires line == "Program: " + Util2024.RenderNumbers(tape, ",")
    ensures Util2024.GetIntegers(line) == tape
  {
    Util2024.GetIntegersAfterLabel("Program: ", tape, ",");
  }

  /** Splitting a machine's text into lines gives back the lines it was
      made of. */
  lemma RenderLinesSplit(vm: Vm)
    ensures Lines(Render(vm)) == RenderLines(vm)
  {
    RenderLinesUnbroken(vm);
    LinesUnlines(RenderLines(vm));
  }

  /** `Parse` reads a machine off any text whose lines carry its registers
      and program. */
  lemma ParseOfLines(s: string, ls: seq<string>, vm: Vm)
    requires Lines(s) == ls && |ls| == 5 && ls[3] == "" && vm.ip == 0
    requires Util2024.GetIntegers(ls[0]) == [vm.a]
    requires Util2024.GetIntegers(ls[1]) == [vm.b]
    requires Util2024.GetIntegers(ls[2]) == [vm.c]
    requires Util2024.GetIntegers(ls[4]) == vm.tape
    ensures Parse(s) == Ok(vm)
  {
  }

  /** No line of a machine's text holds a line break. */
  lemma RenderLinesUnbroken(vm: Vm)
    ensures forall k :: 0 <= k < |RenderLines(vm)| ==>
      '\n' !in RenderLines(vm)[k] && '\r' !in RenderLines(vm)[k]
  {
    Digits("Register A: ", vm.a);
    Digits("Register B: ", vm.b);
    Digits("Register C: ", vm.c);
    Program(vm.tape);
  }

  /** The program line holds its label, digits and commas. */
  lemma Program(tape: seq<nat>)
    ensures '\n' !in "Program: " + Util2024.RenderNumbers(tape, ",")
    ensures '\r' !in "Program: " + Util2024.RenderNumbers(tape, ",")
  {
    Util2024.RenderedChars(tape, ",");
  }

  /** A label followed by digits holds no line break. */
  lemma Digits(head: string, x: nat)
    requires '\n' !in head && '\r' !in head
    ensures '\n' !in head + NatToString(x) && '\r' !in head + NatToString(x)
  {
    assert AllDigits(NatToString(x));
  }

  /** Every instruction keeps the registers within 64 bits. */
  lemma StepKeepsWidth(vm: Vm)
    requires ValidRegs(vm) && forall k :: 0 <= k < |vm.tape| ==> vm.tape[k] < 8
    requires Step(vm).Ok?
    ensures ValidRegs(Step(vm).value.0)
  {
    if vm.ip + 1 < |vm.tape| {
      var op := NewOpcode(vm.tape[vm.ip], vm.tape[vm.ip + 1]).value;
      ApplyKeepsWidth(vm.(ip := vm.ip + 2), op);
    }
  }

  lemma ApplyKeepsWidth(vm: Vm, op: Opcode)
    requires ValidRegs(vm) && (op.Bxl? ==> op.x < 8)
    requires Apply(vm, op).Ok?
    ensures ValidRegs(Apply(vm, op).value.0)
  {
    WordIsPow();
    match op
    case Bxl(x) => XorBound(vm.b, x, 64);
    case Bxc => XorBound(vm.b, vm.c, 64);
    case _ =>
  }

  /** A step that is not `Done` moves `ip` two places on, unless it
      is a taken `jnz`, which moves it to the operand. */
  lemma StepAdvances(vm: Vm)
    requires vm.ip < |vm.tape| && Step(vm).Ok?
    ensures var next := Step(vm).value.0;
      if vm.tape[vm.ip] == 3 && vm.a != 0 then next.ip == vm.tape[vm.ip + 1]
      else next.ip == vm.ip + 2
  {
  }

  /** `out` emits the combo operand's low three bits; `jnz` jumps exactly
      when `A` is not zero. */
  lemma OutAndJnz(vm: Vm, c: Combo, t: nat)
    ensures Apply(vm, Out(c)) == Ok((vm, Output(ComboValue(vm, c) % 8)))
    ensures Apply(vm, Jnz(t)).Ok?
    ensures Apply(vm, Jnz(t)).value.0.ip == (if vm.a != 0 then t else vm.ip)
  {
  }

  // ----------------------------------------------------------------- example

  function ExampleTape(): seq<nat> {
    [0, 1, 5, 4, 3, 0]
  }

  /** What `adv 1; out 4; jnz 0` prints from `A = x`: the low three bits of
      each halving of `x`, down to and including zero. */
  function HalvingOutputs(x: nat): (r: seq<nat>)
    ensures |r| >= 1
    decreases x
  {
    var y := x / 2;
    [y % 8] + (if y != 0 then HalvingOutputs(y) else [])
  }

  lemma {:induction false} ExampleLoop(x: nat, b: nat, c: nat)
    ensures Run(Vm(x, b, c, 0, ExampleTape()), 3 * |HalvingOutputs(x)| + 1) == Ok(HalvingOutputs(x))
    decreases x
  {
    var t := ExampleTape();
    var y := x / 2;
    ExampleAdvOut(x, b, c);
    ExampleJnz(y, b, c);
    if y != 0 {
      ExampleLoop(y, b, c);
      RunThree(Vm(x, b, c, 0, t), Vm(y, b, c, 2, t), Vm(y, b, c, 4, t), Vm(y, b, c, 0, t), y % 8, 3 * |HalvingOutputs(y)| + 1);
    } else {
      ExampleHalt(b, c);
      RunThree(Vm(x, b, c, 0, t), Vm(y, b, c, 2, t), Vm(y, b, c, 4, t), Vm(y, b, c, 6, t), y % 8, 1);
    }
  }

  /** `adv 1` halves `A`, then `out 4` prints its low three bits. */
  lemma ExampleAdvOut(x: nat, b: nat, c: nat)
    ensures var t := ExampleTape();
      && Step(Vm(x, b, c, 0, t)) == Ok((Vm(x / 2, b, c, 2, t), Continue))
      && Step(Vm(x / 2, b, c, 2, t)) == Ok((Vm(x / 2, b, c, 4, t), Output((x / 2) % 8)))
  {
  }

  /** `jnz 0` loops back while `A` is not zero and falls off the end
      otherwise. */
  lemma ExampleJnz(y: nat, b: nat, c: nat)
    ensures var t := ExampleTape();
      Step(Vm(y, b, c, 4, t)) == Ok((Vm(y, b, c, if y != 0 then 0 else 6, t), Continue))
  {
  }

  lemma ExampleHalt(b: nat, c: nat)
    ensures Run(Vm(0, b, c, 6, ExampleTape()), 1) == Ok([])
  {
  }

  lemma RunThree(vm: Vm, vm1: Vm, vm2: Vm, vm3: Vm, v: nat, fuel: nat)
    requires Step(vm) == Ok((vm1, Continue)) && Step(vm1) == Ok((vm2, Output(v)))
    requires Step(vm2) == Ok((vm3, Continue)) && Run(vm3, fuel).Ok?
    ensures Run(vm, fuel + 3) == Ok([v] + Run(vm3, fuel).value)
  {
    assert Run(vm2, fuel + 1) == Run(vm3, fuel);
    assert Run(vm1, fuel + 2) == Ok([v] + Run(vm3, fuel).value);
  }

  /** The first example: `A = 729` with program `0,1,5,4,3,0` prints
      `4,6,3,5,6,3,5,2,1,0`. */
  lemma Example(a: nat)
    requires a == 729
    ensures Run(Vm(a, 0, 0, 0, ExampleTape()), 31) == Ok([4, 6, 3, 5, 6, 3, 5, 2, 1, 0])
  {
    Halvings729(a);
    ExampleLoop(a, 0, 0);
  }

  lemma HalvingStep(x: nat, tail: seq<nat>)
    requires x / 2 != 0 && HalvingOutputs(x / 2) == tail
    ensures HalvingOutputs(x) == [(x / 2) % 8] + tail
  {
  }

  lemma Halvings45(x: nat)
    requires x == 45
    ensures HalvingOutputs(x) == [6, 3, 5, 2, 1, 0]
  {
    var x1 := x / 2;
    var x2 := x1 / 2;
    var x3 := x2 / 2;
    var x4 := x3 / 2;
    var x5 := x4 / 2;
    assert x5 == 1 && x4 == 2 && x3 == 5 && x2 == 11 && x1 == 22;
    assert HalvingOutputs(x5) == [0];
    HalvingStep(x4, [0]);
    HalvingStep(x3, [1, 0]);
    HalvingStep(x2, [2, 1, 0]);
    HalvingStep(x1, [5, 2, 1, 0]);
    HalvingStep(x, [3, 5, 2, 1, 0]);
  }

  lemma Halvings182(x: nat)
    requires x == 182
    ensures HalvingOutputs(x) == [3, 5, 6, 3, 5, 2, 1, 0]
  {
    var x1 := x / 2;
    var x2 := x1 / 2;
    assert x2 == 45 && x1 == 91;
    Halvings45(x2);
    HalvingStep(x1, [6, 3, 5, 2, 1, 0]);
    HalvingStep(x, [5, 6, 3, 5, 2, 1, 0]);
  }

  lemma Halvings729(x: nat)
    requires x == 729
    ensures HalvingOutputs(x) == [4, 6, 3, 5, 6, 3, 5, 2, 1, 0]
  {
    var x1 := x / 2;
    var x2 := x1 / 2;
    assert x2 == 182 && x1 == 364;
    Halvings182(x2);
    HalvingStep(x1, [3, 5, 6, 3, 5, 2, 1, 0]);
    HalvingStep(x, [6, 3, 5, 6, 3, 5, 2, 1, 0]);
  }
}

=== FILE: trebuchet.dfy ===
/** Trebuchet calibration (2023/01/src/lib.rs): the value of a line is its
    first digit times ten plus its last digit; part two also reads the
    spelled-out digits `one` to `nine`, overlapping ones included. */
module Trebuchet {
  import opened Wrappers
  import opened Text

  /** `Digits`: the first and the last digit recorded so far. */
  datatype Digits = Digits(first: Option<nat>, last: Option<nat>)

  /** `record`: the first digit is set once, the last every time. */
  function Record(d: Digits, i: nat): Digits {
    Digits(if d.first.Some? then d.first else Some(i), Some(i))
  }

  /** `value`: both `unwrap`s panic (`None`) on a line with no digit. */
  function Value(d: Digits): Option<nat> {
    if d.first.Some? && d.last.Some? then Some(d.first.value * 10 + d.last.value) else None
  }

  // ------------------------------------------------------------ reference

  /** The first and the last digit found along a line, one slot per
      position. */
  function First(ts: seq<Option<nat>>): Option<nat> {
    if |ts| == 0 then None
    else if ts[0].Some? then ts[0]
    else First(ts[1..])
  }

  function Last(ts: seq<Option<nat>>): Option<nat> {
    if |ts| == 0 then None
    else if ts[|ts| - 1].Some? then ts[|ts| - 1]
    else Last(ts[..|ts| - 1])
  }

  /** `First` finds the earliest digit and `Last` the latest. */
  lemma {:induction false} FirstFinds(ts: seq<Option<nat>>)
    ensures First(ts).Some? <==> exists i :: 0 <= i < |ts| && ts[i].Some?
    ensures First(ts).Some? ==> exists i :: 0 <= i < |ts| && ts[i] == First(ts) && forall j :: 0 <= j < i ==> ts[j].None?
  {
    if |ts| > 0 && ts[0].None? {
      FirstFinds(ts[1..]);
      assert forall i :: 1 <= i < |ts| ==> ts[i] == ts[1..][i - 1];
      if First(ts).Some? {
        var i :| 0 <= i < |ts[1..]| && ts[1..][i] == First(ts) && forall j :: 0 <= j < i ==> ts[1..][j].None?;
        assert ts[i + 1] == First(ts);
      }
    }
  }

  lemma {:induction false} LastFinds(ts: seq<Option<nat>>)
    ensures Last(ts).Some? <==> exists i :: 0 <= i < |ts| && ts[i].Some?
    ensures Last(ts).Some? ==> exists i :: 0 <= i < |ts| && ts[i] == Last(ts) && forall j :: i < j < |ts| ==> ts[j].None?
  {
    if |ts| > 0 && ts[|ts| - 1].None? {
      var init := ts[..|ts| - 1];
      LastFinds(init);
      assert forall i :: 0 <= i < |init| ==> ts[i] == init[i];
    }
  }

  /** The calibration value the digits along a line give. */
  function Calibration(ts: seq<Option<nat>>): Option<nat> {
    match (First(ts), Last(ts))
    case (Some(a), Some(b)) => Some(a * 10 + b)
    case _ => None
  }

  /** A line has a value exactly when some digit is found along it. */
  lemma CalibrationDefined(ts: seq<Option<nat>>)
    ensures Calibration(ts).Some? <==> exists i :: 0 <= i < |ts| && ts[i].Some?
  {
    FirstFinds(ts);
    LastFinds(ts);
  }

  /** The value is then the earliest digit times ten plus the latest one. */
  lemma CalibrationMeans(ts: seq<Option<nat>>)
    ensures Calibration(ts).Some? ==> exists i, j :: (0 <= i <= j < |ts| && ts[i].Some? && ts[j].Some?
      && (forall k :: 0 <= k < i ==> ts[k].None?) && (forall k :: j < k < |ts| ==> ts[k].None?)
      && Calibration(ts).value == ts[i].value * 10 + ts[j].value)
  {
    FirstFinds(ts);
    LastFinds(ts);
    if Calibration(ts).Some? {
      var i :| 0 <= i < |ts| && ts[i] == First(ts) && forall j :: 0 <= j < i ==> ts[j].None?;
      var j :| 0 <= j < |ts| && ts[j] == Last(ts) && forall k :: j < k < |ts| ==> ts[k].None?;
      assert i <= j;
    }
  }

  /** `value` of what was recorded is the calibration value. */
  lemma ValueIsCalibration(ts: seq<Option<nat>>)
    ensures Value(Digits(First(ts), Last(ts))) == Calibration(ts)
  {
  }

  /** One more position keeps the first digit found and moves the last. */
  lemma {:induction false} FirstSnoc(ts: seq<Option<nat>>, t: Option<nat>)
    ensures First(ts + [t]) == if First(ts).Some? then First(ts) else t
  {
    if |ts| == 0 {
      assert ts + [t] == [t];
    } else {
      assert (ts + [t])[1..] == ts[1..] + [t];
      FirstSnoc(ts[1..], t);
    }
  }

  lemma LastSnoc(ts: seq<Option<nat>>, t: Option<nat>)
    ensures Last(ts + [t]) == if t.Some? then t else Last(ts)
  {
    assert (ts + [t])[..|ts|] == ts;
  }

  /** Recording the digits of `ts` in order leaves its first and last. */
  lemma RecordStep(d: Digits, ts: seq<Option<nat>>, t: Option<nat>)
    requires d == Digits(First(ts), Last(ts))
    ensures (if t.Some? then Record(d, t.value) else d) == Digits(First(ts + [t]), Last(ts + [t]))
  {
    FirstSnoc(ts, t);
    LastSnoc(ts, t);
  }

  // ------------------------------------------------------------- part one

  /** The digit at position `p`, as `to_digit(10)` reads it. */
  function DigitAt(s: string, p: nat): Option<nat>
    requires p < |s|
  {
    if IsDigit(s[p]) then Some(DigitValue(s[p])) else None
  }

  /** The digits part one reads at the first `n` positions. */
  function Digits1(s: string, n: nat): (ts: seq<Option<nat>>)
    requires n <= |s|
    ensures |ts| == n
  {
    if n == 0 then [] else Digits1(s, n - 1) + [DigitAt(s, n - 1)]
  }

  lemma {:induction false} Digits1At(s: string, n: nat, p: nat)
    requires p < n <= |s|
    ensures Digits1(s, n)[p] == DigitAt(s, p)
  {
    var init := Digits1(s, n - 1);
    assert Digits1(s, n) == init + [DigitAt(s, n - 1)];
    if p < n - 1 {
      Digits1At(s, n - 1, p);
      assert (init + [DigitAt(s, n - 1)])[p] == init[p];
    }
  }

  /** `score1`: record every numeric digit in order; a line without one
      has no value. */
  method Score1(s: string) returns (r: Option<nat>)
    ensures r == Calibration(Digits1(s, |s|))
  {
    var out := Digits(None, None);
    var k := 0;
    while k < |s|
      invariant k <= |s|
      invariant out == Digits(First(Digits1(s, k)), Last(Digits1(s, k)))
    {
      RecordStep(out, Digits1(s, k), DigitAt(s, k));
      if IsDigit(s[k]) {
        out := Record(out, DigitValue(s[k]));
      }
      k := k + 1;
    }
    ValueIsCalibration(Digits1(s, k));
    r := Value(out);
  }

  // ------------------------------------------------------------- part two

  const Words: seq<string> := ["one", "two", "three", "four", "five", "six", "seven", "eight", "nine"]

  /** The first word of `Words`, from index `i`, that the text from `p`
      starts with: one more than its index is the digit it spells. */
  function WordFrom(s: string, p: nat, i: nat): Option<nat>
    requires p <= |s| && i <= |Words|
    decreases |Words| - i
  {
    if i == |Words| then None
    else if Words[i] <= s[p..] then Some(i + 1)
    else WordFrom(s, p, i + 1)
  }

  /** `WordFrom` finds the first word from index `i` that the text from `p`
      starts with, and `None` when there is none. */
  lemma {:induction false} WordFromFinds(s: string, p: nat, i: nat)
    requires p <= |s| && i <= |Words|
    ensures var r := WordFrom(s, p, i);
      && (r.Some? ==> i < r.value <= |Words| && Words[r.value - 1] <= s[p..])
      && (r.None? ==> forall j :: i <= j < |Words| ==> !(Words[j] <= s[p..]))
      && (r.Some? ==> forall j :: i <= j < r.value - 1 ==> !(Words[j] <= s[p..]))
    decreases |Words| - i
  {
    if i < |Words| && !(Words[i] <= s[p..]) {
      WordFromFinds(s, p, i + 1);
    }
  }

  /** What `score2` records at position `p`: a spelled digit starting
      there, else a numeric digit there. The source tries both, but no word
      starts with a digit, so at most one applies. */
  function TokenAt(s: string, p: nat): Option<nat>
    requires p <= |s|
  {
    match WordFrom(s, p, 0)
    case Some(n) => Some(n)
    case None => if p < |s| && IsDigit(s[p]) then Some(DigitValue(s[p])) else None
  }

  /** The digits part two reads at the first `n` positions. */
  function Digits2(s: string, n: nat): (ts: seq<Option<nat>>)
    requires n <= |s| + 1
    ensures |ts| == n
  {
    if n == 0 then [] else Digits2(s, n - 1) + [TokenAt(s, n - 1)]
  }

  lemma {:induction false} Digits2At(s: string, n: nat, p: nat)
    requires p < n <= |s| + 1
    ensures Digits2(s, n)[p] == TokenAt(s, p)
  {
    var init := Digits2(s, n - 1);
    assert Digits2(s, n) == init + [TokenAt(s, n - 1)];
    if p < n - 1 {
      Digits2At(s, n - 1, p);
      assert (init + [TokenAt(s, n - 1)])[p] == init[p];
    }
  }

  /** A spelled digit starts with a letter. */
  lemma WordNotDigit(s: string, p: nat)
    requires p < |s| && WordFrom(s, p, 0).Some?
    ensures !IsDigit(s[p])
  {
    WordFromFinds(s, p, 0);
    var n := WordFrom(s, p, 0).value;
    var w := Words[n - 1];
    assert w <= s[p..] && |w| > 0;
    assert w[0] == s[p];
    assert 'e' <= w[0] <= 't' by {
      if n <= 3 {
        assert w[0] in "ott";
      } else if n <= 6 {
        assert w[0] in "ffs";
      } else {
        assert w[0] in "sen";
      }
    }
  }

  /** What `score2` records at position `p`: a spelled digit starting
      there, then a numeric digit there. */
  function RecordAt(out: Digits, s: string, p: nat): Digits
    requires p <= |s|
  {
    var spelled := match WordFrom(s, p, 0) case Some(n) => Record(out, n) case None => out;
    if p < |s| && IsDigit(s[p]) then Record(spelled, DigitValue(s[p])) else spelled
  }

  /** The two records at a position are one record of its token. */
  lemma RecordAtToken(out: Digits, s: string, p: nat)
    requires p <= |s|
    ensures RecordAt(out, s, p) == if TokenAt(s, p).Some? then Record(out, TokenAt(s, p).value) else out
  {
    if p < |s| && IsDigit(s[p]) && WordFrom(s, p, 0).Some? {
      WordNotDigit(s, p);
    }
  }

  /** `score2`: at every position, including the end of the line, record a
      spelled digit that starts there, then a numeric digit there. */
  method Score2(s: string) returns (r: Option<nat>)
    ensures r == Calibration(Digits2(s, |s| + 1))
  {
    var out := Digits(None, None);
    var p := 0;
    while true
      invariant p <= |s|
      invariant out == Digits(First(Digits2(s, p)), Last(Digits2(s, p)))
      decreases |s| - p
    {
      RecordStep(out, Digits2(s, p), TokenAt(s, p));
      RecordAtToken(out, s, p);
      out := RecordAt(out, s, p);
      if p < |s| {
        p := p + 1;
      } else {
        ValueIsCalibration(Digits2(s, p + 1));
        return Value(out);
      }
    }
  }

  /** A line with a numeric digit has a value in part two as well. */
  lemma PartTwoReadsMore(s: string)
    ensures Calibration(Digits1(s, |s|)).Some? ==> Calibration(Digits2(s, |s| + 1)).Some?
  {
    DigitsCovered(s);
    CalibrationCovers(Digits1(s, |s|), Digits2(s, |s| + 1));
  }

  lemma DigitsCovered(s: string)
    ensures forall p :: 0 <= p < |s| && Digits1(s, |s|)[p].Some? ==> Digits2(s, |s| + 1)[p].Some?
  {
    forall p | 0 <= p < |s| && Digits1(s, |s|)[p].Some?
      ensures Digits2(s, |s| + 1)[p].Some?
    {
      Digits1At(s, |s|, p);
      Digits2At(s, |s| + 1, p);
      TokenAtDigit(s, p);
    }
  }

  /** Reading at least the digits of `a` finds a value whenever `a` does. */
  lemma CalibrationCovers(a: seq<Option<nat>>, b: seq<Option<nat>>)
    requires |a| <= |b| && forall p :: 0 <= p < |a| && a[p].Some? ==> b[p].Some?
    ensures Calibration(a).Some? ==> Calibration(b).Some?
  {
    CalibrationDefined(a);
    CalibrationDefined(b);
  }

  /** A numeric digit is always read in part two. */
  lemma TokenAtDigit(s: string, p: nat)
    requires p < |s| && IsDigit(s[p])
    ensures TokenAt(s, p).Some?
  {
    var w := WordFrom(s, p, 0);
    if w.None? {
      assert TokenAt(s, p) == Some(DigitValue(s[p]));
    }
  }

  /** Overlapping words both count: `twone` reads two, then one. */
  lemma Overlapping()
    ensures Calibration(Digits2("twone", 6)) == Some(21)
  {
    var s := "twone";
    TwoneStarts();
    TwoneEnds();
    assert First(Digits2(s, 1)) == Some(2);
    FirstSnoc(Digits2(s, 1), TokenAt(s, 1));
    FirstSnoc(Digits2(s, 2), TokenAt(s, 2));
    FirstSnoc(Digits2(s, 3), TokenAt(s, 3));
    FirstSnoc(Digits2(s, 4), TokenAt(s, 4));
    FirstSnoc(Digits2(s, 5), TokenAt(s, 5));
    LastSnoc(Digits2(s, 2), TokenAt(s, 2));
    LastSnoc(Digits2(s, 3), TokenAt(s, 3));
    LastSnoc(Digits2(s, 4), TokenAt(s, 4));
    LastSnoc(Digits2(s, 5), TokenAt(s, 5));
  }

  lemma TwoneStarts()
    ensures WordFrom("twone", 0, 0) == Some(2)
    ensures WordFrom("twone", 2, 0) == Some(1)
  {
    assert "twone"[0..] == "twone" && "twone"[2..] == "one";
    assert "one"[0] != "twone"[0];
  }

  lemma TwoneEnds()
    ensures WordFrom("twone", 3, 0) == None
    ensures WordFrom("twone", 4, 0) == None
    ensures WordFrom("twone", 5, 0) == None
  {
    NoWordIn("twone", 3, "ne");
    NoWordIn("twone", 4, "e");
    NoWordIn("twone", 5, "");
  }

  /** No word fits in a two-letter tail. */
  lemma NoWordIn(s: string, p: nat, tail: string)
    requires p <= |s| && s[p..] == tail && |tail| < 3
    ensures WordFrom(s, p, 0) == None
  {
    NoWordFrom(s, p, 0);
  }

  lemma {:induction false} NoWordFrom(s: string, p: nat, i: nat)
    requires p <= |s| && |s| - p < 3 && i <= |Words|
    ensures WordFrom(s, p, i) == None
    decreases |Words| - i
  {
    if i < |Words| {
      assert |Words[i]| >= 3;
      NoWordFrom(s, p, i + 1);
    }
  }

  // ---------------------------------------------------------------- solve

  /** The value of a line in part one or part two. */
  function LineValue(line: string, two: bool): Option<nat> {
    if two then Calibration(Digits2(line, |line| + 1)) else Calibration(Digits1(line, |line|))
  }

  /** `solve`: the sums over the lines, or `None` where a line has no digit
      and `value` panics. */
  method Solve(lines: seq<string>) returns (r: Option<(nat, nat)>)
    ensures r.Some? <==> forall k :: 0 <= k < |lines| ==> LineValue(lines[k], false).Some?
    ensures r.Some? ==> r.value == (Sum(lines, false), Sum(lines, true))
  {
    var p1, p2 := 0, 0;
    var k := 0;
    while k < |lines|
      invariant k <= |lines|
      invariant forall j :: 0 <= j < k ==> LineValue(lines[j], false).Some?
      invariant p1 == Sum(lines[..k], false) && p2 == Sum(lines[..k], true)
    {
      var a := Score1(lines[k]);
      if a.None? {
        return None;
      }
      ValuedStep(lines, k);
      var b := Score2(lines[k]);
      PartTwoReadsMore(lines[k]);
      SumPrefix(lines, k, false);
      SumPrefix(lines, k, true);
      p1, p2 := p1 + a.value, p2 + b.value;
      k := k + 1;
    }
    assert lines[..k] == lines;
    return Some((p1, p2));
  }

  lemma ValuedStep(lines: seq<string>, k: nat)
    requires k < |lines| && LineValue(lines[k], false).Some?
    requires forall j :: 0 <= j < k ==> LineValue(lines[j], false).Some?
    ensures forall j :: 0 <= j < k + 1 ==> LineValue(lines[j], false).Some?
  {
  }

  /** The total of the line values (a missing one counts zero). */
  function Sum(lines: seq<string>, two: bool): nat {
    if |lines| == 0 then 0
    else
      Sum(lines[..|lines| - 1], two)
        + match LineValue(lines[|lines| - 1], two) case Some(v) => v case None => 0
  }

  lemma SumPrefix(lines: seq<string>, k: nat, two: bool)
    requires k < |lines|
    ensures Sum(lines[..k + 1], two) == Sum(lines[..k], two)
      + match LineValue(lines[k], two) case Some(v) => v case None => 0
  {
    assert lines[..k + 1][..k] == lines[..k];
  }
}

=== FILE: util2024.dfy ===
/** The shared helpers of the 2024 solutions (2024/util/src/lib.rs): the
    integer scanner `get_integers`, the dense `BitSet`, the multi-dimensional
    `TupleSet` layered on it, and the compass `Dir`. */
module Util2024 {
  import opened Wrappers
  import opened Text
  import Arith

  // ------------------------------------------------------------ get_integers

  /** `skip_non_ascii`: the first digit at or after `i`, or the end. */
  function SkipNonDigits(s: string, i: nat): (j: nat)
    requires i <= |s|
    ensures i <= j <= |s|
    ensures forall k :: i <= k < j ==> !IsDigit(s[k])
    ensures j < |s| ==> IsDigit(s[j])
    decreases |s| - i
  {
    if i == |s| || IsDigit(s[i]) then i else SkipNonDigits(s, i + 1)
  }

  /** One call of the iterator's `next`. */
  datatype Scan = Exhausted | Number(value: nat, resume: nat)

  /** `next`: the value of the digits at `i`, and the index after the
      non-digits that follow them; `Exhausted` at the end of the text. */
  function Next(s: string, i: nat): (r: Scan)
    requires i <= |s|
    ensures r.Exhausted? <==> i == |s|
    ensures r.Number? ==> i < r.resume <= |s|
  {
    if i == |s| then Exhausted
    else
      var t := s[i..];
      var k := DigitRun(t);
      Number(DigitsValue(t[..k]), SkipNonDigits(s, i + k))
  }

  function Drain(s: string, i: nat): seq<nat>
    requires i <= |s|
    decreases |s| - i
  {
    match Next(s, i)
    case Exhausted => []
    case Number(v, j) => [v] + Drain(s, j)
  }

  /** Every integer that appears in the text, in order; a sign is not part of
      a number, so `-5` reads as `5`. */
  function GetIntegers(s: string): seq<nat> {
    Drain(s, SkipNonDigits(s, 0))
  }

  /** A text without digits holds no integers. */
  lemma NoDigitsNoIntegers(s: string)
    requires forall k :: 0 <= k < |s| ==> !IsDigit(s[k])
    ensures GetIntegers(s) == []
  {
  }

  /** Numbers rendered in decimal with a digit-free separator between them. */
  function RenderNumbers(xs: seq<nat>, sep: string): string {
    if |xs| == 0 then "" else if |xs| == 1 then NatToString(xs[0])
    else NatToString(xs[0]) + sep + RenderNumbers(xs[1..], sep)
  }

  /** The scanner reads one rendered number and skips the separator after
      it. */
  lemma NextRendered(s: string, i: nat, x: nat, tail: string)
    requires i <= |s| && s[i..] == NatToString(x) + tail
    requires |tail| == 0 || !IsDigit(tail[0])
    ensures Next(s, i) == Number(x, SkipNonDigits(s, i + |NatToString(x)|))
  {
    var d := NatToString(x);
    var t := s[i..];
    DigitRunOfDigits(d, tail);
    assert t[..|d|] == d;
  }

  lemma SkipSeparator(s: string, i: nat, sep: string, rest: string)
    requires i <= |s| && s[i..] == sep + rest
    requires forall k :: 0 <= k < |sep| ==> !IsDigit(sep[k])
    requires |rest| > 0 && IsDigit(rest[0])
    ensures SkipNonDigits(s, i) == i + |sep|
  {
    assert forall k :: i <= k < i + |sep| ==> s[k] == s[i..][k - i];
    assert s[i + |sep|] == s[i..][|sep|];
  }

  lemma RenderedStartsWithDigit(xs: seq<nat>, sep: string)
    requires |xs| > 0
    ensures |RenderNumbers(xs, sep)| > 0 && IsDigit(RenderNumbers(xs, sep)[0])
  {
    assert IsDigit(NatToString(xs[0])[0]);
  }

  /** One step of the scanner over a rendered list: the first number, then
      the index where the next one starts. */
  lemma NextOverSeparator(s: string, i: nat, x: nat, sep: string, rest: string)
    requires i <= |s| && s[i..] == NatToString(x) + (sep + rest)
    requires |sep| > 0 && forall k :: 0 <= k < |sep| ==> !IsDigit(sep[k])
    requires |rest| > 0 && IsDigit(rest[0])
    ensures Next(s, i) == Number(x, i + |NatToString(x)| + |sep|)
  {
    var d := NatToString(x);
    NextRendered(s, i, x, sep + rest);
    DropPrefix(s, i, d, sep + rest);
    SkipSeparator(s, i + |d|, sep, rest);
  }

  lemma DrainLast(s: string, i: nat, x: nat)
    requires i <= |s| && s[i..] == NatToString(x)
    ensures Drain(s, i) == [x]
  {
    assert s[i..] == NatToString(x) + "";
    NextRendered(s, i, x, "");
    assert i + |NatToString(x)| == |s|;
    DrainStep(s, i, x, |s|);
  }

  lemma {:induction false} DrainRendered(pre: string, xs: seq<nat>, sep: string)
    requires |xs| > 0 && |sep| > 0
    requires forall k :: 0 <= k < |sep| ==> !IsDigit(sep[k])
    ensures Drain(pre + RenderNumbers(xs, sep), |pre|) == xs
    decreases |xs|
  {
    var s := pre + RenderNumbers(xs, sep);
    if |xs| == 1 {
      assert RenderNumbers(xs, sep) == NatToString(xs[0]);
      DrainLast(s, |pre|, xs[0]);
    } else {
      var pre' := pre + NatToString(xs[0]) + sep;
      NextCons(pre, xs, sep);
      DrainRendered(pre', xs[1..], sep);
      DrainGlue(s, |pre|, xs[0], |pre'|, xs[1..]);
      HeadTail(xs);
    }
  }

  lemma HeadTail(xs: seq<nat>)
    requires |xs| > 0
    ensures [xs[0]] + xs[1..] == xs
  {
  }

  lemma NextCons(pre: string, xs: seq<nat>, sep: string)
    requires |xs| > 1 && |sep| > 0
    requires forall k :: 0 <= k < |sep| ==> !IsDigit(sep[k])
    ensures pre + RenderNumbers(xs, sep) == (pre + NatToString(xs[0]) + sep) + RenderNumbers(xs[1..], sep)
    ensures Next(pre + RenderNumbers(xs, sep), |pre|) == Number(xs[0], |pre + NatToString(xs[0]) + sep|)
  {
    var s := pre + RenderNumbers(xs, sep);
    var d := NatToString(xs[0]);
    var rest := RenderNumbers(xs[1..], sep);
    assert RenderNumbers(xs, sep) == d + sep + rest;
    assert s == (pre + d + sep) + rest;
    assert s[|pre|..] == d + (sep + rest);
    RenderedStartsWithDigit(xs[1..], sep);
    NextOverSeparator(s, |pre|, xs[0], sep, rest);
  }

  lemma DrainGlue(s: string, i: nat, v: nat, j: nat, ys: seq<nat>)
    requires i <= |s| && j <= |s| && Next(s, i) == Number(v, j) && Drain(s, j) == ys
    ensures Drain(s, i) == [v] + ys
  {
    DrainStep(s, i, v, j);
  }

  lemma DrainStep(s: string, i: nat, v: nat, j: nat)
    requires i <= |s| && Next(s, i) == Number(v, j)
    ensures Drain(s, i) == [v] + Drain(s, j)
  {
  }

  /** Scanning numbers rendered with any digit-free separator gives them
      back. */
  lemma GetIntegersOfRendered(xs: seq<nat>, sep: string)
    requires |sep| > 0
    requires forall k :: 0 <= k < |sep| ==> !IsDigit(sep[k])
    ensures GetIntegers(RenderNumbers(xs, sep)) == xs
  {
    if |xs| > 0 {
      DrainRendered("", xs, sep);
      assert "" + RenderNumbers(xs, sep) == RenderNumbers(xs, sep);
      assert IsDigit(NatToString(xs[0])[0]);
      if |xs| > 1 {
        assert RenderNumbers(xs, sep)[0] == NatToString(xs[0])[0];
      }
    }
  }

  /** The scanner skips a run of non-digits and stops at the digit after
      it. */
  lemma {:induction false} SkipTo(s: string, i: nat, j: nat)
    requires i <= j < |s| && IsDigit(s[j])
    requires forall k :: i <= k < j ==> !IsDigit(s[k])
    ensures SkipNonDigits(s, i) == j
    decreases j - i
  {
    if i < j {
      SkipTo(s, i + 1, j);
    }
  }

  /** Every character of a rendered list is a digit or comes from the
      separator. */
  lemma {:induction false} RenderedChars(xs: seq<nat>, sep: string)
    ensures forall k :: 0 <= k < |RenderNumbers(xs, sep)| ==>
      IsDigit(RenderNumbers(xs, sep)[k]) || RenderNumbers(xs, sep)[k] in sep
    decreases |xs|
  {
    if |xs| > 1 {
      RenderedChars(xs[1..], sep);
      var d := NatToString(xs[0]);
      assert RenderNumbers(xs, sep) == d + sep + RenderNumbers(xs[1..], sep);
    }
  }

  /** A digit-free label in front of rendered numbers, as in
      `Register A: 729`, does not change what the scanner reads. */
  lemma GetIntegersAfterLabel(head: string, xs: seq<nat>, sep: string)
    requires |sep| > 0
    requires forall k :: 0 <= k < |sep| ==> !IsDigit(sep[k])
    requires forall k :: 0 <= k < |head| ==> !IsDigit(head[k])
    ensures GetIntegers(head + RenderNumbers(xs, sep)) == xs
  {
    var s := head + RenderNumbers(xs, sep);
    if |xs| == 0 {
      assert s == head;
      NoDigitsNoIntegers(s);
    } else {
      RenderedStartsWithDigit(xs, sep);
      assert s[|head|] == RenderNumbers(xs, sep)[0];
      SkipTo(s, 0, |head|);
      DrainRendered(head, xs, sep);
    }
  }

  // ------------------------------------------------------------------ BitSet

  const WordBits: nat := 64

  /** One `u64` word of the set, written as its 64 bits, least significant
      first: `w[p]` is `w & (1 << p) != 0`. */
  type Word = seq<bool>

  /** A fixed-length bit set stored in 64-bit words; bit `i` lives in word
      `i / 64` at position `i % 64`. */
  datatype BitSet = BitSet(data: seq<Word>, size: nat)

  /** `size.div_ceil(64)` words of 64 bits back the set. */
  predicate Valid(b: BitSet) {
    |b.data| == (b.size + WordBits - 1) / WordBits
    && forall k :: 0 <= k < |b.data| ==> |b.data[k]| == WordBits
  }

  function ZeroWord(): (w: Word)
    ensures |w| == WordBits && forall p :: 0 <= p < WordBits ==> !w[p]
  {
    seq(WordBits, _ => false)
  }

  function NewBitSet(size: nat): (b: BitSet)
    ensures Valid(b) && b.size == size
    ensures forall i :: 0 <= i < size ==> !Get(b, i)
  {
    BitSet(seq((size + WordBits - 1) / WordBits, _ => ZeroWord()), size)
  }

  /** `get`; the source asserts `i < size`. */
  function Get(b: BitSet, i: nat): bool
    requires Valid(b) && i < b.size
  {
    b.data[i / WordBits][i % WordBits]
  }

  lemma SameSlot(i: nat, j: nat)
    requires i / WordBits == j / WordBits && i % WordBits == j % WordBits
    ensures i == j
  {
  }

  /** `set`; the source asserts `i < size`. Bit `i` becomes set and every
      other bit keeps its value. */
  function Set(b: BitSet, i: nat): (r: BitSet)
    requires Valid(b) && i < b.size
    ensures Valid(r) && r.size == b.size
    ensures Get(r, i)
    ensures forall j :: 0 <= j < b.size && j != i ==> Get(r, j) == Get(b, j)
  {
    var w := i / WordBits;
    var r := b.(data := b.data[w := b.data[w][i % WordBits := true]]);
    forall j | 0 <= j < b.size && j != i
      ensures Get(r, j) == Get(b, j)
    {
      if j / WordBits == w && j % WordBits == i % WordBits {
        SameSlot(i, j);
      }
    }
    r
  }

  /** `insert`: sets bit `i` and reports whether it was clear before. */
  function Insert(b: BitSet, i: nat): (r: (BitSet, bool))
    requires Valid(b) && i < b.size
    ensures r.0 == Set(b, i)
    ensures r.1 <==> !Get(b, i)
  {
    (Set(b, i), !Get(b, i))
  }

  /** `clear`: every word back to zero. */
  function Clear(b: BitSet): (r: BitSet)
    requires Valid(b)
    ensures Valid(r) && r.size == b.size
    ensures forall i :: 0 <= i < b.size ==> !Get(r, i)
  {
    b.(data := seq(|b.data|, _ => ZeroWord()))
  }

  /** `count_ones` of one word. */
  function CountOnes(w: Word): (n: nat)
    ensures n <= |w|
    ensures n == 0 <==> forall p :: 0 <= p < |w| ==> !w[p]
  {
    if |w| == 0 then 0
    else
      var n := (if w[0] then 1 else 0) + CountOnes(w[1..]);
      assert forall p :: 1 <= p < |w| ==> w[p] == w[1..][p - 1];
      n
  }

  function SumOnes(words: seq<Word>): nat {
    if |words| == 0 then 0 else CountOnes(words[0]) + SumOnes(words[1..])
  }

  /** `len`: the total number of set bits. */
  function Len(b: BitSet): nat {
    SumOnes(b.data)
  }

  /** `is_empty`: every word is zero. */
  predicate IsEmpty(b: BitSet) {
    forall k, p :: 0 <= k < |b.data| && 0 <= p < |b.data[k]| ==> !b.data[k][p]
  }

  lemma {:induction false} SumOnesZero(words: seq<Word>)
    ensures SumOnes(words) == 0 <==>
      forall k, p :: 0 <= k < |words| && 0 <= p < |words[k]| ==> !words[k][p]
    decreases |words|
  {
    if |words| > 0 {
      SumOnesZero(words[1..]);
      assert forall k :: 1 <= k < |words| ==> words[k] == words[1..][k - 1];
    }
  }

  /** The two ways of asking for emptiness agree. */
  lemma EmptyIffNoOnes(b: BitSet)
    ensures IsEmpty(b) <==> Len(b) == 0
  {
    SumOnesZero(b.data);
  }

  /** An empty set has no bit set; with no stray bits past `size` the
      converse holds too. */
  lemma EmptyIffNoneSet(b: BitSet)
    requires Valid(b)
    requires forall k, p :: 0 <= k < |b.data| && 0 <= p < WordBits && k * WordBits + p >= b.size ==> !b.data[k][p]
    ensures IsEmpty(b) <==> forall i :: 0 <= i < b.size ==> !Get(b, i)
  {
    if forall i :: 0 <= i < b.size ==> !Get(b, i) {
      forall k, p | 0 <= k < |b.data| && 0 <= p < |b.data[k]|
        ensures !b.data[k][p]
      {
        var i := k * WordBits + p;
        if i < b.size {
          assert i / WordBits == k && i % WordBits == p;
          assert !Get(b, i);
        }
      }
    }
  }

  /** The iterator from `index` on: the set indices, in increasing order. */
  function IterFrom(b: BitSet, index: nat): (r: seq<nat>)
    requires Valid(b)
    ensures forall k :: 0 <= k < |r| ==> index <= r[k] < b.size && Get(b, r[k])
    ensures forall k, l :: 0 <= k < l < |r| ==> r[k] < r[l]
    ensures forall j :: index <= j < b.size && Get(b, j) ==> j in r
    decreases b.size - index
  {
    if index >= b.size then []
    else if Get(b, index) then [index] + IterFrom(b, index + 1)
    else IterFrom(b, index + 1)
  }

  /** `iter`: exactly the set indices, in increasing order. */
  function Iter(b: BitSet): (r: seq<nat>)
    requires Valid(b)
    ensures forall k, l :: 0 <= k < l < |r| ==> r[k] < r[l]
    ensures forall j :: 0 <= j < b.size ==> (Get(b, j) <==> j in r)
    ensures forall k :: 0 <= k < |r| ==> r[k] < b.size
  {
    IterFrom(b, 0)
  }

  /** An increasing sequence is determined by its elements. */
  lemma {:induction false} IncreasingUnique(r: seq<nat>, q: seq<nat>)
    requires forall k, l :: 0 <= k < l < |r| ==> r[k] < r[l]
    requires forall k, l :: 0 <= k < l < |q| ==> q[k] < q[l]
    requires forall x :: x in r <==> x in q
    ensures r == q
    decreases |r|
  {
    if |r| > 0 {
      assert r[0] in r;
    }
    if |q| > 0 {
      assert q[0] in q;
    }
    if |r| > 0 && |q| > 0 {
      assert r[0] == q[0] by {
        assert q[0] in r && r[0] in q;
      }
      forall x
        ensures x in r[1..] <==> x in q[1..]
      {
        if x in r[1..] {
          assert x in q && x != q[0];
        }
        if x in q[1..] {
          assert x in r && x != r[0];
        }
      }
      IncreasingUnique(r[1..], q[1..]);
      assert r == [r[0]] + r[1..] && q == [q[0]] + q[1..];
    }
  }

  /** The `bit_set_iter` test: a ten-bit set holding 3 and 7 yields 3, 7. */
  lemma BitSetIterExample()
    ensures
      var b := Insert(Insert(NewBitSet(10), 3).0, 7).0;
      Valid(b) && Iter(b) == [3, 7]
  {
    var b := ExampleBits();
    var r := Iter(b);
    forall x
      ensures x in r <==> x in [3, 7]
    {
      if x in r {
        var k :| 0 <= k < |r| && r[k] == x;
        assert x < 10;
      } else {
        assert Get(b, 3) && Get(b, 7);
      }
    }
    IncreasingUnique(r, [3, 7]);
  }

  /** The bits of the ten-bit example set after inserting 3 and 7. */
  lemma ExampleBits() returns (b: BitSet)
    ensures b == Insert(Insert(NewBitSet(10), 3).0, 7).0
    ensures Valid(b) && b.size == 10
    ensures forall j :: 0 <= j < 10 ==> (Get(b, j) <==> j == 3 || j == 7)
  {
    var b0 := NewBitSet(10);
    var b1 := Insert(b0, 3).0;
    b := Insert(b1, 7).0;
    assert forall j :: 0 <= j < 10 && j != 3 ==> !Get(b1, j);
  }

  // ---------------------------------------------------------------- TupleSet

  /** A set of tuples stored as one bit per cell of a dense grid, with the
      tuple's axes laid out in row-major order. */
  datatype TupleSet = TupleSet(data: BitSet, sizes: seq<nat>)

  function Product(sizes: seq<nat>): nat {
    if |sizes| == 0 then 1 else Product(sizes[..|sizes| - 1]) * sizes[|sizes| - 1]
  }

  predicate InBounds(sizes: seq<nat>, k: seq<nat>) {
    |k| == |sizes| && forall i :: 0 <= i < |k| ==> k[i] < sizes[i]
  }

  predicate ValidTuples(t: TupleSet) {
    Valid(t.data) && t.data.size == Product(t.sizes)
  }

  function NewTupleSet(sizes: seq<nat>): (t: TupleSet)
    ensures ValidTuples(t) && t.sizes == sizes
  {
    TupleSet(NewBitSet(Product(sizes)), sizes)
  }

  /** `get_index`: folds `index * size + k` over the axes, left to right;
      the source asserts that every coordinate is in bounds. */
  function GetIndex(sizes: seq<nat>, k: seq<nat>): (index: nat)
    requires InBounds(sizes, k)
    ensures index < Product(sizes)
  {
    if |k| == 0 then 0
    else
      var n := |k| - 1;
      var head := GetIndex(sizes[..n], k[..n]);
      Arith.MulAddBound(head, Product(sizes[..n]), sizes[n], k[n]);
      head * sizes[n] + k[n]
  }

  /** The iterator's decoding: peel coordinates off with `%` and `/`, last
      axis first. */
  function Decode(sizes: seq<nat>, v: nat): (k: seq<nat>)
    requires forall i :: 0 <= i < |sizes| ==> sizes[i] > 0
    ensures |k| == |sizes|
  {
    if |sizes| == 0 then []
    else
      var n := |sizes| - 1;
      Decode(sizes[..n], v / sizes[n]) + [v % sizes[n]]
  }

  /** Decoding an index gives back the tuple it was computed from. */
  lemma {:induction false} DecodeGetIndex(sizes: seq<nat>, k: seq<nat>)
    requires InBounds(sizes, k)
    ensures Decode(sizes, GetIndex(sizes, k)) == k
    decreases |k|
  {
    if |k| > 0 {
      var n := |k| - 1;
      var head := GetIndex(sizes[..n], k[..n]);
      Arith.DivMod(head, sizes[n], k[n]);
      DecodeGetIndex(sizes[..n], k[..n]);
      assert k == k[..n] + [k[n]];
    }
  }

  /** Every index below the product decodes to an in-bounds tuple that
      encodes back to it. */
  lemma {:induction false} GetIndexDecode(sizes: seq<nat>, v: nat)
    requires forall i :: 0 <= i < |sizes| ==> sizes[i] > 0
    requires v < Product(sizes)
    ensures InBounds(sizes, Decode(sizes, v))
    ensures GetIndex(sizes, Decode(sizes, v)) == v
    decreases |sizes|
  {
    if |sizes| > 0 {
      var n := |sizes| - 1;
      var s, q := sizes[n], v / sizes[n];
      Arith.DivBound(v, Product(sizes[..n]), s);
      GetIndexDecode(sizes[..n], q);
      DecodeLast(sizes, v, Decode(sizes[..n], q));
    }
  }

  /** The last axis of a decoded index: the tail coordinate is the
      remainder, and the rest decodes the quotient. */
  lemma DecodeLast(sizes: seq<nat>, v: nat, head: seq<nat>)
    requires |sizes| > 0 && forall i :: 0 <= i < |sizes| ==> sizes[i] > 0
    requires InBounds(sizes[..|sizes| - 1], head)
    requires GetIndex(sizes[..|sizes| - 1], head) == v / sizes[|sizes| - 1]
    requires head == Decode(sizes[..|sizes| - 1], v / sizes[|sizes| - 1])
    ensures InBounds(sizes, Decode(sizes, v))
    ensures GetIndex(sizes, Decode(sizes, v)) == v
  {
    var n := |sizes| - 1;
    var k := Decode(sizes, v);
    assert k == head + [v % sizes[n]];
    assert k[..n] == head;
    assert v == (v / sizes[n]) * sizes[n] + v % sizes[n];
  }

  /** `insert`: whether the tuple was newly inserted. */
  function InsertTuple(t: TupleSet, k: seq<nat>): (r: (TupleSet, bool))
    requires ValidTuples(t) && InBounds(t.sizes, k)
    ensures ValidTuples(r.0) && r.0.sizes == t.sizes
    ensures Contains(r.0, k)
    ensures r.1 <==> !Contains(t, k)
  {
    var i := GetIndex(t.sizes, k);
    var (d, isNew) := Insert(t.data, i);
    (t.(data := d), isNew)
  }

  /** `contains`. */
  function Contains(t: TupleSet, k: seq<nat>): bool
    requires ValidTuples(t) && InBounds(t.sizes, k)
  {
    Get(t.data, GetIndex(t.sizes, k))
  }

  /** `iter`: the decoded tuple of every set index. */
  function IterTuples(t: TupleSet): (r: seq<seq<nat>>)
    requires ValidTuples(t)
    requires forall i :: 0 <= i < |t.sizes| ==> t.sizes[i] > 0
    ensures |r| == |Iter(t.data)|
  {
    var idx := Iter(t.data);
    seq(|idx|, j requires 0 <= j < |idx| => Decode(t.sizes, idx[j]))
  }

  /** The iterator yields exactly the tuples the set contains. */
  lemma IterTuplesContains(t: TupleSet, k: seq<nat>)
    requires ValidTuples(t) && InBounds(t.sizes, k)
    requires forall i :: 0 <= i < |t.sizes| ==> t.sizes[i] > 0
    ensures k in IterTuples(t) <==> Contains(t, k)
  {
    var idx := Iter(t.data);
    var r := IterTuples(t);
    var i := GetIndex(t.sizes, k);
    DecodeGetIndex(t.sizes, k);
    if k in r {
      var j :| 0 <= j < |r| && r[j] == k;
      GetIndexDecode(t.sizes, idx[j]);
    }
    if Contains(t, k) {
      var j :| 0 <= j < |idx| && idx[j] == i;
      assert r[j] == k;
    }
  }

  // --------------------------------------------------------------------- Dir

  datatype Dir = N | E | S | W

  /** `TryFrom<char>`: the arrow characters of the puzzle maps. */
  function DirFromChar(c: char): (r: Result<Dir, char>)
    ensures r.Err? <==> c !in "v^><"
    ensures r.Err? ==> r.error == c
  {
    match c
    case 'v' => Ok(S)
    case '^' => Ok(N)
    case '>' => Ok(E)
    case '<' => Ok(W)
    case _ => Err(c)
  }

  function Left(d: Dir): Dir {
    match d
    case N => E
    case E => S
    case S => W
    case W => N
  }

  function Right(d: Dir): Dir {
    match d
    case E => N
    case S => E
    case W => S
    case N => W
  }

  function X(d: Dir): int {
    match d
    case E => 1
    case W => -1
    case S | N => 0
  }

  function Y(d: Dir): int {
    match d
    case E | W => 0
    case S => 1
    case N => -1
  }

  function Index(d: Dir): (i: nat)
    ensures i < 4
  {
    match d
    case N => 0
    case E => 1
    case S => 2
    case W => 3
  }

  /** Left and right undo each other, four turns are the identity, and
      `Left` turns the unit step `(x, y)` into `(-y, x)`. */
  lemma TurnsInverse(d: Dir)
    ensures Right(Left(d)) == d && Left(Right(d)) == d
    ensures Left(Left(Left(Left(d)))) == d
    ensures X(Left(d)) == -Y(d) && Y(Left(d)) == X(d)
  {
  }

  /** `Dir::iter` lists the directions in `index` order. */
  lemma IndexIsOrder(d: Dir)
    ensures [N, E, S, W][Index(d)] == d
  {
  }

  /** `Display` as written: `W` prints as 'N'. */
  function DisplayAsWritten(d: Dir): char {
    match d
    case N => 'N'
    case E => 'E'
    case S => 'S'
    case W => 'N'
  }

  lemma DisplayAsWrittenCollides()
    ensures DisplayAsWritten(W) == DisplayAsWritten(N) && W != N
  {
  }

  /** `Display` with each direction printing its own initial. */
  function Display(d: Dir): (c: char)
    ensures c in "NESW"
  {
    match d
    case N => 'N'
    case E => 'E'
    case S => 'S'
    case W => 'W'
  }

  lemma DisplayInjective(d1: Dir, d2: Dir)
    ensures Display(d1) == Display(d2) <==> d1 == d2
  {
  }
}

=== FILE: workflows.dfy ===
/** Part-sorting workflows of 2023 day 19 (2023/19/src/lib.rs): a part has
    four ratings `x`, `m`, `a`, `s`; a workflow is a list of rules, each a
    condition on one rating and a destination. Part 1 routes single parts;
    part 2 routes four-dimensional boxes of parts (`RangePart`), splitting a
    box in two at every condition. */
module Workflows {
  import opened Wrappers
  import opened Text

  datatype Axis = X | M | A | S

  /** The `Index<char>` impl: only `x`, `m`, `a` and `s` name a rating;
      `None` is its panic. */
  function AxisOf(c: char): (r: Option<Axis>)
    ensures r.Some? <==> c in "xmas"
  {
    match c
    case 'x' => Some(X)
    case 'm' => Some(M)
    case 'a' => Some(A)
    case 's' => Some(S)
    case _ => None
  }

  /** `GenericPart<T>`: one value per rating. */
  datatype Quad<T> = Quad(x: T, m: T, a: T, s: T) {
    function Get(ax: Axis): T {
      match ax
      case X => x
      case M => m
      case A => a
      case S => s
    }

    function Set(ax: Axis, t: T): (q: Quad<T>)
      ensures q.Get(ax) == t
      ensures forall o: Axis :: o != ax ==> q.Get(o) == Get(o)
    {
      match ax
      case X => this.(x := t)
      case M => this.(m := t)
      case A => this.(a := t)
      case S => this.(s := t)
    }
  }

  type Part = Quad<nat>

  /** `std::ops::Range<u64>`: the half-open interval `start..end`, empty
      whenever `start >= end`. */
  datatype Span = Span(start: nat, end: nat) {
    predicate IsEmpty() {
      start >= end
    }

    predicate Contains(v: nat) {
      start <= v < end
    }

    /** `Iterator::count` of the range. */
    function Count(): (n: nat)
      ensures n == 0 <==> IsEmpty()
    {
      if start < end then end - start else 0
    }
  }

  type RangePart = Quad<Span>

  /** `RangePart::empty`: every axis is `0..0`. */
  const Empty: RangePart := Quad(Span(0, 0), Span(0, 0), Span(0, 0), Span(0, 0))

  /** `RangePart::is_empty`: all four axes empty (a box with only some empty
      axes holds no part, yet is not "empty" here). */
  predicate IsEmptyPart(p: RangePart) {
    p.x.IsEmpty() && p.m.IsEmpty() && p.a.IsEmpty() && p.s.IsEmpty()
  }

  /** The part-2 measure of a box: the product of its axis counts. */
  function Count(p: RangePart): nat {
    p.x.Count() * p.m.Count() * p.a.Count() * p.s.Count()
  }

  /** The parts a box stands for. */
  predicate InBox(p: RangePart, q: Part) {
    forall o: Axis :: p.Get(o).Contains(q.Get(o))
  }

  lemma InBoxAxes(p: RangePart, q: Part)
    ensures InBox(p, q) <==> p.x.Contains(q.x) && p.m.Contains(q.m) && p.a.Contains(q.a) && p.s.Contains(q.s)
  {
    assert p.x == p.Get(X) && p.m == p.Get(M) && p.a == p.Get(A) && p.s == p.Get(S);
    assert q.x == q.Get(X) && q.m == q.Get(M) && q.a == q.Get(A) && q.s == q.Get(S);
  }

  datatype Condition = LessThan(c: char, v: nat) | GreaterThan(c: char, v: nat) | Always

  datatype Rule = Rule(cond: Condition, dest: string)

  /** `Condition::check`; `None` is the index panic of a rating name other
      than `x`, `m`, `a`, `s`. */
  function Check(cond: Condition, q: Part): (r: Option<bool>)
    ensures cond.Always? ==> r == Some(true)
    ensures !cond.Always? ==> (r.Some? <==> AxisOf(cond.c).Some?)
    ensures r.Some? && cond.LessThan? ==> (r.value <==> q.Get(AxisOf(cond.c).value) < cond.v)
    ensures r.Some? && cond.GreaterThan? ==> (r.value <==> q.Get(AxisOf(cond.c).value) > cond.v)
  {
    match cond
    case Always => Some(true)
    case LessThan(c, v) =>
      (match AxisOf(c) case None => None case Some(ax) => Some(q.Get(ax) < v))
    case GreaterThan(c, v) =>
      (match AxisOf(c) case None => None case Some(ax) => Some(q.Get(ax) > v))
  }

  /** `Condition::check_range` as written: `(accepted, rejected)`. The bound
      is used unclamped, so a threshold outside the box widens one of the
      halves. `None` is a panic: a bad rating name, or `v + 1` overflowing
      `u64`. */
  function CheckRange(cond: Condition, p: RangePart): (r: Option<(RangePart, RangePart)>)
    ensures cond.Always? ==> r == Some((p, Empty))
    ensures r.Some? && !cond.Always? ==> AxisOf(cond.c).Some?
    ensures r.Some? && !cond.Always? ==>
      var ax := AxisOf(cond.c).value;
      forall o: Axis :: o != ax ==> r.value.0.Get(o) == p.Get(o) && r.value.1.Get(o) == p.Get(o)
  {
    match cond
    case Always => Some((p, Empty))
    case LessThan(c, v) =>
      (match AxisOf(c)
       case None => None
       case Some(ax) =>
         var sp := p.Get(ax);
         Some((p.Set(ax, Span(sp.start, v)), p.Set(ax, Span(v, sp.end)))))
    case GreaterThan(c, v) =>
      if v + 1 > U64Max then None
      else
        match AxisOf(c)
        case None => None
        case Some(ax) =>
          var sp := p.Get(ax);
          Some((p.Set(ax, Span(v + 1, sp.end)), p.Set(ax, Span(sp.start, v + 1))))
  }

  function Min(a: nat, b: nat): nat {
    if a <= b then a else b
  }

  function Max(a: nat, b: nat): nat {
    if a <= b then b else a
  }

  /** `check_range` with the threshold clamped into the box, so that the two
      halves partition it. */
  function CheckRangeClamped(cond: Condition, p: RangePart): (r: Option<(RangePart, RangePart)>)
    ensures r.Some? <==> CheckRange(cond, p).Some?
  {
    match cond
    case Always => Some((p, Empty))
    case LessThan(c, v) =>
      (match AxisOf(c)
       case None => None
       case Some(ax) =>
         var sp := p.Get(ax);
         Some((p.Set(ax, Span(sp.start, Min(v, sp.end))), p.Set(ax, Span(Max(v, sp.start), sp.end)))))
    case GreaterThan(c, v) =>
      if v + 1 > U64Max then None
      else
        match AxisOf(c)
        case None => None
        case Some(ax) =>
          var sp := p.Get(ax);
          Some((p.Set(ax, Span(Max(v + 1, sp.start), sp.end)), p.Set(ax, Span(sp.start, Min(v + 1, sp.end)))))
  }

  /** On a threshold that lies inside the box the two versions agree, which
      is the case whenever the box came from `1..4001` and the thresholds
      seen so far. */
  lemma ClampAgrees(cond: Condition, p: RangePart)
    requires !cond.Always? && AxisOf(cond.c).Some?
    requires var sp := p.Get(AxisOf(cond.c).value);
      if cond.LessThan? then sp.start <= cond.v <= sp.end
      else sp.start <= cond.v + 1 <= sp.end
    ensures CheckRange(cond, p) == CheckRangeClamped(cond, p)
  {
  }

  /** The product of the counts of the three axes other than `ax`. */
  function Others(p: RangePart, ax: Axis): nat {
    match ax
    case X => p.m.Count() * p.a.Count() * p.s.Count()
    case M => p.x.Count() * p.a.Count() * p.s.Count()
    case A => p.x.Count() * p.m.Count() * p.s.Count()
    case S => p.x.Count() * p.m.Count() * p.a.Count()
  }

  lemma CountFactor(p: RangePart, ax: Axis)
    ensures Count(p) == p.Get(ax).Count() * Others(p, ax)
  {
    Reorder(p.x.Count(), p.m.Count(), p.a.Count(), p.s.Count());
  }

  lemma Reorder(x: nat, m: nat, a: nat, s: nat)
    ensures x * m * a * s == x * (m * a * s) == m * (x * a * s) == a * (x * m * s) == s * (x * m * a)
  {
  }

  /** Replacing one axis by two spans whose counts add up splits the count
      of the box the same way. */
  lemma CountSplit(p: RangePart, ax: Axis, s1: Span, s2: Span)
    requires s1.Count() + s2.Count() == p.Get(ax).Count()
    ensures Count(p.Set(ax, s1)) + Count(p.Set(ax, s2)) == Count(p)
  {
    CountFactor(p, ax);
    CountFactor(p.Set(ax, s1), ax);
    CountFactor(p.Set(ax, s2), ax);
    var o := Others(p, ax);
    assert Others(p.Set(ax, s1), ax) == o && Others(p.Set(ax, s2), ax) == o;
    assert s1.Count() * o + s2.Count() * o == (s1.Count() + s2.Count()) * o;
  }

  /** Cutting a span at `t` (clamped) splits its count. */
  lemma SpanCut(sp: Span, t: nat)
    ensures Span(sp.start, Min(t, sp.end)).Count() + Span(Max(t, sp.start), sp.end).Count() == sp.Count()
  {
  }

  /** A box holds a part iff the part's rating on one axis lies in the
      axis's span and the others are in the box. */
  lemma InBoxSet(p: RangePart, ax: Axis, sp: Span, q: Part)
    ensures InBox(p.Set(ax, sp), q) <==>
      sp.Contains(q.Get(ax)) && forall o: Axis :: o != ax ==> p.Get(o).Contains(q.Get(o))
  {
  }

  /** Cutting one axis of a box at `t` (clamped) splits the box into the
      parts below `t` and the parts at or above it. */
  lemma CutPartitions(p: RangePart, ax: Axis, t: nat, q: Part)
    ensures var sp := p.Get(ax);
      var lo := p.Set(ax, Span(sp.start, Min(t, sp.end)));
      var hi := p.Set(ax, Span(Max(t, sp.start), sp.end));
      && Count(lo) + Count(hi) == Count(p)
      && (InBox(lo, q) <==> InBox(p, q) && q.Get(ax) < t)
      && (InBox(hi, q) <==> InBox(p, q) && q.Get(ax) >= t)
  {
    var sp := p.Get(ax);
    var lo := Span(sp.start, Min(t, sp.end));
    var hi := Span(Max(t, sp.start), sp.end);
    SpanCut(sp, t);
    CountSplit(p, ax, lo, hi);
    InBoxSet(p, ax, lo, q);
    InBoxSet(p, ax, hi, q);
  }

  /** The clamped split is a partition of the box: the accepted half holds
      exactly the parts of the box that pass the condition, the rejected half
      exactly those that fail it, and their counts add up to the box's. */
  lemma ClampedPartitions(cond: Condition, p: RangePart, q: Part)
    requires CheckRangeClamped(cond, p).Some?
    ensures var r := CheckRangeClamped(cond, p).value;
      && Count(r.0) + Count(r.1) == Count(p)
      && (InBox(r.0, q) <==> InBox(p, q) && Check(cond, q) == Some(true))
      && (InBox(r.1, q) <==> InBox(p, q) && Check(cond, q) == Some(false))
  {
    match cond
    case Always =>
      assert !Empty.Get(X).Contains(q.Get(X));
    case LessThan(c, v) =>
      var ax := AxisOf(c).value;
      var sp := p.Get(ax);
      assert CheckRangeClamped(cond, p).value
        == (p.Set(ax, Span(sp.start, Min(v, sp.end))), p.Set(ax, Span(Max(v, sp.start), sp.end)));
      assert Check(cond, q) == Some(q.Get(ax) < v);
      CutPartitions(p, ax, v, q);
    case GreaterThan(c, v) =>
      var ax := AxisOf(c).value;
      var sp := p.Get(ax);
      assert CheckRangeClamped(cond, p).value
        == (p.Set(ax, Span(Max(v + 1, sp.start), sp.end)), p.Set(ax, Span(sp.start, Min(v + 1, sp.end))));
      assert Check(cond, q) == Some(q.Get(ax) > v);
      CutPartitions(p, ax, v + 1, q);
  }

  /** As written, `x < 20` on a box whose `x` runs over `1..10` accepts the
      box `1..20`, which holds the part with `x = 15` although the input box
      does not; the clamped split accepts `1..10` only. */
  lemma UnclampedWidens()
    ensures var p := Quad(Span(1, 10), Span(1, 10), Span(1, 10), Span(1, 10));
      var q := Quad(15, 1, 1, 1);
      && CheckRange(LessThan('x', 20), p) == Some((p.(x := Span(1, 20)), p.(x := Span(20, 10))))
      && InBox(CheckRange(LessThan('x', 20), p).value.0, q) && !InBox(p, q)
      && Count(CheckRange(LessThan('x', 20), p).value.0) > Count(p)
      && CheckRangeClamped(LessThan('x', 20), p) == Some((p, p.(x := Span(20, 10))))
  {
  }

  /** `Condition::from_str`: `<` is looked for first, then `>`; the rating
      name must be exactly one byte long (`str::len`), so one ASCII
      character, and the bound a `u64`. `Invalid` is the returned error,
      `Malformed` the `assert_eq!` or `unwrap` panic. */
  datatype CondError = Invalid | Malformed

  function ParseCondition(s: string): (r: Result<Condition, CondError>)
    ensures r == Err(Invalid) <==> '<' !in s && '>' !in s
    ensures r.Ok? ==> !r.value.Always? && |s| >= 2 && r.value.c as int < 0x80
    ensures r.Ok? && r.value.LessThan? ==> r.value.v <= U64Max && s[0] == r.value.c && s[1] == '<'
    ensures r.Ok? && r.value.GreaterThan? ==> r.value.v <= U64Max && s[0] == r.value.c && s[1] == '>' && '<' !in s
  {
    if '<' in s then
      SplitCmp(s, '<', true)
    else if '>' in s then
      SplitCmp(s, '>', false)
    else Err(Invalid)
  }

  /** The two branches of `from_str`: the first piece of `split(op)` is the
      rating, the second the bound. */
  function SplitCmp(s: string, op: char, less: bool): (r: Result<Condition, CondError>)
    requires op in s
    ensures r.Ok? ==> (if less then r.value.LessThan? else r.value.GreaterThan?)
    ensures r.Ok? ==> |s| >= 2 && s[1] == op && !r.value.Always? && s[0] == r.value.c && r.value.v <= U64Max
    ensures r.Ok? ==> r.value.c as int < 0x80
    ensures r.Err? ==> r.error == Malformed
  {
    var i := IndexOf(s, op);
    var rest := s[i + 1..];
    var count := rest[..IndexOf(rest, op)];
    OneByte(s[..i]);
    if |Bytes(s[..i])| != 1 then Err(Malformed)
    else
      match ParseNat(count, U64Max)
      case None => Err(Malformed)
      case Some(v) => Ok(if less then LessThan(s[0], v) else GreaterThan(s[0], v))
  }

  /** A text of one UTF-8 byte is a single ASCII character. */
  lemma OneByte(t: string)
    ensures |Bytes(t)| == 1 <==> |t| == 1 && t[0] as int < 0x80
  {
    if |t| == 1 {
      assert t[1..] == "";
    } else if |t| > 1 {
      assert |Bytes(t)| >= |t|;
    }
  }

  /** A rating name of two bytes, such as `é` in `é<5`, fails the
      `assert_eq!(cond.len(), 1)` although it is one character. */
  lemma AccentRatingPanics()
    ensures ParseCondition("é<5") == Err(Malformed)
  {
    OneByte("é");
    assert IndexOf("é<5", '<') == 1;
    assert "é<5"[..1] == "é";
  }

  /** `Rule::from_str`: with a `:`, the first piece is a condition (any error
      is the `unwrap` panic, `None`) and the second the destination; without
      one, the whole text is the destination of an `Always` rule. */
  function ParseRule(s: string): (r: Option<Rule>)
    ensures ':' !in s ==> r == Some(Rule(Always, s))
    ensures ':' in s && r.Some? ==> !r.value.cond.Always? && ':' !in r.value.dest
  {
    if ':' in s then
      var i := IndexOf(s, ':');
      var rest := s[i + 1..];
      match ParseCondition(s[..i])
      case Err(_) => None
      case Ok(cond) =>
        var j := IndexOf(rest, ':');
        assert ':' !in rest[..j];
        Some(Rule(cond, rest[..j]))
    else Some(Rule(Always, s))
  }

  /** The puzzle's notation for a condition and a rule. */
  function ShowCondition(c: Condition): string {
    match c
    case LessThan(n, v) => [n] + "<" + NatToString(v)
    case GreaterThan(n, v) => [n] + ">" + NatToString(v)
    case Always => ""
  }

  function ShowRule(r: Rule): string {
    if r.cond.Always? then r.dest else ShowCondition(r.cond) + ":" + r.dest
  }

  /** The first `c` of `a + b` is the head of `b` when `a` has none. */
  lemma {:induction false} IndexOfConcat(a: string, b: string, c: char)
    requires c !in a && |b| > 0 && b[0] == c
    ensures IndexOf(a + b, c) == |a|
    decreases |a|
  {
    if |a| > 0 {
      assert (a + b)[1..] == a[1..] + b;
      IndexOfConcat(a[1..], b, c);
    }
  }

  lemma IndexOfAbsent(s: string, c: char)
    requires c !in s
    ensures IndexOf(s, c) == |s| && s[..IndexOf(s, c)] == s
  {
  }

  /** The rendering of a condition: the rating, the operator, the digits. */
  lemma ShowConditionShape(c: Condition)
    requires !c.Always?
    ensures var digits := NatToString(c.v);
      && ShowCondition(c) == [c.c] + [if c.LessThan? then '<' else '>'] + digits
      && '<' !in digits && '>' !in digits && ':' !in digits
  {
    var digits := NatToString(c.v);
    assert forall k :: 0 <= k < |digits| ==> IsDigit(digits[k]);
  }

  /** `SplitCmp` on a one-letter rating, the operator and a digit string. */
  lemma SplitCmpOf(s: string, name: char, op: char, digits: string, less: bool)
    requires s == [name] + [op] + digits && op !in digits && name != op && name as int < 0x80
    requires |digits| >= 1 && AllDigits(digits) && DigitsValue(digits) <= U64Max
    ensures var v := DigitsValue(digits);
      SplitCmp(s, op, less) == Ok(if less then LessThan(name, v) else GreaterThan(name, v))
  {
    assert s == [name] + ([op] + digits);
    IndexOfConcat([name], [op] + digits, op);
    assert s[..1] == [name];
    OneByte([name]);
    assert s[2..] == digits;
    IndexOfAbsent(digits, op);
  }

  /** A condition on a rating letter with a `u64` bound reads back as
      itself. */
  lemma CondRoundTrip(c: Condition)
    requires !c.Always? && c.c in "xmas" && c.v <= U64Max
    ensures ParseCondition(ShowCondition(c)) == Ok(c)
  {
    ShowConditionShape(c);
    var op := if c.LessThan? then '<' else '>';
    SplitCmpOf(ShowCondition(c), c.c, op, NatToString(c.v), c.LessThan?);
    if c.GreaterThan? {
      assert '<' !in ShowCondition(c);
    }
  }

  /** A rule whose rating name is a letter, whose bound fits a `u64` and whose
      destination has no `:` reads back as itself. */
  lemma RuleRoundTrip(r: Rule)
    requires ':' !in r.dest
    requires !r.cond.Always? ==> r.cond.c in "xmas" && r.cond.v <= U64Max
    ensures ParseRule(ShowRule(r)) == Some(r)
  {
    if !r.cond.Always? {
      var cs := ShowCondition(r.cond);
      CondRoundTrip(r.cond);
      ShowConditionShape(r.cond);
      ParseRuleSplit(ShowRule(r), cs, r.dest, r.cond);
    }
  }

  /** `Rule::from_str` on `cond:dest` with no other `:`. */
  lemma ParseRuleSplit(s: string, cs: string, dest: string, cond: Condition)
    requires s == cs + ":" + dest && ':' !in cs && ':' !in dest
    requires ParseCondition(cs) == Ok(cond)
    ensures ParseRule(s) == Some(Rule(cond, dest))
  {
    assert IndexOf(s, ':') == |cs| by {
      assert s == cs + (":" + dest);
      IndexOfConcat(cs, ":" + dest, ':');
    }
    assert s[..|cs|] == cs && s[|cs| + 1..] == dest;
    IndexOfAbsent(dest, ':');
  }

  /** `Rule::check`: the destination when the condition holds. */
  function RuleCheck(r: Rule, q: Part): (d: Option<Option<string>>)
    ensures d.Some? <==> Check(r.cond, q).Some?
    ensures d.Some? ==> (d.value == Some(r.dest) <==> Check(r.cond, q) == Some(true))
    ensures d.Some? ==> (d.value.None? <==> Check(r.cond, q) == Some(false))
  {
    match Check(r.cond, q)
    case None => None
    case Some(b) => Some(if b then Some(r.dest) else None)
  }

  /** Rule `i` is the first one that fires for `q`. */
  predicate Fires(rules: seq<Rule>, q: Part, i: nat) {
    && i < |rules|
    && Check(rules[i].cond, q) == Some(true)
    && forall j :: 0 <= j < i ==> Check(rules[j].cond, q) == Some(false)
  }

  /** `Workflow::next`: the destination of the first rule that fires;
      `None` is the panic when none does or a condition panics first. */
  function Next(rules: seq<Rule>, q: Part): (d: Option<string>)
    ensures d.Some? ==> exists i: nat :: Fires(rules, q, i) && rules[i].dest == d.value
    ensures d.None? ==> forall i: nat :: !Fires(rules, q, i)
  {
    if |rules| == 0 then None
    else
      match RuleCheck(rules[0], q)
      case None => None
      case Some(Some(dest)) => assert Fires(rules, q, 0); Some(dest)
      case Some(None) =>
        var d := Next(rules[1..], q);
        NextShift(rules, q);
        if d.Some? then
          var i: nat :| Fires(rules[1..], q, i) && rules[1..][i].dest == d.value;
          assert Fires(rules, q, i + 1) && rules[i + 1].dest == d.value;
          d
        else
          d
  }

  /** The first firing rule of a list whose head fails is one past the first
      firing rule of its tail. */
  lemma NextShift(rules: seq<Rule>, q: Part)
    requires |rules| > 0 && Check(rules[0].cond, q) == Some(false)
    ensures forall i: nat :: i > 0 ==> (Fires(rules, q, i) <==> Fires(rules[1..], q, i - 1))
    ensures !Fires(rules, q, 0)
  {
    forall i: nat | i > 0
      ensures Fires(rules, q, i) <==> Fires(rules[1..], q, i - 1)
    {
      if Fires(rules[1..], q, i - 1) {
        forall j | 0 <= j < i
          ensures Check(rules[j].cond, q) == Some(false)
        {
          if j > 0 {
            assert rules[j] == rules[1..][j - 1];
          }
        }
      }
    }
  }

  datatype Verdict = Accept | Reject
  datatype Stop = Panic | OutOfFuel

  /** Part 1's loop for one part: follow `next` from `w` until `A` or `R`.
      A missing workflow is the `HashMap` index panic. The source loop has
      no bound; `fuel` caps the number of workflows visited. */
  function Route(wfs: map<string, seq<Rule>>, q: Part, w: string, fuel: nat): (r: Result<Verdict, Stop>)
    ensures r.Ok? ==> w in wfs && Next(wfs[w], q).Some?
    ensures r == Ok(Accept) ==>
      && w in wfs && fuel > 0
      && (Next(wfs[w], q) == Some("A") || Route(wfs, q, Next(wfs[w], q).value, fuel - 1) == Ok(Accept))
    decreases fuel
  {
    if fuel == 0 then Err(OutOfFuel)
    else if w !in wfs then Err(Panic)
    else
      match Next(wfs[w], q)
      case None => Err(Panic)
      case Some(d) =>
        if d == "A" then Ok(Accept)
        else if d == "R" then Ok(Reject)
        else Route(wfs, q, d, fuel - 1)
  }

  /** Part 2's inner loop over one workflow, with the clamped split: every
      non-empty accepted half goes to its destination, the rejected half
      carries on, and the loop stops once it is empty; the leftover must be
      empty (the `assert!`). The result lists `(destination, box)`. */
  function Spread(rules: seq<Rule>, p: RangePart): (r: Option<seq<(string, RangePart)>>)
    ensures r.Some? ==> SumCount(r.value) == Count(p)
    ensures r.Some? ==> forall k, q :: 0 <= k < |r.value| && InBox(r.value[k].1, q) ==> InBox(p, q)
  {
    if |rules| == 0 then
      if IsEmptyPart(p) then Some([]) else None
    else
      match CheckRangeClamped(rules[0].cond, p)
      case None => None
      case Some((acc, rej)) =>
        ClampedInside(rules[0].cond, p);
        var here: seq<(string, RangePart)> := if IsEmptyPart(acc) then [] else [(rules[0].dest, acc)];
        assert SumCount(here) + Count(rej) == Count(p) by {
          ClampedCount(rules[0].cond, p);
          if IsEmptyPart(acc) {
            assert Count(acc) == 0;
          } else {
            assert SumCount(here) == Count(acc) + SumCount([]);
          }
        }
        if IsEmptyPart(rej) then
          Some(here)
        else
          match Spread(rules[1..], rej)
          case None => None
          case Some(rest) =>
            SumCountConcat(here, rest);
            Some(here + rest)
  }

  /** The clamped halves lie inside the box. */
  lemma ClampedInside(cond: Condition, p: RangePart)
    requires CheckRangeClamped(cond, p).Some?
    ensures forall q :: InBox(CheckRangeClamped(cond, p).value.0, q) ==> InBox(p, q)
    ensures forall q :: InBox(CheckRangeClamped(cond, p).value.1, q) ==> InBox(p, q)
  {
    forall q {
      ClampedPartitions(cond, p, q);
    }
  }

  lemma ClampedCount(cond: Condition, p: RangePart)
    requires CheckRangeClamped(cond, p).Some?
    ensures Count(CheckRangeClamped(cond, p).value.0) + Count(CheckRangeClamped(cond, p).value.1) == Count(p)
  {
    ClampedPartitions(cond, p, Quad(0, 0, 0, 0));
  }

  function SumCount(ps: seq<(string, RangePart)>): nat {
    if |ps| == 0 then 0 else Count(ps[0].1) + SumCount(ps[1..])
  }

  lemma {:induction false} SumCountConcat(a: seq<(string, RangePart)>, b: seq<(string, RangePart)>)
    ensures SumCount(a + b) == SumCount(a) + SumCount(b)
    decreases |a|
  {
    if |a| > 0 {
      assert (a + b)[0] == a[0] && (a + b)[1..] == a[1..] + b;
      SumCountConcat(a[1..], b);
    } else {
      assert a + b == b;
    }
  }

  /** The count of the boxes sent to `A`. */
  function AcceptedCount(ps: seq<(string, RangePart)>): nat {
    if |ps| == 0 then 0
    else (if ps[0].0 == "A" then Count(ps[0].1) else 0) + AcceptedCount(ps[1..])
  }

  /** The boxes sent on to another workflow, in order. */
  function Forwarded(ps: seq<(string, RangePart)>): seq<(string, RangePart)> {
    if |ps| == 0 then []
    else (if ps[0].0 == "A" || ps[0].0 == "R" then [] else [ps[0]]) + Forwarded(ps[1..])
  }

  /** What is accepted at once plus what is forwarded never exceeds what was
      spread: the `R` boxes are the difference. */
  lemma {:induction false} AcceptedForwarded(ps: seq<(string, RangePart)>)
    ensures AcceptedCount(ps) + SumCount(Forwarded(ps)) <= SumCount(ps)
  {
    if |ps| > 0 {
      AcceptedForwarded(ps[1..]);
      var h: seq<(string, RangePart)> := if ps[0].0 == "A" || ps[0].0 == "R" then [] else [ps[0]];
      SumCountConcat(h, Forwarded(ps[1..]));
      if h != [] {
        assert SumCount(h) == Count(ps[0].1) + SumCount([]);
      }
    }
  }

  /** Part 2's work list: pop the last `(workflow, box)`, spread it, add what
      reaches `A`, push what goes elsewhere. `fuel` caps the number of pops;
      the source loop has no bound. */
  function Drain(wfs: map<string, seq<Rule>>, stack: seq<(string, RangePart)>, fuel: nat): (r: Result<nat, Stop>)
    ensures r.Ok? ==> r.value <= SumCount(stack)
    decreases fuel
  {
    if |stack| == 0 then Ok(0)
    else if fuel == 0 then Err(OutOfFuel)
    else
      var (w, p) := stack[|stack| - 1];
      var rest := stack[..|stack| - 1];
      if w !in wfs then Err(Panic)
      else
        match Spread(wfs[w], p)
        case None => Err(Panic)
        case Some(out) =>
          match Drain(wfs, rest + Forwarded(out), fuel - 1)
          case Err(e) => Err(e)
          case Ok(n) =>
            DrainStep(stack, out, n);
            Ok(AcceptedCount(out) + n)
  }

  /** One pop of `Drain` keeps the running total within the stack's count. */
  lemma DrainStep(stack: seq<(string, RangePart)>, out: seq<(string, RangePart)>, n: nat)
    requires |stack| > 0
    requires SumCount(out) == Count(stack[|stack| - 1].1)
    requires n <= SumCount(stack[..|stack| - 1] + Forwarded(out))
    ensures AcceptedCount(out) + n <= SumCount(stack)
  {
    var rest := stack[..|stack| - 1];
    var top := stack[|stack| - 1];
    assert stack == rest + [top];
    SumCountConcat(rest, Forwarded(out));
    SumCountConcat(rest, [top]);
    assert SumCount([top]) == Count(top.1) + SumCount([]);
    AcceptedForwarded(out);
  }

  /** The part-2 answer for the ratings `1..4001` never exceeds `4000^4`. */
  lemma Part2Bound(wfs: map<string, seq<Rule>>, fuel: nat)
    requires Drain(wfs, [("in", Quad(Span(1, 4001), Span(1, 4001), Span(1, 4001), Span(1, 4001)))], fuel).Ok?
    ensures Drain(wfs, [("in", Quad(Span(1, 4001), Span(1, 4001), Span(1, 4001), Span(1, 4001)))], fuel).value
      <= 4000 * 4000 * 4000 * 4000
  {
    var p := Quad(Span(1, 4001), Span(1, 4001), Span(1, 4001), Span(1, 4001));
    assert SumCount([("in", p)]) == Count(p) + SumCount([]);
  }
}

=== FILE: wrappers.dfy ===
/** Failure-carrying datatypes shared by every model in this project.
    `Option` stands for Rust's `Option`; `Result` for Rust's `Result` and for
    the C program's `return -1` error exits. */
module Wrappers {

  datatype Option<+T> = None | Some(value: T)

  datatype Result<+T, +E> = Ok(value: T) | Err(error: E) {

    predicate IsFailure() {
      Err?
    }

    function PropagateFailure<U>(): Result<U, E>
      requires Err?
    {
      Err(error)
    }

    function Extract(): T
      requires Ok?
    {
      value
    }
  }
}
